=== FILE: README.md ===
# b2g-util, modelled in Dafny

A model of the command-line tools of b2g-util (Python 2). The tools drive Firefox OS (B2G)
phones through `adb`:

- backing up and restoring the user profile;
- shallow-flashing Gaia and Gecko packages;
- reporting device versions;
- choosing and flashing Taskcluster builds;
- console menus and yes/no prompts;
- toggling the certified-apps devtools preference;
- listing crash reports;
- factory-resetting a phone.

The tools call `adb` and touch the local file system between pure decisions on strings and
lists. The model keeps the decisions. It replaces every call into the outside world by an
**event**:

- an `adb` call, for example `Shell(serial, command)`, `Pull`, `Push`, `Root` or `Devices`;
- a local file-system query or change, for example `IsFile`, `ListDir`, `ReadFile`,
  `WriteFile` or `RemoveTree`;
- a temporary folder, a prompt, a download or a process run.

An abstract environment `Ctx` answers each event, given everything issued before it. The
answer is a return code, a text and a list of entries.

Every workflow returns a `Run`. A `Run` holds the trace of events it issued, in order, and
either its value or the exception the Python code raises (`Result.Err`). This makes the
following statable as contracts and lemmas over the trace:

- which command is issued first;
- what is never issued before a check;
- what a failure stops;
- what is always cleaned up.

## Layout

| file | module | what it holds |
|---|---|---|
| wrappers.dfy | Wrappers | `Option`, `Result` |
| text.dfy | Text | the string functions the tools use: `split`, `join`, `replace`, `strip`, `int()`, line iteration, `os.path.join` |
| ordering.dfy | Ordering | string order, `sorted(set(...))` |
| trace.dfy | Trace | events, answers, errors, `Run`, and predicates on traces |
| adb.dfy | Adb | `AdbWrapper` and `AdbHelper.get_serial` (b2g_util/util/adb_helper.py), the device selection the tools share, and `B2GHelper` |
| shell_seq.dfy | ShellSeq | a fixed list of shell commands issued one after the other |
| backup_restore.dfy | BackupRestore | b2g_util/backup_restore_profile.py |
| shallow_flash.dfy | ShallowFlash | b2g_util/shallow_flash.py |
| check_versions.dfy | CheckVersions | device inspection and the run loop of b2g_util/check_versions.py |
| version_log.dfy | VersionLog | `get_output_dict` and the text log of b2g_util/check_versions.py |
| flash_taskcluster.dfy | FlashTaskcluster | b2g_util/flash_taskcluster.py |
| console_dialog.dfy | ConsoleDialog | b2g_util/util/console_dialog.py |
| certapps.dfy | CertApps | b2g_util/enable_certapps_devtools.py |
| quick_flash.dfy | QuickFlash | b2g_util/quick_flash.py |
| crash_reports.dfy | CrashReports | b2g_util/get_crashreports.py |
| reset_phone.dfy | ResetPhone | b2g_util/reset_phone.py |

`adb_remount` and `adb_wait_for_device` are called by b2g_util/shallow_flash.py, and
tests/test_adb_helper.py exercises them. b2g_util/util/adb_helper.py does not define them. The
model takes their behaviour from those tests: remount raises when `adb` returns non-zero, and
otherwise is true iff the reply contains `remount succeeded`; a wait that does not return 0 is a
timeout.

## Model

| member | source | states |
|---|---|---|
| Adb.ShellCommandLineRoundTrip | b2g_util/util/adb_helper.py:100-105 | the `adb_shell` command line gives back the serial and the remote command it was built from; it starts with `adb -s ` exactly when a serial is given |
| Adb.RoundTripNoSerial | b2g_util/util/adb_helper.py:100-101 | without a serial, the line parses back to no serial and the same command, and never starts with `adb -s ` |
| Adb.RoundTripSerial | b2g_util/util/adb_helper.py:102-105 | with a serial that has no space, the line parses back to that serial and command, and starts with `adb -s ` |
| Adb.ParseShellTailOf | b2g_util/util/adb_helper.py:105 | the remote command is recovered from the quoted `'<command>; echo $?'` tail |
| Adb.SplitShellOutputMatch | b2g_util/util/adb_helper.py:115-132 | when the trailing `whitespace digits` pattern matches the stripped text, the output is the text before the leftmost match and the code is the value of the digits |
| Adb.SplitShellOutputNoMatch | b2g_util/util/adb_helper.py:118-125 | when the pattern matches nowhere, the output is empty and the code is `int()` of the whole stripped text, or 0 where `int()` raises |
| Adb.SplitShellOutputEcho | b2g_util/util/adb_helper.py:105-132 | the device's `output, whitespace, exit code, trailing whitespace` splits back into the output without its trailing whitespace and that exit code |
| Adb.EchoLine | b2g_util/util/adb_helper.py:115-132 | `output\n<code>` gives the output and the code back |
| Adb.SplitShellOutputExample0 | tests/test_adb_helper.py:143-160 | `test_result\n0` gives `("test_result", 0)` |
| Adb.SplitShellOutputExample1 | tests/test_adb_helper.py:161-173 | `test_result\n1` gives `("test_result", 1)` |
| Adb.SplitShellOutputDigitsOnly | b2g_util/util/adb_helper.py:118-122 | a bare exit code with nothing before it gives empty output and that number as the code |
| Adb.SplitShellOutputBareCode | b2g_util/util/adb_helper.py:118-122 | `0\n` gives empty output and code 0 |
| Adb.SplitShellOutputNoCode | b2g_util/util/adb_helper.py:121-125 | text that is not a number (a command that stops the device before `echo`) gives empty output and code 0 |
| Adb.ParseDeviceLines | b2g_util/util/adb_helper.py:43-49 | the parse fails iff some kept line has no tab (an `IndexError` in Python); parsed serials and states contain no tab |
| Adb.DeviceMap | b2g_util/util/adb_helper.py:47-50 | the dict's keys are exactly the listed serials |
| Adb.DeviceMapLastWins | b2g_util/util/adb_helper.py:48-49 | each serial maps to the state on its last line |
| Adb.ParseDeviceLinesRender | b2g_util/util/adb_helper.py:43-49 | device lines followed by noise lines parse back to exactly those devices, in order |
| Adb.NoiseOnly | b2g_util/util/adb_helper.py:43-45 | empty lines, `* daemon` notices, the header and whitespace-only lines give no devices |
| Adb.ParseListingRender | b2g_util/util/adb_helper.py:40-49 | parsing what `adb devices` prints for well-formed devices gives them back, in order |
| Adb.ParseListingHeaderOnly | b2g_util/util/adb_helper.py:40-50 | a listing of the header and blank lines has no devices |
| Adb.ParseListingSingle | b2g_util/util/adb_helper.py:40-50 | a listing with one device line gives that device |
| Adb.ParseListingOneDevice | b2g_util/util/adb_helper.py:40-50 | the listing `abc<TAB>device` under the header gives `abc` in state `device` |
| Adb.ListingNoDeviceExample | tests/test_adb_helper.py:25-35 | the header followed by `\n\r` lists no device |
| Adb.ListingOneDeviceExample | tests/test_adb_helper.py:37-49 | one `serial<TAB>state` line under the header is the dict with that single entry |
| Adb.ListingTwoDevicesExample | tests/test_adb_helper.py:51-64 | two lines with different serials give the dict of both |
| Adb.ListingIs | b2g_util/util/adb_helper.py:40-50 | any text equal to a rendered listing parses to its devices |
| Adb.AdbDevices | b2g_util/util/adb_helper.py:26-50 | one `adb devices` call; it succeeds iff `adb` returns 0 and every kept line parses; the value is the serial-to-state map of the parse |
| Adb.AdbPull | b2g_util/util/adb_helper.py:53-71 | one pull of `source` to `dest` with the given serial; the output when `adb` returns 0, an exception otherwise |
| Adb.AdbPush | b2g_util/util/adb_helper.py:74-92 | one push of `source` to `dest` with the given serial; the output when `adb` returns 0, an exception otherwise |
| Adb.AdbShell | b2g_util/util/adb_helper.py:95-135 | one shell call; it raises iff `adb` itself fails and then parses nothing; otherwise the reply is the split of the device's text |
| Adb.AdbRoot | b2g_util/util/adb_helper.py:138-162 | true iff `adb root` returns 0 and its output does not contain `cannot` |
| Adb.AdbRootRefused | tests/test_adb_helper.py:133-141 | an output containing `cannot` is a failure, whatever the return code |
| Adb.AdbRemount | tests/test_adb_helper.py:186-216 | one remount; raises when `adb` returns non-zero; otherwise true iff the reply contains `remount succeeded` |
| Adb.AdbWaitForDevice | tests/test_adb_helper.py:218-234 | one wait with the given timeout; a non-zero answer is a timeout |
| Adb.GetSerial | b2g_util/util/adb_helper.py:168-197 | a non-empty argument wins, then `ANDROID_SERIAL`, then none; no device list is read when nothing was chosen; a chosen serial succeeds iff the device list holds it |
| Adb.SelectTarget | b2g_util/shallow_flash.py:330-342 | only device listings are issued; a success without a serial means exactly one device is attached; a success with a serial means it is listed; the result is always the serial `get_serial` settles on |
| Adb.StopB2g | b2g_util/util/b2g_helper.py:15-22 | one `stop b2g` shell call; it fails only when `adb` itself fails, never on the device's exit code |
| Adb.StartB2g | b2g_util/util/b2g_helper.py:25-32 | one `start b2g` shell call; it fails only when `adb` itself fails, never on the device's exit code |
| ShellSeq.ShellAll | b2g_util/reset_phone.py:73-76 | the commands are issued in order, each a prefix of the full list; the run succeeds iff `adb` accepted every command and then issued all of them; a failure is the first command `adb` refused, after all earlier ones were accepted |
| ShellSeq.ShellAllCodesOnly | b2g_util/reset_phone.py:73-76 | the device's output and exit codes never change a command sequence; only `adb`'s own return codes do |
| ShellSeq.ShellAllDelivered | b2g_util/reset_phone.py:73-76 | when `adb` accepts every command, all of them are issued, in order |
| Ordering.SortedSet | b2g_util/shallow_flash.py:246 | `sorted(set(xs))` is strictly ascending and holds exactly the elements of `xs` |
| Ordering.SortedUnique | b2g_util/shallow_flash.py:246 | two strictly ascending lists with the same elements are equal, so the sorted union does not depend on the order of its inputs |
| Text.StripTrailingSpace | b2g_util/util/adb_helper.py:115 | `re.sub(r'\s+$', '', s)` is a prefix of `s` followed only by whitespace and does not itself end in whitespace |
| Text.SplitJoin | b2g_util/util/adb_helper.py:41-46 | splitting on a one-character separator undoes joining parts that do not contain it |
| Text.JoinSplit | b2g_util/util/adb_helper.py:41-46 | joining what a split gives restores the text |
| Text.SplitWsJoin | b2g_util/shallow_flash.py:245 | `s.split()` of a newline-separated listing of names without whitespace gives those names |
| Text.LinesConcat | b2g_util/shallow_flash.py:150-151 | the lines a file yields when iterated join back to the file's text |
| Text.ConcatLines | b2g_util/shallow_flash.py:150-151 | a well-formed list of lines is what iterating over its concatenation yields |
| Text.ReplaceAppend | b2g_util/shallow_flash.py:151 | `replace` with a pattern that has no newline works line by line |
| Text.ReplaceAbsent | b2g_util/shallow_flash.py:151 | `replace` leaves text that does not contain the pattern unchanged |
| Text.ParseNatToString | b2g_util/util/adb_helper.py:130 | `int(str(n)) == n` for natural numbers |
| Text.PyIntDigits | b2g_util/util/adb_helper.py:122-130 | `int()` of a run of digits is its decimal value |
| Text.BasenameOf | b2g_util/quick_flash.py:124 | the base name of a folder path followed by a file name is that file name |
| BackupRestore.SetBackup | b2g_util/backup_restore_profile.py:59-72 | setting the backup flag sets it, clears restore when it is set, and changes nothing else |
| BackupRestore.SetRestore | b2g_util/backup_restore_profile.py:74-87 | setting the restore flag sets it, clears backup when it is set, and changes nothing else |
| BackupRestore.UpdatesKeepExclusive | b2g_util/backup_restore_profile.py:59-87 | any sequence of the two setters keeps backup and restore from both being on, and leaves every other option as it was |
| BackupRestore.MajorText | b2g_util/backup_restore_profile.py:282-283 | `split('.')[0]` is the longest start of the version that has no `.` |
| BackupRestore.CompareVersion | b2g_util/backup_restore_profile.py:271-290 | true iff both major numbers parse and the backup's is at most the device's; otherwise the exception names the unparsable version, or both majors when the backup is newer |
| BackupRestore.MajorOf | b2g_util/backup_restore_profile.py:282 | a version that starts with digits and then `.` has those digits as its major number |
| BackupRestore.CompareVersionMajors | b2g_util/backup_restore_profile.py:282-290 | for versions `b.x` and `d.y` the comparison is exactly `b <= d`, raising with `b` and `d` otherwise |
| BackupRestore.CompareByDigits | b2g_util/backup_restore_profile.py:282-290 | two-digit majors are compared by their decimal values |
| BackupRestore.CompareVersionEqualMajor | tests/test_backup_restore_profile.py:21-23 | `37.0_20150808` against `37.0_20150801` passes |
| BackupRestore.CompareVersionOlderBackup | tests/test_backup_restore_profile.py:27-29 | `41.0a1_…` against `42.0a1_…` passes |
| BackupRestore.CompareVersionNewerBackup | tests/test_backup_restore_profile.py:31-36 | `37.0_…` against `34.0a1_…` raises, naming 37 and 34 |
| BackupRestore.GetIniOption | b2g_util/backup_restore_profile.py:304-312 | one read of the file; the value is the option of the section, with the option name lower-cased as ConfigParser does; a missing file, section or option is one exception |
| BackupRestore.GetProfilePath | b2g_util/backup_restore_profile.py:293-312 | the value of `[Profile0] Path`, or the exception when it is missing |
| BackupRestore.GetVersionFromProfile | b2g_util/backup_restore_profile.py:315-335 | the value of `[Compatibility] LastVersion`, or the exception when it is missing |
| BackupRestore.UnreadableIniRaises | b2g_util/backup_restore_profile.py:305-312 | a file that cannot be read raises, whatever was asked |
| BackupRestore.ProfilePathFound | b2g_util/backup_restore_profile.py:304-309 | a readable `profiles.ini` whose `[Profile0]` has a path gives that path |
| BackupRestore.StripMstone | b2g_util/backup_restore_profile.py:258-262 | the kept lines are exactly the lines without `gecko.mstone`, none of them contains it, and none is added |
| BackupRestore.StripMstoneAppend | b2g_util/backup_restore_profile.py:260-262 | the filter works line by line: filtering two parts is filtering their concatenation |
| BackupRestore.StripMstoneClean | b2g_util/backup_restore_profile.py:260-262 | a file without `gecko.mstone` is rewritten unchanged |
| BackupRestore.StripMstoneIdempotent | b2g_util/backup_restore_profile.py:258-267 | rewriting an already rewritten `prefs.js` changes nothing |
| BackupRestore.DropEmpty | b2g_util/backup_restore_profile.py:181 | the comprehension keeps exactly the non-empty parts |
| BackupRestore.SdcardCopy | b2g_util/backup_restore_profile.py:182-196 | `output_list[-1]` raises `IndexError` on an empty list; the folder is made and `/sdcard/` pulled exactly when the last line is `0`; a failed pull is swallowed |
| BackupRestore.SdcardAfterProbe | b2g_util/backup_restore_profile.py:181-196 | the probe's output is split on line breaks with carriage returns removed and empty lines dropped; the pull happens iff the last line is `0` |
| BackupRestore.BackupSdcard | b2g_util/backup_restore_profile.py:172-196 | the probe `ls -d /sdcard/; echo $?` comes first; it succeeds iff `adb` accepted the probe and its output has a non-empty line; the pull happens iff the last line is `0`; nothing is pushed |
| BackupRestore.RestoreSdcard | b2g_util/backup_restore_profile.py:198-215 | `/sdcard/` is pushed iff the local `sdcard` folder exists; a failed push is swallowed |
| BackupRestore.RewritePrefsFile | b2g_util/backup_restore_profile.py:258-267 | `prefs.js` is read, then written back with the `gecko.mstone` lines removed; an unreadable file raises before anything is written |
| BackupRestore.ProfilePrefs | b2g_util/backup_restore_profile.py:256-267 | `profiles.ini` is read first; on success the file read and written back filtered is `<b2g>/<[Profile0] Path>/prefs.js`, with the path taken from that `profiles.ini`; no push and no copy |
| BackupRestore.BackupProfile | b2g_util/backup_restore_profile.py:217-268 | the Wi-Fi file, `/data/b2g/mozilla` and `/data/local` are pulled, each after making its folder, before `profiles.ini` is read; pull failures are swallowed; on success the copy's `<b2g>/<[Profile0] Path>/prefs.js` is read and written back filtered |
| BackupRestore.BackupProfileMissingIni | b2g_util/backup_restore_profile.py:256 | when the pulled `profiles.ini` cannot be read, the backup raises the profile-path exception |
| BackupRestore.DeviceVersionCheck | b2g_util/backup_restore_profile.py:366-386 | the device's `profiles.ini` is pulled first and a failed pull raises; a missing `[Profile0] Path` raises naming the pulled copy; otherwise the outcome is that of comparing against the profile it names; nothing on the device changes |
| BackupRestore.CompareWithDevice | b2g_util/backup_restore_profile.py:373-386 | a failed pull of the profile's `compatibility.ini` raises; a missing `[Compatibility] LastVersion` raises naming the pulled copy; otherwise the result is `_compare_version` of the backup's version and that `LastVersion`, so a newer backup major raises carrying both majors |
| BackupRestore.CheckWithTemp | b2g_util/backup_restore_profile.py:361-391 | a temporary folder is made first and removed last whatever happened; every pull comes after it is made; the device is only read; the outcome is that of the device checks run in that folder |
| BackupRestore.LocalVersion | b2g_util/backup_restore_profile.py:355-358 | reads only local files: the backup's `profiles.ini`, then the `compatibility.ini` of the profile its `[Profile0] Path` names; the value is that file's `[Compatibility] LastVersion`; a missing key in either raises naming that file |
| BackupRestore.CheckProfileVersion | b2g_util/backup_restore_profile.py:337-391 | skipping returns true with no event; a missing local folder raises after one check; a local ini lookup failure raises before the temporary folder; otherwise the outcome is the device check against the backup's version; the device is only read and every pull follows the temporary folder |
| BackupRestore.GateCompares | b2g_util/backup_restore_profile.py:337-391 | when the backup's and the device's ini files can be read and name versions B and D, the check's result is `_compare_version(B, D)`: it passes iff both majors parse and B's major is at most D's |
| BackupRestore.RestoreWifi | b2g_util/backup_restore_profile.py:403-411 | when the Wi-Fi file exists it is pushed, then `chown` runs on the default device; only a failing `chown` call raises |
| BackupRestore.RestoreTree | b2g_util/backup_restore_profile.py:413-431 | when the local folder exists the remote one is removed with `rm -r`, then the folder is pushed; a failed `rm` call raises, a failed push is swallowed |
| BackupRestore.RestoreProfile | b2g_util/backup_restore_profile.py:393-434 | the local folder is checked first; a missing one is a no-op; otherwise only restore events are issued: no pull, no copy, no `/sdcard/` push, no `start b2g` |
| BackupRestore.ClearDestination | b2g_util/backup_restore_profile.py:469-475 | a missing destination is left alone; an empty one is removed; a non-empty one raises `already exists`; an unlistable one raises |
| BackupRestore.CopyAndStart | b2g_util/backup_restore_profile.py:483-488 | the temporary folder is copied to the destination; a failed copy raises before `start b2g`, leaving B2G stopped; after a good copy B2G is started unless `--no-reboot` |
| BackupRestore.SdcardIfAsked | b2g_util/backup_restore_profile.py:481-482 | the SD card is backed up only with `--sdcard`, starting with the probe |
| BackupRestore.SdcardAndCopy | b2g_util/backup_restore_profile.py:479-488 | every pull comes before the copy to the destination; nothing is pushed; the copy happens on success |
| BackupRestore.CopyOut | b2g_util/backup_restore_profile.py:478-488 | after `stop b2g`: every pull precedes the copy of the temporary folder to the destination; nothing is pushed; a successful backup does make that copy |
| BackupRestore.StopAndCopyOut | b2g_util/backup_restore_profile.py:476-488 | every pull follows `stop b2g` and precedes the copy; nothing is pushed |
| BackupRestore.BackupSteps | b2g_util/backup_restore_profile.py:468-488 | a destination that cannot be cleared ends the backup before B2G is stopped; every pull lies between `stop b2g` and the copy; nothing is pushed |
| BackupRestore.DoBackup | b2g_util/backup_restore_profile.py:462-493 | the temporary folder is made first and removed last whatever happened; a non-empty destination raises before anything reaches the device; every pull comes after `stop b2g` and before the copy of the temporary folder to the destination; a successful backup issues that copy; nothing is pushed |
| BackupRestore.SdcardAndStart | b2g_util/backup_restore_profile.py:503-507 | the `/sdcard/` push, if any, is the last push; B2G is started last exactly when `--no-reboot` is not given |
| BackupRestore.RestoreAfterStop | b2g_util/backup_restore_profile.py:500-507 | after `stop b2g`: no pull and no copy; the `/sdcard/` push is the last push; on success B2G is started last exactly when `--no-reboot` is not given |
| BackupRestore.RestoreSteps | b2g_util/backup_restore_profile.py:499-507 | `stop b2g` is the first event and comes before every push; no pull, no copy; the `/sdcard/` push is the last push; `start b2g` ends the run iff `--no-reboot` is not given |
| BackupRestore.DoRestore | b2g_util/backup_restore_profile.py:495-507 | a failed version check is the whole run, so `stop b2g` is never issued; otherwise the check's events come first; every pull precedes `stop b2g`, which precedes every push; the `/sdcard/` push is the last push; nothing is copied |
| BackupRestore.RunOnDevice | b2g_util/backup_restore_profile.py:455-509 | without root the run raises after `adb root`; with neither flag only `adb root` is issued; a backup pushes nothing; a restore copies nothing |
| BackupRestore.RunHelper | b2g_util/backup_restore_profile.py:436-509 | a failed device choice ends the run after the listings; no root raises; a backup never pushes and a restore never copies |
| ShallowFlash.IsPackage | b2g_util/shallow_flash.py:113-119 | one `isfile` check; a package iff the file exists and the name has the package's suffix |
| ShallowFlash.PackageKindsDisjoint | b2g_util/shallow_flash.py:113-119 | no path is both a Gaia (`.zip`) and a Gecko (`.tar.gz`) package |
| ShallowFlash.ChoosePackage | b2g_util/shallow_flash.py:103-108 | an empty or missing argument is not checked; a given one is checked once and kept iff it is a package of that kind |
| ShallowFlash.Configure | b2g_util/shallow_flash.py:100-111 | serial and `--keep-profile` are kept as given; Gaia is set iff its argument is non-empty, exists and ends in `.zip`; Gecko only to a `.tar.gz` argument; only `isfile` checks are issued, one per non-empty argument |
| ShallowFlash.ConfiguredTruthy | b2g_util/shallow_flash.py:103-108 | a package that was set is a non-empty path |
| ShallowFlash.RewriteLines | b2g_util/shallow_flash.py:150-151 | every line is written with `user_pref` replaced by `pref`, one output line per input line |
| ShallowFlash.RewriteConcat | b2g_util/shallow_flash.py:148-151 | replacing line by line is replacing in the whole file |
| ShallowFlash.UserPrefsWhole | b2g_util/shallow_flash.py:148-151 | the written `user.js` is the original with every `user_pref` replaced by `pref` |
| ShallowFlash.UserPrefsUnchanged | b2g_util/shallow_flash.py:148-151 | a `user.js` without `user_pref` is copied unchanged |
| ShallowFlash.RemoveFirst | b2g_util/shallow_flash.py:248-249 | `list.remove` succeeds iff the item is present, drops one occurrence and keeps every other item; a missing item raises `ValueError`; a strictly sorted list stays sorted and loses the item |
| ShallowFlash.RemovalList | b2g_util/shallow_flash.py:245-249 | succeeds iff `defaults` and `webapps` both occur among local and device names; the result is sorted without duplicates and holds exactly the other names; the exception names the first missing one |
| ShallowFlash.RemovalListOrderFree | b2g_util/shallow_flash.py:247 | the removal list depends only on which names occur, not on their order or repetition |
| ShallowFlash.RemoveCommands | b2g_util/shallow_flash.py:251-252 | one `rm -r /system/b2g/<name>` per name, in order |
| ShallowFlash.PushInOrder | b2g_util/shallow_flash.py:155-169 | the pushes are issued in order, stopping at the first one `adb` refuses; success iff every push was issued and accepted; the error names the refused push |
| ShallowFlash.PushGaia | b2g_util/shallow_flash.py:138-170 | `user.js` is read first; if it cannot be read nothing else happens; otherwise the rewritten copy is written, then `user.js`, `webapps` and `settings.json` are pushed in that order |
| ShallowFlash.Executables | b2g_util/shallow_flash.py:265-266 | the names kept are exactly the entries whose `os.access(..., X_OK)` probe answered yes, in listing order |
| ShallowFlash.ChmodCommands | b2g_util/shallow_flash.py:266-269 | one `chmod 777 /system/b2g/<name>` per name, in order |
| ShallowFlash.ChmodsOfNames | b2g_util/shallow_flash.py:265-269 | the `chmod` commands of the kept names are those of exactly the executable entries, in listing order |
| ShallowFlash.PushGecko | b2g_util/shallow_flash.py:256-270 | the `b2g` folder is pushed first and a refused push ends the step; then the folder is listed, and the shell commands issued are the `chmod 777` of exactly the executable entries, in listing order |
| ShallowFlash.ListForRemoval | b2g_util/shallow_flash.py:236-250 | `rm -r /system/media` comes first, then the local listing, then `ls /system/b2g/` on the default device; on success the names are the removal list of both listings |
| ShallowFlash.IssueAll | b2g_util/shallow_flash.py:251-252 | the commands are issued in order, and all of them on success |
| ShallowFlash.CleanGecko | b2g_util/shallow_flash.py:235-254 | after the media removal and the two listings, the removals follow in sorted order; on success every name of the removal list is removed |
| ShallowFlash.CleanThenPush | b2g_util/shallow_flash.py:289-290 | cleaning starts with `rm -r /system/media`; on success the `b2g` folder was pushed |
| ShallowFlash.GeckoInTemp | b2g_util/shallow_flash.py:283-290 | a file that is not a Gecko package raises after one check; a package is untarred into the folder before anything reaches the device |
| ShallowFlash.FlashGecko | b2g_util/shallow_flash.py:272-296 | the temporary folder is made first and removed last whatever happened; the package check follows; a non-package raises with nothing untarred; on success the package was untarred, the device cleaned and the `b2g` folder pushed; nothing is unzipped |
| ShallowFlash.BackupOptions | b2g_util/shallow_flash.py:179-183 | the backup of `_backup_profile`: backup on, restore off, no reboot, into the given folder, other options at their defaults |
| ShallowFlash.RestoreOptions | b2g_util/shallow_flash.py:194-199 | the restore of `_restore_profile`: restore on, backup off, no reboot, version check skipped, from the given folder |
| ShallowFlash.BackupToTemp | b2g_util/shallow_flash.py:172-186 | a `b2gprofile_` folder is made first; the backup pushes nothing; the folder's name is returned |
| ShallowFlash.RestoreFrom | b2g_util/shallow_flash.py:188-200 | an empty folder name does nothing; otherwise the restore copies nothing, and a failed device choice ends it after the listings |
| ShallowFlash.CleanThenPushGaia | b2g_util/shallow_flash.py:223-224 | the clean commands are issued in order, then `user.js` is read and the three pushes follow |
| ShallowFlash.CleanGaia | b2g_util/shallow_flash.py:121-136 | the first of the eleven `rm -r` commands comes first; success issues all of them and the Gaia pushes |
| ShallowFlash.GaiaInTemp | b2g_util/shallow_flash.py:217-227 | a file that is not a Gaia package raises after one check; a package is unzipped before the device is cleaned; the profile restore adds events only with `--keep-profile` |
| ShallowFlash.GaiaWithTemp | b2g_util/shallow_flash.py:213-232 | the temporary folder is made first and removed last whatever happened; a non-package raises with nothing unzipped; on success the package was unzipped before the first clean command |
| ShallowFlash.FlashGaia | b2g_util/shallow_flash.py:202-233 | with `--keep-profile` the backup folder is made first and the backup pushes nothing; the rest is the flash of `GaiaWithTemp` |
| ShallowFlash.PrepareStep | b2g_util/shallow_flash.py:298-306 | `adb root`, then remount, then `stop b2g`; no root raises, a refused remount raises, and success means all three were accepted |
| ShallowFlash.Restart | b2g_util/shallow_flash.py:309-317 | Gaia without `--keep-profile` resets the phone; otherwise `sync` then `reboot`, in order; either way the events are a prefix of the restart events, and all of them on success |
| ShallowFlash.ResetIsRestart | b2g_util/shallow_flash.py:309-312 | a run of `reset_phone`, cut short or not, is a prefix of `adb root` and the reset commands |
| ShallowFlash.WaitAndCheck | b2g_util/shallow_flash.py:319-323 | the wait comes first and a device that does not come back is a timeout; the version check then only reads the device and writes no log |
| ShallowFlash.FinalStep | b2g_util/shallow_flash.py:308-323 | the restart events come first, cut short only by a failure; the reset starts with `adb root`, the reboot with `sync`; the wait for the device at `at` and the version check follow only a complete restart |
| ShallowFlash.RestartedFacts | b2g_util/shallow_flash.py:308-323 | from the start of `final_step` on, nothing is unpacked; it starts with `adb root` for a reset and with `sync` for a reboot; a success waited for the device |
| ShallowFlash.UntarsFirstSplit | b2g_util/shallow_flash.py:348-351 | when nothing is unzipped during the Gecko flash, every untar comes before every unzip |
| ShallowFlash.GaiaUnzips | b2g_util/shallow_flash.py:202-233 | the Gaia flash, seen from outside: on success the Gaia package was unzipped |
| ShallowFlash.GeckoThenGaia | b2g_util/shallow_flash.py:348-351 | Gecko is flashed first; a Gecko failure ends the run with nothing unzipped; Gaia is flashed only after a Gecko success; every untar precedes every unzip |
| ShallowFlash.UntarThenUnzip | b2g_util/shallow_flash.py:348-351 | a Gecko untar followed by a Gaia unzip puts the untar first |
| ShallowFlash.FlashPackages | b2g_util/shallow_flash.py:344-351 | no package: no event; Gecko comes first and Gaia runs only after it succeeded; the Gecko part is `shallow_flash_gecko` and the rest `shallow_flash_gaia`; a success unpacked every package given |
| ShallowFlash.FlashThenFinal | b2g_util/shallow_flash.py:344-352 | the flash is the first `m` events; a run that stops there failed; otherwise every package was unpacked before `m`, nothing is unpacked from `m` on, `final_step` starts at `m` with `adb root` when Gaia was flashed without `--keep-profile` and with `sync` otherwise, and a success waited for the device at `at` after `m`; with both packages the Gecko untar precedes the Gaia unzip |
| ShallowFlash.PrepareFlashFinal | b2g_util/shallow_flash.py:344-352 | `adb root` first and no root raises; `root`, `remount`, `stop b2g` open the trace; no package is unpacked before `stop b2g`; after them the flash ends at `m` and `final_step` follows it as in `FlashThenFinal` |
| ShallowFlash.RunShallowFlash | b2g_util/shallow_flash.py:325-352 | a failed device choice raises after the listings; no package does nothing more; otherwise `adb root` follows the listings; nothing is unpacked before `stop b2g` on the chosen device; after `prepare_step` the flash ends at `m`, and `final_step` follows it only after a successful flash, as in `FlashThenFinal`, with the wait at `at` |
| CheckVersions.PullFiles | b2g_util/check_versions.py:114-134 | `omni.ja`, then the data-partition `application.zip`, then, only when that pull fails, the system one, then `application.ini`; every pull goes to the temporary folder with the given serial and failures are swallowed |
| CheckVersions.GaiaCommit | b2g_util/check_versions.py:147-149 | the revision and the date text are the first two lines with their line breaks removed |
| CheckVersions.GaiaCommitOf | b2g_util/check_versions.py:147-149 | a file `rev\ndate\n...` gives back `rev` and `date` |
| CheckVersions.GaiaCommitOneLine | b2g_util/check_versions.py:147-149 | a file with a single line gives that line and an empty date, as `readline` does at end of file |
| CheckVersions.GaiaInfo | b2g_util/check_versions.py:136-152 | `application.zip` is checked first and only local files are touched; both values are `n/a` exactly when `gaia_commit.txt` is missing; otherwise they are the revision and formatted date read from that file; a failing extract, read or date conversion raises |
| CheckVersions.CaptureEnd | b2g_util/check_versions.py:181 | a lazy `(.*?)<` capture stops at the first `<` or line break |
| CheckVersions.CapturesCons | b2g_util/check_versions.py:181 | `re.findall(r'>(.*?)<', …)` finds the text between the first `>` and the next `<`, then continues after that `<` |
| CheckVersions.RevisionOnLine | b2g_util/check_versions.py:181-182 | `ret[1]` raises `IndexError` iff the line has fewer than two captures |
| CheckVersions.RevisionOfLine | b2g_util/check_versions.py:181-182 | a line `…>a<…>rev<…` gives `rev` |
| CheckVersions.BuildConfigFirst | b2g_util/check_versions.py:179-183 | the revision comes from the first line containing `Built from`, and the loop stops there |
| CheckVersions.BuildConfigNone | b2g_util/check_versions.py:178-183 | without a `Built from` line the revision stays `n/a` |
| CheckVersions.ReadBuildConfig | b2g_util/check_versions.py:177-185 | a missing `buildconfig.html` gives `n/a` after one check; otherwise the file is read once and the revision is that of its first `Built from` line; the value is `n/a` or was read from the file |
| CheckVersions.Deoptimise | b2g_util/check_versions.py:155-175 | the deoptimising folder is made and the script copied; a failed copy raises before the script runs; otherwise the script runs and only the extract of `buildconfig.html` can fail; only local events are issued and no file is read |
| CheckVersions.GeckoRevision | b2g_util/check_versions.py:153-187 | a missing `omni.ja` gives `n/a` after one check; `optimizejars.py` runs iff `omni.ja` exists and the script was copied; the value is `n/a` or was read from `buildconfig.html` |
| CheckVersions.IniValue | b2g_util/check_versions.py:194-195 | the value is what follows the first `=`, without the line break |
| CheckVersions.IniValueOf | b2g_util/check_versions.py:194-195 | `key=value` gives `value` when the key has no `=` |
| CheckVersions.IniFieldLast | b2g_util/check_versions.py:192-198 | the value kept for a key is the one on its last matching line |
| CheckVersions.IniFieldAbsent | b2g_util/check_versions.py:189-190 | a key on no line keeps the integer default 0 |
| CheckVersions.IniFieldMalformed | b2g_util/check_versions.py:194-195 | a matching line without `=` makes `ret[0]` raise |
| CheckVersions.ScanIni | b2g_util/check_versions.py:189-198 | the loop raises iff either key has a line without `=`; otherwise it gives the values the last matching lines hold |
| CheckVersions.IniInfo | b2g_util/check_versions.py:188-201 | a missing `application.ini` gives `n/a` twice after one check; otherwise the file is read once and the values are those of its `BuildID` and `Version` lines; they are `n/a` or were read from the file |
| CheckVersions.NoLineBreaks | b2g_util/check_versions.py:203-211 | `re.sub(r'\r+\|\n+', '', …)` leaves no carriage return or line break |
| CheckVersions.ShellValues | b2g_util/check_versions.py:203-211 | the commands are issued in order and stop at the first that `adb` refuses; each value is the output of its own command with line breaks removed |
| CheckVersions.ShellValue | b2g_util/check_versions.py:203 | one shell call; the value is its output with line breaks removed |
| CheckVersions.Props | b2g_util/check_versions.py:202-211 | the five `getprop` commands in order; each value is the device's reply to its own command |
| CheckVersions.Gather | b2g_util/check_versions.py:114-201 | the device is only read and nothing runs on it; the Gaia revision has no line break; every value is `n/a` or was read from the pulled file it comes from |
| CheckVersions.InfoOfParts | b2g_util/check_versions.py:202-223 | the values read from the files and the replies to `getprop` together make up the device's information |
| CheckVersions.Collect | b2g_util/check_versions.py:114-223 | only device reads; the shell commands are exactly the five `getprop` in order; the record carries the given serial and no line breaks; every value is `n/a` or was read from its file or reply |
| CheckVersions.GetDeviceInfo | b2g_util/check_versions.py:104-228 | the `checkversions_` folder is made first and removed last whatever happened; only device reads; the record's values were read within this call |
| CheckVersions.ListedSerials | b2g_util/check_versions.py:331 | every listed serial once, and only those |
| CheckVersions.QueryAll | b2g_util/check_versions.py:330-339 | one entry per listed serial, in order; a device in state `device` is queried, any other is skipped; with no device in that state nothing is issued |
| CheckVersions.Visit | b2g_util/check_versions.py:328-344 | a chosen serial missing from the listing raises `KeyError` before anything is issued; a chosen one gives one queried entry; otherwise one entry per listed serial |
| CheckVersions.Query | b2g_util/check_versions.py:328-344 | the serial `get_serial` settles on gives one entry for it; none gives one entry per listed serial, skipped exactly when not in state `device` |
| CheckVersions.RunVersions | b2g_util/check_versions.py:312-345 | `adb devices` comes first; the device is only read; no device raises; the entries follow the choice of serial; the text log holds the intended text on success; a failure writes no JSON, and writes text only when a value is not a string |
| CheckVersions.QueryAndLog | b2g_util/check_versions.py:325-345 | the same after the listing |
| CheckVersions.DeviceMapEmpty | b2g_util/util/adb_helper.py:47-50 | the device dict is empty iff the listing has no device |
| VersionLog.GetOutputDict | b2g_util/check_versions.py:297-310 | the loop builds the dictionary that stores each entry under its key, later entries replacing earlier ones |
| VersionLog.OutputDictKeys | b2g_util/check_versions.py:301-309 | a key is in the dictionary iff some entry has it as its key |
| VersionLog.OutputDictFrom | b2g_util/check_versions.py:309 | every value of the dictionary is one of the entries |
| VersionLog.OutputDictLastWins | b2g_util/check_versions.py:309 | an entry whose key no later entry repeats is what the dictionary holds for that key |
| VersionLog.UnknownBeforeMonotone | b2g_util/check_versions.py:302-305 | the `unknown_serial_` counter only grows, and grows at each entry without a serial |
| VersionLog.UnknownKeysDistinct | b2g_util/check_versions.py:302-305 | two entries without a serial get different `unknown_serial_<n>` keys, so neither replaces the other |
| VersionLog.LogKey | b2g_util/check_versions.py:291 | `re.sub(r'\s+\|\(\|\)', '', key)` leaves no whitespace and no parenthesis, and never lengthens the key |
| VersionLog.LogKeyAppend | b2g_util/check_versions.py:291 | the key clean-up works character by character, so it distributes over concatenation |
| VersionLog.LogKeyClean | b2g_util/check_versions.py:291 | a key without whitespace or parentheses is left as it is |
| VersionLog.LogKeyIdempotent | b2g_util/check_versions.py:291 | cleaning a cleaned key changes nothing |
| VersionLog.LogKeyParens | b2g_util/check_versions.py:291 | `Firmware(Release)` becomes `FirmwareRelease`: both parentheses are dropped and nothing else |
| VersionLog.SquashSpace | b2g_util/check_versions.py:291 | `re.sub(r'\s+', '_', value)` leaves no whitespace and never lengthens the value |
| VersionLog.SquashSpaceClean | b2g_util/check_versions.py:291 | a value without whitespace is left as it is |
| VersionLog.SquashSpaceRun | b2g_util/check_versions.py:291 | a whole run of whitespace between two other characters becomes one `_` |
| VersionLog.SquashSpaceLeading | b2g_util/check_versions.py:291 | a leading run of whitespace becomes one `_` |
| VersionLog.LogValue | b2g_util/check_versions.py:291 | a written value has no whitespace; a non-negative integer is written as its decimal digits |
| VersionLog.ItemLine | b2g_util/check_versions.py:291 | `key=value\n` is one line ending in a line break |
| VersionLog.ItemLineRead | b2g_util/check_versions.py:291 | reading a written line back, the first `=` splits it into the cleaned key and the written value |
| VersionLog.EntryTextLines | b2g_util/check_versions.py:284-292 | the block of a device is the `# serial` header, then `Skip=True` for a skipped device, or eleven `key=value` lines and a blank line for a queried one |
| VersionLog.ItemsAsWritten | b2g_util/check_versions.py:290-291 | the item lines are written without error iff every value is a string; then they are the intended lines; otherwise what was written is a prefix of them |
| VersionLog.EntryAsWritten | b2g_util/check_versions.py:284-292 | one device's block is written without error iff it is writable; then it is the intended block; otherwise a prefix of it |
| VersionLog.TextLogAsWrittenPrefix | b2g_util/check_versions.py:283-292 | the whole text log is written without error iff every device is writable; then it is the intended log; otherwise a prefix of it |
| VersionLog.DefaultBuildIdAborts | b2g_util/check_versions.py:189-191 | a device whose `application.ini` has no `BuildID` keeps the integer 0; its block stops after the header and the `Serial` line with a `TypeError` on `Build ID`, where `BuildID=0` was meant |
| VersionLog.Distinct | b2g_util/check_versions.py:283 | the keys in first-seen order: the same keys, each once |
| VersionLog.LogOrderKeys | b2g_util/check_versions.py:283 | the log visits each key of the dictionary exactly once |
| VersionLog.OutputLog | b2g_util/check_versions.py:273-295 | with neither option nothing is written; the call fails iff a text log is asked for and some value is not a string; then only the partial text file is written; otherwise the text file holds the intended log and the JSON file comes last |
| VersionLog.OutputLogIntended | b2g_util/check_versions.py:273-295 | the corrected output: one text file with the intended log if asked, then one JSON file if asked, and nothing else |
| VersionLog.LogTextAgrees | b2g_util/check_versions.py:283-292 | the text as written equals the intended text on every list whose values are all strings, and is a prefix of it on any list |
| VersionLog.WriteTextLog | b2g_util/check_versions.py:283-292 | the text file receives the log as written and the write raises the refusal of the first non-string value, if any; without a refusal the file holds the intended log |
| FlashTaskcluster.Check | b2g_util/flash_taskcluster.py:81-124 | a file is a package iff it exists, has the package's suffix (`.zip` or `.tar.gz`) and its archive listing holds the package's marker; the archive is listed only for an existing file with the right suffix; the check itself never fails |
| FlashTaskcluster.Classify | b2g_util/flash_taskcluster.py:258-263 | image, then Gaia, then Gecko, and the first that matches wins; only that file is touched; a file found as a package has its suffix; a file that is not the image was checked as one and refused |
| FlashTaskcluster.ImageBeforeGaia | b2g_util/flash_taskcluster.py:258-260 | a file that passes the image check is the image, whatever the Gaia check would say, and nothing more is checked |
| FlashTaskcluster.CascadeLength | b2g_util/flash_taskcluster.py:257 | one verdict per downloaded file |
| FlashTaskcluster.CascadeFacts | b2g_util/flash_taskcluster.py:257-263 | the files are the only paths touched, and each verdict agrees with the file's suffix |
| FlashTaskcluster.CascadeAt | b2g_util/flash_taskcluster.py:257-263 | the `i`-th verdict is the single-file verdict for the `i`-th file, asked after the events for the files before it |
| FlashTaskcluster.ClassifySuffixStep | b2g_util/flash_taskcluster.py:81-124 | the classification step only touches its own file and gives a verdict that agrees with the suffix |
| FlashTaskcluster.ClassifyAll | b2g_util/flash_taskcluster.py:257-263 | one verdict per file; only the downloaded files are touched; each verdict agrees with its file's suffix |
| FlashTaskcluster.ClassifyAllEach | b2g_util/flash_taskcluster.py:257-263 | each file's verdict is `Classify` of that file after the files before it |
| FlashTaskcluster.LastOf | b2g_util/flash_taskcluster.py:89-119 | no path for a package iff no file was found as it; otherwise the path is one of the files found as it |
| FlashTaskcluster.CollectLast | b2g_util/flash_taskcluster.py:89-119 | the path kept for a package is the last file found as it, or the earlier path when none was |
| FlashTaskcluster.CollectSnoc | b2g_util/flash_taskcluster.py:257-263 | one more file sets the path of its package and leaves the other two alone |
| FlashTaskcluster.Opt | b2g_util/flash_taskcluster.py:148-161 | a button is appended iff its condition holds |
| FlashTaskcluster.FlashChoices | b2g_util/flash_taskcluster.py:148-161 | `Skip` comes first; `Image` iff an image was found and the host is not Windows; `Gaia`, `Gecko` iff found; `Gaia_Gecko` iff both were found |
| FlashTaskcluster.OptionalChoices | b2g_util/flash_taskcluster.py:150-160 | the buttons after `Skip` follow the same conditions and never repeat `Skip` |
| FlashTaskcluster.ChoicesOrdered | b2g_util/flash_taskcluster.py:148-161 | the buttons come in the fixed order Skip, Image, Gaia, Gecko, Gaia_Gecko, each at most once |
| FlashTaskcluster.RankedAppend | b2g_util/flash_taskcluster.py:148-161 | appending the next button in order keeps the list ordered |
| FlashTaskcluster.FlashMessage | b2g_util/flash_taskcluster.py:126-146 | the message opens with the question and the Skip line and closes with the warning to keep one device connected |
| FlashTaskcluster.MessageListsChoices | b2g_util/flash_taskcluster.py:126-146 | the message describes exactly the buttons offered, in their order, then the paths found |
| FlashTaskcluster.ResetOffersSkipOnly | b2g_util/flash_taskcluster.py:239-250 | after `_reset_arguments` only Skip is offered and the message has no footer |
| FlashTaskcluster.Named | b2g_util/flash_taskcluster.py:276 | a reply names the button whose label it is, or no button |
| FlashTaskcluster.NamedName | b2g_util/flash_taskcluster.py:276 | every button's label leads back to that button |
| FlashTaskcluster.Act | b2g_util/flash_taskcluster.py:168-213 | `flash_Image` flashes the image found; `flash_Gaia`, `flash_Gecko` and `flash_Gaia_Gecko` shallow-flash the packages found, and at least one of them; each does nothing when its paths are unset |
| FlashTaskcluster.Dispatch | b2g_util/flash_taskcluster.py:275-277 | `getattr(self, 'flash_' + reply)` raises iff the reply names no button, and then names the missing method; otherwise it does what that button does |
| FlashTaskcluster.OfferedChoiceDispatches | b2g_util/flash_taskcluster.py:148-213 | a button that was offered never makes `getattr` fail, and it flashes the packages it names |
| FlashTaskcluster.DoAfterDownload | b2g_util/flash_taskcluster.py:252-279 | only the classification touches the files; the paths found are those the classification collects; with no package found nothing is asked and nothing flashed; a failure comes only from a reply that names no button |
| ConsoleDialog.Colliding | b2g_util/util/console_dialog.py:135-140 | the commands left for the second pass are those whose key is already taken, in order |
| ConsoleDialog.FreeLetter | b2g_util/util/console_dialog.py:141-143 | the search from `option_index` stops at the first unused letter; running off the end of the alphabet means every letter from there on is taken |
| ConsoleDialog.FreshStep | b2g_util/util/console_dialog.py:126-129 | after an item is added under `str(index)`, the keys from `index + 1` on are still free |
| ConsoleDialog.AddItemsKeeps | b2g_util/util/console_dialog.py:124-129 | adding the list items keeps the quit command |
| ConsoleDialog.AddItemsHas | b2g_util/util/console_dialog.py:126-129 | the `i`-th item is stored under the key `next + i` as a list item |
| ConsoleDialog.AddItemsKeys | b2g_util/util/console_dialog.py:126-129 | every new key is one of the numbers handed out |
| ConsoleDialog.AddItemsSize | b2g_util/util/console_dialog.py:126-129 | one new entry per item |
| ConsoleDialog.DistinctTail | b2g_util/util/console_dialog.py:121-145 | the keys of a dictionary stay distinct after its first key is taken off |
| ConsoleDialog.KeepFreeKeeps | b2g_util/util/console_dialog.py:135-138 | the first pass never replaces an existing entry |
| ConsoleDialog.KeepFreeAdds | b2g_util/util/console_dialog.py:135-138 | a command whose key is free is stored under its own key |
| ConsoleDialog.KeepFreeSize | b2g_util/util/console_dialog.py:135-138 | every command is either stored by the first pass or left over for the second |
| ConsoleDialog.CollidingSame | b2g_util/util/console_dialog.py:135-138 | which commands collide depends only on the keys they use |
| ConsoleDialog.FreeFrom | b2g_util/util/console_dialog.py:141-143 | the number of unused letters from a position never exceeds the letters left |
| ConsoleDialog.LettersDistinct | b2g_util/util/console_dialog.py:141 | the letters without `q` are in strictly increasing order, so they are distinct |
| ConsoleDialog.LetterKeysDistinct | b2g_util/util/console_dialog.py:144 | distinct letters give distinct keys |
| ConsoleDialog.FreeFromSkip | b2g_util/util/console_dialog.py:142-143 | skipping taken letters does not change how many are free |
| ConsoleDialog.FreeFromTake | b2g_util/util/console_dialog.py:144 | taking a free letter leaves one fewer free letter |
| ConsoleDialog.FreeFromUntouched | b2g_util/util/console_dialog.py:142-144 | taking a letter before the position leaves the count from the position alone |
| ConsoleDialog.AssignLettersError | b2g_util/util/console_dialog.py:140-144 | the second pass raises `IndexError` iff fewer letters are free than commands are left |
| ConsoleDialog.AssignLettersKeeps | b2g_util/util/console_dialog.py:140-144 | the second pass never replaces an existing entry |
| ConsoleDialog.AssignLettersNew | b2g_util/util/console_dialog.py:144 | every key the second pass adds is one letter other than `q` |
| ConsoleDialog.AssignLettersSize | b2g_util/util/console_dialog.py:140-144 | one new entry per command left over |
| ConsoleDialog.FreeLetterFirst | b2g_util/util/console_dialog.py:142-143 | the letter found is the first unused one |
| ConsoleDialog.BaseFresh | b2g_util/util/console_dialog.py:124-126 | the menu that holds only `q` has every number from 1 on free |
| ConsoleDialog.BaseMenuQuit | b2g_util/util/console_dialog.py:124 | `q` is the quit command |
| ConsoleDialog.BaseMenuItem | b2g_util/util/console_dialog.py:126-129 | the `i`-th list item is under the key `i + 1` |
| ConsoleDialog.BaseMenuSize | b2g_util/util/console_dialog.py:124-129 | the quit command plus one entry per list item |
| ConsoleDialog.FreeKey | b2g_util/util/console_dialog.py:124-129 | the keys are `q` and the numbers 1 to the item count, and nothing else |
| ConsoleDialog.CreateItemsError | b2g_util/util/console_dialog.py:121-145 | building the dictionary raises `IndexError` iff the free letters run out for the colliding commands |
| ConsoleDialog.CreateItemsKeeps | b2g_util/util/console_dialog.py:121-145 | the quit command and the list items survive the alternative commands |
| ConsoleDialog.CreateItemsFreeAlt | b2g_util/util/console_dialog.py:135-138 | a command whose key is not `q` or an item number keeps its own key |
| ConsoleDialog.CreateItemsSize | b2g_util/util/console_dialog.py:121-145 | no entry is lost: one for quit, one per item, one per command |
| ConsoleDialog.MenuLoop | b2g_util/util/console_dialog.py:60-62 | the loop only ends on `q` or a key of the dictionary |
| ConsoleDialog.MenuDialog | b2g_util/util/console_dialog.py:38-64 | the selection is a key of the returned dictionary, which always has the quit command |
| ConsoleDialog.MenuLoopFirst | b2g_util/util/console_dialog.py:60-62 | the selection is the first answer that, lower-cased, is `q` or a key |
| ConsoleDialog.YesNoSuffix | b2g_util/util/console_dialog.py:105-109 | the prompt ends `(y/n)`, with the default's letter in upper case |
| ConsoleDialog.YesNo | b2g_util/util/console_dialog.py:97-119 | the only failure is running out of answers |
| ConsoleDialog.YesNoWithDefault | b2g_util/util/console_dialog.py:113-118 | with a default of `y` or `n` the first answer decides: `y` is yes, `n` is no, anything else is the default |
| ConsoleDialog.YesNoNoDefault | b2g_util/util/console_dialog.py:113-118 | with no default the first answer that is `y` or `n` decides |
| ConsoleDialog.YesNoNeverAnswered | b2g_util/util/console_dialog.py:113-118 | with no default and no `y` or `n` among the answers the question is never settled |
| CertApps.SettingLine | b2g_util/enable_certapps_devtools.py:89-101 | the line written is a `user_pref("…");` line ending in a line break |
| CertApps.StopAt | b2g_util/enable_certapps_devtools.py:79-86 | the scan stops at the first line that already has the wanted value, and no line before it has |
| CertApps.ScanPrefs | b2g_util/enable_certapps_devtools.py:76-92 | the loop stops iff some line already has the wanted value; each line before the stop is copied, or replaced by the setting when it is about the preference; `match` tells whether any of them was about it |
| CertApps.Rewritten | b2g_util/enable_certapps_devtools.py:79-92 | one line written per line before the stop, each copied or replaced as the loop does |
| CertApps.EditPrefs | b2g_util/enable_certapps_devtools.py:74-101 | the new file is the rewritten lines, plus the setting when enabling and nothing mentioned it; a restart is needed iff the scan did not stop early and either a line was rewritten or the setting was added |
| CertApps.SettingLineSet | b2g_util/enable_certapps_devtools.py:80-89 | the line written already has the wanted value, as the next scan would see it |
| CertApps.EditedMentions | b2g_util/enable_certapps_devtools.py:79-101 | every line of the new file about the preference is the setting; every other line is the original line |
| CertApps.RestartWritesSetting | b2g_util/enable_certapps_devtools.py:89-102 | whenever a restart is needed the new file carries the setting |
| CertApps.EditSettles | b2g_util/enable_certapps_devtools.py:79-102 | running the edit on the new file needs no restart: one run settles the preference |
| CertApps.FetchPrefs | b2g_util/enable_certapps_devtools.py:64-74 | the profile listing, the pull of `prefs.js` and the read of the copy, in that order and stopping at the first failure; a failed pull is reported as such; nothing is pushed; it succeeds iff all three were accepted |
| CertApps.StorePrefs | b2g_util/enable_certapps_devtools.py:73-107 | the edited file is always written; it is pushed back iff a restart is needed; a failed push is reported as such |
| CertApps.BodyEventsAppend | b2g_util/enable_certapps_devtools.py:61-107 | the events of the `try` block stay free of restarts when joined |
| CertApps.NoStopInBody | b2g_util/enable_certapps_devtools.py:61-107 | the `try` block never stops B2G |
| CertApps.FetchEventsPrefix | b2g_util/enable_certapps_devtools.py:64-74 | any prefix of the reads neither pushes nor restarts |
| CertApps.ChangePrefs | b2g_util/enable_certapps_devtools.py:60-107 | the `try` block starts with the profile listing and never stops B2G; a failure leaves `need_restart` true; without a restart nothing is pushed and nothing fails; `need_restart` ends true iff the copy of `prefs.js` could not be fetched or the scan of its lines asks for a restart |
| CertApps.ChangeBody | b2g_util/enable_certapps_devtools.py:60-107 | the same `try` block: it starts with the profile listing, never restarts B2G, fails only with `need_restart` true, and `need_restart` ends true iff `prefs.js` could not be fetched or the scan asks for a restart |
| CertApps.Finally | b2g_util/enable_certapps_devtools.py:108-112 | without a restart only the temporary folder is removed; with one, `stop b2g` then `start b2g` come first, and the clause fails iff either fails, which skips the removal |
| CertApps.RestartThenRemove | b2g_util/enable_certapps_devtools.py:109-112 | `stop b2g`, `start b2g`, then the removal of the folder; it fails iff either shell call fails, and then stops there |
| CertApps.ChangeAndRestart | b2g_util/enable_certapps_devtools.py:60-112 | B2G is restarted iff `stop b2g` was issued, and that happens iff `prefs.js` could not be fetched or the scan of its lines asks for a restart; without a restart nothing is pushed; on success with a restart the last events are the restart and the removal; on success the removal is last |
| CertApps.SetCertapps | b2g_util/enable_certapps_devtools.py:56-112 | `adb root` and the temporary folder come first, then the profile listing; B2G is restarted iff `stop b2g` was issued, iff the fetch of `prefs.js` into that folder failed or the scan asks for a restart; on success the temporary folder is removed last |
| CertApps.RunCertapps | b2g_util/enable_certapps_devtools.py:114-131 | a failure to settle on a device stops before anything else; no device raises `No device.` right after the listing; on success the chosen device was put in root mode; a restart happens iff `stop b2g` was issued to it, iff `prefs.js` could not be fetched from it or the scan asks for a restart, with `--disable` choosing the wanted value |
| QuickFlash.Namespace | b2g_util/quick_flash.py:36 | `gecko.v2.{branch}.latest.b2g.{device}{postfix}`: the branch and the device-plus-postfix sit at fixed places, between the fixed parts |
| QuickFlash.NamespaceBranch | b2g_util/quick_flash.py:36 | for one device and build type, different branches give different namespaces |
| QuickFlash.NamespaceDevice | b2g_util/quick_flash.py:36 | for one branch the namespace fixes the device name followed by the postfix |
| QuickFlash.Artifact | b2g_util/quick_flash.py:35-37 | the artifact is `private/build/` followed by the image name |
| QuickFlash.ArtifactBasename | b2g_util/quick_flash.py:124 | the downloaded file is named after the image |
| QuickFlash.AliasesShareBuild | b2g_util/quick_flash.py:29-31 | `aries` and `D5833` download the same build |
| QuickFlash.Meaning | b2g_util/quick_flash.py:90-97 | a digit answer picks an item that exists |
| QuickFlash.SelectFrom | b2g_util/quick_flash.py:88-99 | the loop settles iff some answer starts with `q` or a digit below the item count; otherwise the input runs out; a pick is in range |
| QuickFlash.SelectFromFirst | b2g_util/quick_flash.py:88-99 | the first deciding answer is the one that counts |
| QuickFlash.SelectBranch | b2g_util/quick_flash.py:82-99 | a branch picked is one of the supported branches |
| QuickFlash.SelectBuild | b2g_util/quick_flash.py:101-118 | a build type picked is one of the listed postfixes |
| QuickFlash.FlashAgain | b2g_util/quick_flash.py:141-147 | flash again iff the answer starts with `y` or `Y` |
| QuickFlash.Declines | b2g_util/quick_flash.py:203-206 | the download is declined iff the answer starts with `n` or `N` |
| QuickFlash.KeepsExisting | b2g_util/quick_flash.py:126-129 | an existing image is kept iff the answer is empty or does not start with `n` or `N` |
| QuickFlash.KeepUnlessDeclined | b2g_util/quick_flash.py:126-129 | keeping an existing image is exactly not declining |
| QuickFlash.Target | b2g_util/quick_flash.py:177-188 | `adb devices` first; not exactly one device raises with the count; only `getprop ro.product.device` follows; the device found is the supported entry for the name it reports |
| QuickFlash.Identify | b2g_util/quick_flash.py:185-188 | one `getprop`; a reported name that is not supported raises with that name; otherwise the entry is the one for that name |
| QuickFlash.Choose | b2g_util/quick_flash.py:190-206 | a download's namespace is built from the branch `select_branch` returns and the build type `select_build` returns, with the device's image as artifact; quitting or running out of input at either menu ends the questions there; with both chosen, the download goes ahead iff the confirmation does not start with `n` |
| QuickFlash.FetchImage | b2g_util/quick_flash.py:121-139 | an existing file is kept unless the answer declines; otherwise the artifact is downloaded and the call succeeds iff the file is there afterwards; the result is always that file |
| QuickFlash.Pass | b2g_util/quick_flash.py:158-163 | one pass runs `flash.sh`, waits 120 seconds for the device, then only reads it to check versions; a timeout ends the pass |
| QuickFlash.Waits | b2g_util/quick_flash.py:160 | the number of waits never exceeds the number of events |
| QuickFlash.WaitsAppend | b2g_util/quick_flash.py:157-166 | waits add up over joined traces |
| QuickFlash.WaitsNone | b2g_util/quick_flash.py:161-163 | the version check never waits for the device |
| QuickFlash.PassWaits | b2g_util/quick_flash.py:158-163 | one pass waits once |
| QuickFlash.PassShape | b2g_util/quick_flash.py:157-166 | a pass is a flash, a wait and a version check that starts with `adb devices` |
| QuickFlash.PassesAppend | b2g_util/quick_flash.py:157-166 | passes joined one after another are still passes |
| QuickFlash.LeadingYes | b2g_util/quick_flash.py:165-166 | the count of answers that ask to flash again before the first that does not |
| QuickFlash.FlashLoop | b2g_util/quick_flash.py:157-166 | the loop is a run of passes; it ends normally after one pass more than the leading yes answers, with one wait per pass |
| QuickFlash.ShapedPass | b2g_util/quick_flash.py:157-166 | a finished pass has the shape of a pass |
| QuickFlash.LoopStep | b2g_util/quick_flash.py:157-166 | one more pass keeps the trace a run of passes with one more wait |
| QuickFlash.FlashImage | b2g_util/quick_flash.py:149-171 | the temporary folder, the unzip of this image, the two `chmod`, the passes, and the removal of the folder last; only this image is unzipped; on success one pass per leading yes plus one |
| QuickFlash.Prepare | b2g_util/quick_flash.py:177-209 | `adb devices` first; not exactly one device raises with the count; an image to flash was looked for on disk; only preparation events occur |
| QuickFlash.CheckImageAsWritten | b2g_util/quick_flash.py:213 | the image check as written always raises |
| QuickFlash.RunAsWritten | b2g_util/quick_flash.py:173-217 | as written, `run` never unzips or flashes anything, and can only end normally by leaving early |
| QuickFlash.RunQuickFlash | b2g_util/quick_flash.py:173-217 | with the intended image check: `adb devices` first; not exactly one device raises; an image is flashed only after it was found on disk and its archive listed, and every unzip is of a checked image |
| QuickFlash.CheckThenFlash | b2g_util/quick_flash.py:213-217 | the image is flashed only after its archive was listed; on success the pass count follows the answers |
| QuickFlash.UnzipsCheckedAfter | b2g_util/quick_flash.py:173-217 | events that unzip nothing keep later unzips checked |
| QuickFlash.NoUnzipChecked | b2g_util/quick_flash.py:173-212 | a trace that unzips nothing trivially unzips only checked images |
| QuickFlash.UnzipAfterCheck | b2g_util/quick_flash.py:213-217 | unzipping only an image whose listing came before keeps every unzip checked |
| CrashReports.BpBelow | b2g_util/get_crashreports.py:48 | the last `bp-` starting at or before a position and after the first character, or none there |
| CrashReports.LastBp | b2g_util/get_crashreports.py:48 | the greedy `^.+bp-` ends at the last `bp-` that has a character before it |
| CrashReports.ReportUrl | b2g_util/get_crashreports.py:49 | the link is the crash-stats prefix followed by the id |
| CrashReports.Links | b2g_util/get_crashreports.py:47-50 | one link per line of the listing, each pointing at that line's id |
| CrashReports.CrashIdOf | b2g_util/get_crashreports.py:48 | from a line `…bp-<id>.txt` with trailing whitespace the id is extracted exactly |
| CrashReports.LastBpOf | b2g_util/get_crashreports.py:48 | in such a line the greedy match ends right at the `bp-` before the id |
| CrashReports.StripTxtOf | b2g_util/get_crashreports.py:48 | `.txt` and the whitespace after it are removed, and nothing else |
| CrashReports.LaterBp | b2g_util/get_crashreports.py:48 | no `bp-` follows the one before an id that has none |
| CrashReports.LinksOfLines | b2g_util/get_crashreports.py:47-50 | the links of a listing joined from lines are the links of those lines, in order |
| CrashReports.GetCrashReports | b2g_util/get_crashreports.py:35-50 | `adb root`, then the pending and the submitted listings; a failing `adb` stops there with its error; links are made iff the submitted listing exited with 0 |
| CrashReports.CrashEvents | b2g_util/get_crashreports.py:39-42 | the two listings, pending first |
| CrashReports.RunCrashReports | b2g_util/get_crashreports.py:52-68 | a failure to settle on a device stops before anything else; no device raises `No device.`; on success the only shell commands are the two listings, on the chosen device |
| ResetPhone.Reset | b2g_util/reset_phone.py:61-77 | `adb root` first; a refusal raises before any command; otherwise the four commands in order, stopping at the first `adb` failure; success iff root and every command was accepted |
| ResetPhone.ResetIgnoresReplies | b2g_util/reset_phone.py:73-76 | the reset depends only on the exit codes of `adb`, never on the device's replies |
| ResetPhone.RunReset | b2g_util/reset_phone.py:79-98 | a failure to settle on a device stops before anything else; no device raises `No device.`; on success the shell commands are the four reset commands; every root and shell call goes to the chosen device |
| ResetPhone.ResetAfter | b2g_util/reset_phone.py:88-98 | after the device listing, the reset goes to the chosen device alone |
| ResetPhone.ResetSteps | b2g_util/reset_phone.py:69-76 | root then a prefix of the four reset commands; all four on success |
| ResetPhone.TargetedEvents | b2g_util/reset_phone.py:69-76 | every root and shell call of the reset names the chosen device |

## Left out

- BackupRestore.Major: `float(v.split('.')[0])` is modelled for majors written as decimal digits. Text that `float()` also accepts, such as ` 37`, `-1` or `3e1`, is treated as malformed.
- VersionLog.Items: a device's items are written in the order the dictionary literal lists them. Python 2 iterates a `dict` in hash order, so the real order (and where an as-written log stops) may differ.
- VersionLog.LogOrder: the output dictionary is iterated in first-stored order. Python 2 uses hash order.
- VersionLog.DefaultBuildIdAborts: the partial block it describes (header and `Serial` line) follows the literal item order, not Python 2's hash order.
- CheckVersions.ListedSerials: devices are visited in the order `adb devices` lists them. The source iterates the `dict` of `adb_devices`, in hash order.
- QuickFlash.SelectBuild: the build choices are offered in the order of the supplied postfix list, where the source walks a `dict`.
- Adb.AdbRemount: b2g_util/util/adb_helper.py does not define `adb_remount`, so as written the call raises `AttributeError`. The model follows tests/test_adb_helper.py instead.
- Adb.AdbWaitForDevice: `adb_wait_for_device` is missing in the same way and is modelled from the same tests.
- ConfigParser is not modelled. `ctx.parseIni` stands for it: it takes a file's text to its sections and lower-cased options, or to nothing when the text does not parse.
- `datetime.utcfromtimestamp(...).strftime(...)` is not modelled. `ctx.formatDate` stands for it and returns nothing where `int()` of the stamp raises.
- Temporary folders, `os.makedirs`, file writes, `zipfile` and `tarfile` extraction, and `os.chmod` are recorded as events (`MakeTemp`, `WriteFile`, `Unzip`, `Untar`, `ChangeMode`) and assumed to succeed. Local reads, existence checks and the copies `shutil.copytree` (`CopyTree`) and `shutil.copyfile` (`CopyFile`) can fail.
- FlashTaskcluster.ClassifyAll: paths are checked as given. The source first applies `os.path.abspath` (b2g_util/flash_taskcluster.py:258-262), which depends on the working directory.
- FlashTaskcluster.Collect: stores the path as listed, not its `os.path.abspath`.
- QuickFlash.DownloadFile: the download folder is `<date>/<basename>` relative to the working directory. The source makes it absolute with `os.path.abspath` (b2g_util/quick_flash.py:123).
- Printing, colours and logging are not modelled, including `print_device_info` in b2g_util/check_versions.py and every `logger` call.
- The easygui dialogs of the GUI mode are not modelled. Only the console paths are.
- `os.system` runs of `flash.sh` and other processes are the `RunProcess` event. Their output is not modelled, only their return code.
- Downloads from Taskcluster (`Downloader`, the network) are the `Download` event. The answer says whether the file arrived.
- `time.sleep` is not modelled. It has no effect on the trace.
- The formats of ZIP and tar archives and of JSON files are not modelled. `WriteJson` records that the JSON log is written.
- b2g_util/disable_ftu.py is not part of this model.
- Argument parsing (`argparse`, each tool's `cli`) is not modelled. Workflows take the parsed options as parameters.
- The temporary profile folder that `_backup_profile` makes (b2g_util/shallow_flash.py:176) is never removed by the source. The model records its creation and nothing more.
- FlashTaskcluster.Dispatch: the `_flash_image`, `_shallow_flash` and related flash loops of b2g_util/flash_taskcluster.py (GUI `ynbox` and `os.system` calls) are not modelled. Only the choice of action from the reply is.
- ConsoleDialog.CreateItems: alternative keys are modelled as strings only. The source looks up the raw `option_key` among the menu's keys but stores it as `str(option_key)` (b2g_util/util/console_dialog.py:135-138), so an int key such as 1 would miss the string key "1" and overwrite that item; the model does not cover non-string keys.
- ConsoleDialog.MenuDialog: printing the menu, the terminal width, and `input_box` and `msg_box` are not modelled. Only the choice of item from the inputs is.
- QuickFlash.RunQuickFlash: `show_support_devices` and `show_support_branches` only print and are not modelled. Each `exit(0)` after a declined prompt becomes the `Leave` choice or a `None` result that ends the run without error.

## Findings

| source | as written | input that shows it | evidently intended | confidence | as-written member | corrected member |
|---|---|---|---|---|---|---|
| b2g_util/quick_flash.py:213 | `B2GHelper.check_b2g_image(local_image)` is called. b2g_util/util/b2g_helper.py defines only `stop_b2g` and `start_b2g`, so the lookup raises `AttributeError` and no image is ever flashed | any run that gets as far as the check: a device is attached, a build is chosen and the image is downloaded | the image check of b2g_util/flash_taskcluster.py (`check_b2g_image`), raising `This is not B2G image file` when it fails and flashing otherwise | not executed | QuickFlash.RunAsWritten | QuickFlash.RunQuickFlash |
| b2g_util/check_versions.py:291 | every value goes through `re.sub(r'\s+', '_', value)`. `build_id` and `version` start as the integer 0 (lines 189-190) and keep it when `application.ini` has no `BuildID` or `Version` line, and `re.sub` raises `TypeError` on an integer. The text log stops part-way and the JSON log is never written | a device whose `application.ini` exists but has no `BuildID` line, run with `--log-text` | the value written through `str()`, giving `BuildID=0`, then the JSON log | not executed | VersionLog.OutputLog | VersionLog.OutputLogIntended |

=== FILE: adb.dfy ===
/** `AdbWrapper` and `AdbHelper`: the calls into `adb`, the parsing of what
    they print, and the choice of the target device. */
module Adb {
  import opened Wrappers
  import opened Text
  import opened Trace

  // ---------------------------------------------------------------------------
  // Command lines

  /** `adb <sub>` or `adb -s <serial> <sub>`. */
  function AdbCommand(serial: Option<string>, sub: string): string {
    match serial
    case None => "adb " + sub
    case Some(s) => "adb -s " + s + " " + sub
  }

  const EchoSuffix: string := "; echo $?'"

  /** The local command line of `adb_shell`: the remote command is quoted and
      followed by `; echo $?` so that the device's exit code is printed last. */
  function ShellCommandLine(serial: Option<string>, command: string): string {
    AdbCommand(serial, "shell") + " '" + command + EchoSuffix
  }

  /** Recovers the serial and the remote command from a shell command line. */
  function ParseShellCommandLine(line: string): Option<(Option<string>, string)> {
    if StartsWith(line, "adb -s ") then
      var rest := line[7..];
      var k := FirstIndex(rest, ' ');
      match ParseShellTail(rest[k..])
      case Some(command) => Some((Some(rest[..k]), command))
      case None => None
    else if StartsWith(line, "adb") then
      match ParseShellTail(line[3..])
      case Some(command) => Some((None, command))
      case None => None
    else None
  }

  /** The remote command out of ` shell '<command>; echo $?'`. */
  function ParseShellTail(tail: string): Option<string> {
    if StartsWith(tail, " shell '") && |tail| >= 8 + |EchoSuffix| && EndsWith(tail, EchoSuffix) then
      Some(tail[8..|tail| - |EchoSuffix|])
    else None
  }

  lemma ParseShellTailOf(command: string)
    ensures ParseShellTail(" shell '" + command + EchoSuffix) == Some(command)
  {
    var tail := " shell '" + command + EchoSuffix;
    assert tail[..8] == " shell '";
    assert tail[8..] == command + EchoSuffix;
    assert tail[|tail| - |EchoSuffix|..] == EchoSuffix;
    assert tail[8..|tail| - |EchoSuffix|] == command;
  }

  /** The command line carries the serial and the command it was built from,
      and `-s` appears exactly when a serial is given. */
  lemma ShellCommandLineRoundTrip(serial: Option<string>, command: string)
    requires serial.Some? ==> ' ' !in serial.value
    ensures ParseShellCommandLine(ShellCommandLine(serial, command)) == Some((serial, command))
    ensures StartsWith(ShellCommandLine(serial, command), "adb -s ") <==> serial.Some?
  {
    match serial
    case None => RoundTripNoSerial(command);
    case Some(s) => RoundTripSerial(s, command);
  }

  lemma RoundTripNoSerial(command: string)
    ensures ParseShellCommandLine(ShellCommandLine(None, command)) == Some((None, command))
    ensures !StartsWith(ShellCommandLine(None, command), "adb -s ")
  {
    var line := ShellCommandLine(None, command);
    var tail := " shell '" + command + EchoSuffix;
    NoSerialLine(command);
    SliceConcat("adb", tail);
    assert line[3..] == tail;
    ParseShellTailOf(command);
  }

  /** Without a serial the line reads `adb shell ...`, never `adb -s ...`. */
  lemma NoSerialLine(command: string)
    ensures var line := ShellCommandLine(None, command);
            line == "adb" + (" shell '" + command + EchoSuffix) && StartsWith(line, "adb") && !StartsWith(line, "adb -s ")
  {
    var line := ShellCommandLine(None, command);
    assert line == "adb" + (" shell '" + command + EchoSuffix);
    assert line[..7] != "adb -s " by {
      assert line[..7][4] == line[4] == 's';
    }
  }

  lemma RoundTripSerial(serial: string, command: string)
    requires ' ' !in serial
    ensures ParseShellCommandLine(ShellCommandLine(Some(serial), command)) == Some((Some(serial), command))
    ensures StartsWith(ShellCommandLine(Some(serial), command), "adb -s ")
  {
    var line := ShellCommandLine(Some(serial), command);
    var tail := " shell '" + command + EchoSuffix;
    var rest := serial + tail;
    SerialLine(serial, command);
    SliceConcat("adb -s ", rest);
    assert line[7..] == rest;
    RestSplits(serial, tail);
    ParseShellTailOf(command);
  }

  lemma SerialLine(serial: string, command: string)
    ensures ShellCommandLine(Some(serial), command) == "adb -s " + (serial + (" shell '" + command + EchoSuffix))
  {
    assert AdbCommand(Some(serial), "shell") == "adb -s " + serial + " " + "shell";
    assert " " + "shell" + " '" == " shell '";
  }

  lemma SliceConcat(a: string, b: string)
    ensures (a + b)[..|a|] == a && (a + b)[|a|..] == b
  {
  }

  lemma RestSplits(serial: string, tail: string)
    requires ' ' !in serial && |tail| > 0 && tail[0] == ' '
    ensures FirstIndex(serial + tail, ' ') == |serial|
    ensures (serial + tail)[..|serial|] == serial && (serial + tail)[|serial|..] == tail
  {
    var rest := serial + tail;
    assert forall i | 0 <= i < |serial| :: rest[i] == serial[i];
    assert rest[|serial|] == ' ';
  }

  // ---------------------------------------------------------------------------
  // Splitting the output of `adb shell` from the echoed exit code

  datatype ShellReply = ShellReply(output: string, code: int)

  /** Start of the longest run of digits that ends `s`. */
  function TrailingDigitsStart(s: string): (k: nat)
    ensures k <= |s| && AllDigits(s[k..])
    ensures k == 0 || !IsDigit(s[k - 1])
    decreases |s|
  {
    if |s| > 0 && IsDigit(s[|s| - 1]) then
      var k := TrailingDigitsStart(s[..|s| - 1]);
      assert s[k..] == s[..|s| - 1][k..] + [s[|s| - 1]];
      k
    else |s|
  }

  /** Start of the longest run of whitespace that ends just before `k`. */
  function SpaceRunStart(s: string, k: nat): (j: nat)
    requires k <= |s|
    ensures j <= k && AllSpace(s[j..k])
    ensures j == 0 || !IsSpace(s[j - 1])
    decreases k
  {
    if k > 0 && IsSpace(s[k - 1]) then
      var j := SpaceRunStart(s, k - 1);
      assert s[j..k] == s[j..k - 1] + [s[k - 1]];
      j
    else k
  }

  /** `re.split(r'\s+(\d+$)', s, maxsplit=1)` can match at `p` with the
      digits starting at `q`. */
  predicate SplitsAt(s: string, p: int, q: int) {
    0 <= p < q < |s| && AllSpace(s[p..q]) && AllDigits(s[q..])
  }

  /** What `adb_shell` makes of the device's text: trailing whitespace is
      stripped; a whitespace run followed by digits at the end is the exit
      code and what precedes it the output; otherwise the output is empty and
      the code is the whole text read as an integer, or 0. */
  function SplitShellOutput(raw: string): ShellReply {
    var s := StripTrailingSpace(raw);
    var k := TrailingDigitsStart(s);
    var j := SpaceRunStart(s, k);
    if k < |s| && j < k then ShellReply(s[..j], ParseNat(s[k..]))
    else ShellReply("", PyInt(s).GetOr(0))
  }

  /** When the pattern matches anywhere, the result is the leftmost match:
      the output ends where the match starts and the code is the digits. */
  lemma SplitShellOutputMatch(raw: string, p: int, q: int)
    requires SplitsAt(StripTrailingSpace(raw), p, q)
    ensures var s := StripTrailingSpace(raw);
            var r := SplitShellOutput(raw);
            && |r.output| <= p
            && SplitsAt(s, |r.output|, q)
            && r.output == s[..|r.output|]
            && r.code == ParseNat(s[q..])
  {
    var s := StripTrailingSpace(raw);
    var k := TrailingDigitsStart(s);
    DigitsAt(s, q);
    DigitsAt(s, k);
    SpacesAt(s, p, q);
    assert IsSpace(s[q - 1]);
    assert q == k;
    var j := SpaceRunStart(s, k);
    SpacesAt(s, j, k);
    assert j <= p;
  }

  lemma DigitsAt(s: string, q: nat)
    requires q <= |s| && AllDigits(s[q..])
    ensures forall i | q <= i < |s| :: IsDigit(s[i])
  {
    forall i | q <= i < |s| ensures IsDigit(s[i]) {
      assert s[i] == s[q..][i - q];
    }
  }

  lemma SpacesAt(s: string, p: nat, q: nat)
    requires p <= q <= |s| && AllSpace(s[p..q])
    ensures forall i | p <= i < q :: IsSpace(s[i])
  {
    forall i | p <= i < q ensures IsSpace(s[i]) {
      assert s[i] == s[p..q][i - p];
    }
  }

  /** When the pattern matches nowhere, the output is empty and the code is
      `int()` of the whole text, or 0 where `int()` raises. */
  lemma SplitShellOutputNoMatch(raw: string)
    requires forall p, q :: !SplitsAt(StripTrailingSpace(raw), p, q)
    ensures SplitShellOutput(raw) == ShellReply("", PyInt(StripTrailingSpace(raw)).GetOr(0))
  {
    var s := StripTrailingSpace(raw);
    var k := TrailingDigitsStart(s);
    var j := SpaceRunStart(s, k);
    assert !SplitsAt(s, j, k);
  }

  lemma StripTrailingSpaceNonSpace(s: string)
    requires |s| > 0 && !IsSpace(s[|s| - 1])
    ensures StripTrailingSpace(s) == s
  {
  }

  /** What the device prints for `<command>; echo $?` splits back into the
      command's output (without its trailing whitespace) and the exit code. */
  lemma SplitShellOutputEcho(out: string, sep: string, n: nat, tail: string)
    requires |sep| > 0 && AllSpace(sep) && AllSpace(tail)
    ensures SplitShellOutput(out + sep + NatToString(n) + tail)
         == ShellReply(StripTrailingSpace(out), n)
  {
    var d := NatToString(n);
    var raw := out + sep + d + tail;
    var s := out + sep + d;
    EchoStrip(s, d, tail);
    var m := |StripTrailingSpace(out)|;
    var q := |out| + |sep|;
    EchoSplitsAt(out, sep, d);
    SplitShellOutputMatch(raw, m, q);
    var j := |SplitShellOutput(raw).output|;
    SpacesAt(s, j, q);
    assert s[..q] == out + sep;
    assert m == 0 || !IsSpace(s[m - 1]);
    assert j == m;
    assert s[..m] == out[..m];
    assert s[q..] == d;
    ParseNatToString(n);
  }

  lemma EchoStrip(s: string, d: string, tail: string)
    requires |d| > 0 && AllDigits(d) && AllSpace(tail)
    requires EndsWith(s, d)
    ensures StripTrailingSpace(s + tail) == s
  {
    StripTrailingSpaceAppend(s, tail);
    assert s[|s| - 1] == d[|d| - 1] by {
      assert s[|s| - |d|..][|d| - 1] == s[|s| - 1];
    }
    StripTrailingSpaceNonSpace(s);
  }

  lemma EchoSplitsAt(out: string, sep: string, d: string)
    requires |sep| > 0 && AllSpace(sep) && |d| > 0 && AllDigits(d)
    ensures SplitsAt(out + sep + d, |StripTrailingSpace(out)|, |out| + |sep|)
  {
    var s := out + sep + d;
    var m := |StripTrailingSpace(out)|;
    var q := |out| + |sep|;
    assert s[q..] == d;
    assert s[m..q] == out[m..] + sep;
  }

  /** Output without trailing whitespace, a line break and the code. */
  lemma EchoLine(out: string, n: nat, raw: string)
    requires |out| > 0 && !IsSpace(out[|out| - 1])
    requires raw == out + "\n" + NatToString(n)
    ensures SplitShellOutput(raw) == ShellReply(out, n)
  {
    StripTrailingSpaceNonSpace(out);
    SplitShellOutputEcho(out, "\n", n, "");
    assert raw == out + "\n" + NatToString(n) + "";
  }

  /** The exit code of the command is recovered after its output. */
  lemma SplitShellOutputExample0()
    ensures SplitShellOutput("test_result\n0") == ShellReply("test_result", 0)
  {
    assert NatToString(0) == "0";
    EchoLine("test_result", 0, "test_result\n0");
  }

  lemma SplitShellOutputExample1()
    ensures SplitShellOutput("test_result\n1") == ShellReply("test_result", 1)
  {
    assert NatToString(1) == "1";
    EchoLine("test_result", 1, "test_result\n1");
  }

  lemma {:induction false} TrailingDigitsAll(s: string)
    requires AllDigits(s)
    ensures TrailingDigitsStart(s) == 0
    decreases |s|
  {
    if |s| > 0 {
      assert forall i | 0 <= i < |s| - 1 :: s[..|s| - 1][i] == s[i];
      TrailingDigitsAll(s[..|s| - 1]);
    }
  }

  /** Digits alone (a bare exit code with nothing before it) are no match
      for the pattern: the output is empty and the code is the number. */
  lemma SplitShellOutputDigitsOnly(raw: string, digits: string, w: string)
    requires |digits| > 0 && AllDigits(digits) && AllSpace(w) && raw == digits + w
    ensures SplitShellOutput(raw) == ShellReply("", ParseNat(digits))
  {
    StripTrailingSpaceAppend(digits, w);
    assert !IsSpace(digits[|digits| - 1]);
    StripTrailingSpaceNonSpace(digits);
    TrailingDigitsAll(digits);
    PyIntDigits(digits);
  }

  /** `0\n` reads as code 0 with no output. */
  lemma SplitShellOutputBareCode(raw: string)
    requires raw == "0\n"
    ensures SplitShellOutput(raw) == ShellReply("", 0)
  {
    assert raw == "0" + "\n" && AllSpace("\n");
    SplitShellOutputDigitsOnly(raw, "0", "\n");
    assert ParseNat("0") == 0 by {
      assert "0"[..0] == [];
    }
  }

  /** Text that is not a number has no output and code 0. */
  lemma SplitShellOutputNoCode(raw: string)
    requires raw == "done"
    ensures SplitShellOutput(raw) == ShellReply("", 0)
  {
    StripTrailingSpaceNonSpace(raw);
    assert TrailingDigitsStart(raw) == 4;
    assert !IsSpace(raw[0]);
    assert DropLeadingSpace(raw) == raw;
    assert StripTrailingSpace(raw) == raw;
    assert !AllDigits(raw) by {
      assert !IsDigit(raw[0]);
    }
    assert PyInt(raw) == None;
  }

  // ---------------------------------------------------------------------------
  // `adb devices`

  datatype Device = Device(serial: string, state: string)

  const ListingHeader: string := "List of devices attached"

  /** Lines `adb_devices` drops: empty ones, the daemon's start-up notices,
      the header and lines of whitespace only. */
  predicate IsNoise(line: string) {
    |line| == 0 || StartsWith(line, "* daemon") || StartsWith(line, ListingHeader) || AllSpace(line)
  }

  /** The `serial<TAB>state` lines in order; a kept line without a tab is an
      `IndexError` in the source. */
  function ParseDeviceLines(lines: seq<string>): (r: Result<seq<Device>, Error>)
    ensures r.Err? <==> exists i | 0 <= i < |lines| :: !IsNoise(lines[i]) && '\t' !in lines[i]
    ensures r.Ok? ==> forall d | d in r.value :: '\t' !in d.serial && '\t' !in d.state
    decreases |lines|
  {
    if |lines| == 0 then Ok([])
    else
      var rest := ParseDeviceLines(lines[1..]);
      assert forall i | 1 <= i < |lines| :: lines[i] == lines[1..][i - 1];
      if IsNoise(lines[0]) then rest
      else
        var parts := Split(lines[0], '\t');
        if |parts| < 2 then
          JoinSplit(lines[0], '\t');
          Err(MalformedListing(lines[0]))
        else if rest.Err? then rest
        else
          JoinSplit(lines[0], '\t');
          Ok([Device(parts[0], parts[1])] + rest.value)
  }

  /** `adb_devices`' parse: carriage returns removed, split into lines. */
  function ParseListing(text: string): Result<seq<Device>, Error> {
    ParseDeviceLines(Split(RemoveChar(text, '\r'), '\n'))
  }

  /** The dict built from the devices; a later line for the same serial wins. */
  function DeviceMap(ds: seq<Device>): (m: map<string, string>)
    ensures forall s :: s in m <==> exists i | 0 <= i < |ds| :: ds[i].serial == s
    ensures forall i | 0 <= i < |ds| :: ds[i].serial in m
    decreases |ds|
  {
    if |ds| == 0 then map[]
    else
      var init := ds[..|ds| - 1];
      var m := DeviceMap(init);
      assert forall i | 0 <= i < |init| :: init[i] == ds[i];
      m[ds[|ds| - 1].serial := ds[|ds| - 1].state]
  }

  /** Each serial maps to the state of its last line. */
  lemma {:induction false} DeviceMapLastWins(ds: seq<Device>, i: nat)
    requires i < |ds|
    requires forall j | i < j < |ds| :: ds[j].serial != ds[i].serial
    ensures DeviceMap(ds)[ds[i].serial] == ds[i].state
    decreases |ds|
  {
    if i < |ds| - 1 {
      DeviceMapLastWins(ds[..|ds| - 1], i);
    }
  }

  /** A well-formed device line: a serial without whitespace, a state without
      tabs or line breaks. */
  predicate WellFormedDevice(d: Device) {
    |d.serial| > 0 && NoSpace(d.serial) && '\t' !in d.state && '\n' !in d.state && '\r' !in d.state
  }

  function DeviceLine(d: Device): string {
    d.serial + "\t" + d.state
  }

  function DeviceLines(ds: seq<Device>): (r: seq<string>)
    ensures |r| == |ds|
    ensures forall i | 0 <= i < |ds| :: r[i] == DeviceLine(ds[i])
  {
    if |ds| == 0 then [] else [DeviceLine(ds[0])] + DeviceLines(ds[1..])
  }

  /** What `adb devices` prints for `ds`. */
  function RenderListing(ds: seq<Device>): string {
    Join([ListingHeader] + DeviceLines(ds) + ["", ""], '\n')
  }

  lemma NoSpacePrefix(serial: string, rest: string, pat: string, i: nat)
    requires |serial| > 0 && NoSpace(serial) && i < |pat| && pat[i] == ' ' && '\t' !in pat
    ensures !StartsWith(serial + "\t" + rest, pat)
  {
    var l := serial + "\t" + rest;
    if |pat| <= |l| {
      var m := if |serial| > i then i else |serial|;
      assert l[m] != pat[m];
      assert l[..|pat|][m] == l[m];
    }
  }

  lemma DeviceLineParses(d: Device)
    requires WellFormedDevice(d)
    ensures !IsNoise(DeviceLine(d))
    ensures Split(DeviceLine(d), '\t') == [d.serial, d.state]
  {
    var l := DeviceLine(d);
    NoSpacePrefix(d.serial, d.state, "* daemon", 1);
    NoSpacePrefix(d.serial, d.state, ListingHeader, 4);
    assert l[0] == d.serial[0];
    assert Join([d.serial, d.state], '\t') == l;
    SplitJoin([d.serial, d.state], '\t');
  }

  lemma {:induction false} ParseDeviceLinesRender(ds: seq<Device>, tail: seq<string>)
    requires forall d | d in ds :: WellFormedDevice(d)
    requires forall i | 0 <= i < |tail| :: IsNoise(tail[i])
    ensures ParseDeviceLines(DeviceLines(ds) + tail) == Ok(ds)
    decreases |ds|
  {
    var lines := DeviceLines(ds) + tail;
    if |ds| == 0 {
      assert lines == tail;
      NoiseOnly(tail);
    } else {
      DeviceLineParses(ds[0]);
      assert lines[1..] == DeviceLines(ds[1..]) + tail;
      ParseDeviceLinesRender(ds[1..], tail);
      assert lines[0] == DeviceLine(ds[0]);
      assert ds == [ds[0]] + ds[1..];
    }
  }

  lemma {:induction false} NoiseOnly(lines: seq<string>)
    requires forall i | 0 <= i < |lines| :: IsNoise(lines[i])
    ensures ParseDeviceLines(lines) == Ok([])
    decreases |lines|
  {
    if |lines| > 0 {
      NoiseOnly(lines[1..]);
    }
  }

  lemma {:induction false} JoinAvoids(parts: seq<string>, sep: char, c: char)
    requires c != sep && forall i | 0 <= i < |parts| :: c !in parts[i]
    ensures c !in Join(parts, sep)
    decreases |parts|
  {
    if |parts| > 1 {
      JoinAvoids(parts[1..], sep, c);
    }
  }

  lemma {:induction false} RemoveCharAbsent(s: string, c: char)
    requires c !in s
    ensures RemoveChar(s, c) == s
    decreases |s|
  {
    if |s| > 0 {
      RemoveCharAbsent(s[1..], c);
      assert s == [s[0]] + s[1..];
    }
  }

  lemma DeviceLineClean(d: Device)
    requires WellFormedDevice(d)
    ensures '\n' !in DeviceLine(d) && '\r' !in DeviceLine(d)
  {
    var l := DeviceLine(d);
    forall k | 0 <= k < |l| ensures l[k] != '\n' && l[k] != '\r' {
      if k < |d.serial| {
        assert l[k] == d.serial[k];
      } else if k > |d.serial| {
        assert l[k] == d.state[k - |d.serial| - 1];
      }
    }
  }

  /** Parsing what `adb devices` prints for well-formed devices gives them
      back, in order. */
  lemma ParseListingRender(ds: seq<Device>)
    requires forall d | d in ds :: WellFormedDevice(d)
    ensures ParseListing(RenderListing(ds)) == Ok(ds)
  {
    var body := DeviceLines(ds) + ["", ""];
    var parts := [ListingHeader] + body;
    assert parts == [ListingHeader] + DeviceLines(ds) + ["", ""];
    RenderedLinesClean(ds, parts);
    var text := RenderListing(ds);
    JoinAvoids(parts, '\n', '\r');
    RemoveCharAbsent(text, '\r');
    SplitJoin(parts, '\n');
    assert Split(RemoveChar(text, '\r'), '\n') == parts;
    SkipNoise(ListingHeader, body);
    ParseDeviceLinesRender(ds, ["", ""]);
  }

  lemma RenderedLinesClean(ds: seq<Device>, parts: seq<string>)
    requires forall d | d in ds :: WellFormedDevice(d)
    requires parts == [ListingHeader] + DeviceLines(ds) + ["", ""]
    ensures forall i | 0 <= i < |parts| :: '\n' !in parts[i] && '\r' !in parts[i]
  {
    forall i | 0 <= i < |parts|
      ensures '\n' !in parts[i] && '\r' !in parts[i]
    {
      if 1 <= i <= |ds| {
        assert parts[i] == DeviceLine(ds[i - 1]);
        assert ds[i - 1] in ds;
        DeviceLineClean(ds[i - 1]);
      }
    }
  }

  lemma SkipNoise(l: string, rest: seq<string>)
    requires IsNoise(l)
    ensures ParseDeviceLines([l] + rest) == ParseDeviceLines(rest)
  {
    assert ([l] + rest)[1..] == rest;
  }

  /** A listing with only the header has no devices. */
  lemma ParseListingHeaderOnly()
    ensures ParseListing("List of devices attached\n\n") == Ok([])
  {
    assert [ListingHeader] + DeviceLines([]) + ["", ""] == [ListingHeader, "", ""];
    assert Join(["", ""], '\n') == "\n";
    ListingIs([], "List of devices attached\n\n");
  }

  /** One device line gives that device. */
  lemma ParseListingSingle(d: Device)
    requires WellFormedDevice(d)
    ensures ParseListing(ListingHeader + "\n" + DeviceLine(d) + "\n\n") == Ok([d])
  {
    var l := DeviceLine(d);
    assert DeviceLines([d]) == [l];
    var parts := [ListingHeader] + DeviceLines([d]) + ["", ""];
    assert parts == [ListingHeader, l, "", ""];
    assert Join(parts[3..], '\n') == "";
    assert Join(parts[2..], '\n') == "" + "\n" + "";
    assert Join(parts[1..], '\n') == l + "\n" + ("" + "\n" + "");
    assert Join(parts, '\n') == ListingHeader + "\n" + DeviceLine(d) + "\n\n";
    ListingIs([d], ListingHeader + "\n" + DeviceLine(d) + "\n\n");
  }

  lemma ParseListingOneDevice(text: string)
    requires text == "List of devices attached\nabc\tdevice\n\n"
    ensures ParseListing(text) == Ok([Device("abc", "device")])
  {
    var d := Device("abc", "device");
    assert NoSpace(d.serial);
    assert text == ListingHeader + "\n" + DeviceLine(d) + "\n\n";
    ParseListingSingle(d);
  }

  /** The listings of the one- and two-device cases: the header, then the
      device lines, without a final line break. */
  lemma ParseListingLines(ds: seq<Device>, text: string)
    requires forall d | d in ds :: WellFormedDevice(d)
    requires text == Join([ListingHeader] + DeviceLines(ds), '\n')
    ensures ParseListing(text) == Ok(ds)
  {
    var parts := [ListingHeader] + DeviceLines(ds);
    ListingPartsClean(ds);
    JoinAvoids(parts, '\n', '\r');
    RemoveCharAbsent(text, '\r');
    SplitJoin(parts, '\n');
    ListingPartsParse(ds);
  }

  /** No line of a rendered listing holds a line break or a carriage return. */
  lemma ListingPartsClean(ds: seq<Device>)
    requires forall d | d in ds :: WellFormedDevice(d)
    ensures forall i | 0 <= i < |[ListingHeader] + DeviceLines(ds)| ::
      '\n' !in ([ListingHeader] + DeviceLines(ds))[i] && '\r' !in ([ListingHeader] + DeviceLines(ds))[i]
  {
    var parts := [ListingHeader] + DeviceLines(ds);
    forall i | 0 <= i < |parts|
      ensures '\n' !in parts[i] && '\r' !in parts[i]
    {
      if i > 0 {
        assert parts[i] == DeviceLines(ds)[i - 1];
        assert ds[i - 1] in ds;
        DeviceLineClean(ds[i - 1]);
      }
    }
  }

  /** The header line is skipped and the device lines parse back. */
  lemma ListingPartsParse(ds: seq<Device>)
    requires forall d | d in ds :: WellFormedDevice(d)
    ensures ParseDeviceLines([ListingHeader] + DeviceLines(ds)) == Ok(ds)
  {
    assert [ListingHeader] + DeviceLines(ds) == [ListingHeader] + (DeviceLines(ds) + []);
    SkipNoise(ListingHeader, DeviceLines(ds) + []);
    ParseDeviceLinesRender(ds, []);
  }

  /** A header followed by a line break and a carriage return lists no
      device. */
  lemma ListingNoDeviceExample()
    ensures ParseListing(ListingHeader + "\n\r") == Ok([])
  {
    var body := ListingHeader + "\n";
    ListingPartsClean([]);
    assert ([ListingHeader] + DeviceLines([]))[0] == ListingHeader;
    RemoveCharAbsent(body, '\r');
    RemoveCharSnoc(body, '\r');
    assert ListingHeader + "\n\r" == body + "\r";
    assert Join([ListingHeader, ""], '\n') == body;
    SplitJoin([ListingHeader, ""], '\n');
    assert IsNoise(ListingHeader);
    NoiseOnly([ListingHeader, ""]);
  }

  /** One `serial<TAB>state` line under the header is the dict with that
      one entry. */
  lemma ListingOneDeviceExample(serial: string, state: string)
    requires WellFormedDevice(Device(serial, state))
    ensures ParseListing(ListingHeader + "\n" + serial + "\t" + state) == Ok([Device(serial, state)])
    ensures DeviceMap([Device(serial, state)]) == map[serial := state]
  {
    var d := Device(serial, state);
    assert DeviceLines([d]) == [DeviceLine(d)];
    assert Join([ListingHeader, DeviceLine(d)], '\n') == ListingHeader + "\n" + serial + "\t" + state;
    ParseListingLines([d], ListingHeader + "\n" + serial + "\t" + state);
    DeviceMapLastWins([d], 0);
  }

  /** Two lines with different serials give the dict of both. */
  lemma ListingTwoDevicesExample(s1: string, t1: string, s2: string, t2: string)
    requires WellFormedDevice(Device(s1, t1)) && WellFormedDevice(Device(s2, t2)) && s1 != s2
    ensures ParseListing(ListingHeader + "\n" + s1 + "\t" + t1 + "\n" + s2 + "\t" + t2)
         == Ok([Device(s1, t1), Device(s2, t2)])
    ensures DeviceMap([Device(s1, t1), Device(s2, t2)]) == map[s1 := t1, s2 := t2]
  {
    var d1, d2 := Device(s1, t1), Device(s2, t2);
    var ds := [d1, d2];
    assert DeviceLines(ds) == [DeviceLine(d1), DeviceLine(d2)];
    var parts := [ListingHeader, DeviceLine(d1), DeviceLine(d2)];
    assert parts[1..][1..] == [DeviceLine(d2)];
    assert Join(parts[1..], '\n') == DeviceLine(d1) + "\n" + DeviceLine(d2);
    assert Join(parts, '\n')
        == ListingHeader + "\n" + s1 + "\t" + t1 + "\n" + s2 + "\t" + t2;
    ParseListingLines(ds, ListingHeader + "\n" + s1 + "\t" + t1 + "\n" + s2 + "\t" + t2);
    DeviceMapLastWins(ds, 0);
    DeviceMapLastWins(ds, 1);
    assert DeviceMap(ds).Keys == {s1, s2};
  }

  lemma ListingIs(ds: seq<Device>, text: string)
    requires forall d | d in ds :: WellFormedDevice(d)
    requires text == RenderListing(ds)
    ensures ParseListing(text) == Ok(ds)
  {
    ParseListingRender(ds);
  }

  // ---------------------------------------------------------------------------
  // The calls

  /** `adb_devices`: raises when `adb` fails or a line has no state. */
  function AdbDevices(ctx: Ctx, h: seq<Event>): (r: Run<map<string, string>>)
    ensures r.trace == [Devices]
    ensures var a := Ask(ctx, h, Devices);
            r.result.Ok? <==> a.code == 0 && ParseListing(a.text).Ok?
    ensures r.result.Ok? ==> r.result.value == DeviceMap(ParseListing(Ask(ctx, h, Devices).text).value)
  {
    var a := Ask(ctx, h, Devices);
    if a.code != 0 then Run([Devices], Err(Transport(Devices)))
    else match ParseListing(a.text)
      case Err(e) => Run([Devices], Err(e))
      case Ok(ds) => Run([Devices], Ok(DeviceMap(ds)))
  }

  /** `adb_pull`: the captured output when `adb` succeeds. */
  function AdbPull(ctx: Ctx, h: seq<Event>, serial: Option<string>, source: string, dest: string): (r: Run<string>)
    ensures r.trace == [Pull(serial, source, dest)]
    ensures var a := Ask(ctx, h, Pull(serial, source, dest));
            r.result == if a.code == 0 then Ok(a.text) else Err(Transport(Pull(serial, source, dest)))
  {
    var e := Pull(serial, source, dest);
    var a := Ask(ctx, h, e);
    Run([e], if a.code == 0 then Ok(a.text) else Err(Transport(e)))
  }

  /** `adb_push`: the captured output when `adb` succeeds. */
  function AdbPush(ctx: Ctx, h: seq<Event>, serial: Option<string>, source: string, dest: string): (r: Run<string>)
    ensures r.trace == [Push(serial, source, dest)]
    ensures var a := Ask(ctx, h, Push(serial, source, dest));
            r.result == if a.code == 0 then Ok(a.text) else Err(Transport(Push(serial, source, dest)))
  {
    var e := Push(serial, source, dest);
    var a := Ask(ctx, h, e);
    Run([e], if a.code == 0 then Ok(a.text) else Err(Transport(e)))
  }

  /** `adb_shell`: raises when `adb` itself fails, and otherwise splits the
      output from the device's exit code. */
  function AdbShell(ctx: Ctx, h: seq<Event>, serial: Option<string>, command: string): (r: Run<ShellReply>)
    ensures r.trace == [Shell(serial, command)]
    ensures r.result.Err? <==> Ask(ctx, h, Shell(serial, command)).code != 0
    ensures r.result.Err? ==> r.result.error == Transport(Shell(serial, command))
    ensures r.result.Ok? ==> r.result.value == SplitShellOutput(Ask(ctx, h, Shell(serial, command)).text)
  {
    var e := Shell(serial, command);
    var a := Ask(ctx, h, e);
    Run([e], if a.code != 0 then Err(Transport(e)) else Ok(SplitShellOutput(a.text)))
  }

  /** `adb_root`: succeeds iff `adb` returns 0 and does not say `cannot`. */
  function AdbRoot(ctx: Ctx, h: seq<Event>, serial: Option<string>): (r: Run<bool>)
    ensures r.trace == [Root(serial)] && r.result.Ok?
    ensures var a := Ask(ctx, h, Root(serial));
            r.result.value <==> a.code == 0 && !Contains(a.text, "cannot")
  {
    var a := Ask(ctx, h, Root(serial));
    Run([Root(serial)], Ok(a.code == 0 && !Contains(a.text, "cannot")))
  }

  /** A reply that says `cannot` (as in `adbd cannot run as root in
      production builds`) is a failure even with return code 0. */
  lemma AdbRootRefused(ctx: Ctx, h: seq<Event>, serial: Option<string>, before: string, after: string)
    requires Ask(ctx, h, Root(serial)).text == before + "cannot" + after
    ensures AdbRoot(ctx, h, serial).result == Ok(false)
  {
    ContainsMiddle(before, "cannot", after);
  }

  const RemountSucceeded: string := "remount succeeded"

  /** `adb_remount`, which the wrapper shown does not define; its tests fix
      the behaviour: a non-zero code raises, and a zero code is success
      only when the reply says `remount succeeded`. */
  function AdbRemount(ctx: Ctx, h: seq<Event>, serial: Option<string>): (r: Run<bool>)
    ensures r.trace == [Remount(serial)]
    ensures r.result.Err? <==> Ask(ctx, h, Remount(serial)).code != 0
    ensures r.result.Err? ==> r.result.error == Transport(Remount(serial))
    ensures r.result.Ok? ==> (r.result.value <==> Contains(Ask(ctx, h, Remount(serial)).text, RemountSucceeded))
  {
    var a := Ask(ctx, h, Remount(serial));
    if a.code != 0 then Run([Remount(serial)], Err(Transport(Remount(serial))))
    else Run([Remount(serial)], Ok(Contains(a.text, RemountSucceeded)))
  }

  /** `adb_wait_for_device`, which the wrapper shown does not define: a
      non-zero code is a timeout. */
  function AdbWaitForDevice(ctx: Ctx, h: seq<Event>, timeout: nat): (r: Run<()>)
    ensures r.trace == [WaitForDevice(timeout)]
    ensures r.result.Err? <==> Ask(ctx, h, WaitForDevice(timeout)).code != 0
    ensures r.result.Err? ==> r.result.error == Timeout
  {
    if Ask(ctx, h, WaitForDevice(timeout)).code != 0 then Run([WaitForDevice(timeout)], Err(Timeout))
    else Run([WaitForDevice(timeout)], Ok(()))
  }

  // ---------------------------------------------------------------------------
  // Choosing the device

  /** The serial `get_serial` settles on before checking it: a non-empty
      argument, else `ANDROID_SERIAL`, else none. */
  function RequestedSerial(ctx: Ctx, arg: Option<string>): Option<string> {
    if arg.None? || arg.value == "" then ctx.androidSerial else arg
  }

  /** The device list `adb devices` answers after history `h` holds `s`. */
  predicate Listed(ctx: Ctx, h: seq<Event>, s: string) {
    var a := Ask(ctx, h, Devices);
    a.code == 0 && ParseListing(a.text).Ok? && s in DeviceMap(ParseListing(a.text).value)
  }

  /** `get_serial`: the explicit serial wins, then `ANDROID_SERIAL`, then
      none; a chosen serial must be in the device list. */
  function GetSerial(ctx: Ctx, h: seq<Event>, arg: Option<string>): (r: Run<Option<string>>)
    ensures arg.Some? && arg.value != "" && r.result.Ok? ==> r.result.value == arg
    ensures (arg.None? || arg.value == "") && r.result.Ok? ==> r.result.value == ctx.androidSerial
    ensures r.result == Ok(None) <==> RequestedSerial(ctx, arg).None?
    ensures r.trace == if RequestedSerial(ctx, arg).None? then [] else [Devices]
    ensures RequestedSerial(ctx, arg).Some? ==>
              (r.result.Ok? <==> Listed(ctx, h, RequestedSerial(ctx, arg).value))
  {
    var chosen := RequestedSerial(ctx, arg);
    if chosen.None? then Run([], Ok(None))
    else
      var d := AdbDevices(ctx, h);
      if d.result.Err? then Fail(d)
      else if chosen.value !in d.result.value then Run(d.trace, Err(SerialNotListed(chosen.value)))
      else Run(d.trace, Ok(chosen))
  }

  /** The device selection at the start of every `run`: no device raises, a
      resolved serial is used, and without one exactly one device must be
      attached. With `lookup`, the resolved serial is also looked up in the
      first device list, as the tools that print its state do. */
  function SelectTarget(ctx: Ctx, h: seq<Event>, arg: Option<string>, lookup: bool): (r: Run<Option<string>>)
    ensures forall e | e in r.trace :: e == Devices
    ensures 1 <= |r.trace| <= 2
    ensures r.result.Ok? && r.result.value.None? ==>
              Ask(ctx, h, Devices).code == 0 && ParseListing(Ask(ctx, h, Devices).text).Ok? &&
              |DeviceMap(ParseListing(Ask(ctx, h, Devices).text).value)| == 1
    ensures r.result.Ok? && r.result.value.Some? ==> Listed(ctx, h + [Devices], r.result.value.value)
    ensures r.result.Ok? ==> r.result.value == RequestedSerial(ctx, arg)
  {
    var d := AdbDevices(ctx, h);
    if d.result.Err? then Fail(d)
    else if |d.result.value| == 0 then Run(d.trace, Err(NoDevice))
    else
      var g := GetSerial(ctx, h + d.trace, arg);
      if g.result.Err? then After(d.trace, g)
      else if g.result.value.None? && |d.result.value| != 1 then Run(d.trace + g.trace, Err(AmbiguousDevice))
      else if g.result.value.Some? && lookup && g.result.value.value !in d.result.value then
        Run(d.trace + g.trace, Err(MissingKey(g.result.value.value)))
      else After(d.trace, g)
  }

  // ---------------------------------------------------------------------------
  // B2GHelper (b2g_util/util/b2g_helper.py)

  /** `stop_b2g`: one `adb shell stop b2g`; the device's exit code is ignored. */
  function StopB2g(ctx: Ctx, h: seq<Event>, serial: Option<string>): (r: Run<()>)
    ensures r.trace == [Shell(serial, "stop b2g")]
    ensures r.result.Err? <==> Ask(ctx, h, Shell(serial, "stop b2g")).code != 0
  {
    var s := AdbShell(ctx, h, serial, "stop b2g");
    Run(s.trace, if s.result.Err? then Err(s.result.error) else Ok(()))
  }

  /** `start_b2g`: one `adb shell start b2g`; the device's exit code is ignored. */
  function StartB2g(ctx: Ctx, h: seq<Event>, serial: Option<string>): (r: Run<()>)
    ensures r.trace == [Shell(serial, "start b2g")]
    ensures r.result.Err? <==> Ask(ctx, h, Shell(serial, "start b2g")).code != 0
  {
    var s := AdbShell(ctx, h, serial, "start b2g");
    Run(s.trace, if s.result.Err? then Err(s.result.error) else Ok(()))
  }
}

=== FILE: backup_restore.dfy ===
/** `BackupRestoreHelper` (b2g_util/backup_restore_profile.py): copies the
    Firefox OS user profile, Wi-Fi settings and optionally the SD card off a
    device into a local folder, and pushes such a folder back. */
module BackupRestore {
  import opened Wrappers
  import opened Text
  import opened Trace
  import opened Adb

  // File and folder names.
  const ProfileIniFile: string := "profiles.ini"
  const CompatibilityIniFile: string := "compatibility.ini"
  const PrefsJsFile: string := "prefs.js"
  const LocalSdcardDir: string := "sdcard"
  const LocalWifiDir: string := "wifi"
  const LocalWifiFile: string := "wifi/wpa_supplicant.conf"
  const LocalB2gDir: string := "b2g-mozilla"
  const LocalDataDir: string := "data-local"
  const RemoteSdcardDir: string := "/sdcard/"
  const RemoteWifiFile: string := "/data/misc/wifi/wpa_supplicant.conf"
  const RemoteWifiOwner: string := "system:wifi"
  const RemoteB2gDir: string := "/data/b2g/mozilla"
  const RemoteDataDir: string := "/data/local"
  const TempPrefix: string := "backup_restore_"

  // ---------------------------------------------------------------------------
  // Settings

  datatype Options = Options(
    serial: Option<string>,
    backup: bool,
    restore: bool,
    sdcard: bool,
    noReboot: bool,
    profileDir: string,
    skipVersionCheck: bool)

  /** The settings a fresh helper starts with. */
  const Defaults: Options := Options(None, false, false, false, false, "mozilla-profile", false)

  predicate Exclusive(o: Options) {
    !(o.backup && o.restore)
  }

  /** `set_backup`: turning backup on turns restore off; turning it off
      touches nothing else. */
  function SetBackup(o: Options, flag: bool): (r: Options)
    ensures r.backup == flag
    ensures r.restore == (o.restore && !flag)
    ensures r.(backup := o.backup, restore := o.restore) == o
  {
    if flag then o.(backup := true, restore := false) else o.(backup := false)
  }

  /** `set_restore`: the mirror image of `set_backup`. */
  function SetRestore(o: Options, flag: bool): (r: Options)
    ensures r.restore == flag
    ensures r.backup == (o.backup && !flag)
    ensures r.(backup := o.backup, restore := o.restore) == o
  {
    if flag then o.(restore := true, backup := false) else o.(restore := false)
  }

  datatype FlagUpdate = BackupFlag(flag: bool) | RestoreFlag(flag: bool)

  function ApplyUpdates(o: Options, us: seq<FlagUpdate>): Options
    decreases |us|
  {
    if |us| == 0 then o
    else
      var o' := match us[0]
        case BackupFlag(f) => SetBackup(o, f)
        case RestoreFlag(f) => SetRestore(o, f);
      ApplyUpdates(o', us[1..])
  }

  /** However the two setters are called, backup and restore are never both
      on, and no other setting changes. */
  lemma {:induction false} UpdatesKeepExclusive(o: Options, us: seq<FlagUpdate>)
    requires Exclusive(o)
    ensures Exclusive(ApplyUpdates(o, us))
    ensures ApplyUpdates(o, us).(backup := o.backup, restore := o.restore) == o
    decreases |us|
  {
    if |us| > 0 {
      var o' := match us[0]
        case BackupFlag(f) => SetBackup(o, f)
        case RestoreFlag(f) => SetRestore(o, f);
      UpdatesKeepExclusive(o', us[1..]);
    }
  }

  // ---------------------------------------------------------------------------
  // Versions

  /** `v.split('.')[0]`. */
  function MajorText(v: string): (r: string)
    ensures StartsWith(v, r) && '.' !in r
    ensures |r| == |v| || v[|r|] == '.'
  {
    v[..FirstIndex(v, '.')]
  }

  /** `float(v.split('.')[0])`, for majors written as decimal digits. */
  function Major(v: string): Option<nat> {
    var t := MajorText(v);
    if |t| > 0 && AllDigits(t) then Some(ParseNat(t)) else None
  }

  /** `_compare_version`: a backup may go onto a device whose major version
      is at least the backup's; otherwise it raises. */
  function CompareVersion(backup: string, device: string): (r: Result<bool, Error>)
    ensures r.Ok? ==> r.value
    ensures r.Ok? <==> Major(backup).Some? && Major(device).Some? && Major(backup).value <= Major(device).value
    ensures Major(backup).None? ==> r == Err(MalformedVersion(backup))
    ensures Major(backup).Some? && Major(device).None? ==> r == Err(MalformedVersion(device))
    ensures Major(backup).Some? && Major(device).Some? && r.Err? ==>
              r.error == BackupNewer(Major(backup).value, Major(device).value)
  {
    match (Major(backup), Major(device))
    case (None, _) => Err(MalformedVersion(backup))
    case (_, None) => Err(MalformedVersion(device))
    case (Some(b), Some(d)) => if b <= d then Ok(true) else Err(BackupNewer(b, d))
  }

  lemma MajorOf(v: string, digits: string)
    requires |digits| > 0 && AllDigits(digits)
    requires |digits| < |v| && v[..|digits|] == digits && v[|digits|] == '.'
    ensures Major(v) == Some(ParseNat(digits))
  {
    forall i | 0 <= i < |digits|
      ensures v[i] != '.'
    {
      assert v[i] == digits[i];
    }
    assert MajorText(v) == digits;
  }

  /** Versions `B.x` and `D.y` compare by their majors `B` and `D` alone. */
  lemma CompareVersionMajors(b: nat, d: nat, rb: string, rd: string)
    ensures CompareVersion(NatToString(b) + "." + rb, NatToString(d) + "." + rd)
            == if b <= d then Ok(true) else Err(BackupNewer(b, d))
  {
    var vb, vd := NatToString(b) + "." + rb, NatToString(d) + "." + rd;
    assert vb[..|NatToString(b)|] == NatToString(b) && vd[..|NatToString(d)|] == NatToString(d);
    MajorOf(vb, NatToString(b));
    MajorOf(vd, NatToString(d));
    ParseNatToString(b);
    ParseNatToString(d);
  }

  lemma ParseTwoDigits(s: string)
    requires |s| == 2 && AllDigits(s)
    ensures ParseNat(s) == DigitValue(s[0]) * 10 + DigitValue(s[1])
  {
    var s1 := s[..1];
    assert s[..|s| - 1] == s1 && s1[..|s1| - 1] == [];
    assert ParseNat(s1) == ParseNat([]) * 10 + DigitValue(s[0]);
  }

  lemma CompareByDigits(b: string, d: string, db: string, dd: string)
    requires |db| == 2 && AllDigits(db) && |b| > 2 && b[..2] == db && b[2] == '.'
    requires |dd| == 2 && AllDigits(dd) && |d| > 2 && d[..2] == dd && d[2] == '.'
    ensures var mb := DigitValue(db[0]) * 10 + DigitValue(db[1]);
            var md := DigitValue(dd[0]) * 10 + DigitValue(dd[1]);
            CompareVersion(b, d) == if mb <= md then Ok(true) else Err(BackupNewer(mb, md))
  {
    MajorOf(b, db);
    MajorOf(d, dd);
    ParseTwoDigits(db);
    ParseTwoDigits(dd);
  }

  /** Same major: `37.0_20150808` onto `37.0_20150801` is allowed. */
  lemma CompareVersionEqualMajor(b: string, d: string)
    requires b == "37.0_20150808" && d == "37.0_20150801"
    ensures CompareVersion(b, d) == Ok(true)
  {
    CompareByDigits(b, d, "37", "37");
  }

  /** An older backup is allowed: 41 onto 42. */
  lemma CompareVersionOlderBackup(b: string, d: string)
    requires b == "41.0a1_20150624160209/20150624160209"
    requires d == "42.0a1_20150803030210/20150803030210"
    ensures CompareVersion(b, d) == Ok(true)
  {
    assert b[..2] == [b[0], b[1]] == "41" && b[2] == '.';
    assert d[..2] == [d[0], d[1]] == "42" && d[2] == '.';
    CompareByDigits(b, d, "41", "42");
  }

  /** A newer backup raises: 37 onto 34. */
  lemma CompareVersionNewerBackup(b: string, d: string)
    requires b == "37.0_20150801" && d == "34.0a1_20150808"
    ensures CompareVersion(b, d) == Err(BackupNewer(37, 34))
  {
    CompareByDigits(b, d, "37", "34");
  }

  // ---------------------------------------------------------------------------
  // ini files

  /** What `ConfigParser.read(path)` leaves: nothing for a file it cannot
      open, `None` when it rejects the text. */
  function LoadIni(ctx: Ctx, h: seq<Event>, path: string): Option<Ini> {
    var a := Ask(ctx, h, ReadFile(path));
    if a.code != 0 then Some(map[]) else ctx.parseIni(a.text)
  }

  /** `ini` has option `key` (already lower-cased) in `section`. */
  predicate HasOption(ini: Option<Ini>, section: string, key: string) {
    ini.Some? && section in ini.value && key in ini.value[section]
  }

  /** `ConfigParser.get(section, option)` on the file at `path`; option
      names are case-insensitive, and any failure is re-raised as one
      exception naming the file. */
  function GetIniOption(ctx: Ctx, h: seq<Event>, path: string, section: string, option: string): (r: Run<string>)
    ensures r.trace == [ReadFile(path)]
    ensures r.result.Ok? <==> HasOption(LoadIni(ctx, h, path), section, Lower(option))
    ensures r.result.Ok? ==> r.result.value == LoadIni(ctx, h, path).value[section][Lower(option)]
    ensures r.result.Err? ==> r.result.error == IniLookup(path)
  {
    var ini := LoadIni(ctx, h, path);
    var key := Lower(option);
    if ini.Some? && section in ini.value && key in ini.value[section] then
      Run([ReadFile(path)], Ok(ini.value[section][key]))
    else
      Run([ReadFile(path)], Err(IniLookup(path)))
  }

  /** `_get_profile_path`: `Path` of section `Profile0`. */
  function GetProfilePath(ctx: Ctx, h: seq<Event>, path: string): (r: Run<string>)
    ensures r.trace == [ReadFile(path)]
    ensures r.result.Ok? <==> HasOption(LoadIni(ctx, h, path), "Profile0", "path")
    ensures r.result.Ok? ==> r.result.value == LoadIni(ctx, h, path).value["Profile0"]["path"]
    ensures r.result.Err? ==> r.result.error == IniLookup(path)
  {
    assert Lower("Path") == "path";
    GetIniOption(ctx, h, path, "Profile0", "Path")
  }

  /** `_get_version_from_profile`: `LastVersion` of section `Compatibility`. */
  function GetVersionFromProfile(ctx: Ctx, h: seq<Event>, path: string): (r: Run<string>)
    ensures r.trace == [ReadFile(path)]
    ensures r.result.Ok? <==> HasOption(LoadIni(ctx, h, path), "Compatibility", "lastversion")
    ensures r.result.Ok? ==> r.result.value == LoadIni(ctx, h, path).value["Compatibility"]["lastversion"]
    ensures r.result.Err? ==> r.result.error == IniLookup(path)
  {
    assert Lower("LastVersion") == "lastversion";
    GetIniOption(ctx, h, path, "Compatibility", "LastVersion")
  }

  /** A file that cannot be read leaves the parser empty, so every lookup
      raises. */
  lemma UnreadableIniRaises(ctx: Ctx, h: seq<Event>, path: string, section: string, option: string)
    requires Ask(ctx, h, ReadFile(path)).code != 0
    ensures GetIniOption(ctx, h, path, section, option).result == Err(IniLookup(path))
  {
  }

  /** The profile folder is read back from a `profiles.ini` that names it. */
  lemma ProfilePathFound(ctx: Ctx, h: seq<Event>, path: string, ini: Ini, folder: string)
    requires Ask(ctx, h, ReadFile(path)).code == 0
    requires ctx.parseIni(Ask(ctx, h, ReadFile(path)).text) == Some(ini)
    requires "Profile0" in ini && ini["Profile0"] == map["path" := folder]
    ensures GetProfilePath(ctx, h, path).result == Ok(folder)
  {
  }

  // ---------------------------------------------------------------------------
  // prefs.js

  const MstoneKey: string := "gecko.mstone"

  /** The lines of `prefs.js` kept by `backup_profile`: those not mentioning
      `gecko.mstone`. */
  function StripMstone(lines: seq<string>): (r: seq<string>)
    ensures |r| <= |lines|
    ensures forall i | 0 <= i < |r| :: !Contains(r[i], MstoneKey)
    ensures forall l :: l in r <==> l in lines && !Contains(l, MstoneKey)
    decreases |lines|
  {
    if |lines| == 0 then []
    else
      assert forall l :: l in lines <==> l == lines[0] || l in lines[1..] by {
        assert lines == [lines[0]] + lines[1..];
      }
      (if Contains(lines[0], MstoneKey) then [] else [lines[0]]) + StripMstone(lines[1..])
  }

  /** The rewrite works line by line, so it keeps the original order. */
  lemma {:induction false} StripMstoneAppend(a: seq<string>, b: seq<string>)
    ensures StripMstone(a + b) == StripMstone(a) + StripMstone(b)
    decreases |a|
  {
    if |a| == 0 {
      assert a + b == b;
    } else {
      assert (a + b)[0] == a[0] && (a + b)[1..] == a[1..] + b;
      StripMstoneAppend(a[1..], b);
    }
  }

  /** Lines without the key pass through unchanged. */
  lemma {:induction false} StripMstoneClean(lines: seq<string>)
    requires forall i | 0 <= i < |lines| :: !Contains(lines[i], MstoneKey)
    ensures StripMstone(lines) == lines
    decreases |lines|
  {
    if |lines| > 0 {
      StripMstoneClean(lines[1..]);
    }
  }

  /** Rewriting twice is rewriting once. */
  lemma StripMstoneIdempotent(lines: seq<string>)
    ensures StripMstone(StripMstone(lines)) == StripMstone(lines)
  {
    StripMstoneClean(StripMstone(lines));
  }

  /** The new contents of `prefs.js`. */
  function RewritePrefs(text: string): string {
    Concat(StripMstone(Lines(text)))
  }

  // ---------------------------------------------------------------------------
  // SD card

  const SdcardProbe: string := "ls -d /sdcard/; echo $?"

  function DropEmpty(parts: seq<string>): (r: seq<string>)
    ensures forall i | 0 <= i < |r| :: |r[i]| > 0
    ensures forall x :: x in r <==> x in parts && |x| > 0
    decreases |parts|
  {
    if |parts| == 0 then []
    else
      assert forall x :: x in parts <==> x == parts[0] || x in parts[1..] by {
        assert parts == [parts[0]] + parts[1..];
      }
      (if |parts[0]| == 0 then [] else [parts[0]]) + DropEmpty(parts[1..])
  }

  /** `[item for item in re.split(r'\n+', re.sub(r'\r+', '', s)) if item]`. */
  function NonEmptyLines(s: string): seq<string> {
    DropEmpty(Split(RemoveChar(s, '\r'), '\n'))
  }

  /** What follows the probe in `backup_sdcard`, given the probe's non-empty
      lines; a failed pull is only logged. */
  function SdcardCopy(ctx: Ctx, h: seq<Event>, localDir: string, serial: Option<string>, items: seq<string>)
    : (r: Run<()>)
    ensures forall e | e in r.trace :: e.MakeDirs? || e.Pull?
    ensures NoneOf(r.trace, PushKind)
    ensures var target := PathJoin(localDir, LocalSdcardDir);
            r.trace == if |items| > 0 && items[|items| - 1] == "0"
                       then [MakeDirs(target), Pull(serial, RemoteSdcardDir, target)] else []
    ensures r.result.Err? <==> |items| == 0
    ensures r.result.Err? ==> r.result.error == IndexOutOfRange
  {
    if |items| == 0 then Run([], Err(IndexOutOfRange))
    else if items[|items| - 1] != "0" then Run([], Ok(()))
    else
      var target := PathJoin(localDir, LocalSdcardDir);
      var p := AdbPull(ctx, h + [MakeDirs(target)], serial, RemoteSdcardDir, target);
      Run([MakeDirs(target)] + p.trace, Ok(()))
  }

  /** The non-empty lines the probe printed on the device. */
  function ProbeLines(ctx: Ctx, h: seq<Event>, serial: Option<string>): seq<string> {
    NonEmptyLines(SplitShellOutput(Ask(ctx, h, Shell(serial, SdcardProbe)).text).output)
  }

  /** `backup_sdcard` after the probe answered with `output`. */
  function SdcardAfterProbe(ctx: Ctx, h: seq<Event>, localDir: string, serial: Option<string>, output: string)
    : (r: Run<()>)
    ensures forall e | e in r.trace :: e.MakeDirs? || e.Pull?
    ensures NoneOf(r.trace, PushKind)
    ensures var items := NonEmptyLines(output);
            && (r.result.Err? <==> |items| == 0)
            && (r.result.Err? ==> r.trace == [])
            && (r.result.Ok? ==> (Pull(serial, RemoteSdcardDir, PathJoin(localDir, LocalSdcardDir)) in r.trace
                                 <==> items[|items| - 1] == "0"))
  {
    SdcardCopy(ctx, h, localDir, serial, NonEmptyLines(output))
  }

  /** `backup_sdcard`: copies `/sdcard/` only when the probe's last line is
      `0`; a failed pull is only logged, so the errors are those of `adb`
      itself and of a probe that printed nothing. */
  method BackupSdcard(ctx: Ctx, h: seq<Event>, localDir: string, serial: Option<string>) returns (r: Run<()>)
    ensures |r.trace| > 0 && r.trace[0] == Shell(serial, SdcardProbe)
    ensures forall e | e in r.trace :: e.Shell? || e.MakeDirs? || e.Pull?
    ensures NoneOf(r.trace, PushKind)
    ensures r.result.Ok? <==>
              Ask(ctx, h, Shell(serial, SdcardProbe)).code == 0 && |ProbeLines(ctx, h, serial)| > 0
    ensures r.result.Err? ==> |r.trace| == 1
    ensures r.result.Ok? ==>
              var items := ProbeLines(ctx, h, serial);
              (Pull(serial, RemoteSdcardDir, PathJoin(localDir, LocalSdcardDir)) in r.trace
               <==> |items| > 0 && items[|items| - 1] == "0")
  {
    var s := AdbShell(ctx, h, serial, SdcardProbe);
    if s.result.Err? {
      return Fail(s);
    }
    var probe := Shell(serial, SdcardProbe);
    var c := SdcardAfterProbe(ctx, h + [probe], localDir, serial, s.result.value.output);
    SdcardJoin(probe, c, ProbeLines(ctx, h, serial), Pull(serial, RemoteSdcardDir, PathJoin(localDir, LocalSdcardDir)));
    r := Run([probe] + c.trace, c.result);
  }

  /** The probe followed by the copy it decided on. */
  lemma SdcardJoin(probe: Event, c: Run<()>, items: seq<string>, pull: Event)
    requires probe.Shell?
    requires forall e | e in c.trace :: e.MakeDirs? || e.Pull?
    requires NoneOf(c.trace, PushKind)
    requires c.result.Err? <==> |items| == 0
    requires c.result.Err? ==> c.trace == []
    requires c.result.Ok? ==> (pull in c.trace <==> items[|items| - 1] == "0")
    ensures var t := [probe] + c.trace;
            && |t| > 0 && t[0] == probe
            && (forall e | e in t :: e.Shell? || e.MakeDirs? || e.Pull?)
            && NoneOf(t, PushKind)
            && (c.result.Err? ==> |t| == 1)
            && (c.result.Ok? && !pull.Shell? ==> (pull in t <==> items[|items| - 1] == "0"))
  {
    NoneOfAppend([probe], c.trace, PushKind);
  }

  /** `restore_sdcard`: pushes the local copy when there is one; a failed
      push is only logged. */
  function RestoreSdcard(ctx: Ctx, h: seq<Event>, localDir: string, serial: Option<string>): (r: Run<()>)
    ensures r.result.Ok?
    ensures var target := PathJoin(localDir, LocalSdcardDir);
            r.trace == [IsDir(target)] +
              (if Ask(ctx, h, IsDir(target)).code == 0 then [Push(serial, target, RemoteSdcardDir)] else [])
  {
    var target := PathJoin(localDir, LocalSdcardDir);
    if Ask(ctx, h, IsDir(target)).code != 0 then Run([IsDir(target)], Ok(()))
    else
      var p := AdbPush(ctx, h + [IsDir(target)], serial, target, RemoteSdcardDir);
      Run([IsDir(target)] + p.trace, Ok(()))
  }

  // ---------------------------------------------------------------------------
  // Profile backup

  /** The three pulls of `backup_profile`, each into a folder made just
      before it. */
  function ProfilePulls(localDir: string, serial: Option<string>): seq<Event> {
    var wifiDir := PathJoin(localDir, LocalWifiDir);
    var b2gDir := PathJoin(localDir, LocalB2gDir);
    var dataDir := PathJoin(localDir, LocalDataDir);
    [ MakeDirs(wifiDir), Pull(serial, RemoteWifiFile, PathJoin(localDir, LocalWifiFile)),
      MakeDirs(b2gDir), Pull(serial, RemoteB2gDir, b2gDir),
      MakeDirs(dataDir), Pull(serial, RemoteDataDir, dataDir) ]
  }

  /** The `prefs.js` step: read the copied file and write it back without
      its `gecko.mstone` lines. */
  function RewritePrefsFile(ctx: Ctx, h: seq<Event>, prefs: string): (r: Run<()>)
    ensures var a := Ask(ctx, h, ReadFile(prefs));
            r == if a.code != 0 then Run([ReadFile(prefs)], Err(IoError(prefs)))
                 else Run([ReadFile(prefs), WriteFile(prefs, RewritePrefs(a.text))], Ok(()))
  {
    var a := Ask(ctx, h, ReadFile(prefs));
    if a.code != 0 then Run([ReadFile(prefs)], Err(IoError(prefs)))
    else Run([ReadFile(prefs), WriteFile(prefs, RewritePrefs(a.text))], Ok(()))
  }

  lemma ProfilePullsKinds(localDir: string, serial: Option<string>)
    ensures NoneOf(ProfilePulls(localDir, serial), PushKind) && NoneOf(ProfilePulls(localDir, serial), CopyKind)
  {
  }

  /** The local half of `backup_profile`: read `profiles.ini` out of the
      copy, then rewrite the profile's `prefs.js`. */
  function ProfilePrefs(ctx: Ctx, h: seq<Event>, b2gDir: string): (r: Run<()>)
    ensures |r.trace| >= 1 && r.trace[0] == ReadFile(PathJoin(b2gDir, ProfileIniFile))
    ensures NoneOf(r.trace, PushKind) && NoneOf(r.trace, CopyKind)
    ensures r.result.Err? ==>
              r.result.error == IniLookup(PathJoin(b2gDir, ProfileIniFile)) || r.result.error.IoError?
    ensures r.result.Ok? ==>
              && |r.trace| == 3 && r.trace[1].ReadFile?
              && r.trace[2] == WriteFile(r.trace[1].path, RewritePrefs(Ask(ctx, h + r.trace[..1], r.trace[1]).text))
    ensures var pp := GetProfilePath(ctx, h, PathJoin(b2gDir, ProfileIniFile));
            r.result.Ok? ==> pp.result.Ok? && r.trace[1] == ReadFile(PathJoin(PathJoin(b2gDir, pp.result.value), PrefsJsFile))
  {
    var ini := PathJoin(b2gDir, ProfileIniFile);
    var pp := GetProfilePath(ctx, h, ini);
    if pp.result.Err? then Run([ReadFile(ini)], Err(pp.result.error))
    else
      var prefs := PathJoin(PathJoin(b2gDir, pp.result.value), PrefsJsFile);
      var w := RewritePrefsFile(ctx, h + [ReadFile(ini)], prefs);
      var t := [ReadFile(ini)] + w.trace;
      assert t[..1] == [ReadFile(ini)];
      Run(t, w.result)
  }

  /** `backup_profile`: the three pulls always all happen and their failures
      are only logged; what can fail is reading `profiles.ini` and `prefs.js`
      out of the copy, and `prefs.js` is written back as `RewritePrefs` of
      what was read. */
  function BackupProfile(ctx: Ctx, h: seq<Event>, localDir: string, serial: Option<string>): (r: Run<()>)
    ensures var ini := PathJoin(PathJoin(localDir, LocalB2gDir), ProfileIniFile);
            |r.trace| >= 7 && r.trace[..6] == ProfilePulls(localDir, serial) && r.trace[6] == ReadFile(ini)
    ensures NoneOf(r.trace, PushKind) && NoneOf(r.trace, CopyKind)
    ensures var ini := PathJoin(PathJoin(localDir, LocalB2gDir), ProfileIniFile);
            r.result.Err? ==> r.result.error == IniLookup(ini) || r.result.error.IoError?
    ensures r.result.Ok? ==>
              && |r.trace| == 9 && r.trace[7].ReadFile?
              && r.trace[8] == WriteFile(r.trace[7].path, RewritePrefs(Ask(ctx, h + r.trace[..7], r.trace[7]).text))
    ensures var b2g := PathJoin(localDir, LocalB2gDir);
            var pp := GetProfilePath(ctx, h + ProfilePulls(localDir, serial), PathJoin(b2g, ProfileIniFile));
            r.result.Ok? ==> pp.result.Ok? && r.trace[7] == ReadFile(PathJoin(PathJoin(b2g, pp.result.value), PrefsJsFile))
  {
    var t := ProfilePulls(localDir, serial);
    ProfilePullsKinds(localDir, serial);
    var p := ProfilePrefs(ctx, h + t, PathJoin(localDir, LocalB2gDir));
    NoneOfAppend(t, p.trace, PushKind);
    NoneOfAppend(t, p.trace, CopyKind);
    PrefixShift(h, t, p.trace);
    After(t, p)
  }

  /** Indexing into `t + p` past the six pulls of `t`. */
  lemma PrefixShift(h: seq<Event>, t: seq<Event>, p: seq<Event>)
    requires |t| == 6 && |p| >= 1
    ensures (t + p)[..6] == t && (t + p)[6] == p[0]
    ensures |p| >= 2 ==> (t + p)[7] == p[1] && h + (t + p)[..7] == (h + t) + p[..1]
    ensures |p| >= 3 ==> (t + p)[8] == p[2]
  {
    if |p| >= 2 {
      assert (t + p)[..7] == t + p[..1];
    }
  }

  /** Even when every pull fails the backup goes on until the copy of
      `profiles.ini` is read; a missing copy then raises. */
  lemma BackupProfileMissingIni(ctx: Ctx, h: seq<Event>, localDir: string, serial: Option<string>)
    requires Ask(ctx, h + ProfilePulls(localDir, serial),
                 ReadFile(PathJoin(PathJoin(localDir, LocalB2gDir), ProfileIniFile))).code != 0
    ensures BackupProfile(ctx, h, localDir, serial).result
            == Err(IniLookup(PathJoin(PathJoin(localDir, LocalB2gDir), ProfileIniFile)))
  {
  }

  // ---------------------------------------------------------------------------
  // Version check

  /** The part of `_check_profile_version` inside `try`: pull the device's
      `profiles.ini`, then its `compatibility.ini`, and compare. */
  function DeviceVersionCheck(ctx: Ctx, h: seq<Event>, tmp: string, serial: Option<string>, backupVersion: string)
    : (r: Run<bool>)
    ensures |r.trace| > 0 && r.trace[0] == Pull(serial, PathJoin(RemoteB2gDir, ProfileIniFile), tmp)
    ensures QuietOnDevice(r.trace)
    ensures r.result.Ok? ==> r.result.value && Major(backupVersion).Some?
    ensures var source := PathJoin(RemoteB2gDir, ProfileIniFile);
            Ask(ctx, h, Pull(serial, source, tmp)).code != 0 ==>
              r == Run([Pull(serial, source, tmp)], Err(PullFailed(source)))
    ensures var pull := Pull(serial, PathJoin(RemoteB2gDir, ProfileIniFile), tmp);
            var file := PathJoin(tmp, ProfileIniFile);
            Ask(ctx, h, pull).code == 0 && !HasOption(LoadIni(ctx, h + [pull], file), "Profile0", "path") ==>
              r == Run([pull, ReadFile(file)], Err(IniLookup(file)))
    ensures var pull := Pull(serial, PathJoin(RemoteB2gDir, ProfileIniFile), tmp);
            var file := PathJoin(tmp, ProfileIniFile);
            var ini := LoadIni(ctx, h + [pull], file);
            Ask(ctx, h, pull).code == 0 && HasOption(ini, "Profile0", "path") ==>
              var c := CompareWithDevice(ctx, h + [pull, ReadFile(file)], tmp, serial,
                                         ini.value["Profile0"]["path"], backupVersion);
              r == Run([pull, ReadFile(file)] + c.trace, c.result)
    ensures r.result.Err? && r.result.error.BackupNewer? ==>
              Major(backupVersion).Some? &&
              r.result.error.backupMajor == Major(backupVersion).value &&
              r.result.error.deviceMajor < r.result.error.backupMajor
  {
    var iniSource := PathJoin(RemoteB2gDir, ProfileIniFile);
    var p1 := AdbPull(ctx, h, serial, iniSource, tmp);
    if p1.result.Err? then Run(p1.trace, Err(PullFailed(iniSource)))
    else
      var file := PathJoin(tmp, ProfileIniFile);
      var rp := GetProfilePath(ctx, h + p1.trace, file);
      var t1 := p1.trace + rp.trace;
      assert t1 == [Pull(serial, iniSource, tmp), ReadFile(file)];
      QuietPullRead(p1.trace, rp.trace);
      if rp.result.Err? then Run(t1, Err(rp.result.error))
      else
        var c := CompareWithDevice(ctx, h + t1, tmp, serial, rp.result.value, backupVersion);
        QuietAppend(t1, c.trace);
        Run(t1 + c.trace, c.result)
  }

  /** Pull `compatibility.ini` of the device's profile and compare. */
  function CompareWithDevice(ctx: Ctx, h: seq<Event>, tmp: string, serial: Option<string>, profile: string,
                             backupVersion: string): (r: Run<bool>)
    ensures QuietOnDevice(r.trace)
    ensures r.result.Ok? ==> r.result.value && Major(backupVersion).Some?
    ensures r.result.Err? && r.result.error.BackupNewer? ==>
              Major(backupVersion).Some? &&
              r.result.error.backupMajor == Major(backupVersion).value &&
              r.result.error.deviceMajor < r.result.error.backupMajor
    ensures var source := PathJoin(PathJoin(RemoteB2gDir, profile), CompatibilityIniFile);
            Ask(ctx, h, Pull(serial, source, tmp)).code != 0 ==>
              r == Run([Pull(serial, source, tmp)], Err(PullFailed(source)))
    ensures var pull := Pull(serial, PathJoin(PathJoin(RemoteB2gDir, profile), CompatibilityIniFile), tmp);
            var file := PathJoin(tmp, CompatibilityIniFile);
            Ask(ctx, h, pull).code == 0 ==> r.trace == [pull, ReadFile(file)]
    ensures var pull := Pull(serial, PathJoin(PathJoin(RemoteB2gDir, profile), CompatibilityIniFile), tmp);
            var file := PathJoin(tmp, CompatibilityIniFile);
            Ask(ctx, h, pull).code == 0 && !HasOption(LoadIni(ctx, h + [pull], file), "Compatibility", "lastversion") ==>
              r.result == Err(IniLookup(file))
    // the gate: the backup's version against the device's `LastVersion`
    ensures var pull := Pull(serial, PathJoin(PathJoin(RemoteB2gDir, profile), CompatibilityIniFile), tmp);
            var ini := LoadIni(ctx, h + [pull], PathJoin(tmp, CompatibilityIniFile));
            Ask(ctx, h, pull).code == 0 && HasOption(ini, "Compatibility", "lastversion") ==>
              r.result == CompareVersion(backupVersion, ini.value["Compatibility"]["lastversion"])
  {
    var compatSource := PathJoin(PathJoin(RemoteB2gDir, profile), CompatibilityIniFile);
    var p2 := AdbPull(ctx, h, serial, compatSource, tmp);
    if p2.result.Err? then Run(p2.trace, Err(PullFailed(compatSource)))
    else
      var dv := GetVersionFromProfile(ctx, h + p2.trace, PathJoin(tmp, CompatibilityIniFile));
      QuietPullRead(p2.trace, dv.trace);
      if dv.result.Err? then Run(p2.trace + dv.trace, Err(dv.result.error))
      else Run(p2.trace + dv.trace, CompareVersion(backupVersion, dv.result.value))
  }

  /** Nothing in `t` changes the device: no shell command, push or copy of
      the destination. */
  predicate QuietOnDevice(t: seq<Event>) {
    NoneOf(t, ShellKind) && NoneOf(t, PushKind) && NoneOf(t, CopyKind)
  }

  lemma QuietAppend(a: seq<Event>, b: seq<Event>)
    requires QuietOnDevice(a) && QuietOnDevice(b)
    ensures QuietOnDevice(a + b)
  {
    NoneOfAppend(a, b, ShellKind);
    NoneOfAppend(a, b, PushKind);
    NoneOfAppend(a, b, CopyKind);
  }

  /** A pull followed by reads of local files is quiet. */
  lemma QuietPullRead(p: seq<Event>, local: seq<Event>)
    requires forall e | e in p :: e.Pull?
    requires forall e | e in local :: e.ReadFile?
    ensures QuietOnDevice(p + local)
  {
    var t := p + local;
    forall i | 0 <= i < |t|
      ensures t[i].Pull? || t[i].ReadFile?
    {
      if i < |p| {
        assert t[i] == p[i] && p[i] in p;
      } else {
        assert t[i] == local[i - |p|] && local[i - |p|] in local;
      }
    }
  }

  /** The temporary folder and the `finally` around the device checks: the
      folder is made first and removed last, whatever the checks do. */
  function CheckWithTemp(ctx: Ctx, h: seq<Event>, serial: Option<string>, backupVersion: string): (r: Run<bool>)
    ensures |r.trace| > 0 && r.trace[0] == MakeTemp(TempPrefix)
    ensures var tmp := Ask(ctx, h, MakeTemp(TempPrefix)).text;
            tmp != "" ==> LastIs(r.trace, RemoveTree(tmp))
    ensures QuietOnDevice(r.trace)
    ensures AllAfter(r.trace, PullKind, MakeTemp(TempPrefix))
    ensures r.result.Ok? ==> r.result.value && Major(backupVersion).Some?
    // the folder and its removal do not change the outcome of the device checks
    ensures var x := MakeTemp(TempPrefix);
            r.result == DeviceVersionCheck(ctx, h + [x], Ask(ctx, h, x).text, serial, backupVersion).result
  {
    var x := MakeTemp(TempPrefix);
    var tmp := Ask(ctx, h, x).text;
    var c := DeviceVersionCheck(ctx, h + [x], tmp, serial, backupVersion);
    var post := Cleanup(tmp);
    BracketEnds(x, c.trace, post);
    BracketNone(x, c.trace, post, ShellKind);
    BracketNone(x, c.trace, post, PushKind);
    BracketNone(x, c.trace, post, CopyKind);
    BracketAfter(x, c.trace, post, PullKind, x);
    Run([x] + c.trace + post, c.result)
  }

  /** The backup's version, read from the local copy. */
  function LocalVersion(ctx: Ctx, h: seq<Event>, localDir: string): (r: Run<string>)
    ensures forall e | e in r.trace :: e.ReadFile?
    ensures var profiles := PathJoin(PathJoin(localDir, LocalB2gDir), ProfileIniFile);
            !HasOption(LoadIni(ctx, h, profiles), "Profile0", "path") ==>
              r == Run([ReadFile(profiles)], Err(IniLookup(profiles)))
    // the value is `LastVersion` of the profile that `profiles.ini` names
    ensures var profiles := PathJoin(PathJoin(localDir, LocalB2gDir), ProfileIniFile);
            var pi := LoadIni(ctx, h, profiles);
            HasOption(pi, "Profile0", "path") ==>
              var compat := PathJoin(PathJoin(PathJoin(localDir, LocalB2gDir), pi.value["Profile0"]["path"]),
                                     CompatibilityIniFile);
              var ci := LoadIni(ctx, h + [ReadFile(profiles)], compat);
              && r.trace == [ReadFile(profiles), ReadFile(compat)]
              && (r.result.Ok? <==> HasOption(ci, "Compatibility", "lastversion"))
              && (r.result.Ok? ==> r.result.value == ci.value["Compatibility"]["lastversion"])
              && (r.result.Err? ==> r.result.error == IniLookup(compat))
  {
    var b2gDir := PathJoin(localDir, LocalB2gDir);
    var lp := GetProfilePath(ctx, h, PathJoin(b2gDir, ProfileIniFile));
    if lp.result.Err? then Fail(lp)
    else
      var compat := PathJoin(PathJoin(b2gDir, lp.result.value), CompatibilityIniFile);
      After(lp.trace, GetVersionFromProfile(ctx, h + lp.trace, compat))
  }

  /** Checks of the local folder touch neither the device nor the pulls. */
  lemma LocalOnly(t: seq<Event>)
    requires forall e | e in t :: e.IsDir? || e.ReadFile?
    ensures QuietOnDevice(t) && NoneOf(t, PullKind)
  {
    forall i | 0 <= i < |t|
      ensures t[i].IsDir? || t[i].ReadFile?
    {
      assert t[i] in t;
    }
  }

  /** `_check_profile_version`. Skipping it issues nothing; a missing local
      folder raises before anything reaches the device; no pull happens
      before the temporary folder exists. */
  function CheckProfileVersion(ctx: Ctx, h: seq<Event>, o: Options, localDir: string, serial: Option<string>)
    : (r: Run<bool>)
    ensures o.skipVersionCheck ==> r == Run([], Ok(true))
    ensures !o.skipVersionCheck && Ask(ctx, h, IsDir(localDir)).code != 0 ==>
              r == Run([IsDir(localDir)], Err(NoLocalProfile(localDir)))
    ensures QuietOnDevice(r.trace)
    ensures AllAfter(r.trace, PullKind, MakeTemp(TempPrefix))
    ensures r.result.Ok? ==> r.result.value
    ensures !o.skipVersionCheck && Ask(ctx, h, IsDir(localDir)).code == 0 ==>
              var lv := LocalVersion(ctx, h + [IsDir(localDir)], localDir);
              var t := [IsDir(localDir)] + lv.trace;
              && (lv.result.Err? ==> r == Run(t, Err(lv.result.error)))
              && (lv.result.Ok? ==> r.result == CheckWithTemp(ctx, h + t, serial, lv.result.value).result)
  {
    if o.skipVersionCheck then Run([], Ok(true))
    else if Ask(ctx, h, IsDir(localDir)).code != 0 then Run([IsDir(localDir)], Err(NoLocalProfile(localDir)))
    else
      var lv := LocalVersion(ctx, h + [IsDir(localDir)], localDir);
      var t := [IsDir(localDir)] + lv.trace;
      LocalOnly(t);
      NoneOfAllAfter(t, PullKind, MakeTemp(TempPrefix));
      if lv.result.Err? then Run(t, Err(lv.result.error))
      else
        var c := CheckWithTemp(ctx, h + t, serial, lv.result.value);
        AllAfterAppend(t, c.trace, PullKind, MakeTemp(TempPrefix));
        QuietAppend(t, c.trace);
        After(t, c)
  }

  /** The ini file at `path`, read after `h`, has `value` for `key` in `section`. */
  predicate IniSays(ctx: Ctx, h: seq<Event>, path: string, section: string, key: string, value: string) {
    var ini := LoadIni(ctx, h, path);
    HasOption(ini, section, key) && ini.value[section][key] == value
  }

  /** The version gate end to end: when the backup's `compatibility.ini`
      says `backupVersion`, both pulls succeed and the device's says
      `deviceVersion`, `_check_profile_version` is `_compare_version` of the
      two; so a backup with a newer major raises, carrying both majors. */
  lemma GateCompares(ctx: Ctx, h: seq<Event>, o: Options, localDir: string, serial: Option<string>,
                     localProfile: string, backupVersion: string,
                     deviceProfile: string, deviceVersion: string)
    requires !o.skipVersionCheck && Ask(ctx, h, IsDir(localDir)).code == 0
    requires var b2gDir := PathJoin(localDir, LocalB2gDir);
             var h1 := h + [IsDir(localDir)];
             && IniSays(ctx, h1, PathJoin(b2gDir, ProfileIniFile), "Profile0", "path", localProfile)
             && IniSays(ctx, h1 + [ReadFile(PathJoin(b2gDir, ProfileIniFile))],
                        PathJoin(PathJoin(b2gDir, localProfile), CompatibilityIniFile),
                        "Compatibility", "lastversion", backupVersion)
    requires var b2gDir := PathJoin(localDir, LocalB2gDir);
             var h3 := h + [IsDir(localDir), ReadFile(PathJoin(b2gDir, ProfileIniFile)),
                            ReadFile(PathJoin(PathJoin(b2gDir, localProfile), CompatibilityIniFile))];
             var tmp := Ask(ctx, h3, MakeTemp(TempPrefix)).text;
             var h4 := h3 + [MakeTemp(TempPrefix)];
             var pull1 := Pull(serial, PathJoin(RemoteB2gDir, ProfileIniFile), tmp);
             var h6 := h4 + [pull1, ReadFile(PathJoin(tmp, ProfileIniFile))];
             var pull2 := Pull(serial, PathJoin(PathJoin(RemoteB2gDir, deviceProfile), CompatibilityIniFile), tmp);
             && Ask(ctx, h4, pull1).code == 0
             && IniSays(ctx, h4 + [pull1], PathJoin(tmp, ProfileIniFile), "Profile0", "path", deviceProfile)
             && Ask(ctx, h6, pull2).code == 0
             && IniSays(ctx, h6 + [pull2], PathJoin(tmp, CompatibilityIniFile),
                        "Compatibility", "lastversion", deviceVersion)
    ensures CheckProfileVersion(ctx, h, o, localDir, serial).result == CompareVersion(backupVersion, deviceVersion)
    ensures CheckProfileVersion(ctx, h, o, localDir, serial).result.Ok? <==>
              Major(backupVersion).Some? && Major(deviceVersion).Some? &&
              Major(backupVersion).value <= Major(deviceVersion).value
  {
    var b2gDir := PathJoin(localDir, LocalB2gDir);
    var h1 := h + [IsDir(localDir)];
    var profiles := PathJoin(b2gDir, ProfileIniFile);
    var compat := PathJoin(PathJoin(b2gDir, localProfile), CompatibilityIniFile);
    var lv := LocalVersion(ctx, h1, localDir);
    assert lv.trace == [ReadFile(profiles), ReadFile(compat)] && lv.result == Ok(backupVersion);
    var t := [IsDir(localDir)] + lv.trace;
    var h3 := h + t;
    assert h3 == h + [IsDir(localDir), ReadFile(profiles), ReadFile(compat)];
    var x := MakeTemp(TempPrefix);
    var tmp := Ask(ctx, h3, x).text;
    var h4 := h3 + [x];
    var pull1 := Pull(serial, PathJoin(RemoteB2gDir, ProfileIniFile), tmp);
    var h6 := h4 + [pull1, ReadFile(PathJoin(tmp, ProfileIniFile))];
    assert h4 + [pull1, ReadFile(PathJoin(tmp, ProfileIniFile))] == h6;
    var c := CompareWithDevice(ctx, h6, tmp, serial, deviceProfile, backupVersion);
    assert c.result == CompareVersion(backupVersion, deviceVersion);
    assert DeviceVersionCheck(ctx, h4, tmp, serial, backupVersion).result == c.result;
    assert CheckWithTemp(ctx, h3, serial, backupVersion).result == c.result;
  }

  // ---------------------------------------------------------------------------
  // Profile restore

  const ChownWifi: string := "chown system:wifi /data/misc/wifi/wpa_supplicant.conf"

  /** Wi-Fi part of `restore_profile`: a failed push is only logged and the
      `chown` (sent without a serial) happens regardless. */
  function RestoreWifi(ctx: Ctx, h: seq<Event>, localDir: string, serial: Option<string>): (r: Run<()>)
    ensures var file := PathJoin(localDir, LocalWifiFile);
            r.trace == [IsFile(file)] +
              (if Ask(ctx, h, IsFile(file)).code == 0
               then [Push(serial, file, RemoteWifiFile), Shell(None, ChownWifi)] else [])
    ensures var file := PathJoin(localDir, LocalWifiFile);
            r.result.Err? <==>
              Ask(ctx, h, IsFile(file)).code == 0 &&
              Ask(ctx, h + [IsFile(file), Push(serial, file, RemoteWifiFile)], Shell(None, ChownWifi)).code != 0
  {
    var file := PathJoin(localDir, LocalWifiFile);
    if Ask(ctx, h, IsFile(file)).code != 0 then Run([IsFile(file)], Ok(()))
    else
      var t := [IsFile(file), Push(serial, file, RemoteWifiFile)];
      var s := AdbShell(ctx, h + t, None, ChownWifi);
      Run(t + s.trace, if s.result.Err? then Err(s.result.error) else Ok(()))
  }

  /** One tree of `restore_profile`: when the local copy exists, the remote
      tree is removed (without a serial) and the copy pushed; a failed push
      is only logged. */
  function RestoreTree(ctx: Ctx, h: seq<Event>, local: string, remote: string, serial: Option<string>)
    : (r: Run<()>)
    ensures Ask(ctx, h, IsDir(local)).code != 0 ==> r == Run([IsDir(local)], Ok(()))
    ensures var rm := Shell(None, "rm -r " + remote);
            Ask(ctx, h, IsDir(local)).code == 0 && Ask(ctx, h + [IsDir(local)], rm).code != 0 ==>
              r.trace == [IsDir(local), rm] && r.result.Err?
    ensures var rm := Shell(None, "rm -r " + remote);
            Ask(ctx, h, IsDir(local)).code == 0 && Ask(ctx, h + [IsDir(local)], rm).code == 0 ==>
              r == Run([IsDir(local), rm, Push(serial, local, remote)], Ok(()))
    ensures TreeEvents(r.trace, remote)
  {
    var rm := Shell(None, "rm -r " + remote);
    TreeTraces(local, remote, serial);
    if Ask(ctx, h, IsDir(local)).code != 0 then Run([IsDir(local)], Ok(()))
    else
      var s := AdbShell(ctx, h + [IsDir(local)], None, "rm -r " + remote);
      if s.result.Err? then Run([IsDir(local), rm], Err(s.result.error))
      else Run([IsDir(local), rm, Push(serial, local, remote)], Ok(()))
  }

  /** What one tree of `restore_profile` may issue. */
  predicate TreeEvents(t: seq<Event>, remote: string) {
    forall i | 0 <= i < |t| :: t[i].IsDir? || t[i] == Shell(None, "rm -r " + remote) || (t[i].Push? && t[i].dest == remote)
  }

  lemma TreeTraces(local: string, remote: string, serial: Option<string>)
    ensures var rm := Shell(None, "rm -r " + remote);
            && TreeEvents([IsDir(local)], remote)
            && TreeEvents([IsDir(local), rm], remote)
            && TreeEvents([IsDir(local), rm, Push(serial, local, remote)], remote)
  {
  }

  /** The commands `restore_profile` may send to the device shell. */
  predicate RestoreCommand(c: string) {
    c == ChownWifi || c == "rm -r " + RemoteB2gDir || c == "rm -r " + RemoteDataDir
  }

  /** What `restore_profile` may issue. */
  predicate RestoreEvent(e: Event) {
    || e.IsDir? || e.IsFile?
    || (e.Shell? && e.serial.None? && RestoreCommand(e.command))
    || (e.Push? && (e.dest == RemoteWifiFile || e.dest == RemoteB2gDir || e.dest == RemoteDataDir))
  }

  predicate RestoreEvents(t: seq<Event>) {
    forall i | 0 <= i < |t| :: RestoreEvent(t[i])
  }

  lemma RestoreEventsAppend(a: seq<Event>, b: seq<Event>)
    requires RestoreEvents(a) && RestoreEvents(b)
    ensures RestoreEvents(a + b)
  {
    assert forall i | |a| <= i < |a + b| :: (a + b)[i] == b[i - |a|];
  }

  lemma TreeEventsRestore(t: seq<Event>, remote: string)
    requires TreeEvents(t, remote)
    requires remote == RemoteB2gDir || remote == RemoteDataDir
    ensures RestoreEvents(t)
  {
  }

  /** `restore_profile` pulls nothing, copies nothing, never touches the SD
      card and never starts b2g. */
  lemma RestoreEventsOnly(t: seq<Event>, localDir: string, serial: Option<string>)
    requires RestoreEvents(t)
    ensures NoneOf(t, PullKind) && NoneOf(t, CopyKind)
    ensures Push(serial, PathJoin(localDir, LocalSdcardDir), RemoteSdcardDir) !in t
    ensures forall i | 0 <= i < |t| :: t[i] != Shell(serial, "start b2g")
  {
    assert !RestoreCommand("start b2g");
    assert RemoteSdcardDir != RemoteWifiFile && RemoteSdcardDir != RemoteB2gDir && RemoteSdcardDir != RemoteDataDir;
  }

  /** `restore_profile`: Wi-Fi, then the profile tree, then `/data/local`,
      each only when its local copy exists. */
  function RestoreProfile(ctx: Ctx, h: seq<Event>, localDir: string, serial: Option<string>): (r: Run<()>)
    ensures |r.trace| > 0 && r.trace[0] == IsDir(localDir)
    ensures Ask(ctx, h, IsDir(localDir)).code != 0 ==> r == Run([IsDir(localDir)], Ok(()))
    ensures RestoreEvents(r.trace)
  {
    if Ask(ctx, h, IsDir(localDir)).code != 0 then Run([IsDir(localDir)], Ok(()))
    else
      var t0 := [IsDir(localDir)];
      var w := RestoreWifi(ctx, h + t0, localDir, serial);
      RestoreEventsAppend(t0, w.trace);
      if w.result.Err? then Run(t0 + w.trace, Err(w.result.error))
      else
        var t1 := t0 + w.trace;
        var rt := RestoreTrees(ctx, h + t1, localDir, serial);
        RestoreEventsAppend(t1, rt.trace);
        After(t1, rt)
  }

  function RestoreTrees(ctx: Ctx, h: seq<Event>, localDir: string, serial: Option<string>): (r: Run<()>)
    ensures RestoreEvents(r.trace)
  {
    var b := RestoreTree(ctx, h, PathJoin(localDir, LocalB2gDir), RemoteB2gDir, serial);
    TreeEventsRestore(b.trace, RemoteB2gDir);
    if b.result.Err? then b
    else
      var d := RestoreTree(ctx, h + b.trace, PathJoin(localDir, LocalDataDir), RemoteDataDir, serial);
      TreeEventsRestore(d.trace, RemoteDataDir);
      RestoreEventsAppend(b.trace, d.trace);
      After(b.trace, d)
  }

  // ---------------------------------------------------------------------------
  // Entry point

  /** The check of the destination folder: an empty one is removed, a
      non-empty one raises. */
  function ClearDestination(ctx: Ctx, h: seq<Event>, dir: string): (r: Run<()>)
    ensures var isDir := Ask(ctx, h, IsDir(dir)).code == 0;
            var ls := Ask(ctx, h + [IsDir(dir)], ListDir(dir));
            r == if !isDir then Run([IsDir(dir)], Ok(()))
                 else if ls.code != 0 then Run([IsDir(dir), ListDir(dir)], Err(IoError(dir)))
                 else if |ls.entries| == 0 then Run([IsDir(dir), ListDir(dir), RemoveTree(dir)], Ok(()))
                 else Run([IsDir(dir), ListDir(dir)], Err(ProfileDirExists(dir)))
  {
    if Ask(ctx, h, IsDir(dir)).code != 0 then Run([IsDir(dir)], Ok(()))
    else
      var ls := Ask(ctx, h + [IsDir(dir)], ListDir(dir));
      if ls.code != 0 then Run([IsDir(dir), ListDir(dir)], Err(IoError(dir)))
      else if |ls.entries| == 0 then Run([IsDir(dir), ListDir(dir), RemoveTree(dir)], Ok(()))
      else Run([IsDir(dir), ListDir(dir)], Err(ProfileDirExists(dir)))
  }

  // The workflow steps from here on are methods: a caller sees only what
  // each step promises, not how it is computed.

  /** The end of the backup: the copy to the destination, then `start b2g`
      unless `no_reboot` is set. A failed copy raises before `start b2g`,
      so B2G is left stopped. */
  method CopyAndStart(ctx: Ctx, h: seq<Event>, o: Options, tmp: string, serial: Option<string>)
    returns (r: Run<()>)
    ensures |r.trace| > 0 && r.trace[0] == CopyTree(tmp, o.profileDir)
    ensures NoneOf(r.trace, PullKind) && NoneOf(r.trace, PushKind)
    ensures Ask(ctx, h, CopyTree(tmp, o.profileDir)).code != 0 ==>
              r == Run([CopyTree(tmp, o.profileDir)], Err(CopyFailed(tmp, o.profileDir)))
    ensures Ask(ctx, h, CopyTree(tmp, o.profileDir)).code == 0 && o.noReboot ==>
              r == Run([CopyTree(tmp, o.profileDir)], Ok(()))
    ensures Ask(ctx, h, CopyTree(tmp, o.profileDir)).code == 0 && !o.noReboot ==>
              r.trace == [CopyTree(tmp, o.profileDir), Shell(serial, "start b2g")]
  {
    var copy := CopyTree(tmp, o.profileDir);
    if Ask(ctx, h, copy).code != 0 {
      r := Run([copy], Err(CopyFailed(tmp, o.profileDir)));
    } else if o.noReboot {
      r := Run([copy], Ok(()));
    } else {
      var start := StartB2g(ctx, h + [copy], serial);
      r := Run([copy] + start.trace, start.result);
    }
  }

  /** The SD card step of the backup: skipped unless `sdcard` is set. */
  method SdcardIfAsked(ctx: Ctx, h: seq<Event>, o: Options, tmp: string, serial: Option<string>)
    returns (r: Run<()>)
    ensures NoneOf(r.trace, PushKind) && NoneOf(r.trace, CopyKind)
    ensures !o.sdcard ==> r == Run([], Ok(()))
    ensures o.sdcard ==> |r.trace| > 0 && r.trace[0] == Shell(serial, SdcardProbe)
  {
    if o.sdcard {
      r := BackupSdcard(ctx, h, tmp, serial);
      SdcardNoCopy(r.trace);
    } else {
      r := Run([], Ok(()));
    }
  }

  lemma SdcardNoCopy(t: seq<Event>)
    requires forall e | e in t :: e.Shell? || e.MakeDirs? || e.Pull?
    ensures NoneOf(t, CopyKind)
  {
    forall i | 0 <= i < |t|
      ensures !t[i].CopyTree?
    {
      assert t[i] in t;
    }
  }

  /** The SD card copy (when asked for) and what follows it. */
  method SdcardAndCopy(ctx: Ctx, h: seq<Event>, o: Options, tmp: string, serial: Option<string>)
    returns (r: Run<()>)
    ensures AllBefore(r.trace, PullKind, CopyTree(tmp, o.profileDir))
    ensures NoneOf(r.trace, PushKind)
    ensures r.result.Ok? ==> CopyTree(tmp, o.profileDir) in r.trace
  {
    var copy := CopyTree(tmp, o.profileDir);
    var sd := SdcardIfAsked(ctx, h, o, tmp, serial);
    NoneOfAbsent(sd.trace, CopyKind, copy);
    AbsentAllBefore(sd.trace, PullKind, copy);
    if sd.result.Err? {
      return sd;
    }
    var c := CopyAndStart(ctx, h + sd.trace, o, tmp, serial);
    NoneOfAllAfter(c.trace, PullKind, copy);
    AllBeforeAppend(sd.trace, c.trace, PullKind, copy);
    NoneOfAppend(sd.trace, c.trace, PushKind);
    assert c.trace[0] in c.trace;
    r := After(sd.trace, c);
  }

  /** The backup proper, once `stop b2g` went through: profile, SD card,
      the copy to the destination, then `start b2g`. */
  method CopyOut(ctx: Ctx, h: seq<Event>, o: Options, tmp: string, serial: Option<string>)
    returns (r: Run<()>)
    ensures AllBefore(r.trace, PullKind, CopyTree(tmp, o.profileDir))
    ensures NoneOf(r.trace, PushKind)
    ensures r.result.Ok? ==> CopyTree(tmp, o.profileDir) in r.trace
  {
    var copy := CopyTree(tmp, o.profileDir);
    var bp := BackupProfile(ctx, h, tmp, serial);
    NoneOfAbsent(bp.trace, CopyKind, copy);
    AbsentAllBefore(bp.trace, PullKind, copy);
    if bp.result.Err? {
      return bp;
    }
    var rest := SdcardAndCopy(ctx, h + bp.trace, o, tmp, serial);
    AllBeforeAppend(bp.trace, rest.trace, PullKind, copy);
    NoneOfAppend(bp.trace, rest.trace, PushKind);
    r := After(bp.trace, rest);
  }

  /** The backup after the destination check: `stop b2g` comes before every pull. */
  method StopAndCopyOut(ctx: Ctx, h: seq<Event>, o: Options, tmp: string, serial: Option<string>)
    returns (r: Run<()>)
    ensures AllAfter(r.trace, PullKind, Shell(serial, "stop b2g"))
    ensures AllBefore(r.trace, PullKind, CopyTree(tmp, o.profileDir))
    ensures NoneOf(r.trace, PushKind)
    ensures r.result.Ok? ==> CopyTree(tmp, o.profileDir) in r.trace
  {
    var stop := StopB2g(ctx, h, serial);
    NoneOfAllAfter(stop.trace, PullKind, Shell(serial, "stop b2g"));
    NoneOfAllAfter(stop.trace, PullKind, CopyTree(tmp, o.profileDir));
    if stop.result.Err? {
      return stop;
    }
    var c := CopyOut(ctx, h + stop.trace, o, tmp, serial);
    AllAfterAppend(stop.trace, c.trace, PullKind, Shell(serial, "stop b2g"));
    AllBeforeAppend(stop.trace, c.trace, PullKind, CopyTree(tmp, o.profileDir));
    NoneOfAppend(stop.trace, c.trace, PushKind);
    r := After(stop.trace, c);
  }

  /** The body of the backup branch of `run`, inside its `try`. */
  method BackupSteps(ctx: Ctx, h: seq<Event>, o: Options, tmp: string, serial: Option<string>)
    returns (r: Run<()>)
    ensures var c := ClearDestination(ctx, h, o.profileDir);
            c.result.Err? ==> r == c
    ensures AllAfter(r.trace, PullKind, Shell(serial, "stop b2g"))
    ensures AllBefore(r.trace, PullKind, CopyTree(tmp, o.profileDir))
    ensures NoneOf(r.trace, PushKind)
    ensures r.result.Ok? ==> CopyTree(tmp, o.profileDir) in r.trace
  {
    var c := ClearDestination(ctx, h, o.profileDir);
    NoneOfAllAfter(c.trace, PullKind, Shell(serial, "stop b2g"));
    NoneOfAllAfter(c.trace, PullKind, CopyTree(tmp, o.profileDir));
    if c.result.Err? {
      return c;
    }
    var s := StopAndCopyOut(ctx, h + c.trace, o, tmp, serial);
    AllAfterAppend(c.trace, s.trace, PullKind, Shell(serial, "stop b2g"));
    AllBeforeAppend(c.trace, s.trace, PullKind, CopyTree(tmp, o.profileDir));
    NoneOfAppend(c.trace, s.trace, PushKind);
    r := After(c.trace, s);
  }

  /** The backup branch of `run`: the temporary folder is made first and
      removed last, whatever happens in between; a non-empty destination
      raises before anything reaches the device. */
  method DoBackup(ctx: Ctx, h: seq<Event>, o: Options, serial: Option<string>) returns (r: Run<()>)
    ensures |r.trace| > 0 && r.trace[0] == MakeTemp(TempPrefix)
    ensures var tmp := Ask(ctx, h, MakeTemp(TempPrefix)).text;
            tmp != "" ==> LastIs(r.trace, RemoveTree(tmp))
    ensures var tmp := Ask(ctx, h, MakeTemp(TempPrefix)).text;
            var h1 := h + [MakeTemp(TempPrefix)];
            var ls := Ask(ctx, h1 + [IsDir(o.profileDir)], ListDir(o.profileDir));
            Ask(ctx, h1, IsDir(o.profileDir)).code == 0 && ls.code == 0 && |ls.entries| > 0 ==>
              r == Run([MakeTemp(TempPrefix), IsDir(o.profileDir), ListDir(o.profileDir)] + Cleanup(tmp),
                       Err(ProfileDirExists(o.profileDir)))
    ensures AllAfter(r.trace, PullKind, Shell(serial, "stop b2g"))
    ensures var tmp := Ask(ctx, h, MakeTemp(TempPrefix)).text;
            AllBefore(r.trace, PullKind, CopyTree(tmp, o.profileDir))
    ensures var tmp := Ask(ctx, h, MakeTemp(TempPrefix)).text;
            r.result.Ok? ==> CopyTree(tmp, o.profileDir) in r.trace
    ensures NoneOf(r.trace, PushKind)
  {
    var x := MakeTemp(TempPrefix);
    var tmp := Ask(ctx, h, x).text;
    var b := BackupSteps(ctx, h + [x], o, tmp, serial);
    var post := Cleanup(tmp);
    var cp := CopyTree(tmp, o.profileDir);
    BracketEnds(x, b.trace, post);
    BracketNone(x, b.trace, post, PushKind);
    BracketAfter(x, b.trace, post, PullKind, Shell(serial, "stop b2g"));
    assert AllBefore([x], PullKind, cp);
    assert AllBefore(post, PullKind, cp);
    AllBeforeAppend([x], b.trace, PullKind, cp);
    AllBeforeAppend([x] + b.trace, post, PullKind, cp);
    assert b.result.Ok? ==> cp in [x] + b.trace + post;
    r := Run([x] + b.trace + post, b.result);
  }

  /** The end of the restore: the SD card (when asked for), then `start
      b2g` unless `no_reboot` is set. */
  method SdcardAndStart(ctx: Ctx, h: seq<Event>, o: Options, serial: Option<string>) returns (r: Run<()>)
    ensures NoneOf(r.trace, PullKind) && NoneOf(r.trace, CopyKind)
    ensures r.result.Ok? ==> (!o.noReboot <==> LastIs(r.trace, Shell(serial, "start b2g")))
    ensures AllBefore(r.trace, PushKind, Push(serial, PathJoin(o.profileDir, LocalSdcardDir), RemoteSdcardDir))
  {
    var sdPush := Push(serial, PathJoin(o.profileDir, LocalSdcardDir), RemoteSdcardDir);
    var sd := if o.sdcard then RestoreSdcard(ctx, h, o.profileDir, serial) else Run([], Ok(()));
    assert sdPush !in sd.trace[..0];
    assert !LastIs(sd.trace, Shell(serial, "start b2g"));
    var start := if !o.noReboot then StartB2g(ctx, h + sd.trace, serial) else Run([], Ok(()));
    NoneOfAllAfter(start.trace, PushKind, sdPush);
    AllBeforeAppend(sd.trace, start.trace, PushKind, sdPush);
    NoneOfAppend(sd.trace, start.trace, PullKind);
    NoneOfAppend(sd.trace, start.trace, CopyKind);
    LastIsAppend(sd.trace, start.trace, Shell(serial, "start b2g"));
    r := Run(sd.trace + start.trace, start.result);
  }

  /** The restore after `stop b2g`: profile, SD card, then `start b2g`. */
  method RestoreAfterStop(ctx: Ctx, h: seq<Event>, o: Options, serial: Option<string>) returns (r: Run<()>)
    ensures NoneOf(r.trace, PullKind) && NoneOf(r.trace, CopyKind)
    ensures r.result.Ok? ==> (!o.noReboot <==> LastIs(r.trace, Shell(serial, "start b2g")))
    ensures AllBefore(r.trace, PushKind, Push(serial, PathJoin(o.profileDir, LocalSdcardDir), RemoteSdcardDir))
  {
    var sdPush := Push(serial, PathJoin(o.profileDir, LocalSdcardDir), RemoteSdcardDir);
    var rp := RestoreProfile(ctx, h, o.profileDir, serial);
    RestoreEventsOnly(rp.trace, o.profileDir, serial);
    AbsentAllBefore(rp.trace, PushKind, sdPush);
    if rp.result.Err? {
      return rp;
    }
    var rest := SdcardAndStart(ctx, h + rp.trace, o, serial);
    AllBeforeAppend(rp.trace, rest.trace, PushKind, sdPush);
    NoneOfAppend(rp.trace, rest.trace, PullKind);
    NoneOfAppend(rp.trace, rest.trace, CopyKind);
    LastIsAppend(rp.trace, rest.trace, Shell(serial, "start b2g"));
    r := After(rp.trace, rest);
  }

  /** The restore after the version check: `stop b2g` comes before every push. */
  method RestoreSteps(ctx: Ctx, h: seq<Event>, o: Options, serial: Option<string>) returns (r: Run<()>)
    ensures NoneOf(r.trace, PullKind) && NoneOf(r.trace, CopyKind)
    ensures AllAfter(r.trace, PushKind, Shell(serial, "stop b2g"))
    ensures |r.trace| > 0 && r.trace[0] == Shell(serial, "stop b2g")
    ensures r.result.Ok? ==> Shell(serial, "stop b2g") in r.trace
    ensures r.result.Ok? ==> (!o.noReboot <==> LastIs(r.trace, Shell(serial, "start b2g")))
    ensures AllBefore(r.trace, PushKind, Push(serial, PathJoin(o.profileDir, LocalSdcardDir), RemoteSdcardDir))
  {
    var sdPush := Push(serial, PathJoin(o.profileDir, LocalSdcardDir), RemoteSdcardDir);
    var x := Shell(serial, "stop b2g");
    var stop := StopB2g(ctx, h, serial);
    if stop.result.Err? {
      StopFirst(x, [], sdPush);
      return Run([x] + [], stop.result);
    }
    var rest := RestoreAfterStop(ctx, h + [x], o, serial);
    StopFirst(x, rest.trace, sdPush);
    LastIsAppend([x], rest.trace, Shell(serial, "start b2g"));
    assert !LastIs([x], Shell(serial, "start b2g"));
    r := Run([x] + rest.trace, rest.result);
  }

  /** A restore tail run after `x`: every push follows `x`. */
  lemma StopFirst(x: Event, t: seq<Event>, sdPush: Event)
    requires x.Shell? && sdPush.Push?
    requires NoneOf(t, PullKind) && NoneOf(t, CopyKind) && AllBefore(t, PushKind, sdPush)
    ensures var t' := [x] + t;
            && NoneOf(t', PullKind) && NoneOf(t', CopyKind)
            && AllAfter(t', PushKind, x) && x in t' && AllBefore(t', PushKind, sdPush)
  {
    NoneOfAllAfter([x], PushKind, x);
    NoneOfAllAfter([x], PushKind, sdPush);
    AllAfterAppend([x], t, PushKind, x);
    AllBeforeAppend([x], t, PushKind, sdPush);
    NoneOfAppend([x], t, PullKind);
    NoneOfAppend([x], t, CopyKind);
  }

  /** The restore branch of `run`: the version check (all its pulls) comes
      before `stop b2g`, every push after it, the SD card push is the last
      push, and `start b2g` ends the run unless `no_reboot` is set. */
  method DoRestore(ctx: Ctx, h: seq<Event>, o: Options, serial: Option<string>) returns (r: Run<()>)
    ensures AllBefore(r.trace, PullKind, Shell(serial, "stop b2g"))
    ensures AllAfter(r.trace, PushKind, Shell(serial, "stop b2g"))
    ensures r.result.Ok? ==> Shell(serial, "stop b2g") in r.trace
    ensures r.result.Ok? ==> (!o.noReboot <==> LastIs(r.trace, Shell(serial, "start b2g")))
    ensures AllBefore(r.trace, PushKind, Push(serial, PathJoin(o.profileDir, LocalSdcardDir), RemoteSdcardDir))
    ensures NoneOf(r.trace, CopyKind)
    // a refused version check ends the restore before the device is touched
    ensures var c := CheckProfileVersion(ctx, h, o, o.profileDir, serial);
            c.result.Err? ==> r == Run(c.trace, Err(c.result.error)) && Shell(serial, "stop b2g") !in r.trace
    ensures var c := CheckProfileVersion(ctx, h, o, o.profileDir, serial);
            c.result.Ok? ==> |c.trace| < |r.trace| && r.trace[..|c.trace|] == c.trace
  {
    var sdPush := Push(serial, PathJoin(o.profileDir, LocalSdcardDir), RemoteSdcardDir);
    var stop := Shell(serial, "stop b2g");
    var c := CheckProfileVersion(ctx, h, o, o.profileDir, serial);
    NoneOfAbsent(c.trace, ShellKind, stop);
    AbsentAllBefore(c.trace, PullKind, stop);
    NoneOfAllAfter(c.trace, PushKind, stop);
    NoneOfAllAfter(c.trace, PushKind, sdPush);
    if c.result.Err? {
      return Fail(c);
    }
    // the check returns True or raises
    var s := RestoreSteps(ctx, h + c.trace, o, serial);
    assert (c.trace + s.trace)[..|c.trace|] == c.trace;
    NoneOfAllAfter(s.trace, PullKind, stop);
    AllBeforeAppend(c.trace, s.trace, PullKind, stop);
    AllAfterAppend(c.trace, s.trace, PushKind, stop);
    AllBeforeAppend(c.trace, s.trace, PushKind, sdPush);
    NoneOfAppend(c.trace, s.trace, CopyKind);
    LastIsAppend(c.trace, s.trace, Shell(serial, "start b2g"));
    r := After(c.trace, s);
  }

  /** `run` once the device is chosen: nothing but `adb root` is issued
      unless root is granted. */
  method RunOnDevice(ctx: Ctx, h: seq<Event>, o: Options, serial: Option<string>) returns (r: Run<()>)
    ensures !AdbRoot(ctx, h, serial).result.value ==> r == Run([Root(serial)], Err(NoRoot))
    ensures !o.backup && !o.restore ==> r.trace == [Root(serial)]
    ensures o.backup ==> NoneOf(r.trace, PushKind)
    ensures !o.backup ==> NoneOf(r.trace, CopyKind)
  {
    var root := AdbRoot(ctx, h, serial);
    if !root.result.value {
      return Run(root.trace, Err(NoRoot));
    }
    if o.backup {
      var b := DoBackup(ctx, h + root.trace, o, serial);
      NoneOfAppend(root.trace, b.trace, PushKind);
      r := After(root.trace, b);
    } else if o.restore {
      var b := DoRestore(ctx, h + root.trace, o, serial);
      NoneOfAppend(root.trace, b.trace, CopyKind);
      r := After(root.trace, b);
    } else {
      r := Run(root.trace, Ok(()));
    }
  }

  /** `run`: the device list comes first; nothing else is issued unless a
      device was chosen, and nothing but `adb root` unless root was granted. */
  method RunHelper(ctx: Ctx, h: seq<Event>, o: Options) returns (r: Run<()>)
    ensures var sel := SelectTarget(ctx, h, o.serial, false);
            sel.result.Err? ==> r.result.Err? && r.trace == sel.trace
    ensures var sel := SelectTarget(ctx, h, o.serial, false);
            sel.result.Ok? && !AdbRoot(ctx, h + sel.trace, sel.result.value).result.value ==>
              r == Run(sel.trace + [Root(sel.result.value)], Err(NoRoot))
    ensures !o.backup && !o.restore ==> QuietOnDevice(r.trace) && NoneOf(r.trace, PullKind)
    ensures o.backup ==> NoneOf(r.trace, PushKind)
    ensures !o.backup ==> NoneOf(r.trace, CopyKind)
  {
    var sel := SelectTarget(ctx, h, o.serial, false);
    if sel.result.Err? {
      ListingsOnly(sel.trace);
      return Fail(sel);
    }
    var d := RunOnDevice(ctx, h + sel.trace, o, sel.result.value);
    RunJoin(sel.trace, d.trace, o, sel.result.value);
    r := After(sel.trace, d);
  }

  /** The listings of `run` followed by what it does on the device. */
  lemma RunJoin(sel: seq<Event>, d: seq<Event>, o: Options, serial: Option<string>)
    requires forall e | e in sel :: e == Devices
    requires !o.backup && !o.restore ==> d == [Root(serial)]
    requires o.backup ==> NoneOf(d, PushKind)
    requires !o.backup ==> NoneOf(d, CopyKind)
    ensures !o.backup && !o.restore ==> QuietOnDevice(sel + d) && NoneOf(sel + d, PullKind)
    ensures o.backup ==> NoneOf(sel + d, PushKind)
    ensures !o.backup ==> NoneOf(sel + d, CopyKind)
  {
    ListingsOnly(sel);
    if o.backup {
      NoneOfAppend(sel, d, PushKind);
    } else {
      NoneOfAppend(sel, d, CopyKind);
      if !o.restore {
        NoneOfAppend(sel, d, PullKind);
        QuietAppend(sel, d);
      }
    }
  }

  /** Device listings neither change the device nor pull from it. */
  lemma ListingsOnly(t: seq<Event>)
    requires forall e | e in t :: e == Devices
    ensures QuietOnDevice(t) && NoneOf(t, PullKind)
  {
    DevicesOnly(t, PullKind);
    DevicesOnly(t, PushKind);
    DevicesOnly(t, CopyKind);
    DevicesOnly(t, ShellKind);
  }
}

=== FILE: certapps.dfy ===
/** `FullPrivilegeResetter` (b2g_util/enable_certapps_devtools.py): turns the
    `devtools.debugger.forbid-certified-apps` preference of the device's
    profile off (to debug certified apps) or back on, restarting B2G when
    the preference file changed. */
module CertApps {
  import opened Wrappers
  import opened Text
  import opened Trace
  import opened Adb

  const ForbidKey: string := "devtools.debugger.forbid-certified-apps"
  const TempPrefix: string := "enablecertapps_"
  const ProfileListing: string := "ls /data/b2g/mozilla/ | grep default"
  const MozillaDir: string := "/data/b2g/mozilla/"

  /** `is_forbid`: the value the preference must have afterwards. */
  function ForbidValue(enable: bool): string {
    if enable then "false" else "true"
  }

  /** The line written for the preference. */
  function SettingLine(enable: bool): (l: string)
    ensures StartsWith(l, "user_pref(\"") && EndsWith(l, ");\n")
  {
    var l := "user_pref(\"" + ForbidKey + "\", " + ForbidValue(enable) + ");\n";
    assert l[..11] == "user_pref(\"";
    assert l[|l| - 3..] == ");\n";
    l
  }

  /** The line is about the preference. */
  predicate Mentions(line: string) {
    Contains(line, ForbidKey)
  }

  /** The line already gives the preference the wanted value. */
  predicate AlreadySet(line: string, enable: bool) {
    Mentions(line) && Contains(line, ForbidValue(enable))
  }

  /** Where the scan stops: at the first line that already has the wanted
      value, or at the end. */
  function StopAt(lines: seq<string>, enable: bool): (k: nat)
    ensures k <= |lines|
    ensures forall i | 0 <= i < k :: !AlreadySet(lines[i], enable)
    ensures k < |lines| ==> AlreadySet(lines[k], enable)
    decreases |lines|
  {
    if |lines| == 0 then 0
    else if AlreadySet(lines[0], enable) then 0
    else 1 + StopAt(lines[1..], enable)
  }

  /** What the scan writes for one line before it stops. */
  function RewriteLine(line: string, enable: bool): string {
    if Mentions(line) then SettingLine(enable) else line
  }

  /** Some line before the stop mentions the preference. */
  predicate MentionedBefore(lines: seq<string>, k: nat)
    requires k <= |lines|
  {
    exists i | 0 <= i < k :: Mentions(lines[i])
  }

  /** The `for line in fr` loop of `set_certapps`: every line before the stop
      is copied, except that lines about the preference are replaced by the
      setting; the line that already has the wanted value ends the loop. */
  method ScanPrefs(lines: seq<string>, enable: bool) returns (written: seq<string>, matched: bool, stopped: bool)
    ensures stopped <==> StopAt(lines, enable) < |lines|
    ensures |written| == StopAt(lines, enable)
    ensures forall i | 0 <= i < |written| :: written[i] == RewriteLine(lines[i], enable)
    ensures matched <==> MentionedBefore(lines, StopAt(lines, enable))
  {
    var k := StopAt(lines, enable);
    written := [];
    matched := false;
    stopped := false;
    var i := 0;
    while i < |lines|
      invariant 0 <= i <= k
      invariant written == RewrittenUpTo(lines, enable, i)
      invariant matched == MentionedBefore(lines, i)
    {
      var line := lines[i];
      MentionedStep(lines, i);
      if Contains(line, ForbidKey) {
        if Contains(line, ForbidValue(enable)) {
          stopped := true;
          break;
        }
        written := written + [SettingLine(enable)];
        matched := true;
      } else {
        written := written + [line];
      }
      i := i + 1;
    }
    RewrittenUpToAt(lines, enable, k);
  }

  /** The lines the scan writes for the first `n` lines when none of them
      stops it. */
  function RewrittenUpTo(lines: seq<string>, enable: bool, n: nat): seq<string>
    requires n <= |lines|
  {
    if n == 0 then [] else RewrittenUpTo(lines, enable, n - 1) + [RewriteLine(lines[n - 1], enable)]
  }

  lemma {:induction false} RewrittenUpToAt(lines: seq<string>, enable: bool, n: nat)
    requires n <= |lines|
    ensures |RewrittenUpTo(lines, enable, n)| == n
    ensures forall i | 0 <= i < n :: RewrittenUpTo(lines, enable, n)[i] == RewriteLine(lines[i], enable)
  {
    if n > 0 {
      RewrittenUpToAt(lines, enable, n - 1);
    }
  }

  lemma MentionedStep(lines: seq<string>, i: nat)
    requires i < |lines|
    ensures MentionedBefore(lines, i + 1) <==> MentionedBefore(lines, i) || Mentions(lines[i])
  {
    if MentionedBefore(lines, i + 1) && !Mentions(lines[i]) {
      var j :| 0 <= j < i + 1 && Mentions(lines[j]);
      assert j < i;
    }
  }

  /** The lines the scan writes before it stops. */
  function Rewritten(lines: seq<string>, enable: bool): (r: seq<string>)
    ensures |r| == StopAt(lines, enable)
    ensures forall i | 0 <= i < |r| :: r[i] == RewriteLine(lines[i], enable)
  {
    var k := StopAt(lines, enable);
    seq(k, i requires 0 <= i < k => RewriteLine(lines[i], enable))
  }

  /** The lines of the new `prefs.js`: those the scan wrote, and the
      setting appended when enabling and no line before the stop mentioned
      the preference. */
  function EditedLines(lines: seq<string>, enable: bool): seq<string> {
    var k := StopAt(lines, enable);
    Rewritten(lines, enable) + (if !MentionedBefore(lines, k) && enable then [SettingLine(enable)] else [])
  }

  /** Whether `prefs.js` is pushed and B2G restarted: the scan did not stop
      on a line that already had the value, and either some line was
      rewritten or the setting was appended. */
  predicate NeedRestart(lines: seq<string>, enable: bool) {
    var k := StopAt(lines, enable);
    k == |lines| && (MentionedBefore(lines, k) || enable)
  }

  /** The rewrite of the file read from the device: the new content, and
      whether it is to be pushed. */
  method EditPrefs(text: string, enable: bool) returns (content: string, restart: bool)
    ensures content == Concat(EditedLines(Lines(text), enable))
    ensures restart <==> NeedRestart(Lines(text), enable)
  {
    var lines := Lines(text);
    var written, matched, stopped := ScanPrefs(lines, enable);
    assert written == Rewritten(lines, enable);
    var tail := if !matched && enable then SettingLine(enable) else "";
    content := Concat(written) + tail;
    ConcatAppend(written, if !matched && enable then [SettingLine(enable)] else []);
    assert Concat([SettingLine(enable)]) == SettingLine(enable) by {
      assert [SettingLine(enable)][1..] == [];
    }
    restart := !stopped && (matched || enable);
  }

  /** The setting line gives the preference the wanted value. */
  lemma SettingLineSet(enable: bool)
    ensures AlreadySet(SettingLine(enable), enable)
  {
    var a := "user_pref(\"";
    var v := ForbidValue(enable);
    var l := SettingLine(enable);
    assert l == a + ForbidKey + ("\", " + v + ");\n");
    ContainsMiddle(a, ForbidKey, "\", " + v + ");\n");
    assert l == (a + ForbidKey + "\", ") + v + ");\n";
    ContainsMiddle(a + ForbidKey + "\", ", v, ");\n");
  }

  /** Every line of the new file that is about the preference is the
      setting with the wanted value; the other lines are copied unchanged. */
  lemma EditedMentions(lines: seq<string>, enable: bool, i: nat)
    requires i < |EditedLines(lines, enable)|
    ensures Mentions(EditedLines(lines, enable)[i]) ==> EditedLines(lines, enable)[i] == SettingLine(enable)
    ensures !Mentions(EditedLines(lines, enable)[i]) ==> i < |lines| && EditedLines(lines, enable)[i] == lines[i]
  {
    var r := Rewritten(lines, enable);
    SettingLineSet(enable);
    if i < |r| {
      assert EditedLines(lines, enable)[i] == r[i];
    }
  }

  /** When B2G is restarted, the pushed file sets the preference. */
  lemma RestartWritesSetting(lines: seq<string>, enable: bool)
    requires NeedRestart(lines, enable)
    ensures SettingLine(enable) in EditedLines(lines, enable)
  {
    var k := StopAt(lines, enable);
    var e := EditedLines(lines, enable);
    if MentionedBefore(lines, k) {
      var i :| 0 <= i < k && Mentions(lines[i]);
      assert e[i] == RewriteLine(lines[i], enable);
    } else {
      assert e[|e| - 1] == SettingLine(enable);
    }
  }

  /** A second run on the file a restarting run pushed changes nothing: the
      scan stops on the setting line, so nothing is pushed again. */
  lemma EditSettles(lines: seq<string>, enable: bool)
    requires NeedRestart(lines, enable)
    ensures !NeedRestart(EditedLines(lines, enable), enable)
  {
    var e := EditedLines(lines, enable);
    RestartWritesSetting(lines, enable);
    SettingLineSet(enable);
    var j :| 0 <= j < |e| && e[j] == SettingLine(enable);
    assert AlreadySet(e[j], enable);
  }

  /** `prefs.js` of the profile folder the listing names, on the device. */
  function DevicePrefs(profileName: string): string {
    PathJoin(PathJoin(MozillaDir, profileName), "prefs.js")
  }

  /** The copy pulled from the device. */
  function OriginFile(tmp: string): string {
    PathJoin(tmp, "prefs.js.origin")
  }

  /** The rewritten copy, pushed back. */
  function EditedFile(tmp: string): string {
    PathJoin(tmp, "prefs.js")
  }

  /** The device file the profile listing in `ctx` names. */
  function ListedPrefs(ctx: Ctx, h: seq<Event>, serial: Option<string>): string {
    DevicePrefs(SplitShellOutput(Ask(ctx, h, Shell(serial, ProfileListing)).text).output)
  }

  /** The events that read the preferences from the device. */
  function FetchEvents(ctx: Ctx, h: seq<Event>, serial: Option<string>, tmp: string): seq<Event> {
    [Shell(serial, ProfileListing), Pull(serial, ListedPrefs(ctx, h, serial), OriginFile(tmp)), ReadFile(OriginFile(tmp))]
  }

  /** The text of the copy pulled from the device. */
  function PulledText(ctx: Ctx, h: seq<Event>, serial: Option<string>, tmp: string): string {
    var f := FetchEvents(ctx, h, serial, tmp);
    Ask(ctx, h + f[..2], f[2]).text
  }

  /** `adb` accepted the profile listing and the pull, and the copy could
      be read: the point after which the scan decides `need_restart`. */
  predicate PrefsRead(ctx: Ctx, h: seq<Event>, serial: Option<string>, tmp: string) {
    var listing := Shell(serial, ProfileListing);
    var pull := Pull(serial, ListedPrefs(ctx, h, serial), OriginFile(tmp));
    && Ask(ctx, h, listing).code == 0
    && Ask(ctx, h + [listing], pull).code == 0
    && Ask(ctx, h + [listing, pull], ReadFile(OriginFile(tmp))).code == 0
  }

  /** The first part of the `try` block: the profile listing, the pull
      (whose failure is reported as such) and the read of the copy. */
  method FetchPrefs(ctx: Ctx, h: seq<Event>, serial: Option<string>, tmp: string) returns (r: Run<string>)
    ensures 1 <= |r.trace| <= 3 && r.trace == FetchEvents(ctx, h, serial, tmp)[..|r.trace|]
    ensures r.result.Ok? ==> |r.trace| == 3 && r.result.value == PulledText(ctx, h, serial, tmp)
    ensures Ask(ctx, h, Shell(serial, ProfileListing)).code != 0 ==> r.result == Err(Transport(Shell(serial, ProfileListing)))
    ensures |r.trace| == 2 ==> r.result == Err(PullFailed(ListedPrefs(ctx, h, serial)))
    ensures NoneOf(r.trace, PushKind) && BodyEvents(r.trace)
    ensures r.result.Ok? <==> PrefsRead(ctx, h, serial, tmp)
  {
    var f := FetchEvents(ctx, h, serial, tmp);
    assert f[..1] == [f[0]] && f[..2] == [f[0], f[1]] && f[..3] == f;
    var sh := AdbShell(ctx, h, serial, ProfileListing);
    if sh.result.Err? {
      FetchEventsPrefix(ctx, h, serial, tmp, 1);
      return Run(f[..1], Err(sh.result.error));
    }
    var src := ListedPrefs(ctx, h, serial);
    var pull := AdbPull(ctx, h + [f[0]], serial, src, OriginFile(tmp));
    if pull.result.Err? {
      FetchEventsPrefix(ctx, h, serial, tmp, 2);
      return Run(f[..2], Err(PullFailed(src)));
    }
    FetchEventsPrefix(ctx, h, serial, tmp, 3);
    var read := Ask(ctx, h + [f[0], f[1]], f[2]);
    if read.code != 0 {
      return Run(f, Err(IoError(OriginFile(tmp))));
    }
    r := Run(f, Ok(read.text));
  }

  /** The rest of the `try` block: the rewritten copy is written, and pushed
      when B2G is to be restarted. */
  method StorePrefs(ctx: Ctx, h: seq<Event>, serial: Option<string>, tmp: string, src: string, text: string, enable: bool)
    returns (r: Run<()>, restart: bool)
    ensures restart <==> NeedRestart(Lines(text), enable)
    ensures |r.trace| >= 1 && r.trace[0] == WriteFile(EditedFile(tmp), Concat(EditedLines(Lines(text), enable)))
    ensures !restart ==> r == Run([r.trace[0]], Ok(()))
    ensures restart ==> r.trace == [r.trace[0], Push(serial, EditedFile(tmp), src)]
    ensures r.result.Err? ==> r.result == Err(PushFailed(src))
    ensures BodyEvents(r.trace)
  {
    var content;
    content, restart := EditPrefs(text, enable);
    var w := WriteFile(EditedFile(tmp), content);
    if !restart {
      return Run([w], Ok(())), false;
    }
    var push := AdbPush(ctx, h + [w], serial, EditedFile(tmp), src);
    r := Run([w] + push.trace, if push.result.Err? then Err(PushFailed(src)) else Ok(()));
  }

  /** The events of the `try` block, none of them a restart. */
  predicate BodyEvent(e: Event) {
    e.Shell? ==> e.command == ProfileListing
  }

  predicate BodyEvents(t: seq<Event>) {
    forall e | e in t :: BodyEvent(e)
  }

  lemma BodyEventsAppend(a: seq<Event>, b: seq<Event>)
    requires BodyEvents(a) && BodyEvents(b)
    ensures BodyEvents(a + b)
  {
  }

  /** A restart is not one of the events of the `try` block. */
  lemma NoStopInBody(t: seq<Event>, serial: Option<string>)
    requires BodyEvents(t)
    ensures Shell(serial, "stop b2g") !in t
  {
    assert "stop b2g"[0] != ProfileListing[0];
    assert !BodyEvent(Shell(serial, "stop b2g"));
  }

  /** Reading the preferences pushes nothing and restarts nothing, at any
      point it stops. */
  lemma FetchEventsPrefix(ctx: Ctx, h: seq<Event>, serial: Option<string>, tmp: string, n: nat)
    requires n <= 3
    ensures var t := FetchEvents(ctx, h, serial, tmp)[..n];
            NoneOf(t, PushKind) && BodyEvents(t)
  {
    var f := FetchEvents(ctx, h, serial, tmp);
    FetchEventsClean(serial, ListedPrefs(ctx, h, serial), tmp);
    PrefixEvents(f, n);
  }

  lemma FetchEventsClean(serial: Option<string>, src: string, tmp: string)
    ensures NoneOf([Shell(serial, ProfileListing), Pull(serial, src, OriginFile(tmp)), ReadFile(OriginFile(tmp))], PushKind)
    ensures BodyEvents([Shell(serial, ProfileListing), Pull(serial, src, OriginFile(tmp)), ReadFile(OriginFile(tmp))])
  {
  }

  lemma PrefixEvents(t: seq<Event>, n: nat)
    requires n <= |t| && NoneOf(t, PushKind) && BodyEvents(t)
    ensures NoneOf(t[..n], PushKind) && BodyEvents(t[..n])
  {
    assert forall i | 0 <= i < n :: t[..n][i] == t[i];
  }

  /** The `try` block of `set_certapps`, once the temporary folder exists;
      `restart` is `need_restart` when it ends: left set by every failure,
      and decided by the scan once the copy was read. */
  method ChangePrefs(ctx: Ctx, h: seq<Event>, enable: bool, serial: Option<string>, tmp: string)
    returns (r: Run<()>, restart: bool)
    ensures |r.trace| >= 1 && r.trace[0] == Shell(serial, ProfileListing)
    ensures BodyEvents(r.trace)
    ensures r.result.Err? ==> restart
    ensures !restart ==> r.result.Ok? && NoneOf(r.trace, PushKind)
    ensures |r.trace| <= 3 ==> r.trace == FetchEvents(ctx, h, serial, tmp)[..|r.trace|] && r.result.Err?
    ensures |r.trace| > 3 ==> restart == NeedRestart(Lines(PulledText(ctx, h, serial, tmp)), enable)
    ensures restart == (!PrefsRead(ctx, h, serial, tmp) || NeedRestart(Lines(PulledText(ctx, h, serial, tmp)), enable))
  {
    var fetch := FetchPrefs(ctx, h, serial, tmp);
    if fetch.result.Err? {
      return Fail(fetch), true;
    }
    var store;
    store, restart := StorePrefs(ctx, h + fetch.trace, serial, tmp, ListedPrefs(ctx, h, serial), fetch.result.value, enable);
    r := After(fetch.trace, store);
    BodyEventsAppend(fetch.trace, store.trace);
    if !restart {
      assert NoneOf(store.trace, PushKind);
      NoneOfAppend(fetch.trace, store.trace, PushKind);
    }
  }

  /** The `finally` clause: B2G is stopped and started when a restart is
      needed, then the temporary folder is removed; a failing restart ends
      the clause with its own error. */
  method Finally(ctx: Ctx, h: seq<Event>, serial: Option<string>, restart: bool, tmp: string) returns (r: Run<()>)
    ensures !restart ==> r == Run([RemoveTree(tmp)], Ok(()))
    ensures restart ==> |r.trace| >= 1 && r.trace[0] == Shell(serial, "stop b2g")
    ensures restart && r.result.Ok? ==> r.trace == Restart(serial) + [RemoveTree(tmp)]
    ensures restart && r.result.Err? ==> 0 < |r.trace| <= 2 && r.trace == Restart(serial)[..|r.trace|]
    ensures restart ==>
              var stopped := Ask(ctx, h, Shell(serial, "stop b2g")).code == 0;
              var started := Ask(ctx, h + [Shell(serial, "stop b2g")], Shell(serial, "start b2g")).code == 0;
              (r.result.Err? <==> !stopped || !started)
    ensures r.result.Ok? ==> LastIs(r.trace, RemoveTree(tmp))
  {
    if !restart {
      return Run([RemoveTree(tmp)], Ok(()));
    }
    r := RestartThenRemove(ctx, h, serial, tmp);
  }

  /** The restarting branch of the `finally` clause: `stop b2g`, `start b2g`,
      then the removal of `tmp`, which a failing restart skips. */
  method RestartThenRemove(ctx: Ctx, h: seq<Event>, serial: Option<string>, tmp: string) returns (r: Run<()>)
    ensures r.result.Ok? ==> r.trace == Restart(serial) + [RemoveTree(tmp)]
    ensures r.result.Err? ==> 0 < |r.trace| <= 2 && r.trace == Restart(serial)[..|r.trace|]
    ensures var stopped := Ask(ctx, h, Shell(serial, "stop b2g")).code == 0;
            var started := Ask(ctx, h + [Shell(serial, "stop b2g")], Shell(serial, "start b2g")).code == 0;
            r.result.Err? <==> !stopped || !started
  {
    var stop := StopB2g(ctx, h, serial);
    if stop.result.Err? {
      return stop;
    }
    var start := StartB2g(ctx, h + stop.trace, serial);
    if start.result.Err? {
      return Run(Restart(serial), start.result);
    }
    r := Run(Restart(serial) + [RemoveTree(tmp)], Ok(()));
  }

  /** The restart of the `finally` clause: B2G stopped, then started. */
  function Restart(serial: Option<string>): seq<Event> {
    [Shell(serial, "stop b2g"), Shell(serial, "start b2g")]
  }

  /** `ChangePrefs`, seen through what the `finally` clause depends on. */
  method ChangeBody(ctx: Ctx, h: seq<Event>, enable: bool, serial: Option<string>, tmp: string)
    returns (r: Run<()>, restart: bool)
    ensures |r.trace| >= 1 && r.trace[0] == Shell(serial, ProfileListing)
    ensures BodyEvents(r.trace)
    ensures !restart ==> r.result.Ok? && NoneOf(r.trace, PushKind)
    ensures r.result.Err? ==> restart
    ensures restart == (!PrefsRead(ctx, h, serial, tmp) || NeedRestart(Lines(PulledText(ctx, h, serial, tmp)), enable))
  {
    r, restart := ChangePrefs(ctx, h, enable, serial, tmp);
  }

  /** The `try` block and its `finally` clause, in the temporary folder
      `tmp`. */
  method ChangeAndRestart(ctx: Ctx, h: seq<Event>, enable: bool, serial: Option<string>, tmp: string)
    returns (r: Run<()>, restarted: bool)
    ensures |r.trace| >= 2 && r.trace[0] == Shell(serial, ProfileListing)
    ensures restarted <==> Shell(serial, "stop b2g") in r.trace
    ensures !restarted ==> r.result.Ok? && NoneOf(r.trace, PushKind)
    ensures restarted && r.result.Ok? ==> |r.trace| >= 3 && r.trace[|r.trace| - 3..] == Restart(serial) + [RemoveTree(tmp)]
    ensures r.result.Ok? ==> LastIs(r.trace, RemoveTree(tmp))
    // B2G is restarted iff reading the copy failed or the scan asks for it
    ensures restarted == (!PrefsRead(ctx, h, serial, tmp) || NeedRestart(Lines(PulledText(ctx, h, serial, tmp)), enable))
  {
    var body, restart := ChangeBody(ctx, h, enable, serial, tmp);
    var fin := Finally(ctx, h + body.trace, serial, restart, tmp);
    restarted := restart;
    NoStopInBody(body.trace, serial);
    if restart {
      assert fin.trace[0] in body.trace + fin.trace;
    } else {
      NoneOfAppend(body.trace, fin.trace, PushKind);
    }
    LastIsAppend(body.trace, fin.trace, RemoveTree(tmp));
    r := Run(body.trace + fin.trace, if fin.result.Err? then fin.result else body.result);
    if restart && r.result.Ok? {
      assert r.trace[|r.trace| - 3..] == fin.trace;
    }
  }

  /** `set_certapps(enable, serial)`: `adb root` (its outcome ignored), a
      temporary folder, the `try` block and the `finally` clause. B2G is
      restarted exactly when `need_restart` is still set, which every
      failure leaves set. */
  method SetCertapps(ctx: Ctx, h: seq<Event>, enable: bool, serial: Option<string>) returns (r: Run<()>, restarted: bool)
    ensures |r.trace| >= 4 && r.trace[0] == Root(serial) && r.trace[1] == MakeTemp(TempPrefix)
    ensures r.trace[2] == Shell(serial, ProfileListing)
    ensures restarted <==> Shell(serial, "stop b2g") in r.trace
    ensures !restarted ==> r.result.Ok? && NoneOf(r.trace, PushKind)
    ensures restarted && r.result.Ok? ==>
              var tmp := Ask(ctx, h + [Root(serial)], MakeTemp(TempPrefix)).text;
              r.trace[|r.trace| - 3..] == Restart(serial) + [RemoveTree(tmp)]
    ensures r.result.Ok? ==> LastIs(r.trace, RemoveTree(Ask(ctx, h + [Root(serial)], MakeTemp(TempPrefix)).text))
    ensures var h' := h + [Root(serial), MakeTemp(TempPrefix)];
            var tmp := Ask(ctx, h + [Root(serial)], MakeTemp(TempPrefix)).text;
            restarted == (!PrefsRead(ctx, h', serial, tmp) || NeedRestart(Lines(PulledText(ctx, h', serial, tmp)), enable))
  {
    var x := MakeTemp(TempPrefix);
    var tmp := Ask(ctx, h + [Root(serial)], x).text;
    var pre := [Root(serial), x];
    var inner;
    inner, restarted := ChangeAndRestart(ctx, h + pre, enable, serial, tmp);
    SetupJoin(serial, tmp, inner.trace, restarted, inner.result.Ok?);
    r := Run(pre + inner.trace, inner.result);
  }

  /** `adb root` and the temporary folder, followed by the `try` block and
      its `finally` clause. */
  lemma SetupJoin(serial: Option<string>, tmp: string, t: seq<Event>, restarted: bool, ok: bool)
    requires |t| >= 2 && t[0] == Shell(serial, ProfileListing)
    requires restarted <==> Shell(serial, "stop b2g") in t
    requires !restarted ==> ok && NoneOf(t, PushKind)
    requires restarted && ok ==> |t| >= 3 && t[|t| - 3..] == Restart(serial) + [RemoveTree(tmp)]
    requires ok ==> LastIs(t, RemoveTree(tmp))
    ensures var u := [Root(serial), MakeTemp(TempPrefix)] + t;
            && |u| >= 4 && u[0] == Root(serial) && u[1] == MakeTemp(TempPrefix)
            && u[2] == Shell(serial, ProfileListing)
            && (restarted <==> Shell(serial, "stop b2g") in u)
            && (!restarted ==> NoneOf(u, PushKind))
            && (restarted && ok ==> u[|u| - 3..] == Restart(serial) + [RemoveTree(tmp)])
            && (ok ==> LastIs(u, RemoveTree(tmp)))
  {
    var pre := [Root(serial), MakeTemp(TempPrefix)];
    var u := pre + t;
    assert BodyEvents(pre);
    NoStopInBody(pre, serial);
    if !restarted {
      NoneOfAppend(pre, t, PushKind);
    }
    LastIsAppend(pre, t, RemoveTree(tmp));
    if restarted && ok {
      assert u[|u| - 3..] == t[|t| - 3..];
    }
  }

  /** `run`: the device is chosen as every tool does, then the privileges
      are enabled, or disabled with `--disable`. */
  method RunCertapps(ctx: Ctx, h: seq<Event>, arg: Option<string>, disable: bool) returns (r: Run<()>, restarted: bool)
    ensures var sel := SelectTarget(ctx, h, arg, true);
            sel.result.Err? ==> r.trace == sel.trace && r.result == Err(sel.result.error) && !restarted
    ensures var a := Ask(ctx, h, Devices);
            a.code == 0 && ParseListing(a.text).Ok? && |DeviceMap(ParseListing(a.text).value)| == 0 ==>
              r == Run([Devices], Err(NoDevice))
    ensures r.result.Ok? ==> Root(RequestedSerial(ctx, arg)) in r.trace
    ensures restarted <==> Shell(RequestedSerial(ctx, arg), "stop b2g") in r.trace
    ensures var sel := SelectTarget(ctx, h, arg, true);
            sel.result.Ok? ==>
              var tmp := Ask(ctx, h + sel.trace + [Root(sel.result.value)], MakeTemp(TempPrefix)).text;
              var h2 := h + sel.trace + [Root(sel.result.value), MakeTemp(TempPrefix)];
              restarted == (!PrefsRead(ctx, h2, sel.result.value, tmp) ||
                            NeedRestart(Lines(PulledText(ctx, h2, sel.result.value, tmp)), !disable))
  {
    var sel := SelectTarget(ctx, h, arg, true);
    if sel.result.Err? {
      assert Shell(RequestedSerial(ctx, arg), "stop b2g") !in sel.trace;
      return Fail(sel), false;
    }
    var serial := sel.result.value;
    var c;
    c, restarted := SetCertapps(ctx, h + sel.trace, !disable, serial);
    assert c.trace[0] in c.trace;
    assert Shell(serial, "stop b2g") !in sel.trace;
    r := After(sel.trace, c);
  }
}

=== FILE: check_versions.dfy ===
/** `VersionChecker` (b2g_util/check_versions.py): pulls Gecko's `omni.ja`,
    Gaia's settings app and `application.ini` from each device, reads the
    revisions and versions out of them, asks the device for its build
    properties, and logs what it found. */
module CheckVersions {
  import opened Wrappers
  import opened Text
  import opened Trace
  import opened Adb
  import opened ShellSeq
  import opened VersionLog

  const TempPrefix: string := "checkversions_"
  const NotAvailable: string := "n/a"
  const DeviceState: string := "device"

  const OmniJa: string := "/system/b2g/omni.ja"
  const DataSettingsZip: string := "/data/local/webapps/settings.gaiamobile.org/application.zip"
  const SystemSettingsZip: string := "/system/b2g/webapps/settings.gaiamobile.org/application.zip"
  const ApplicationIni: string := "/system/b2g/application.ini"

  const GaiaCommitMember: string := "resources/gaia_commit.txt"
  const BuildConfigMember: string := "chrome/toolkit/content/global/buildconfig.html"
  /** The deoptimiser shipped next to the module, relative to its folder. */
  const OptimizeJars: string := "misc/optimizejars.py"
  const BuiltFrom: string := "Built from"

  /** The build properties, in the order they are asked for. */
  const PropCommands: seq<string> := [
    "getprop ro.product.device",
    "getprop ro.build.version.release",
    "getprop ro.build.version.incremental",
    "getprop ro.build.date",
    "getprop ro.boot.bootloader"]

  /** An event of the version check: it leaves the device as it is (no
      push, no root, no remount, no wait, and a shell command only to read
      a build property) and unpacks no package. */
  predicate ReadsDevice(e: Event) {
    && !e.Push? && !e.Root? && !e.Remount? && !e.WaitForDevice?
    && (e.Shell? ==> e.command in PropCommands)
    && !e.Unzip? && !e.Untar?
  }

  /** An event of gathering the information: it reads the device and
      writes no log. */
  predicate Inspects(e: Event) {
    ReadsDevice(e) && !e.WriteFile? && !e.WriteJson?
  }

  predicate InspectsOnly(t: seq<Event>) {
    forall i | 0 <= i < |t| :: Inspects(t[i])
  }

  lemma InspectsOnlyAppend(a: seq<Event>, b: seq<Event>)
    requires InspectsOnly(a) && InspectsOnly(b)
    ensures InspectsOnly(a + b)
  {
    assert forall i | |a| <= i < |a + b| :: (a + b)[i] == b[i - |a|];
  }

  /** Events of the local machine only, with no log written and no package
      unpacked among them. */
  predicate Local(t: seq<Event>) {
    forall i | 0 <= i < |t| :: !IsDeviceEvent(t[i]) && !t[i].WriteFile? && !t[i].WriteJson? && !t[i].Unzip? && !t[i].Untar?
  }

  lemma LocalInspects(t: seq<Event>)
    requires Local(t)
    ensures InspectsOnly(t)
    ensures ShellCommands(t) == []
  {
    NoShellIn(t);
  }

  lemma {:induction false} NoShellIn(t: seq<Event>)
    requires forall i | 0 <= i < |t| :: !t[i].Shell?
    ensures ShellCommands(t) == []
    decreases |t|
  {
    if |t| > 0 {
      assert forall i | 0 <= i < |t| - 1 :: t[1..][i] == t[i + 1];
      NoShellIn(t[1..]);
    }
  }

  // ---------------------------------------------------------------------------
  // What a reported value was read from

  /** How a reported value comes out of the text of a file or a reply. */
  datatype Reading =
    | CommitRead(revision: string, date: string)
    | BuildConfigRead(revision: string)
    | IniRead(buildId: Value, version: Value)
    | PropRead(value: string)

  /** `text` yields the values of `rd`. */
  predicate Yields(ctx: Ctx, rd: Reading, text: string) {
    match rd
    case CommitRead(rev, date) => GaiaCommit(text).0 == rev && ctx.formatDate(GaiaCommit(text).1) == Some(date)
    case BuildConfigRead(rev) => BuildConfigRevision(Lines(text)) == Ok(rev)
    case IniRead(buildId, version) =>
      IniField(Lines(text), "BuildID") == Some(buildId) && IniField(Lines(text), "Version") == Some(version)
    case PropRead(v) => NoLineBreaks(SplitShellOutput(text).output) == v
  }

  /** Some `e` of `t`, asked after history `h` and the events before it,
      was answered with a text that yields `rd`. */
  predicate AnsweredWith(ctx: Ctx, h: seq<Event>, t: seq<Event>, e: Event, rd: Reading) {
    exists i | 0 <= i < |t| :: t[i] == e && Yields(ctx, rd, Ask(ctx, h + t[..i], e).text)
  }

  /** The answer stays the same once earlier events join the trace. */
  lemma AnsweredAfter(ctx: Ctx, h: seq<Event>, pre: seq<Event>, t: seq<Event>, e: Event, rd: Reading)
    requires AnsweredWith(ctx, h + pre, t, e, rd)
    ensures AnsweredWith(ctx, h, pre + t, e, rd)
  {
    var i :| 0 <= i < |t| && t[i] == e && Yields(ctx, rd, Ask(ctx, h + pre + t[..i], e).text);
    AnsweredAfterAt(ctx, h, pre, t, e, rd, i);
  }

  lemma AnsweredAfterAt(ctx: Ctx, h: seq<Event>, pre: seq<Event>, t: seq<Event>, e: Event, rd: Reading, i: nat)
    requires i < |t| && t[i] == e && Yields(ctx, rd, Ask(ctx, h + pre + t[..i], e).text)
    ensures AnsweredWith(ctx, h, pre + t, e, rd)
  {
    var j := |pre| + i;
    ShiftIndex(h, pre, t, i);
    assert Ask(ctx, h + (pre + t)[..j], e) == Ask(ctx, h + pre + t[..i], e);
  }

  lemma ShiftIndex<T>(h: seq<T>, pre: seq<T>, t: seq<T>, i: nat)
    requires i < |t|
    ensures (pre + t)[|pre| + i] == t[i]
    ensures h + (pre + t)[..|pre| + i] == h + pre + t[..i]
  {
    assert (pre + t)[..|pre| + i] == pre + t[..i];
  }

  /** The answer stays the same once later events join the trace. */
  lemma AnsweredBefore(ctx: Ctx, h: seq<Event>, t: seq<Event>, post: seq<Event>, e: Event, rd: Reading)
    requires AnsweredWith(ctx, h, t, e, rd)
    ensures AnsweredWith(ctx, h, t + post, e, rd)
  {
    var i :| 0 <= i < |t| && t[i] == e && Yields(ctx, rd, Ask(ctx, h + t[..i], e).text);
    assert (t + post)[i] == t[i] && (t + post)[..i] == t[..i];
  }

  // ---------------------------------------------------------------------------
  // Pulling the files

  /** The pulls: `omni.ja`, the settings app from `/data` or else from
      `/system`, and `application.ini`, every failure ignored. */
  method PullFiles(ctx: Ctx, h: seq<Event>, serial: Option<string>, tmp: string) returns (t: seq<Event>)
    ensures forall i | 0 <= i < |t| :: t[i].Pull? && t[i].serial == serial && t[i].dest == tmp
    ensures |t| >= 3 && t[0] == Pull(serial, OmniJa, tmp) && t[1] == Pull(serial, DataSettingsZip, tmp)
    ensures t[|t| - 1] == Pull(serial, ApplicationIni, tmp)
    ensures var fallback := Ask(ctx, h + [t[0]], t[1]).code != 0;
            |t| == (if fallback then 4 else 3) && (fallback ==> t[2] == Pull(serial, SystemSettingsZip, tmp))
  {
    var omni := Pull(serial, OmniJa, tmp);
    var data := Pull(serial, DataSettingsZip, tmp);
    var ini := Pull(serial, ApplicationIni, tmp);
    if Ask(ctx, h + [omni], data).code != 0 {
      t := [omni, data, Pull(serial, SystemSettingsZip, tmp), ini];
    } else {
      t := [omni, data, ini];
    }
  }

  // ---------------------------------------------------------------------------
  // Gaia

  /** The first two lines `readline` yields, each with its `\n` removed. */
  function GaiaCommit(text: string): (r: (string, string))
    ensures '\n' !in r.0 && '\n' !in r.1
  {
    var ls := Lines(text);
    var first := if |ls| > 0 then ls[0] else "";
    var second := if |ls| > 1 then ls[1] else "";
    (RemoveChar(first, '\n'), RemoveChar(second, '\n'))
  }

  /** `gaia_commit.txt` holds the revision on its first line and the commit
      time on its second; both are read back as written. */
  lemma GaiaCommitOf(rev: string, date: string, rest: string)
    requires '\n' !in rev && '\n' !in date
    ensures GaiaCommit(rev + "\n" + date + "\n" + rest) == (rev, date)
  {
    var l1 := rev + "\n";
    var l2 := date + "\n";
    LineOf(rev);
    LineOf(date);
    assert rev + "\n" + date + "\n" + rest == l1 + (l2 + rest);
    LinesHead(l1, l2 + rest);
    LinesHead(l2, rest);
    RemoveNewline(rev);
    RemoveNewline(date);
  }

  /** A file with the revision alone has an empty second line, which is not
      a number. */
  lemma GaiaCommitOneLine(rev: string)
    requires '\n' !in rev
    ensures GaiaCommit(rev + "\n") == (rev, "")
  {
    LineOf(rev);
    LinesHead(rev + "\n", "");
    assert rev + "\n" + "" == rev + "\n";
    RemoveNewline(rev);
  }

  lemma LineOf(s: string)
    requires '\n' !in s
    ensures var l := s + "\n"; IsLine(l) && l[|l| - 1] == '\n'
  {
    var l := s + "\n";
    assert l[..|l| - 1] == s;
  }

  lemma RemoveNewline(s: string)
    requires '\n' !in s
    ensures RemoveChar(s + "\n", '\n') == s
  {
    RemoveCharAppend(s, "\n", '\n');
    RemoveCharAbsent(s, '\n');
    assert RemoveChar("\n", '\n') == "" by {
      assert "\n"[1..] == "";
    }
    assert s + "" == s;
  }

  lemma {:induction false} RemoveCharAppend(a: string, b: string, c: char)
    ensures RemoveChar(a + b, c) == RemoveChar(a, c) + RemoveChar(b, c)
    decreases |a|
  {
    if |a| == 0 {
      assert a + b == b;
    } else {
      assert (a + b)[0] == a[0] && (a + b)[1..] == a[1..] + b;
      RemoveCharAppend(a[1..], b, c);
      var head := if a[0] == c then "" else [a[0]];
      assert RemoveChar(a + b, c) == head + RemoveChar(a[1..] + b, c);
      assert RemoveChar(a, c) == head + RemoveChar(a[1..], c);
    }
  }

  /** Gaia's revision and commit date: `n/a` for both when the commit file
      cannot be found; an archive that does not yield the file, and a
      commit time that is not a number, raise. */
  method GaiaInfo(ctx: Ctx, h: seq<Event>, tmp: string) returns (r: Run<(string, string)>)
    ensures Local(r.trace) && |r.trace| > 0
    ensures r.trace[0] == IsFile(PathJoin(tmp, "application.zip"))
    ensures r.result.Err? ==> r.result.error.ExtractFailed? || r.result.error.IoError? || r.result.error.BadDate?
    ensures r.result.Ok? ==> '\n' !in r.result.value.0
    ensures r.result.Ok? && LastIs(r.trace, IsFile(PathJoin(tmp, GaiaCommitMember))) ==>
              r.result.value == (NotAvailable, NotAvailable)
    ensures r.result.Ok? && r.result.value.0 != NotAvailable ==>
              ReadFile(PathJoin(tmp, GaiaCommitMember)) in r.trace
    ensures r.result.Ok? && ReadFile(PathJoin(tmp, GaiaCommitMember)) in r.trace ==>
              AnsweredWith(ctx, h, r.trace, ReadFile(PathJoin(tmp, GaiaCommitMember)), CommitRead(r.result.value.0, r.result.value.1))
    ensures r.result.Ok? && ReadFile(PathJoin(tmp, GaiaCommitMember)) !in r.trace ==>
              r.result.value == (NotAvailable, NotAvailable)
  {
    var zip := PathJoin(tmp, "application.zip");
    var commit := PathJoin(tmp, GaiaCommitMember);
    var t := [IsFile(zip)];
    if Ask(ctx, h, IsFile(zip)).code == 0 {
      var x := ExtractMember(zip, GaiaCommitMember, tmp);
      t := t + [x];
      if Ask(ctx, h + [IsFile(zip)], x).code != 0 {
        return Run(t, Err(ExtractFailed(zip)));
      }
    }
    var probe := IsFile(commit);
    var t2 := t + [probe];
    assert Local(t2) && t2[0] == IsFile(zip) && LastIs(t2, probe);
    if Ask(ctx, h + t, probe).code != 0 {
      return Run(t2, Ok((NotAvailable, NotAvailable)));
    }
    var read := ReadFile(commit);
    var a := Ask(ctx, h + t2, read);
    var t3 := t2 + [read];
    assert t3[|t3| - 1] == read && Local(t3) && t3[0] == IsFile(zip) && !LastIs(t3, probe);
    if a.code != 0 {
      return Run(t3, Err(IoError(commit)));
    }
    var (rev, stamp) := GaiaCommit(a.text);
    var date := ctx.formatDate(stamp);
    if date.None? {
      return Run(t3, Err(BadDate(stamp)));
    }
    r := Run(t3, Ok((rev, date.value)));
    assert t3[..|t3| - 1] == t2;
    assert Yields(ctx, CommitRead(rev, date.value), a.text);
  }

  // ---------------------------------------------------------------------------
  // Gecko: the revision in `buildconfig.html`

  /** Where the capture of `>(.*?)<` that starts before `s` ends: at the
      first `<`, unless a line break comes first. */
  function CaptureEnd(s: string): (k: nat)
    ensures k <= |s|
    ensures forall i | 0 <= i < k :: s[i] != '<' && s[i] != '\n'
    ensures k < |s| ==> s[k] == '<' || s[k] == '\n'
  {
    if |s| == 0 || s[0] == '<' || s[0] == '\n' then 0 else 1 + CaptureEnd(s[1..])
  }

  /** `re.findall(r'>(.*?)<', s)`: each `>` opens a capture that the next
      `<` closes; the search resumes after that `<`. A `>` with a line break
      before the next `<` opens nothing. */
  function Captures(s: string): seq<string>
    decreases |s|
  {
    if |s| == 0 then []
    else if s[0] != '>' then Captures(s[1..])
    else
      var k := CaptureEnd(s[1..]);
      if k < |s| - 1 && s[1 + k] == '<' then [s[1..1 + k]] + Captures(s[k + 2..])
      else Captures(s[1..])
  }

  /** A `>...<` pair after text without `>` yields its contents first. */
  lemma {:induction false} CapturesCons(pre: string, a: string, post: string)
    requires '>' !in pre && '<' !in a && '\n' !in a
    ensures Captures(pre + ">" + a + "<" + post) == [a] + Captures(post)
    decreases |pre|
  {
    var s := pre + ">" + a + "<" + post;
    if |pre| == 0 {
      assert s == ">" + a + "<" + post;
      var k := CaptureEnd(s[1..]);
      assert s[1..] == a + ("<" + post);
      CaptureEndOf(a, "<" + post);
      assert k == |a|;
      assert s[1..1 + k] == a;
      assert s[k + 2..] == post;
    } else {
      assert s[0] == pre[0] && pre[0] in pre;
      assert s[1..] == pre[1..] + ">" + a + "<" + post;
      CapturesCons(pre[1..], a, post);
    }
  }

  lemma {:induction false} CaptureEndOf(a: string, rest: string)
    requires '<' !in a && '\n' !in a && |rest| > 0 && rest[0] == '<'
    ensures CaptureEnd(a + rest) == |a|
    decreases |a|
  {
    if |a| == 0 {
      assert a + rest == rest;
    } else {
      assert (a + rest)[0] == a[0] && a[0] in a;
      assert (a + rest)[1..] == a[1..] + rest;
      CaptureEndOf(a[1..], rest);
    }
  }

  /** `gecko_rev = re.findall(r'>(.*?)<', line)[1]`. */
  function RevisionOnLine(line: string): (r: Result<string, Error>)
    ensures r.Err? <==> |Captures(line)| < 2
    ensures r.Err? ==> r.error == IndexOutOfRange
  {
    var c := Captures(line);
    if |c| < 2 then Err(IndexOutOfRange) else Ok(c[1])
  }

  /** The usual line, `<p>Built from <a href="...">REV</a>...`, gives the
      text of the link. */
  lemma RevisionOfLine(pre: string, a: string, mid: string, rev: string, post: string)
    requires '>' !in pre && '>' !in mid
    requires '<' !in a && '\n' !in a && '<' !in rev && '\n' !in rev
    ensures RevisionOnLine(pre + ">" + a + "<" + mid + ">" + rev + "<" + post) == Ok(rev)
  {
    var tail := mid + ">" + rev + "<" + post;
    assert pre + ">" + a + "<" + mid + ">" + rev + "<" + post == pre + ">" + a + "<" + tail;
    CapturesCons(pre, a, tail);
    CapturesCons(mid, rev, post);
  }

  /** No line before `i` mentions `Built from`. */
  predicate NoneBuiltFromBefore(lines: seq<string>, i: nat)
    requires i <= |lines|
  {
    forall j | 0 <= j < i :: !Contains(lines[j], BuiltFrom)
  }

  /** The revision on the first line that mentions `Built from`; `n/a`
      when no line does. */
  function BuildConfigRevision(lines: seq<string>): (r: Result<string, Error>)
    ensures r.Err? ==> r.error == IndexOutOfRange
    decreases |lines|
  {
    if |lines| == 0 then Ok(NotAvailable)
    else if Contains(lines[0], BuiltFrom) then RevisionOnLine(lines[0])
    else BuildConfigRevision(lines[1..])
  }

  /** Only the first line with `Built from` counts: whatever follows it,
      and whether or not it has two captures. */
  lemma {:induction false} BuildConfigFirst(lines: seq<string>, i: nat)
    requires i < |lines| && Contains(lines[i], BuiltFrom) && NoneBuiltFromBefore(lines, i)
    ensures BuildConfigRevision(lines) == RevisionOnLine(lines[i])
    decreases i
  {
    if i > 0 {
      assert !Contains(lines[0], BuiltFrom);
      assert NoneBuiltFromBefore(lines[1..], i - 1) by {
        forall j | 0 <= j < i - 1 ensures !Contains(lines[1..][j], BuiltFrom) {
          assert lines[1..][j] == lines[j + 1];
        }
      }
      BuildConfigFirst(lines[1..], i - 1);
    }
  }

  lemma {:induction false} BuildConfigNone(lines: seq<string>)
    requires NoneBuiltFromBefore(lines, |lines|)
    ensures BuildConfigRevision(lines) == Ok(NotAvailable)
    decreases |lines|
  {
    if |lines| > 0 {
      assert !Contains(lines[0], BuiltFrom);
      assert NoneBuiltFromBefore(lines[1..], |lines| - 1) by {
        forall j | 0 <= j < |lines| - 1 ensures !Contains(lines[1..][j], BuiltFrom) {
          assert lines[1..][j] == lines[j + 1];
        }
      }
      BuildConfigNone(lines[1..]);
    }
  }

  /** The command line that deoptimises `omni.ja` into `deopt`. */
  function DeoptCommand(exec: string, tmp: string, deopt: string): string {
    "python " + exec + " --deoptimize " + tmp + " " + tmp + " " + deopt
  }

  /** Reading the revision out of the extracted `buildconfig.html`. */
  method ReadBuildConfig(ctx: Ctx, h: seq<Event>, tmp: string) returns (r: Run<string>)
    ensures Local(r.trace) && 1 <= |r.trace| <= 2
    ensures var bc := PathJoin(tmp, BuildConfigMember);
            r.trace[0] == IsFile(bc)
            && (Ask(ctx, h, IsFile(bc)).code != 0 ==> r == Run([IsFile(bc)], Ok(NotAvailable)))
            && (Ask(ctx, h, IsFile(bc)).code == 0 ==>
                  var a := Ask(ctx, h + [IsFile(bc)], ReadFile(bc));
                  r.trace == [IsFile(bc), ReadFile(bc)]
                  && r.result == if a.code != 0 then Err(IoError(bc)) else BuildConfigRevision(Lines(a.text)))
    ensures var bc := PathJoin(tmp, BuildConfigMember);
            && (r.result.Ok? && ReadFile(bc) in r.trace ==> AnsweredWith(ctx, h, r.trace, ReadFile(bc), BuildConfigRead(r.result.value)))
            && (r.result.Ok? && ReadFile(bc) !in r.trace ==> r.result.value == NotAvailable)
  {
    var bc := PathJoin(tmp, BuildConfigMember);
    if Ask(ctx, h, IsFile(bc)).code != 0 {
      return Run([IsFile(bc)], Ok(NotAvailable));
    }
    var a := Ask(ctx, h + [IsFile(bc)], ReadFile(bc));
    if a.code != 0 {
      return Run([IsFile(bc), ReadFile(bc)], Err(IoError(bc)));
    }
    r := Run([IsFile(bc), ReadFile(bc)], BuildConfigRevision(Lines(a.text)));
    assert r.trace[..1] == [IsFile(bc)] && r.trace[1] == ReadFile(bc);
  }

  /** The deoptimisation of the pulled `omni.ja` by the bundled script,
      then the extraction of `buildconfig.html` when it produced a jar. A
      failed copy of the script raises before it is run. */
  method Deoptimise(ctx: Ctx, h: seq<Event>, tmp: string) returns (r: Run<()>)
    ensures Local(r.trace) && |r.trace| >= 2
    ensures r.trace[..2] == [MakeDirs(PathJoin(tmp, "deopt")), CopyFile(OptimizeJars, PathJoin(tmp, "optimizejars.py"))]
    ensures var copied := Ask(ctx, h + [MakeDirs(PathJoin(tmp, "deopt"))],
                              CopyFile(OptimizeJars, PathJoin(tmp, "optimizejars.py"))).code == 0;
            && (!copied ==> r == Run(r.trace[..2], Err(CopyFailed(OptimizeJars, PathJoin(tmp, "optimizejars.py")))))
            && (copied ==> |r.trace| >= 4 && r.trace[2].RunProcess? && (r.result.Err? ==> r.result.error.ExtractFailed?))
            && ((exists i | 0 <= i < |r.trace| :: r.trace[i].RunProcess?) <==> copied)
    ensures forall i | 0 <= i < |r.trace| :: !r.trace[i].ReadFile?
  {
    var deopt := PathJoin(tmp, "deopt");
    var deoptFile := PathJoin(deopt, "omni.ja");
    var exec := PathJoin(tmp, "optimizejars.py");
    var copy := CopyFile(OptimizeJars, exec);
    if Ask(ctx, h + [MakeDirs(deopt)], copy).code != 0 {
      return Run([MakeDirs(deopt), copy], Err(CopyFailed(OptimizeJars, exec)));
    }
    var t := [MakeDirs(deopt), copy, RunProcess(DeoptCommand(exec, tmp, deopt))];
    var probe := IsFile(deoptFile);
    if Ask(ctx, h + t, probe).code != 0 {
      return Run(t + [probe], Ok(()));
    }
    var x := ExtractMember(deoptFile, BuildConfigMember, tmp);
    var t' := t + [probe, x];
    r := Run(t', if Ask(ctx, h + t + [probe], x).code != 0 then Err(ExtractFailed(deoptFile)) else Ok(()));
  }

  /** Gecko's revision: `n/a` without `omni.ja`; otherwise the jar is
      deoptimised by the bundled script, `buildconfig.html` is extracted
      from the result, and the revision is read from it. */
  method GeckoRevision(ctx: Ctx, h: seq<Event>, tmp: string) returns (r: Run<string>)
    ensures Local(r.trace) && |r.trace| > 0
    ensures r.trace[0] == IsFile(PathJoin(tmp, "omni.ja"))
    ensures Ask(ctx, h, IsFile(PathJoin(tmp, "omni.ja"))).code != 0 ==>
              r == Run([IsFile(PathJoin(tmp, "omni.ja"))], Ok(NotAvailable))
    ensures r.result.Err? ==> r.result.error.ExtractFailed? || r.result.error.IoError? || r.result.error == IndexOutOfRange
                              || r.result.error.CopyFailed?
    ensures var omni := IsFile(PathJoin(tmp, "omni.ja"));
            var copy := CopyFile(OptimizeJars, PathJoin(tmp, "optimizejars.py"));
            (exists i | 0 <= i < |r.trace| :: r.trace[i].RunProcess?) <==>
              Ask(ctx, h, omni).code == 0 && Ask(ctx, h + [omni, MakeDirs(PathJoin(tmp, "deopt"))], copy).code == 0
    ensures var bc := PathJoin(tmp, BuildConfigMember);
            && (r.result.Ok? && ReadFile(bc) in r.trace ==> AnsweredWith(ctx, h, r.trace, ReadFile(bc), BuildConfigRead(r.result.value)))
            && (r.result.Ok? && ReadFile(bc) !in r.trace ==> r.result.value == NotAvailable)
  {
    var omni := IsFile(PathJoin(tmp, "omni.ja"));
    if Ask(ctx, h, omni).code != 0 {
      return Run([omni], Ok(NotAvailable));
    }
    var d := Deoptimise(ctx, h + [omni], tmp);
    var t := [omni] + d.trace;
    assert h + [omni] + [MakeDirs(PathJoin(tmp, "deopt"))] == h + [omni, MakeDirs(PathJoin(tmp, "deopt"))];
    assert forall i | 1 <= i < |t| :: t[i] == d.trace[i - 1];
    assert Local(t);
    if d.result.Err? {
      RunsAfter(omni, d.trace);
      return Run(t, Err(d.result.error));
    }
    assert t[3] == d.trace[2];
    var b := ReadBuildConfig(ctx, h + t, tmp);
    r := After(t, b);
    assert r.trace[3] == t[3];
    assert forall i | |t| <= i < |r.trace| :: r.trace[i] == b.trace[i - |t|];
    var bc := ReadFile(PathJoin(tmp, BuildConfigMember));
    assert bc !in t;
    if r.result.Ok? && bc in b.trace {
      AnsweredAfter(ctx, h, t, b.trace, bc, BuildConfigRead(r.result.value));
    }
  }

  /** An event that runs no process adds no process run in front of a trace. */
  lemma RunsAfter(e: Event, d: seq<Event>)
    requires !e.RunProcess?
    ensures (exists i | 0 <= i < |[e] + d| :: ([e] + d)[i].RunProcess?) <==>
            (exists i | 0 <= i < |d| :: d[i].RunProcess?)
  {
    var t := [e] + d;
    if i :| 0 <= i < |t| && t[i].RunProcess? {
      assert d[i - 1] == t[i];
    }
    if i :| 0 <= i < |d| && d[i].RunProcess? {
      assert t[i + 1] == d[i];
    }
  }

  // ---------------------------------------------------------------------------
  // `application.ini`

  /** `re.search(r'^\s*' + key, line)`. */
  predicate IniKey(line: string, key: string) {
    StartsWith(DropLeadingSpace(line), key)
  }

  /** `re.findall(r'.*?=(.*)', line)[0]` on a line of the file: what
      follows the first `=`, up to the line break; `None` (an
      `IndexError`) when the line has no `=`. */
  function IniValue(line: string): (r: Option<string>)
    ensures r.Some? ==> '\n' !in r.value
  {
    var k := FirstIndex(line, '=');
    if k == |line| then None
    else
      var rest := line[k + 1..];
      Some(rest[..FirstIndex(rest, '\n')])
  }

  /** A line `key=value` gives `value`. */
  lemma IniValueOf(key: string, value: string, eol: string)
    requires '=' !in key && '\n' !in value && (eol == "" || eol == "\n")
    ensures IniValue(key + "=" + value + eol) == Some(value)
  {
    var line := key + "=" + value + eol;
    FirstIndexOf(key, "=" + value + eol, '=');
    assert line == key + ("=" + value + eol);
    var rest := line[|key| + 1..];
    assert rest == value + eol;
    if eol == "" {
      assert rest == value;
      FirstIndexAbsent(value, '\n');
    } else {
      FirstIndexOf(value, eol, '\n');
    }
  }

  lemma {:induction false} FirstIndexOf(a: string, b: string, c: char)
    requires c !in a && |b| > 0 && b[0] == c
    ensures FirstIndex(a + b, c) == |a|
    decreases |a|
  {
    if |a| == 0 {
      assert a + b == b;
    } else {
      assert (a + b)[0] == a[0] && a[0] in a;
      assert (a + b)[1..] == a[1..] + b;
      FirstIndexOf(a[1..], b, c);
    }
  }

  lemma FirstIndexAbsent(a: string, c: char)
    requires c !in a
    ensures FirstIndex(a, c) == |a|
  {
    forall i | 0 <= i < |a| ensures a[i] != c {
      assert a[i] in a;
    }
  }

  /** The value `application.ini` gives `key`: the last matching line's,
      `0` when no line matches; `None` when a matching line has no `=`. */
  function IniField(lines: seq<string>, key: string): Option<Value>
    decreases |lines|
  {
    if |lines| == 0 then Some(Int(0))
    else
      var last := lines[|lines| - 1];
      var before := IniField(lines[..|lines| - 1], key);
      if !IniKey(last, key) then before
      else if before.None? || IniValue(last).None? then None
      else Some(Str(IniValue(last).value))
  }

  /** The last line that names `key` decides its value; a key no line
      names stays `0`. */
  lemma IniFieldLast(lines: seq<string>, key: string, i: nat)
    requires i < |lines| && IniKey(lines[i], key) && IniField(lines, key).Some?
    requires forall j | i < j < |lines| :: !IniKey(lines[j], key)
    ensures IniValue(lines[i]).Some?
    ensures IniField(lines, key) == Some(Str(IniValue(lines[i]).value))
  {
    IniFieldTail(lines, key, i + 1);
    var p := lines[..i + 1];
    assert p[|p| - 1] == lines[i];
  }

  /** Lines after the last one that names `key` do not matter. */
  lemma {:induction false} IniFieldTail(lines: seq<string>, key: string, n: nat)
    requires n <= |lines|
    requires forall j | n <= j < |lines| :: !IniKey(lines[j], key)
    ensures IniField(lines, key) == IniField(lines[..n], key)
    decreases |lines|
  {
    if |lines| > n {
      var init := lines[..|lines| - 1];
      assert init[..n] == lines[..n];
      assert forall j | n <= j < |init| :: init[j] == lines[j];
      IniFieldTail(init, key, n);
    } else {
      assert lines[..n] == lines;
    }
  }

  lemma {:induction false} IniFieldAbsent(lines: seq<string>, key: string)
    requires forall j | 0 <= j < |lines| :: !IniKey(lines[j], key)
    ensures IniField(lines, key) == Some(Int(0))
    decreases |lines|
  {
    if |lines| > 0 {
      var init := lines[..|lines| - 1];
      assert forall j | 0 <= j < |init| :: init[j] == lines[j];
      IniFieldAbsent(init, key);
    }
  }

  /** A matching line without `=` raises, wherever it is. */
  lemma {:induction false} IniFieldMalformed(lines: seq<string>, key: string, i: nat)
    requires i < |lines| && IniKey(lines[i], key) && IniValue(lines[i]).None?
    ensures IniField(lines, key).None?
    decreases |lines|
  {
    if i < |lines| - 1 {
      var init := lines[..|lines| - 1];
      assert init[i] == lines[i];
      IniFieldMalformed(init, key, i);
    }
  }

  /** The scan of `application.ini`: every line is tested for `BuildID`
      and then for `Version`; a later match replaces an earlier one, and a
      match without `=` raises. */
  method ScanIni(lines: seq<string>) returns (r: Result<(Value, Value), Error>)
    ensures r.Err? <==> IniField(lines, "BuildID").None? || IniField(lines, "Version").None?
    ensures r.Err? ==> r.error == IndexOutOfRange
    ensures r.Ok? ==> Some(r.value.0) == IniField(lines, "BuildID") && Some(r.value.1) == IniField(lines, "Version")
  {
    var buildId := Int(0);
    var version := Int(0);
    for i := 0 to |lines|
      invariant Some(buildId) == IniField(lines[..i], "BuildID")
      invariant Some(version) == IniField(lines[..i], "Version")
    {
      assert lines[..i + 1][..i] == lines[..i];
      var line := lines[i];
      assert lines[..i + 1][i] == line;
      if IniKey(line, "BuildID") {
        var v := IniValue(line);
        if v.None? {
          IniFieldPrefixNone(lines, "BuildID", i + 1);
          return Err(IndexOutOfRange);
        }
        buildId := Str(v.value);
      }
      if IniKey(line, "Version") {
        var v := IniValue(line);
        if v.None? {
          IniFieldPrefixNone(lines, "Version", i + 1);
          return Err(IndexOutOfRange);
        }
        version := Str(v.value);
      }
    }
    assert lines[..|lines|] == lines;
    return Ok((buildId, version));
  }

  /** Once a prefix raises, the whole file does. */
  lemma {:induction false} IniFieldPrefixNone(lines: seq<string>, key: string, n: nat)
    requires n <= |lines| && IniField(lines[..n], key).None?
    ensures IniField(lines, key).None?
    decreases |lines| - n
  {
    if n < |lines| {
      var m := n + 1;
      assert lines[..m][..n] == lines[..n];
      IniFieldPrefixNone(lines, key, m);
    } else {
      assert lines[..n] == lines;
    }
  }

  /** Build id and Gecko version: `n/a` for both when `application.ini` was
      not pulled. */
  method IniInfo(ctx: Ctx, h: seq<Event>, tmp: string) returns (r: Run<(Value, Value)>)
    ensures Local(r.trace)
    ensures var ini := PathJoin(tmp, "application.ini");
            && |r.trace| > 0 && r.trace[0] == IsFile(ini)
            && (Ask(ctx, h, IsFile(ini)).code != 0 ==>
                  r == Run([IsFile(ini)], Ok((Str(NotAvailable), Str(NotAvailable)))))
            && (Ask(ctx, h, IsFile(ini)).code == 0 ==>
                  var a := Ask(ctx, h + [IsFile(ini)], ReadFile(ini));
                  && r.trace == [IsFile(ini), ReadFile(ini)]
                  && (a.code != 0 ==> r.result == Err(IoError(ini)))
                  && (a.code == 0 && r.result.Ok? ==>
                        Some(r.result.value.0) == IniField(Lines(a.text), "BuildID")
                        && Some(r.result.value.1) == IniField(Lines(a.text), "Version")))
    ensures var ini := PathJoin(tmp, "application.ini");
            && (r.result.Ok? && ReadFile(ini) in r.trace ==>
                  AnsweredWith(ctx, h, r.trace, ReadFile(ini), IniRead(r.result.value.0, r.result.value.1)))
            && (r.result.Ok? && ReadFile(ini) !in r.trace ==> r.result.value == (Str(NotAvailable), Str(NotAvailable)))
  {
    var ini := PathJoin(tmp, "application.ini");
    if Ask(ctx, h, IsFile(ini)).code != 0 {
      return Run([IsFile(ini)], Ok((Str(NotAvailable), Str(NotAvailable))));
    }
    var t := [IsFile(ini), ReadFile(ini)];
    var a := Ask(ctx, h + [IsFile(ini)], ReadFile(ini));
    if a.code != 0 {
      return Run(t, Err(IoError(ini)));
    }
    var s := ScanIni(Lines(a.text));
    r := Run(t, s);
    assert t[..1] == [IsFile(ini)] && t[1] == ReadFile(ini);
  }

  // ---------------------------------------------------------------------------
  // Build properties

  /** `re.sub(r'\r+|\n+', '', s)`. */
  function NoLineBreaks(s: string): (r: string)
    ensures '\r' !in r && '\n' !in r
  {
    RemoveCharKeeps(s, '\r', '\n');
    RemoveChar(RemoveChar(s, '\r'), '\n')
  }

  lemma {:induction false} RemoveCharKeeps(s: string, c: char, d: char)
    requires c != d
    ensures c !in RemoveChar(RemoveChar(s, c), d)
    decreases |s|
  {
    if |s| > 0 {
      RemoveCharKeeps(s[1..], c, d);
      var t := RemoveChar(s, c);
      RemoveCharAppend(if s[0] == c then "" else [s[0]], RemoveChar(s[1..], c), d);
      assert t == (if s[0] == c then "" else [s[0]]) + RemoveChar(s[1..], c);
      if s[0] != c {
        assert RemoveChar([s[0]], d) == (if s[0] == d then "" else [s[0]]) by {
          assert [s[0]][1..] == "";
        }
      }
    }
  }

  /** The property the `i`-th `getprop` answered, without line breaks. */
  function PropValue(ctx: Ctx, h: seq<Event>, t: seq<Event>, i: nat): string
    requires i < |t|
  {
    NoLineBreaks(SplitShellOutput(Ask(ctx, h + t[..i], t[i]).text).output)
  }

  /** The shell commands `cmds` in turn, keeping each reply without line
      breaks and stopping at the first that `adb` fails. */
  method ShellValues(ctx: Ctx, h: seq<Event>, serial: Option<string>, cmds: seq<string>) returns (r: Run<seq<string>>)
    ensures |r.trace| <= |cmds| && r.trace == ShellEvents(serial, cmds)[..|r.trace|]
    ensures r.result.Ok? ==> r.trace == ShellEvents(serial, cmds) && |r.result.value| == |cmds|
    ensures r.result.Ok? ==> forall i | 0 <= i < |cmds| :: r.result.value[i] == PropValue(ctx, h, r.trace, i)
    ensures r.result.Err? ==> |r.trace| > 0 && r.result.error == Transport(r.trace[|r.trace| - 1])
  {
    var all := ShellEvents(serial, cmds);
    var t: seq<Event> := [];
    var values: seq<string> := [];
    for i := 0 to |cmds|
      invariant |t| == i && t == all[..i] && |values| == i
      invariant forall j | 0 <= j < i :: values[j] == PropValue(ctx, h, all, j)
    {
      var s := ShellValue(ctx, h + t, serial, cmds[i]);
      ValueStep(ctx, h, serial, cmds, t, i);
      if s.result.Err? {
        return Run(t + s.trace, Err(s.result.error));
      }
      ValuesSnoc(ctx, h, all, values, s.result.value);
      values := values + [s.result.value];
      t := t + s.trace;
    }
    assert t == all;
    r := Run(t, Ok(values));
  }

  /** One `getprop`: its reply without line breaks. */
  method ShellValue(ctx: Ctx, h: seq<Event>, serial: Option<string>, command: string) returns (r: Run<string>)
    ensures r.trace == [Shell(serial, command)]
    ensures r.result.Err? ==> r.result.error == Transport(Shell(serial, command))
    ensures r.result.Ok? ==> r.result.value == NoLineBreaks(SplitShellOutput(Ask(ctx, h, Shell(serial, command)).text).output)
  {
    var s := AdbShell(ctx, h, serial, command);
    if s.result.Err? {
      return Run(s.trace, Err(s.result.error));
    }
    r := Run(s.trace, Ok(NoLineBreaks(s.result.value.output)));
  }

  /** The `i`-th step of `ShellValues` extends the trace by its command and
      reads that command's reply. */
  lemma ValueStep(ctx: Ctx, h: seq<Event>, serial: Option<string>, cmds: seq<string>, t: seq<Event>, i: nat)
    requires i < |cmds| && t == ShellEvents(serial, cmds)[..i]
    ensures ShellEvents(serial, cmds)[..i + 1] == t + [Shell(serial, cmds[i])]
    ensures PropValue(ctx, h, ShellEvents(serial, cmds), i)
            == NoLineBreaks(SplitShellOutput(Ask(ctx, h + t, Shell(serial, cmds[i])).text).output)
  {
    var all := ShellEvents(serial, cmds);
    ShellEventsAt(serial, cmds, i);
    PrefixSnoc(all, i);
  }

  lemma PrefixSnoc<T>(s: seq<T>, i: nat)
    requires i < |s|
    ensures s[..i + 1] == s[..i] + [s[i]]
  {
  }

  lemma ValuesSnoc(ctx: Ctx, h: seq<Event>, all: seq<Event>, values: seq<string>, v: string)
    requires |values| < |all|
    requires forall j | 0 <= j < |values| :: values[j] == PropValue(ctx, h, all, j)
    requires v == PropValue(ctx, h, all, |values|)
    ensures forall j | 0 <= j < |values| + 1 :: (values + [v])[j] == PropValue(ctx, h, all, j)
  {
  }

  /** The five `getprop` calls. */
  method Props(ctx: Ctx, h: seq<Event>, serial: Option<string>) returns (r: Run<seq<string>>)
    ensures |r.trace| <= 5 && r.trace == ShellEvents(serial, PropCommands)[..|r.trace|]
    ensures r.result.Ok? ==> r.trace == ShellEvents(serial, PropCommands) && |r.result.value| == 5
    ensures r.result.Ok? ==> forall i | 0 <= i < 5 :: r.result.value[i] == PropValue(ctx, h, r.trace, i)
    ensures r.result.Err? ==> |r.trace| > 0 && r.result.error == Transport(r.trace[|r.trace| - 1])
    ensures r.result.Ok? ==>
              forall k | 0 <= k < 5 :: AnsweredWith(ctx, h, r.trace, Shell(serial, PropCommands[k]), PropRead(r.result.value[k]))
  {
    r := ShellValues(ctx, h, serial, PropCommands);
    if r.result.Ok? {
      forall k | 0 <= k < 5
        ensures AnsweredWith(ctx, h, r.trace, Shell(serial, PropCommands[k]), PropRead(r.result.value[k]))
      {
        PropEvent(serial, k);
        assert Yields(ctx, PropRead(r.result.value[k]), Ask(ctx, h + r.trace[..k], r.trace[k]).text);
      }
    }
  }

  lemma PropEvent(serial: Option<string>, i: nat)
    requires i < 5
    ensures ShellEvents(serial, PropCommands)[i] == Shell(serial, PropCommands[i])
  {
    ShellEventsAt(serial, PropCommands, i);
  }

  lemma {:induction false} ShellEventsAt(serial: Option<string>, cmds: seq<string>, i: nat)
    requires i < |cmds|
    ensures ShellEvents(serial, cmds)[i] == Shell(serial, cmds[i])
    decreases i
  {
    if i > 0 {
      ShellEventsAt(serial, cmds[1..], i - 1);
    }
  }

  /** Every prefix of the property calls only inspects the device. */
  lemma PropsInspect(serial: Option<string>, n: nat)
    requires n <= 5
    ensures InspectsOnly(ShellEvents(serial, PropCommands)[..n])
  {
    var t := ShellEvents(serial, PropCommands)[..n];
    forall i | 0 <= i < n ensures Inspects(t[i]) {
      PropEvent(serial, i);
    }
  }

  // ---------------------------------------------------------------------------
  // `get_device_info`

  /** Events of gathering the information that issue no shell command. */
  predicate Silent(t: seq<Event>) {
    forall i | 0 <= i < |t| :: Inspects(t[i]) && !t[i].Shell?
  }

  lemma SilentAppend(a: seq<Event>, b: seq<Event>)
    requires Silent(a) && Silent(b)
    ensures Silent(a + b)
  {
    assert forall i | |a| <= i < |a + b| :: (a + b)[i] == b[i - |a|];
  }

  lemma LocalSilent(t: seq<Event>)
    requires Local(t)
    ensures Silent(t)
  {
  }

  lemma SilentCommands(t: seq<Event>)
    requires Silent(t)
    ensures InspectsOnly(t) && ShellCommands(t) == []
  {
    NoShellIn(t);
  }

  /** What the pulled files tell. */
  datatype Found = Found(gaiaRevision: string, gaiaDate: string, geckoRevision: string, buildId: Value, version: Value)

  /** Gaia's revision and date are `n/a` or were read, within `t`, from
      the commit file in `tmp`. */
  predicate CommitFrom(ctx: Ctx, h: seq<Event>, t: seq<Event>, tmp: string, rev: string, date: string) {
    (rev, date) == (NotAvailable, NotAvailable) ||
    AnsweredWith(ctx, h, t, ReadFile(PathJoin(tmp, GaiaCommitMember)), CommitRead(rev, date))
  }

  /** Gecko's revision is `n/a` or was read, within `t`, from the
      extracted `buildconfig.html` in `tmp`. */
  predicate BuildConfigFrom(ctx: Ctx, h: seq<Event>, t: seq<Event>, tmp: string, rev: string) {
    rev == NotAvailable || AnsweredWith(ctx, h, t, ReadFile(PathJoin(tmp, BuildConfigMember)), BuildConfigRead(rev))
  }

  /** Build id and version are `n/a` or were read, within `t`, from
      `application.ini` in `tmp`. */
  predicate IniFrom(ctx: Ctx, h: seq<Event>, t: seq<Event>, tmp: string, buildId: Value, version: Value) {
    (buildId, version) == (Str(NotAvailable), Str(NotAvailable)) ||
    AnsweredWith(ctx, h, t, ReadFile(PathJoin(tmp, "application.ini")), IniRead(buildId, version))
  }

  /** An answer within `t` after `h + pre` is one within `pre + t + post`
      after `h`. */
  lemma AnsweredShift(ctx: Ctx, h: seq<Event>, pre: seq<Event>, t: seq<Event>, post: seq<Event>, e: Event, rd: Reading)
    requires AnsweredWith(ctx, h + pre, t, e, rd)
    ensures AnsweredWith(ctx, h, pre + t + post, e, rd)
  {
    AnsweredAfter(ctx, h, pre, t, e, rd);
    AnsweredBefore(ctx, h, pre + t, post, e, rd);
  }

  lemma CommitShift(ctx: Ctx, h: seq<Event>, pre: seq<Event>, t: seq<Event>, post: seq<Event>, tmp: string, rev: string, date: string)
    requires CommitFrom(ctx, h + pre, t, tmp, rev, date)
    ensures CommitFrom(ctx, h, pre + t + post, tmp, rev, date)
  {
    if (rev, date) != (NotAvailable, NotAvailable) {
      AnsweredShift(ctx, h, pre, t, post, ReadFile(PathJoin(tmp, GaiaCommitMember)), CommitRead(rev, date));
    }
  }

  lemma BuildConfigShift(ctx: Ctx, h: seq<Event>, pre: seq<Event>, t: seq<Event>, post: seq<Event>, tmp: string, rev: string)
    requires BuildConfigFrom(ctx, h + pre, t, tmp, rev)
    ensures BuildConfigFrom(ctx, h, pre + t + post, tmp, rev)
  {
    if rev != NotAvailable {
      AnsweredShift(ctx, h, pre, t, post, ReadFile(PathJoin(tmp, BuildConfigMember)), BuildConfigRead(rev));
    }
  }

  lemma IniShift(ctx: Ctx, h: seq<Event>, pre: seq<Event>, t: seq<Event>, post: seq<Event>, tmp: string, buildId: Value, version: Value)
    requires IniFrom(ctx, h + pre, t, tmp, buildId, version)
    ensures IniFrom(ctx, h, pre + t + post, tmp, buildId, version)
  {
    if (buildId, version) != (Str(NotAvailable), Str(NotAvailable)) {
      AnsweredShift(ctx, h, pre, t, post, ReadFile(PathJoin(tmp, "application.ini")), IniRead(buildId, version));
    }
  }

  /** Each value of `f` is `n/a` or was read, within `t`, from the file
      it comes from in `tmp`. */
  predicate FoundFrom(ctx: Ctx, h: seq<Event>, t: seq<Event>, tmp: string, f: Found) {
    && CommitFrom(ctx, h, t, tmp, f.gaiaRevision, f.gaiaDate)
    && BuildConfigFrom(ctx, h, t, tmp, f.geckoRevision)
    && IniFrom(ctx, h, t, tmp, f.buildId, f.version)
  }

  lemma FoundShift(ctx: Ctx, h: seq<Event>, pre: seq<Event>, t: seq<Event>, post: seq<Event>, tmp: string, f: Found)
    requires FoundFrom(ctx, h + pre, t, tmp, f)
    ensures FoundFrom(ctx, h, pre + t + post, tmp, f)
  {
    CommitShift(ctx, h, pre, t, post, tmp, f.gaiaRevision, f.gaiaDate);
    BuildConfigShift(ctx, h, pre, t, post, tmp, f.geckoRevision);
    IniShift(ctx, h, pre, t, post, tmp, f.buildId, f.version);
  }

  /** `GaiaInfo`, seen through where its values come from. */
  method GaiaValues(ctx: Ctx, h: seq<Event>, tmp: string) returns (r: Run<(string, string)>)
    ensures Local(r.trace)
    ensures r.result.Ok? ==> '\n' !in r.result.value.0 && CommitFrom(ctx, h, r.trace, tmp, r.result.value.0, r.result.value.1)
  {
    r := GaiaInfo(ctx, h, tmp);
  }

  /** `GeckoRevision`, seen through where its value comes from. */
  method GeckoValue(ctx: Ctx, h: seq<Event>, tmp: string) returns (r: Run<string>)
    ensures Local(r.trace)
    ensures r.result.Ok? ==> BuildConfigFrom(ctx, h, r.trace, tmp, r.result.value)
  {
    r := GeckoRevision(ctx, h, tmp);
  }

  /** `IniInfo`, seen through where its values come from. */
  method IniValues(ctx: Ctx, h: seq<Event>, tmp: string) returns (r: Run<(Value, Value)>)
    ensures Local(r.trace)
    ensures r.result.Ok? ==> IniFrom(ctx, h, r.trace, tmp, r.result.value.0, r.result.value.1)
  {
    r := IniInfo(ctx, h, tmp);
  }

  /** The pulls and what is read from the pulled files. */
  method Gather(ctx: Ctx, h: seq<Event>, serial: Option<string>, tmp: string) returns (r: Run<Found>)
    ensures Silent(r.trace)
    ensures r.result.Ok? ==> '\n' !in r.result.value.gaiaRevision
    ensures r.result.Ok? ==> FoundFrom(ctx, h, r.trace, tmp, r.result.value)
  {
    var pulls := PullFiles(ctx, h, serial, tmp);
    var gaia := GaiaValues(ctx, h + pulls, tmp);
    LocalSilent(gaia.trace);
    SilentAppend(pulls, gaia.trace);
    var t := pulls + gaia.trace;
    if gaia.result.Err? {
      return Run(t, Err(gaia.result.error));
    }
    var gecko := GeckoValue(ctx, h + t, tmp);
    LocalSilent(gecko.trace);
    SilentAppend(t, gecko.trace);
    var t2 := t + gecko.trace;
    if gecko.result.Err? {
      return Run(t2, Err(gecko.result.error));
    }
    var ini := IniValues(ctx, h + t2, tmp);
    LocalSilent(ini.trace);
    SilentAppend(t2, ini.trace);
    var t3 := t2 + ini.trace;
    if ini.result.Err? {
      return Run(t3, Err(ini.result.error));
    }
    var (gaiaRev, gaiaDate) := gaia.result.value;
    var (buildId, version) := ini.result.value;
    var f := Found(gaiaRev, gaiaDate, gecko.result.value, buildId, version);
    r := Run(t3, Ok(f));
    var ga, ge, in_ := gaia.trace, gecko.trace, ini.trace;
    assert t3 == pulls + ga + (ge + in_) == (pulls + ga) + ge + in_ == (pulls + ga + ge) + in_ + [];
    CommitShift(ctx, h, pulls, ga, ge + in_, tmp, gaiaRev, gaiaDate);
    BuildConfigShift(ctx, h, pulls + ga, ge, in_, tmp, gecko.result.value);
    IniShift(ctx, h, pulls + ga + ge, in_, [], tmp, buildId, version);
  }

  /** The build properties of `info`, in the order they are asked for. */
  function PropValues(info: DeviceInfo): (r: seq<string>)
    ensures |r| == |PropCommands|
  {
    [info.deviceName, info.release, info.incremental, info.firmwareDate, info.bootloader]
  }

  /** Each build property of `info` is the answer, within `t`, to its
      `getprop`. */
  predicate PropsFrom(ctx: Ctx, h: seq<Event>, t: seq<Event>, info: DeviceInfo) {
    && AnsweredWith(ctx, h, t, Shell(info.serial, PropCommands[0]), PropRead(info.deviceName))
    && AnsweredWith(ctx, h, t, Shell(info.serial, PropCommands[1]), PropRead(info.release))
    && AnsweredWith(ctx, h, t, Shell(info.serial, PropCommands[2]), PropRead(info.incremental))
    && AnsweredWith(ctx, h, t, Shell(info.serial, PropCommands[3]), PropRead(info.firmwareDate))
    && AnsweredWith(ctx, h, t, Shell(info.serial, PropCommands[4]), PropRead(info.bootloader))
  }

  lemma PropsShift(ctx: Ctx, h: seq<Event>, pre: seq<Event>, t: seq<Event>, post: seq<Event>, info: DeviceInfo)
    requires PropsFrom(ctx, h + pre, t, info)
    ensures PropsFrom(ctx, h, pre + t + post, info)
  {
    AnsweredShift(ctx, h, pre, t, post, Shell(info.serial, PropCommands[0]), PropRead(info.deviceName));
    AnsweredShift(ctx, h, pre, t, post, Shell(info.serial, PropCommands[1]), PropRead(info.release));
    AnsweredShift(ctx, h, pre, t, post, Shell(info.serial, PropCommands[2]), PropRead(info.incremental));
    AnsweredShift(ctx, h, pre, t, post, Shell(info.serial, PropCommands[3]), PropRead(info.firmwareDate));
    AnsweredShift(ctx, h, pre, t, post, Shell(info.serial, PropCommands[4]), PropRead(info.bootloader));
  }

  /** The values of `Props`, read off in order. */
  lemma PropsOfValues(ctx: Ctx, h: seq<Event>, t: seq<Event>, p: seq<string>, info: DeviceInfo)
    requires |p| == 5
    requires info.deviceName == p[0] && info.release == p[1] && info.incremental == p[2]
    requires info.firmwareDate == p[3] && info.bootloader == p[4]
    requires forall k | 0 <= k < 5 :: AnsweredWith(ctx, h, t, Shell(info.serial, PropCommands[k]), PropRead(p[k]))
    ensures PropsFrom(ctx, h, t, info)
  {
  }

  /** Every value of `info` is `n/a` or was read, within `t`, from the
      pulled file it comes from or from the device's reply. */
  predicate InfoFrom(ctx: Ctx, h: seq<Event>, t: seq<Event>, tmp: string, info: DeviceInfo) {
    && FoundFrom(ctx, h, t, tmp, Found(info.gaiaRevision, info.gaiaDate, info.geckoRevision, info.buildId, info.geckoVersion))
    && PropsFrom(ctx, h, t, info)
  }

  lemma InfoShift(ctx: Ctx, h: seq<Event>, pre: seq<Event>, t: seq<Event>, post: seq<Event>, tmp: string, info: DeviceInfo)
    requires InfoFrom(ctx, h + pre, t, tmp, info)
    ensures InfoFrom(ctx, h, pre + t + post, tmp, info)
  {
    FoundShift(ctx, h, pre, t, post, tmp, Found(info.gaiaRevision, info.gaiaDate, info.geckoRevision, info.buildId, info.geckoVersion));
    PropsShift(ctx, h, pre, t, post, info);
  }

  /** The values `Gather` read and the properties asked after them make
      up the device's information. */
  lemma InfoOfParts(ctx: Ctx, h: seq<Event>, gt: seq<Event>, pt: seq<Event>, tmp: string, info: DeviceInfo)
    requires FoundFrom(ctx, h, gt, tmp, Found(info.gaiaRevision, info.gaiaDate, info.geckoRevision, info.buildId, info.geckoVersion))
    requires PropsFrom(ctx, h + gt, pt, info)
    ensures InfoFrom(ctx, h, gt + pt, tmp, info)
  {
    var f := Found(info.gaiaRevision, info.gaiaDate, info.geckoRevision, info.buildId, info.geckoVersion);
    if (f.gaiaRevision, f.gaiaDate) != (NotAvailable, NotAvailable) {
      AnsweredBefore(ctx, h, gt, pt, ReadFile(PathJoin(tmp, GaiaCommitMember)), CommitRead(f.gaiaRevision, f.gaiaDate));
    }
    if f.geckoRevision != NotAvailable {
      AnsweredBefore(ctx, h, gt, pt, ReadFile(PathJoin(tmp, BuildConfigMember)), BuildConfigRead(f.geckoRevision));
    }
    if (f.buildId, f.version) != (Str(NotAvailable), Str(NotAvailable)) {
      AnsweredBefore(ctx, h, gt, pt, ReadFile(PathJoin(tmp, "application.ini")), IniRead(f.buildId, f.version));
    }
    AnsweredAfter(ctx, h, gt, pt, Shell(info.serial, PropCommands[0]), PropRead(info.deviceName));
    AnsweredAfter(ctx, h, gt, pt, Shell(info.serial, PropCommands[1]), PropRead(info.release));
    AnsweredAfter(ctx, h, gt, pt, Shell(info.serial, PropCommands[2]), PropRead(info.incremental));
    AnsweredAfter(ctx, h, gt, pt, Shell(info.serial, PropCommands[3]), PropRead(info.firmwareDate));
    AnsweredAfter(ctx, h, gt, pt, Shell(info.serial, PropCommands[4]), PropRead(info.bootloader));
  }

  /** Everything between making and removing the temporary folder. */
  method Collect(ctx: Ctx, h: seq<Event>, serial: Option<string>, tmp: string) returns (r: Run<DeviceInfo>)
    ensures InspectsOnly(r.trace)
    ensures r.result.Ok? ==> r.result.value.serial == serial
    ensures r.result.Ok? ==> ShellCommands(r.trace) == PropCommands
    ensures r.result.Ok? ==> '\n' !in r.result.value.gaiaRevision
    ensures r.result.Ok? ==> var i := r.result.value;
              && '\n' !in i.deviceName && '\n' !in i.release && '\n' !in i.incremental
              && '\n' !in i.firmwareDate && '\n' !in i.bootloader
    ensures r.result.Ok? ==> InfoFrom(ctx, h, r.trace, tmp, r.result.value)
  {
    var g := Gather(ctx, h, serial, tmp);
    SilentCommands(g.trace);
    if g.result.Err? {
      return Fail(g);
    }
    var props := Props(ctx, h + g.trace, serial);
    PropsInspect(serial, |props.trace|);
    InspectsOnlyAppend(g.trace, props.trace);
    var t := g.trace + props.trace;
    if props.result.Err? {
      return Run(t, Err(props.result.error));
    }
    ShellCommandsAppend(g.trace, props.trace);
    ShellEventsCommands(serial, PropCommands);
    var f := g.result.value;
    var p := props.result.value;
    var info := DeviceInfo(serial, f.buildId, f.gaiaRevision, f.gaiaDate, f.geckoRevision, f.version,
                           p[0], p[1], p[2], p[3], p[4]);
    r := Run(t, Ok(info));
    PropsOfValues(ctx, h + g.trace, props.trace, p, info);
    InfoOfParts(ctx, h, g.trace, props.trace, tmp, info);
  }

  /** `get_device_info`: the work happens in a fresh temporary folder that
      is removed afterwards, whatever happened; the device is only read. */
  method GetDeviceInfo(ctx: Ctx, h: seq<Event>, serial: Option<string>) returns (r: Run<DeviceInfo>)
    ensures |r.trace| > 0 && r.trace[0] == MakeTemp(TempPrefix)
    ensures var tmp := Ask(ctx, h, MakeTemp(TempPrefix)).text;
            tmp != "" ==> LastIs(r.trace, RemoveTree(tmp))
    ensures InspectsOnly(r.trace)
    ensures r.result.Ok? ==> r.result.value.serial == serial
    ensures r.result.Ok? ==> ShellCommands(r.trace) == PropCommands
    ensures r.result.Ok? ==> InfoFrom(ctx, h, r.trace, Ask(ctx, h, MakeTemp(TempPrefix)).text, r.result.value)
  {
    var x := MakeTemp(TempPrefix);
    var tmp := Ask(ctx, h, x).text;
    var c := Collect(ctx, h + [x], serial, tmp);
    var post := Cleanup(tmp);
    BracketEnds(x, c.trace, post);
    InspectsOnlyAppend([x], c.trace);
    InspectsOnlyAppend([x] + c.trace, post);
    BracketCommands(tmp, c.trace);
    r := Run([x] + c.trace + post, c.result);
    if c.result.Ok? {
      InfoShift(ctx, h, [x], c.trace, post, tmp, c.result.value);
    }
  }

  /** Making and removing the temporary folder issues no shell command. */
  lemma BracketCommands(tmp: string, t: seq<Event>)
    ensures ShellCommands([MakeTemp(TempPrefix)] + t + Cleanup(tmp)) == ShellCommands(t)
  {
    var x, post := MakeTemp(TempPrefix), Cleanup(tmp);
    ShellCommandsAppend([x], t);
    ShellCommandsAppend([x] + t, post);
    assert ShellCommands([x]) == [] by {
      assert [x][1..] == [];
    }
    assert ShellCommands(post) == [] by {
      if |post| > 0 {
        assert post[1..] == [];
      }
    }
  }

  // ---------------------------------------------------------------------------
  // `run`

  /** The serials of the listing in the order they first appear. */
  function ListedSerials(ds: seq<Device>): (r: seq<string>)
    ensures forall x :: x in r <==> x in DeviceMap(ds)
    ensures forall i, j | 0 <= i < j < |r| :: r[i] != r[j]
  {
    var all := seq(|ds|, i requires 0 <= i < |ds| => ds[i].serial);
    assert forall x :: x in all <==> exists i | 0 <= i < |ds| :: ds[i].serial == x by {
      assert forall i | 0 <= i < |ds| :: all[i] == ds[i].serial;
    }
    Distinct(all)
  }

  /** The entry for every listed device: its information when its state is
      `device`, a skip otherwise. */
  method QueryAll(ctx: Ctx, h: seq<Event>, devices: map<string, string>, serials: seq<string>)
    returns (r: Run<seq<Entry>>)
    requires forall i | 0 <= i < |serials| :: serials[i] in devices
    ensures InspectsOnly(r.trace)
    ensures r.result.Ok? ==> |r.result.value| == |serials|
    ensures r.result.Ok? ==> forall i | 0 <= i < |serials| ::
              && EntrySerial(r.result.value[i]) == Some(serials[i])
              && (r.result.value[i].Skipped? <==> devices[serials[i]] != DeviceState)
    ensures (forall i | 0 <= i < |serials| :: devices[serials[i]] != DeviceState) ==> r == Run([], Ok(Skips(serials)))
  {
    var t: seq<Event> := [];
    var list: seq<Entry> := [];
    for i := 0 to |serials|
      invariant InspectsOnly(t) && |list| == i
      invariant forall j | 0 <= j < i :: EntrySerial(list[j]) == Some(serials[j])
      invariant forall j | 0 <= j < i :: list[j].Skipped? <==> devices[serials[j]] != DeviceState
      invariant (forall j | 0 <= j < i :: devices[serials[j]] != DeviceState) ==> t == [] && list == Skips(serials[..i])
    {
      var s := serials[i];
      if devices[s] == DeviceState {
        var g := QueryOne(ctx, h + t, s);
        InspectsOnlyAppend(t, g.trace);
        t := t + g.trace;
        if g.result.Err? {
          return Run(t, Err(g.result.error));
        }
        list := list + [Queried(g.result.value)];
      } else {
        SkipsSnoc(serials, i);
        list := list + [Skipped(s)];
      }
    }
    assert serials[..|serials|] == serials;
    r := Run(t, Ok(list));
  }

  /** `get_device_info` for one listed serial, as the loop over the
      listing sees it. */
  method QueryOne(ctx: Ctx, h: seq<Event>, s: string) returns (r: Run<DeviceInfo>)
    ensures InspectsOnly(r.trace)
    ensures r.result.Ok? ==> r.result.value.serial == Some(s)
  {
    r := GetDeviceInfo(ctx, h, Some(s));
  }

  function Skips(serials: seq<string>): (r: seq<Entry>)
    ensures |r| == |serials|
  {
    seq(|serials|, i requires 0 <= i < |serials| => Skipped(serials[i]))
  }

  lemma SkipsSnoc(serials: seq<string>, i: nat)
    requires i < |serials|
    ensures Skips(serials[..i + 1]) == Skips(serials[..i]) + [Skipped(serials[i])]
  {
  }

  /** The entries for the chosen device, or for every listed device when
      none was chosen; a chosen serial missing from the first listing is a
      `KeyError`. */
  method Visit(ctx: Ctx, h: seq<Event>, ds: seq<Device>, chosen: Option<string>) returns (r: Run<seq<Entry>>)
    ensures InspectsOnly(r.trace)
    ensures chosen.Some? && chosen.value !in DeviceMap(ds) ==> r == Run([], Err(MissingKey(chosen.value)))
    ensures r.result.Ok? && chosen.Some? ==>
              && |r.result.value| == 1 && r.result.value[0].Queried?
              && r.result.value[0].info.serial == chosen
    ensures r.result.Ok? && chosen.None? ==>
              var serials := ListedSerials(ds);
              && |r.result.value| == |serials|
              && forall i | 0 <= i < |serials| ::
                   && EntrySerial(r.result.value[i]) == Some(serials[i])
                   && (r.result.value[i].Skipped? <==> DeviceMap(ds)[serials[i]] != DeviceState)
  {
    var devices := DeviceMap(ds);
    if chosen.None? {
      r := QueryAll(ctx, h, devices, ListedSerials(ds));
    } else {
      var s := chosen.value;
      if s !in devices {
        return Run([], Err(MissingKey(s)));
      }
      var info := GetDeviceInfo(ctx, h, Some(s));
      r := if info.result.Err? then Fail(info) else Run(info.trace, Ok([Queried(info.result.value)]));
    }
  }

  /** The serial settled on, then the entries of the devices visited. */
  method Query(ctx: Ctx, h: seq<Event>, ds: seq<Device>, arg: Option<string>) returns (r: Run<seq<Entry>>)
    ensures InspectsOnly(r.trace)
    ensures r.result.Ok? && RequestedSerial(ctx, arg).Some? ==>
              && |r.result.value| == 1 && r.result.value[0].Queried?
              && r.result.value[0].info.serial == RequestedSerial(ctx, arg)
    ensures r.result.Ok? && RequestedSerial(ctx, arg).None? ==>
              var serials := ListedSerials(ds);
              && |r.result.value| == |serials|
              && forall i | 0 <= i < |serials| :: EntrySerial(r.result.value[i]) == Some(serials[i])
  {
    var g := GetSerial(ctx, h, arg);
    assert InspectsOnly(g.trace) by {
      assert forall i | 0 <= i < |g.trace| :: g.trace[i] == Devices;
    }
    if g.result.Err? {
      return Run(g.trace, Err(g.result.error));
    }
    var q := Visit(ctx, h + g.trace, ds, g.result.value);
    InspectsOnlyAppend(g.trace, q.trace);
    r := Run(g.trace + q.trace, q.result);
  }

  /** `run`: no device raises; without a chosen serial every listed device
      is visited in turn; a chosen serial must be in the first listing;
      then the logs are written. */
  method RunVersions(ctx: Ctx, h: seq<Event>, arg: Option<string>, logText: Option<string>, logJson: Option<string>)
    returns (r: Run<seq<Entry>>)
    ensures |r.trace| > 0 && r.trace[0] == Devices
    ensures forall i | 0 <= i < |r.trace| :: ReadsDevice(r.trace[i])
    ensures var a := Ask(ctx, h, Devices);
            a.code == 0 && ParseListing(a.text).Ok? && |ParseListing(a.text).value| == 0 ==>
              r == Run([Devices], Err(NoDevice))
    ensures r.result.Ok? ==> ParseListing(Ask(ctx, h, Devices).text).Ok?
    ensures r.result.Ok? && RequestedSerial(ctx, arg).Some? ==>
              && |r.result.value| == 1 && r.result.value[0].Queried?
              && r.result.value[0].info.serial == RequestedSerial(ctx, arg)
    ensures r.result.Ok? && RequestedSerial(ctx, arg).None? ==>
              var serials := ListedSerials(ParseListing(Ask(ctx, h, Devices).text).value);
              && |r.result.value| == |serials|
              && forall i | 0 <= i < |serials| :: EntrySerial(r.result.value[i]) == Some(serials[i])
    ensures r.result.Ok? && logText.Some? ==> WriteFile(logText.value, LogText(r.result.value)) in r.trace
    ensures r.result.Ok? && logText.None? && logJson.None? ==> forall e | e in r.trace :: !e.WriteFile? && !e.WriteJson?
    ensures r.result.Err? ==> forall e | e in r.trace :: !e.WriteJson?
    ensures r.result.Err? && (exists e | e in r.trace :: e.WriteFile?) ==> logText.Some? && r.result.error.NotAString?
  {
    var d := AdbDevices(ctx, h);
    if d.result.Err? {
      return Fail(d);
    }
    var ds := ParseListing(Ask(ctx, h, Devices).text).value;
    if |d.result.value| == 0 {
      return Run([Devices], Err(NoDevice));
    }
    DeviceMapEmpty(ds);
    r := QueryAndLog(ctx, h, ds, arg, logText, logJson);
  }

  /** Once the first listing gave `ds`: the devices visited, then the logs. */
  method QueryAndLog(ctx: Ctx, h: seq<Event>, ds: seq<Device>, arg: Option<string>, logText: Option<string>, logJson: Option<string>)
    returns (r: Run<seq<Entry>>)
    ensures |r.trace| > 0 && r.trace[0] == Devices
    ensures forall i | 0 <= i < |r.trace| :: ReadsDevice(r.trace[i])
    ensures r.result.Ok? && RequestedSerial(ctx, arg).Some? ==>
              && |r.result.value| == 1 && r.result.value[0].Queried?
              && r.result.value[0].info.serial == RequestedSerial(ctx, arg)
    ensures r.result.Ok? && RequestedSerial(ctx, arg).None? ==>
              var serials := ListedSerials(ds);
              && |r.result.value| == |serials|
              && forall i | 0 <= i < |serials| :: EntrySerial(r.result.value[i]) == Some(serials[i])
    ensures r.result.Ok? && logText.Some? ==> WriteFile(logText.value, LogText(r.result.value)) in r.trace
    ensures r.result.Ok? && logText.None? && logJson.None? ==> forall e | e in r.trace :: !e.WriteFile? && !e.WriteJson?
    ensures r.result.Err? ==> forall e | e in r.trace :: !e.WriteJson?
    ensures r.result.Err? && (exists e | e in r.trace :: e.WriteFile?) ==> logText.Some? && r.result.error.NotAString?
  {
    var q := Query(ctx, h + [Devices], ds, arg);
    var t2 := [Devices] + q.trace;
    InspectsOnlyAppend([Devices], q.trace);
    if q.result.Err? {
      LogEvents(t2, [], None, None, [], false);
      assert t2 + [] == t2;
      return Run(t2, Err(q.result.error));
    }
    var logs := OutputLog(logText, logJson, q.result.value);
    LogEvents(t2, logs.trace, logText, logJson, q.result.value, logs.result.Ok?);
    r := Run(t2 + logs.trace, if logs.result.Err? then Err(logs.result.error) else q.result);
  }

  lemma DeviceMapEmpty(ds: seq<Device>)
    ensures |DeviceMap(ds)| == 0 <==> |ds| == 0
  {
    if |ds| > 0 {
      assert ds[0].serial in DeviceMap(ds);
    } else {
      assert DeviceMap(ds) == map[];
    }
  }

  /** The device events `t`, then the log writes `logs`: complete when
      `ok`, and otherwise a text log cut short. */
  lemma LogEvents(t: seq<Event>, logs: seq<Event>, logText: Option<string>, logJson: Option<string>, list: seq<Entry>, ok: bool)
    requires InspectsOnly(t)
    requires forall i | 0 <= i < |logs| :: logs[i].WriteFile? || logs[i].WriteJson?
    requires ok ==> |logs| == (if logText.Some? then 1 else 0) + (if logJson.Some? then 1 else 0)
    requires ok && logText.Some? ==> logs[0] == WriteFile(logText.value, LogText(list))
    requires !ok ==> |logs| <= 1 && (|logs| == 1 ==> logs[0].WriteFile?)
    ensures forall i | 0 <= i < |t + logs| :: ReadsDevice((t + logs)[i])
    ensures ok && logText.Some? ==> WriteFile(logText.value, LogText(list)) in t + logs
    ensures ok && logText.None? && logJson.None? ==> forall e | e in t + logs :: !e.WriteFile? && !e.WriteJson?
    ensures !ok ==> forall e | e in t + logs :: !e.WriteJson?
    ensures (exists e | e in t + logs :: e.WriteFile?) ==> |logs| > 0
  {
    forall i | 0 <= i < |t + logs| ensures ReadsDevice((t + logs)[i]) {
      if i >= |t| {
        assert (t + logs)[i] == logs[i - |t|];
      }
    }
    if ok && logText.Some? {
      assert (t + logs)[|t|] == logs[0];
    }
    if |logs| == 0 {
      assert t + logs == t;
    }
  }
}

=== FILE: console_dialog.dfy ===
/** `ConsoleDialog` (b2g_util/util/console_dialog.py): text menus and yes/no
    questions on the console. The answers typed by the user are a sequence
    of lines; running out of them is `InputExhausted`. */
module ConsoleDialog {
  import opened Wrappers
  import opened Text
  import opened Trace

  datatype EntryType = ItemType | CommandType

  /** One menu entry: what is shown, and whether it is a list item or a command. */
  datatype Entry = Entry(name: string, entryType: EntryType)

  /** The items dictionary: key typed by the user -> entry. */
  type Menu = map<string, Entry>

  const QuitKey: string := "q"
  const QuitEntry: Entry := Entry("QUIT", CommandType)

  /** `string.lowercase.replace('q', '')`: the keys handed out to commands
      whose own key is taken. */
  const Letters: string := "abcdefghijklmnoprstuvwxyz"

  /** The key of the `i`-th list item (counting from 1). */
  function ItemKey(i: nat): string {
    NatToString(i)
  }

  function Command(name: string): Entry {
    Entry(name, CommandType)
  }

  // ---------------------------------------------------------------------------
  // _create_items_dict

  /** The list items get the keys `next`, `next + 1`, ... in list order. */
  function AddItems(m: Menu, items: seq<string>, next: nat): Menu
    decreases |items|
  {
    if |items| == 0 then m
    else AddItems(m[ItemKey(next) := Entry(items[0], ItemType)], items[1..], next + 1)
  }

  /** The first pass over the alternative commands: each whose key is not
      taken yet is added under its own key. */
  function KeepFree(m: Menu, alts: seq<(string, string)>): Menu
    decreases |alts|
  {
    if |alts| == 0 then m
    else if alts[0].0 in m then KeepFree(m, alts[1..])
    else KeepFree(m[alts[0].0 := Command(alts[0].1)], alts[1..])
  }

  /** The alternative commands whose key is taken in `m`, in order. */
  function Colliding(m: Menu, alts: seq<(string, string)>): (r: seq<(string, string)>)
    ensures |r| <= |alts|
    ensures forall a | a in r :: a in alts && a.0 in m
    decreases |alts|
  {
    if |alts| == 0 then []
    else (if alts[0].0 in m then [alts[0]] else []) + Colliding(m, alts[1..])
  }

  /** The `while chars[option_index] in items_dict` scan: the first unused
      letter from `idx` on, or `None` where Python raises `IndexError`. */
  function FreeLetter(m: Menu, idx: nat): (r: Option<nat>)
    ensures r.Some? ==> idx <= r.value < |Letters| && [Letters[r.value]] !in m
    ensures r.Some? ==> forall l | idx <= l < r.value :: [Letters[l]] in m
    ensures r.None? ==> forall l | idx <= l < |Letters| :: [Letters[l]] in m
    decreases |Letters| - idx
  {
    if idx >= |Letters| then None
    else if [Letters[idx]] !in m then Some(idx)
    else FreeLetter(m, idx + 1)
  }

  /** The second pass: every command whose key was taken gets the next
      unused letter; `option_index` carries over from one to the next. */
  function AssignLetters(m: Menu, rest: seq<(string, string)>, idx: nat): Result<Menu, Error>
    decreases |rest|
  {
    if |rest| == 0 then Ok(m)
    else match FreeLetter(m, idx)
      case None => Err(IndexOutOfRange)
      case Some(l) => AssignLetters(m[[Letters[l]] := Command(rest[0].1)], rest[1..], l)
  }

  /** The dictionary before the alternative commands: quit and the list items. */
  function BaseMenu(items: seq<string>): Menu {
    AddItems(map[QuitKey := QuitEntry], items, 1)
  }

  /** `_create_items_dict(items_list, alternative_cmds_dict)`, with the
      alternative commands as (key, name) pairs in dictionary order. */
  function CreateItems(items: seq<string>, alts: seq<(string, string)>): Result<Menu, Error> {
    var base := BaseMenu(items);
    AssignLetters(KeepFree(base, alts), Colliding(base, alts), 0)
  }

  /** Python dictionaries have distinct keys. */
  predicate DistinctKeys(alts: seq<(string, string)>) {
    forall i, j | 0 <= i < j < |alts| :: alts[i].0 != alts[j].0
  }

  // ---------------------------------------------------------------------------
  // Facts about the passes

  predicate IsNumeral(k: string) {
    |k| > 0 && AllDigits(k)
  }

  /** No item number from `next` on is a key of `m`. */
  ghost predicate FreshFrom(m: Menu, next: nat) {
    forall j | j >= next :: ItemKey(j) !in m
  }

  lemma FreshStep(m: Menu, next: nat, e: Entry)
    requires FreshFrom(m, next)
    ensures FreshFrom(m[ItemKey(next) := e], next + 1)
  {
    forall j | j >= next + 1
      ensures ItemKey(j) !in m[ItemKey(next) := e]
    {
      if ItemKey(j) == ItemKey(next) {
        NatToStringInjective(j, next);
      }
    }
  }

  /** Numbering the items overwrites nothing already in the dictionary. */
  lemma {:induction false} AddItemsKeeps(m: Menu, items: seq<string>, next: nat, k: string)
    requires FreshFrom(m, next) && k in m
    ensures k in AddItems(m, items, next) && AddItems(m, items, next)[k] == m[k]
    decreases |items|
  {
    if |items| > 0 {
      var e := Entry(items[0], ItemType);
      FreshStep(m, next, e);
      assert k != ItemKey(next);
      AddItemsKeeps(m[ItemKey(next) := e], items[1..], next + 1, k);
    }
  }

  /** The `i`-th item (from 0) is under the number `next + i`. */
  lemma {:induction false} AddItemsHas(m: Menu, items: seq<string>, next: nat, i: nat)
    requires FreshFrom(m, next) && i < |items|
    ensures ItemKey(next + i) in AddItems(m, items, next)
    ensures AddItems(m, items, next)[ItemKey(next + i)] == Entry(items[i], ItemType)
    decreases |items|
  {
    var e := Entry(items[0], ItemType);
    var m' := m[ItemKey(next) := e];
    FreshStep(m, next, e);
    if i == 0 {
      AddItemsKeeps(m', items[1..], next + 1, ItemKey(next));
    } else {
      AddItemsHas(m', items[1..], next + 1, i - 1);
      assert next + 1 + (i - 1) == next + i;
    }
  }

  /** Every new key is a number. */
  lemma {:induction false} AddItemsKeys(m: Menu, items: seq<string>, next: nat, k: string)
    requires k in AddItems(m, items, next) && k !in m
    ensures exists i | next <= i < next + |items| :: k == ItemKey(i)
    decreases |items|
  {
    if |items| > 0 {
      var m' := m[ItemKey(next) := Entry(items[0], ItemType)];
      if k != ItemKey(next) {
        AddItemsKeys(m', items[1..], next + 1, k);
      }
    }
  }

  /** One new entry per item. */
  lemma {:induction false} AddItemsSize(m: Menu, items: seq<string>, next: nat)
    requires FreshFrom(m, next)
    ensures |AddItems(m, items, next)| == |m| + |items|
    decreases |items|
  {
    if |items| > 0 {
      var e := Entry(items[0], ItemType);
      FreshStep(m, next, e);
      AddItemsSize(m[ItemKey(next) := e], items[1..], next + 1);
    }
  }

  lemma DistinctTail(alts: seq<(string, string)>)
    requires |alts| > 0 && DistinctKeys(alts)
    ensures DistinctKeys(alts[1..])
    ensures forall i | 0 <= i < |alts| - 1 :: alts[1..][i].0 != alts[0].0
  {
    forall i, j | 0 <= i < j < |alts| - 1
      ensures alts[1..][i].0 != alts[1..][j].0
    {
      assert alts[1..][i] == alts[i + 1] && alts[1..][j] == alts[j + 1];
    }
  }

  /** The first pass overwrites nothing. */
  lemma {:induction false} KeepFreeKeeps(m: Menu, alts: seq<(string, string)>, k: string)
    requires k in m
    ensures k in KeepFree(m, alts) && KeepFree(m, alts)[k] == m[k]
    decreases |alts|
  {
    if |alts| > 0 {
      var a := alts[0];
      KeepFreeKeeps(if a.0 in m then m else m[a.0 := Command(a.1)], alts[1..], k);
    }
  }

  /** A command whose key is not taken before the first pass gets it. */
  lemma {:induction false} KeepFreeAdds(m: Menu, alts: seq<(string, string)>, i: nat)
    requires DistinctKeys(alts) && i < |alts| && alts[i].0 !in m
    ensures alts[i].0 in KeepFree(m, alts) && KeepFree(m, alts)[alts[i].0] == Command(alts[i].1)
    decreases |alts|
  {
    var a := alts[0];
    if i == 0 {
      KeepFreeKeeps(m[a.0 := Command(a.1)], alts[1..], a.0);
    } else {
      DistinctTail(alts);
      assert alts[1..][i - 1] == alts[i];
      KeepFreeAdds(if a.0 in m then m else m[a.0 := Command(a.1)], alts[1..], i - 1);
    }
  }

  /** Every command either gets its own key in the first pass or waits for
      a letter. */
  lemma {:induction false} KeepFreeSize(m: Menu, alts: seq<(string, string)>)
    requires DistinctKeys(alts)
    ensures |KeepFree(m, alts)| + |Colliding(m, alts)| == |m| + |alts|
    decreases |alts|
  {
    if |alts| > 0 {
      var a := alts[0];
      DistinctTail(alts);
      var m' := if a.0 in m then m else m[a.0 := Command(a.1)];
      KeepFreeSize(m', alts[1..]);
      CollidingSame(m, m', a.0, alts[1..]);
    }
  }

  /** Adding a key that no later command has does not change which of them
      collide. */
  lemma {:induction false} CollidingSame(m: Menu, m': Menu, k: string, alts: seq<(string, string)>)
    requires forall x | x != k :: x in m <==> x in m'
    requires forall i | 0 <= i < |alts| :: alts[i].0 != k
    ensures Colliding(m, alts) == Colliding(m', alts)
    decreases |alts|
  {
    if |alts| > 0 {
      assert alts[0].0 != k;
      CollidingSame(m, m', k, alts[1..]);
    }
  }

  /** The number of letters from `idx` on that are not keys of `m`. */
  function FreeFrom(m: Menu, idx: nat): (n: nat)
    ensures n <= |Letters| - idx || idx >= |Letters|
    decreases |Letters| - idx
  {
    if idx >= |Letters| then 0
    else (if [Letters[idx]] !in m then 1 else 0) + FreeFrom(m, idx + 1)
  }

  lemma LettersIncreasing()
    ensures forall a | 0 <= a < |Letters| - 1 :: Letters[a] < Letters[a + 1]
  {
  }

  lemma {:induction false} LettersDistinct(a: nat, b: nat)
    requires a < b < |Letters|
    ensures Letters[a] != Letters[b]
    ensures Letters[a] < Letters[b]
    decreases b - a
  {
    LettersIncreasing();
    if a + 1 < b {
      LettersDistinct(a + 1, b);
    }
  }

  lemma LetterKeysDistinct(a: nat, b: nat)
    requires a < b < |Letters|
    ensures [Letters[a]] != [Letters[b]]
  {
    LettersDistinct(a, b);
    assert [Letters[a]][0] != [Letters[b]][0];
  }

  /** Used letters before `j` do not count. */
  lemma {:induction false} FreeFromSkip(m: Menu, idx: nat, j: nat)
    requires idx <= j <= |Letters|
    requires forall l | idx <= l < j :: [Letters[l]] in m
    ensures FreeFrom(m, idx) == FreeFrom(m, j)
    decreases j - idx
  {
    if idx < j {
      FreeFromSkip(m, idx + 1, j);
    }
  }

  /** Taking letter `j` leaves one letter fewer from `j` on. */
  lemma {:induction false} FreeFromTake(m: Menu, j: nat, from: nat, e: Entry)
    requires from <= j < |Letters| && [Letters[j]] !in m
    ensures FreeFrom(m[[Letters[j]] := e], from) + 1 == FreeFrom(m, from)
    decreases j - from
  {
    var m' := m[[Letters[j]] := e];
    if from < j {
      assert [Letters[from]] in m' <==> [Letters[from]] in m by {
        LetterKeysDistinct(from, j);
      }
      FreeFromTake(m, j, from + 1, e);
    } else {
      assert [Letters[j]] in m';
      FreeFromUntouched(m, m', j, j + 1);
    }
  }

  /** Letters after `j` are unaffected by taking letter `j`. */
  lemma {:induction false} FreeFromUntouched(m: Menu, m': Menu, j: nat, from: nat)
    requires j < from
    requires j < |Letters|
    requires forall k | k != [Letters[j]] :: k in m <==> k in m'
    ensures FreeFrom(m, from) == FreeFrom(m', from)
    decreases |Letters| - from
  {
    if from < |Letters| {
      LettersDistinct(j, from);
      assert [Letters[from]] != [Letters[j]];
      FreeFromUntouched(m, m', j, from + 1);
    }
  }

  /** The second pass fails, with `IndexError`, exactly when fewer letters
      are unused than commands are waiting for one. */
  lemma {:induction false} AssignLettersError(m: Menu, rest: seq<(string, string)>, idx: nat)
    requires idx <= |Letters|
    requires forall l | 0 <= l < idx :: [Letters[l]] in m
    ensures var r := AssignLetters(m, rest, idx);
            && (r.Err? <==> FreeFrom(m, idx) < |rest|)
            && (r.Err? ==> r.error == IndexOutOfRange)
    decreases |rest|
  {
    if |rest| > 0 {
      var f := FreeLetter(m, idx);
      if f.None? {
        FreeFromSkip(m, idx, |Letters|);
      } else {
        var l := f.value;
        var m' := m[[Letters[l]] := Command(rest[0].1)];
        FreeFromSkip(m, idx, l);
        FreeFromTake(m, l, l, Command(rest[0].1));
        AssignLettersError(m', rest[1..], l);
      }
    }
  }

  /** The second pass overwrites nothing. */
  lemma {:induction false} AssignLettersKeeps(m: Menu, rest: seq<(string, string)>, idx: nat, k: string)
    requires k in m
    ensures var r := AssignLetters(m, rest, idx);
            r.Ok? ==> k in r.value && r.value[k] == m[k]
    decreases |rest|
  {
    if |rest| > 0 && FreeLetter(m, idx).Some? {
      var l := FreeLetter(m, idx).value;
      AssignLettersKeeps(m[[Letters[l]] := Command(rest[0].1)], rest[1..], idx := l, k := k);
    }
  }

  /** Each new key is one of the letters. */
  lemma {:induction false} AssignLettersNew(m: Menu, rest: seq<(string, string)>, idx: nat, k: string)
    requires k !in m
    ensures var r := AssignLetters(m, rest, idx);
            r.Ok? && k in r.value ==> |k| == 1 && k[0] in Letters
    decreases |rest|
  {
    if |rest| > 0 && FreeLetter(m, idx).Some? {
      var l := FreeLetter(m, idx).value;
      if k == [Letters[l]] {
        assert k[0] == Letters[l];
      } else {
        AssignLettersNew(m[[Letters[l]] := Command(rest[0].1)], rest[1..], l, k);
      }
    }
  }

  /** One new entry per waiting command. */
  lemma {:induction false} AssignLettersSize(m: Menu, rest: seq<(string, string)>, idx: nat)
    ensures var r := AssignLetters(m, rest, idx);
            r.Ok? ==> |r.value| == |m| + |rest|
    decreases |rest|
  {
    if |rest| > 0 && FreeLetter(m, idx).Some? {
      var l := FreeLetter(m, idx).value;
      AssignLettersSize(m[[Letters[l]] := Command(rest[0].1)], rest[1..], l);
    }
  }

  /** A colliding command gets the first letter not yet used: every letter
      before it is taken. */
  lemma FreeLetterFirst(m: Menu, idx: nat)
    requires idx <= |Letters|
    requires forall l | 0 <= l < idx :: [Letters[l]] in m
    ensures var f := FreeLetter(m, idx);
            f.Some? ==> [Letters[f.value]] !in m && forall l | 0 <= l < f.value :: [Letters[l]] in m
  {
  }

  lemma BaseFresh()
    ensures FreshFrom(map[QuitKey := QuitEntry], 1)
  {
    forall j | j >= 1
      ensures ItemKey(j) != QuitKey
    {
      assert IsDigit(ItemKey(j)[0]);
    }
  }

  /** `q` is QUIT. */
  lemma BaseMenuQuit(items: seq<string>)
    ensures QuitKey in BaseMenu(items) && BaseMenu(items)[QuitKey] == QuitEntry
  {
    BaseFresh();
    AddItemsKeeps(map[QuitKey := QuitEntry], items, 1, QuitKey);
  }

  /** The `i`-th item (from 0) is under the key `str(i + 1)`. */
  lemma BaseMenuItem(items: seq<string>, i: nat)
    requires i < |items|
    ensures ItemKey(i + 1) in BaseMenu(items)
    ensures BaseMenu(items)[ItemKey(i + 1)] == Entry(items[i], ItemType)
  {
    BaseFresh();
    AddItemsHas(map[QuitKey := QuitEntry], items, 1, i);
    assert 1 + i == i + 1;
  }

  /** One entry for quit and one per item. */
  lemma BaseMenuSize(items: seq<string>)
    ensures |BaseMenu(items)| == 1 + |items|
  {
    BaseFresh();
    AddItemsSize(map[QuitKey := QuitEntry], items, 1);
  }

  /** The keys taken before the commands are exactly `q` and `1..n`. */
  lemma FreeKey(items: seq<string>, k: string)
    ensures k in BaseMenu(items) <==> k == QuitKey || exists i | 1 <= i <= |items| :: k == ItemKey(i)
  {
    var m := map[QuitKey := QuitEntry];
    BaseMenuQuit(items);
    if k in BaseMenu(items) && k != QuitKey {
      AddItemsKeys(m, items, 1, k);
    }
    if exists i | 1 <= i <= |items| :: k == ItemKey(i) {
      var i :| 1 <= i <= |items| && k == ItemKey(i);
      BaseMenuItem(items, i - 1);
    }
  }

  /** `_create_items_dict` fails, with `IndexError`, exactly when more
      commands collide than there are unused letters. */
  lemma CreateItemsError(items: seq<string>, alts: seq<(string, string)>)
    requires DistinctKeys(alts)
    ensures var r := CreateItems(items, alts);
            var base := BaseMenu(items);
            && (r.Err? <==> FreeFrom(KeepFree(base, alts), 0) < |Colliding(base, alts)|)
            && (r.Err? ==> r.error == IndexOutOfRange)
  {
    var base := BaseMenu(items);
    AssignLettersError(KeepFree(base, alts), Colliding(base, alts), 0);
  }

  /** What is in the dictionary before the commands stays: `q` and the items. */
  lemma CreateItemsKeeps(items: seq<string>, alts: seq<(string, string)>, k: string)
    requires DistinctKeys(alts) && k in BaseMenu(items)
    ensures var r := CreateItems(items, alts);
            r.Ok? ==> k in r.value && r.value[k] == BaseMenu(items)[k]
  {
    var base := BaseMenu(items);
    KeepFreeKeeps(base, alts, k);
    AssignLettersKeeps(KeepFree(base, alts), Colliding(base, alts), 0, k);
  }

  /** A command whose key is neither `q` nor an item number keeps its key. */
  lemma CreateItemsFreeAlt(items: seq<string>, alts: seq<(string, string)>, i: nat)
    requires DistinctKeys(alts) && i < |alts|
    requires alts[i].0 != QuitKey && forall j | 1 <= j <= |items| :: alts[i].0 != ItemKey(j)
    ensures var r := CreateItems(items, alts);
            r.Ok? ==> alts[i].0 in r.value && r.value[alts[i].0] == Command(alts[i].1)
  {
    var base := BaseMenu(items);
    FreeKey(items, alts[i].0);
    KeepFreeAdds(base, alts, i);
    AssignLettersKeeps(KeepFree(base, alts), Colliding(base, alts), 0, alts[i].0);
  }

  /** Nothing is overwritten: quit, every item and every command has an entry. */
  lemma CreateItemsSize(items: seq<string>, alts: seq<(string, string)>)
    requires DistinctKeys(alts)
    ensures var r := CreateItems(items, alts);
            r.Ok? ==> |r.value| == 1 + |items| + |alts|
  {
    var base := BaseMenu(items);
    BaseMenuSize(items);
    KeepFreeSize(base, alts);
    AssignLettersSize(KeepFree(base, alts), Colliding(base, alts), 0);
  }

  // ---------------------------------------------------------------------------
  // menu

  /** The `menu` loop: `response` starts empty and each answer read is
      lower-cased, until it is `q` or a key of the dictionary. */
  function MenuLoop(m: Menu, response: string, inputs: seq<string>): (r: Result<string, Error>)
    ensures r.Ok? ==> r.value in m || r.value == QuitKey
    decreases |inputs|
  {
    if response in m || response == QuitKey then Ok(response)
    else if |inputs| == 0 then Err(InputExhausted)
    else MenuLoop(m, Lower(inputs[0]), inputs[1..])
  }

  datatype Selection = Selection(select: string, items: Menu)

  /** `menu(title, description, items_list, alternative_cmds_dict)`. */
  function MenuDialog(items: seq<string>, alts: seq<(string, string)>, inputs: seq<string>): (r: Result<Selection, Error>)
    requires DistinctKeys(alts)
    ensures r.Ok? ==> r.value.select in r.value.items
    ensures r.Ok? ==> QuitKey in r.value.items && r.value.items[QuitKey] == QuitEntry
  {
    BaseMenuQuit(items);
    CreateItemsKeeps(items, alts, QuitKey);
    match CreateItems(items, alts)
    case Err(e) => Err(e)
    case Ok(m) =>
      match MenuLoop(m, "", inputs)
      case Err(e) => Err(e)
      case Ok(s) => Ok(Selection(s, m))
  }

  /** The selection is the first answer that, lower-cased, is a key. */
  lemma {:induction false} MenuLoopFirst(m: Menu, inputs: seq<string>, k: nat)
    requires "" !in m && k < |inputs|
    requires Lower(inputs[k]) in m || Lower(inputs[k]) == QuitKey
    requires forall i | 0 <= i < k :: Lower(inputs[i]) !in m && Lower(inputs[i]) != QuitKey
    ensures MenuLoop(m, "", inputs) == Ok(Lower(inputs[k]))
    decreases k
  {
    if k > 0 {
      assert Lower(inputs[0]) !in m && Lower(inputs[0]) != QuitKey;
      MenuLoopFirst(m, inputs[1..], k - 1);
      assert MenuLoop(m, "", inputs) == MenuLoop(m, Lower(inputs[0]), inputs[1..]);
      assert inputs[1..][k - 1] == inputs[k];
      assert MenuLoop(m, Lower(inputs[0]), inputs[1..]) == MenuLoop(m, Lower(inputs[1..][0]), inputs[1..][1..]);
    }
  }

  // ---------------------------------------------------------------------------
  // yes_no

  /** The hint after the question: the default answer is the capital letter. */
  function YesNoSuffix(defaultValue: string): (r: string)
    ensures |r| == 7 && r[..2] == " (" && r[3] == '/' && r[5..] == ") "
    ensures r[2] == (if defaultValue == "y" then 'Y' else 'y')
    ensures r[4] == (if defaultValue == "n" then 'N' else 'n')
  {
    if defaultValue == "y" then " (Y/n) "
    else if defaultValue == "n" then " (y/N) "
    else " (y/n) "
  }

  predicate IsYesNo(s: string) {
    s == "y" || s == "n"
  }

  /** One round of the `yes_no` loop: the lower-cased answer, replaced by
      the default when there is one and the answer is neither `y` nor `n`. */
  function YesNoResponse(defaultValue: string, input: string): string {
    var response := Lower(input);
    if |defaultValue| > 0 && !IsYesNo(response) then defaultValue else response
  }

  /** `yes_no(title, description, default_value)`: asks until the response
      is `y` or `n`, and answers whether it is `y`. */
  function YesNo(defaultValue: string, inputs: seq<string>): (r: Result<bool, Error>)
    ensures r.Err? ==> r.error == InputExhausted
    decreases |inputs|
  {
    if |inputs| == 0 then Err(InputExhausted)
    else
      var response := YesNoResponse(defaultValue, inputs[0]);
      if IsYesNo(response) then Ok(response == "y") else YesNo(defaultValue, inputs[1..])
  }

  /** With a default of `y` or `n`, the first answer always decides: `y` or
      `n` (in either case) as typed, anything else the default. */
  lemma YesNoWithDefault(defaultValue: string, inputs: seq<string>)
    requires IsYesNo(defaultValue) && |inputs| > 0
    ensures var a := Lower(inputs[0]);
            YesNo(defaultValue, inputs) == Ok(a == "y" || (a != "n" && defaultValue == "y"))
  {
  }

  /** Without a default, the answer is that of the first input that is `y`
      or `n` once lower-cased; the question repeats until then. */
  lemma {:induction false} YesNoNoDefault(inputs: seq<string>, k: nat)
    requires k < |inputs| && IsYesNo(Lower(inputs[k]))
    requires forall i | 0 <= i < k :: !IsYesNo(Lower(inputs[i]))
    ensures YesNo("", inputs) == Ok(Lower(inputs[k]) == "y")
    decreases k
  {
    if k > 0 {
      assert !IsYesNo(Lower(inputs[0]));
      assert inputs[1..][k - 1] == inputs[k];
      YesNoNoDefault(inputs[1..], k - 1);
    }
  }

  /** Without a default and with no `y` or `n` among the inputs, the
      question is asked until the input runs out. */
  lemma {:induction false} YesNoNeverAnswered(inputs: seq<string>)
    requires forall i | 0 <= i < |inputs| :: !IsYesNo(Lower(inputs[i]))
    ensures YesNo("", inputs) == Err(InputExhausted)
    decreases |inputs|
  {
    if |inputs| > 0 {
      assert !IsYesNo(Lower(inputs[0]));
      YesNoNeverAnswered(inputs[1..]);
    }
  }
}

=== FILE: crash_reports.dfy ===
/** `CrashReportHelper` (b2g_util/get_crashreports.py): lists the pending and
    submitted crash reports on a device and turns each submitted report
    into a link to the crash-stats server. */
module CrashReports {
  import opened Wrappers
  import opened Text
  import opened Trace
  import opened Adb
  import opened ShellSeq

  // The backslash is part of the command: it escapes the space for the shell.
  const PendingListing: string := "ls -al /data/b2g/mozilla/Crash\\ Reports/pending"
  const SubmittedListing: string := "ls -al /data/b2g/mozilla/Crash\\ Reports/submitted"
  const ReportUrlPrefix: string := "https://crash-stats.mozilla.com/report/index/"
  const Bp: string := "bp-"
  const TxtSuffix: string := ".txt"

  /** `bp-` occurs in `s` at position `k`. */
  predicate BpAt(s: string, k: int) {
    0 <= k && k + 3 <= |s| && s[k..k + 3] == Bp
  }

  /** The last `k` in `1..from` with `bp-` at `k`. */
  function BpBelow(s: string, from: int): (r: Option<nat>)
    ensures r.Some? ==> 1 <= r.value <= from && BpAt(s, r.value)
    ensures r.Some? ==> forall j | r.value < j <= from :: !BpAt(s, j)
    ensures r.None? ==> forall j | 1 <= j <= from :: !BpAt(s, j)
    decreases from
  {
    if from < 1 then None
    else if BpAt(s, from) then Some(from)
    else BpBelow(s, from - 1)
  }

  /** Where the greedy `^.+bp-` ends its match: at the last `bp-` that has
      at least one character before it. */
  function LastBp(s: string): (r: Option<nat>)
    ensures r.Some? ==> r.value >= 1 && BpAt(s, r.value)
    ensures r.Some? ==> forall j | j > r.value :: !BpAt(s, j)
    ensures r.None? ==> forall j | j >= 1 :: !BpAt(s, j)
  {
    BpBelow(s, |s| - 3)
  }

  /** `re.sub(r'^.+bp-', '', s)`. */
  function DropThroughBp(s: string): string {
    match LastBp(s)
    case None => s
    case Some(k) => s[k + 3..]
  }

  /** `re.sub(r'\.txt\s*$', '', s)`: a `.txt` followed only by whitespace is
      removed together with that whitespace. */
  function StripTxt(s: string): string {
    var t := StripTrailingSpace(s);
    if EndsWith(t, TxtSuffix) then t[..|t| - 4] else s
  }

  /** The report id on one line of the `submitted` listing. */
  function CrashId(line: string): string {
    StripTxt(DropThroughBp(line))
  }

  function ReportUrl(id: string): (url: string)
    ensures StartsWith(url, ReportUrlPrefix) && url[|ReportUrlPrefix|..] == id
  {
    ReportUrlPrefix + id
  }

  /** One link per `\n`-separated line of the listing, in order. */
  function Links(listing: string): (r: seq<string>)
    ensures |r| == |Split(listing, '\n')|
    ensures forall i | 0 <= i < |r| :: r[i] == ReportUrl(CrashId(Split(listing, '\n')[i]))
  {
    var lines := Split(listing, '\n');
    seq(|lines|, i requires 0 <= i < |lines| => ReportUrl(CrashId(lines[i])))
  }

  /** `id` has no `bp-` in it. */
  predicate NoBp(id: string) {
    forall j | 0 <= j < |id| :: !BpAt(id, j)
  }

  /** The file name of a submitted report, `bp-<id>.txt`, after anything at
      all (the `ls -al` columns) and before trailing whitespace, gives back
      `<id>`. */
  lemma CrashIdOf(pre: string, id: string, w: string)
    requires |pre| >= 1 && NoBp(id) && AllSpace(w)
    requires |id| == 0 || !IsSpace(id[|id| - 1])
    ensures CrashId(pre + Bp + id + TxtSuffix + w) == id
  {
    var rest := id + TxtSuffix + w;
    var s := pre + Bp + id + TxtSuffix + w;
    assert s == (pre + Bp) + rest;
    LastBpOf(pre, id, w);
    assert DropThroughBp(s) == rest;
    StripTxtOf(id, w);
  }

  /** The last `bp-` with something before it is the one before `id`. */
  lemma LastBpOf(pre: string, id: string, w: string)
    requires |pre| >= 1 && NoBp(id) && AllSpace(w)
    ensures LastBp(pre + Bp + id + TxtSuffix + w) == Some(|pre|)
  {
    var s := pre + Bp + id + TxtSuffix + w;
    var k := |pre|;
    assert BpAt(s, k) by {
      assert s[k..k + 3] == Bp;
    }
    var r := LastBp(s);
    assert r.Some? && r.value >= k;
    if r.value != k {
      LaterBp(pre, id, w, r.value);
    }
  }

  /** `.txt` and the whitespace after it come off. */
  lemma StripTxtOf(id: string, w: string)
    requires AllSpace(w)
    requires |id| == 0 || !IsSpace(id[|id| - 1])
    ensures StripTxt(id + TxtSuffix + w) == id
  {
    var t := id + TxtSuffix;
    StripTrailingSpaceAppend(t, w);
    assert StripTrailingSpace(t) == t by {
      assert !IsSpace(t[|t| - 1]);
    }
    assert EndsWith(t, TxtSuffix) by {
      assert t[|t| - 4..] == TxtSuffix;
    }
    assert t[..|t| - 4] == id;
  }

  /** No `bp-` of `pre + bp- + id + .txt + w` starts after the one before `id`. */
  lemma LaterBp(pre: string, id: string, w: string, j: int)
    requires NoBp(id) && AllSpace(w)
    requires j > |pre|
    ensures !BpAt(pre + Bp + id + TxtSuffix + w, j)
  {
    var s := pre + Bp + id + TxtSuffix + w;
    var e := |pre| + 3 + |id|;
    if j + 3 > |s| {
    } else if j < |pre| + 3 {
      assert s[j] == Bp[j - |pre|];
      assert s[j..j + 3][0] != 'b';
    } else if j + 3 <= e {
      assert s[j..j + 3] == id[j - |pre| - 3..j - |pre|];
      assert !BpAt(id, j - |pre| - 3);
    } else {
      if j + 2 < e + 4 {
        assert s[j + 2] == TxtSuffix[j + 2 - e];
      } else {
        assert s[j + 2] == w[j + 2 - e - 4];
      }
      assert s[j..j + 3][2] != '-';
    }
  }

  /** A listing made of lines without `\n` gives one link per line. */
  lemma LinksOfLines(lines: seq<string>)
    requires |lines| > 0
    requires forall i | 0 <= i < |lines| :: '\n' !in lines[i]
    ensures |Links(Join(lines, '\n'))| == |lines|
    ensures forall i | 0 <= i < |lines| :: Links(Join(lines, '\n'))[i] == ReportUrl(CrashId(lines[i]))
  {
    SplitJoin(lines, '\n');
  }

  /** What `get_crashreports` prints: the two listings, and the links when
      the `submitted` listing exited with 0 on the device. */
  datatype Report = Report(pending: string, submitted: string, links: seq<string>)

  const CrashCommands: seq<string> := [PendingListing, SubmittedListing]

  /** `get_crashreports`: `adb root` (whose outcome is ignored), then the two
      listings; the links are made only when the `submitted` listing exited
      with 0 on the device. */
  method GetCrashReports(ctx: Ctx, h: seq<Event>, serial: Option<string>) returns (r: Run<Report>)
    ensures var p := Shell(serial, PendingListing);
            Ask(ctx, h + [Root(serial)], p).code != 0 ==> r == Run([Root(serial), p], Err(Transport(p)))
    ensures var p := Shell(serial, PendingListing);
            var s := Shell(serial, SubmittedListing);
            var h2 := h + [Root(serial)] + [p];
            Ask(ctx, h + [Root(serial)], p).code == 0 && Ask(ctx, h2, s).code != 0 ==>
              r == Run([Root(serial), p, s], Err(Transport(s)))
    ensures var p := Shell(serial, PendingListing);
            var s := Shell(serial, SubmittedListing);
            var h2 := h + [Root(serial)] + [p];
            var sub := SplitShellOutput(Ask(ctx, h2, s).text);
            Ask(ctx, h + [Root(serial)], p).code == 0 && Ask(ctx, h2, s).code == 0 ==>
              && r.trace == [Root(serial), p, s]
              && r.result.Ok?
              && r.result.value.submitted == sub.output
              && (sub.code == 0 ==> r.result.value.links == Links(sub.output))
              && (sub.code != 0 ==> r.result.value.links == [])
  {
    var root := Root(serial);
    var p := AdbShell(ctx, h + [root], serial, PendingListing);
    if p.result.Err? {
      return Run([root] + p.trace, Err(p.result.error));
    }
    var pe := Shell(serial, PendingListing);
    var se := Shell(serial, SubmittedListing);
    var s := AdbShell(ctx, h + [root] + [pe], serial, SubmittedListing);
    if s.result.Err? {
      return Run([root, pe, se], Err(s.result.error));
    }
    var sub := s.result.value;
    var links := if sub.code == 0 then Links(sub.output) else [];
    r := Run([root, pe, se], Ok(Report(p.result.value.output, sub.output, links)));
  }

  lemma CrashEvents(serial: Option<string>)
    ensures ShellEvents(serial, CrashCommands) == [Shell(serial, PendingListing), Shell(serial, SubmittedListing)]
  {
    assert CrashCommands[1..] == [SubmittedListing];
    assert CrashCommands[1..][1..] == [];
  }

  /** `run`: the device is chosen as every tool does, then its reports are
      listed. */
  method RunCrashReports(ctx: Ctx, h: seq<Event>, arg: Option<string>) returns (r: Run<Report>)
    ensures var sel := SelectTarget(ctx, h, arg, true);
            sel.result.Err? ==> r.trace == sel.trace && r.result == Err(sel.result.error)
    ensures var a := Ask(ctx, h, Devices);
            a.code == 0 && ParseListing(a.text).Ok? && |DeviceMap(ParseListing(a.text).value)| == 0 ==>
              r == Run([Devices], Err(NoDevice))
    ensures r.result.Ok? ==> ShellCommands(r.trace) == CrashCommands
    ensures r.result.Ok? ==> Root(RequestedSerial(ctx, arg)) in r.trace
  {
    var sel := SelectTarget(ctx, h, arg, true);
    if sel.result.Err? {
      return Fail(sel);
    }
    var serial := sel.result.value;
    var c := GetCrashReports(ctx, h + sel.trace, serial);
    if c.result.Ok? {
      CrashEvents(serial);
      ShellEventsCommands(serial, CrashCommands);
      ShellCommandsAppend([Root(serial)], ShellEvents(serial, CrashCommands));
      assert ShellCommands([Root(serial)]) == [] by {
        assert [Root(serial)][1..] == [];
      }
      ShellCommandsAppend(sel.trace, c.trace);
      NoShellCommands(sel.trace);
      assert c.trace[0] in c.trace;
    }
    r := After(sel.trace, c);
  }
}

=== FILE: flash_taskcluster.dfy ===
/** `B2GTraverseRunner` (b2g_util/flash_taskcluster.py): after a Taskcluster
    download, sorts the downloaded files into a full image, a Gaia package
    and a Gecko package, offers what was found, and dispatches the choice. */
module FlashTaskcluster {
  import opened Wrappers
  import opened Text
  import opened Trace

  datatype Package = Image | Gaia | Gecko

  /** The file name suffix each kind of package must have. */
  function Suffix(p: Package): string {
    match p
    case Image => ".zip"
    case Gaia => ".zip"
    case Gecko => ".tar.gz"
  }

  /** The `*_magic_folder` entry each kind of archive must list. */
  function Marker(p: Package): string {
    match p
    case Image => "b2g-distro/"
    case Gaia => "gaia/profile/"
    case Gecko => "b2g"
  }

  /** The runner's `has_*` and `*_path` attributes: a package was found
      exactly when its path is set, and the two always change together. */
  datatype Found = Found(image: Option<string>, gaia: Option<string>, gecko: Option<string>) {
    function Has(p: Package): bool {
      match p
      case Image => image.Some?
      case Gaia => gaia.Some?
      case Gecko => gecko.Some?
    }

    function Set(p: Package, path: string): Found {
      match p
      case Image => this.(image := Some(path))
      case Gaia => this.(gaia := Some(path))
      case Gecko => this.(gecko := Some(path))
    }

    function PathOf(p: Package): Option<string> {
      match p
      case Image => image
      case Gaia => gaia
      case Gecko => gecko
    }
  }

  /** `_reset_arguments`: nothing found. */
  const NothingFound: Found := Found(None, None, None)

  // ---------------------------------------------------------------------------
  // check_b2g_image, check_gaia_package, check_gecko_package

  /** `check_*(file_path)`: an existing file with the right suffix whose
      archive listing has the marker entry; an archive that cannot be
      opened is no package. */
  function Check(ctx: Ctx, h: seq<Event>, p: Package, path: string): (r: Run<bool>)
    ensures r.result.Ok? && 1 <= |r.trace| <= 2 && r.trace[0] == IsFile(path)
    ensures var isFile := Ask(ctx, h, IsFile(path)).code == 0;
            var listing := Ask(ctx, h + [IsFile(path)], ListArchive(path));
            r.result.value <==> isFile && EndsWith(path, Suffix(p)) && listing.code == 0 && Marker(p) in listing.entries
    ensures ListArchive(path) in r.trace <==> Ask(ctx, h, IsFile(path)).code == 0 && EndsWith(path, Suffix(p))
    ensures forall e | e in r.trace :: e == IsFile(path) || e == ListArchive(path)
  {
    var isFile := Ask(ctx, h, IsFile(path));
    if isFile.code != 0 || !EndsWith(path, Suffix(p)) then
      Run([IsFile(path)], Ok(false))
    else
      var listing := Ask(ctx, h + [IsFile(path)], ListArchive(path));
      Run([IsFile(path), ListArchive(path)], Ok(listing.code == 0 && Marker(p) in listing.entries))
  }

  /** The checks of one downloaded file: image first, then Gaia, then
      Gecko, stopping at the first that accepts it. */
  function Classify(ctx: Ctx, h: seq<Event>, path: string): (r: Run<Option<Package>>)
    ensures r.result.Ok? && 1 <= |r.trace| <= 6
    ensures forall e | e in r.trace :: e == IsFile(path) || e == ListArchive(path)
    ensures r.result.value.Some? ==> EndsWith(path, Suffix(r.result.value.value))
    ensures r.result.value != Some(Image) ==> !Check(ctx, h, Image, path).result.value
    ensures r.result.value == Some(Image) <==> Check(ctx, h, Image, path).result.value
    ensures var img := Check(ctx, h, Image, path);
            var gaia := Check(ctx, h + img.trace, Gaia, path);
            var gecko := Check(ctx, h + img.trace + gaia.trace, Gecko, path);
            && (r.result.value == Some(Gaia) <==> !img.result.value && gaia.result.value)
            && (r.result.value == Some(Gecko) <==> !img.result.value && !gaia.result.value && gecko.result.value)
            && (r.result.value.None? <==> !img.result.value && !gaia.result.value && !gecko.result.value)
  {
    var img := Check(ctx, h, Image, path);
    if img.result.value then Run(img.trace, Ok(Some(Image)))
    else
      var gaia := Check(ctx, h + img.trace, Gaia, path);
      if gaia.result.value then Run(img.trace + gaia.trace, Ok(Some(Gaia)))
      else
        var gecko := Check(ctx, h + img.trace + gaia.trace, Gecko, path);
        Run(img.trace + gaia.trace + gecko.trace, Ok(if gecko.result.value then Some(Gecko) else None))
  }

  /** An archive with both markers is an image: the Gaia check never runs. */
  lemma ImageBeforeGaia(ctx: Ctx, h: seq<Event>, path: string)
    requires Check(ctx, h, Image, path).result.value
    ensures Classify(ctx, h, path) == Run(Check(ctx, h, Image, path).trace, Ok(Some(Image)))
  {
  }

  /** One file's classification after a history: its events and its
      kind. */
  type Step = (seq<Event>, string) -> (seq<Event>, Option<Package>)

  /** A step that asks about its file only and classifies it by suffix. */
  ghost predicate SuffixStep(step: Step) {
    forall h, f ::
      && (forall e | e in step(h, f).0 :: (e.IsFile? || e.ListArchive?) && e.path == f)
      && (step(h, f).1.Some? ==> EndsWith(f, Suffix(step(h, f).1.value)))
  }

  /** `step` over `files`: the events and the classifications, in order,
      each file classified after the events of the ones before. */
  function Cascade(step: Step, h: seq<Event>, files: seq<string>): (seq<Event>, seq<Option<Package>>)
    decreases |files|
  {
    if |files| == 0 then ([], [])
    else
      var c := step(h, files[0]);
      var rest := Cascade(step, h + c.0, files[1..]);
      (c.0 + rest.0, [c.1] + rest.1)
  }

  lemma {:induction false} CascadeLength(step: Step, h: seq<Event>, files: seq<string>)
    ensures |Cascade(step, h, files).1| == |files|
    decreases |files|
  {
    if |files| > 0 {
      CascadeLength(step, h + step(h, files[0]).0, files[1..]);
    }
  }

  lemma {:induction false} CascadeFacts(step: Step, h: seq<Event>, files: seq<string>)
    requires SuffixStep(step)
    ensures var p := Cascade(step, h, files);
            && |p.1| == |files|
            && (forall e | e in p.0 :: (e.IsFile? || e.ListArchive?) && e.path in files)
            && (forall i | 0 <= i < |files| :: p.1[i].Some? ==> EndsWith(files[i], Suffix(p.1[i].value)))
    decreases |files|
  {
    if |files| > 0 {
      var c := step(h, files[0]);
      var rest := Cascade(step, h + c.0, files[1..]);
      CascadeFacts(step, h + c.0, files[1..]);
      var p := Cascade(step, h, files);
      assert p == (c.0 + rest.0, [c.1] + rest.1);
      assert forall e | e in rest.0 :: e.path in files by {
        assert forall f | f in files[1..] :: f in files;
      }
      assert forall i | 1 <= i < |files| :: p.1[i] == rest.1[i - 1] && files[i] == files[1..][i - 1];
    }
  }

  /** The `i`-th classification is the step's on the `i`-th file, after
      the events of the files before it. */
  lemma {:induction false} CascadeAt(step: Step, h: seq<Event>, files: seq<string>, i: nat)
    requires i < |files|
    ensures |Cascade(step, h, files).1| == |files|
    ensures Cascade(step, h, files).1[i] == step(h + Cascade(step, h, files[..i]).0, files[i]).1
    decreases i
  {
    CascadeLength(step, h, files);
    var c := step(h, files[0]);
    var rest := Cascade(step, h + c.0, files[1..]);
    if i == 0 {
      assert files[..0] == [] && h + [] == h;
    } else {
      CascadeAt(step, h + c.0, files[1..], i - 1);
      assert files[..i][0] == files[0] && files[..i][1..] == files[1..][..i - 1];
      assert files[1..][i - 1] == files[i];
      var before := Cascade(step, h + c.0, files[1..][..i - 1]).0;
      assert Cascade(step, h, files[..i]).0 == c.0 + before;
      assert h + c.0 + before == h + (c.0 + before);
    }
  }

  /** `Classify` as a step of the cascade. */
  function ClassifyStep(ctx: Ctx): Step {
    (h: seq<Event>, f: string) => (Classify(ctx, h, f).trace, Classify(ctx, h, f).result.value)
  }

  lemma ClassifySuffixStep(ctx: Ctx)
    ensures SuffixStep(ClassifyStep(ctx))
  {
    forall h, f
      ensures forall e | e in ClassifyStep(ctx)(h, f).0 :: (e.IsFile? || e.ListArchive?) && e.path == f
    {
      assert ClassifyStep(ctx)(h, f).0 == Classify(ctx, h, f).trace;
    }
  }

  /** The cascade's classifications of `files`, in order, each checked
      after the events of the ones before. */
  function ClassifyAll(ctx: Ctx, h: seq<Event>, files: seq<string>): (r: Run<seq<Option<Package>>>)
    ensures r.result.Ok? && |r.result.value| == |files|
    ensures forall e | e in r.trace :: (e.IsFile? || e.ListArchive?) && e.path in files
    ensures forall i | 0 <= i < |files| :: r.result.value[i].Some? ==> EndsWith(files[i], Suffix(r.result.value[i].value))
  {
    ClassifySuffixStep(ctx);
    CascadeFacts(ClassifyStep(ctx), h, files);
    var p := Cascade(ClassifyStep(ctx), h, files);
    Run(p.0, Ok(p.1))
  }

  /** Each file's classification is the cascade's on that file alone,
      after the events of the files before it. */
  lemma ClassifyAllEach(ctx: Ctx, h: seq<Event>, files: seq<string>, i: nat)
    requires i < |files|
    ensures ClassifyAll(ctx, h, files).result.value[i] ==
            Classify(ctx, h + ClassifyAll(ctx, h, files[..i]).trace, files[i]).result.value
  {
    CascadeAt(ClassifyStep(ctx), h, files, i);
  }

  /** Records each classified file in turn: a later file of a kind
      replaces an earlier one's path. */
  function Collect(found: Found, files: seq<string>, kinds: seq<Option<Package>>): Found
    requires |kinds| == |files|
    decreases |files|
  {
    if |files| == 0 then found
    else
      var next := if kinds[0].Some? then found.Set(kinds[0].value, files[0]) else found;
      Collect(next, files[1..], kinds[1..])
  }

  /** The last of `files` classified as `p`, if any. */
  function LastOf(files: seq<string>, kinds: seq<Option<Package>>, p: Package): (r: Option<string>)
    requires |kinds| == |files|
    ensures r.None? <==> Some(p) !in kinds
    ensures r.Some? ==> exists i | 0 <= i < |files| :: files[i] == r.value && kinds[i] == Some(p)
    decreases |files|
  {
    if |files| == 0 then None
    else if kinds[|kinds| - 1] == Some(p) then Some(files[|files| - 1])
    else
      var r := LastOf(files[..|files| - 1], kinds[..|kinds| - 1], p);
      assert kinds == kinds[..|kinds| - 1] + [kinds[|kinds| - 1]];
      r
  }

  /** The path recorded for each kind is that of the last file of that
      kind; a kind with no file keeps what was there before. */
  lemma {:induction false} CollectLast(found: Found, files: seq<string>, kinds: seq<Option<Package>>, p: Package)
    requires |kinds| == |files|
    ensures Collect(found, files, kinds).PathOf(p) ==
              (if Some(p) in kinds then LastOf(files, kinds, p) else found.PathOf(p))
    decreases |files|
  {
    if |files| > 0 {
      var n := |files| - 1;
      CollectSnoc(found, files[..n], kinds[..n], files[n], kinds[n]);
      assert files == files[..n] + [files[n]] && kinds == kinds[..n] + [kinds[n]];
      CollectLast(found, files[..n], kinds[..n], p);
    }
  }

  lemma {:induction false} CollectSnoc(found: Found, files: seq<string>, kinds: seq<Option<Package>>, f: string, k: Option<Package>)
    requires |kinds| == |files|
    ensures var before := Collect(found, files, kinds);
            Collect(found, files + [f], kinds + [k]) == if k.Some? then before.Set(k.value, f) else before
    decreases |files|
  {
    if |files| == 0 {
      assert files + [f] == [f] && kinds + [k] == [k];
    } else {
      var next := if kinds[0].Some? then found.Set(kinds[0].value, files[0]) else found;
      assert (files + [f])[1..] == files[1..] + [f];
      assert (kinds + [k])[1..] == kinds[1..] + [k];
      CollectSnoc(next, files[1..], kinds[1..], f, k);
    }
  }

  // ---------------------------------------------------------------------------
  // generate_flash_choices, generate_flash_message

  /** The buttons of the choice box. */
  datatype Choice = Skip | Only(package: Package) | Both {
    /** The button's label, which is also the suffix of its `flash_` method. */
    function Name(): string {
      match this
      case Skip => "Skip"
      case Only(Image) => "Image"
      case Only(Gaia) => "Gaia"
      case Only(Gecko) => "Gecko"
      case Both => "Gaia_Gecko"
    }

    /** Where the button comes in the box. */
    function Rank(): nat {
      match this
      case Skip => 0
      case Only(Image) => 1
      case Only(Gaia) => 2
      case Only(Gecko) => 3
      case Both => 4
    }

    /** The line of the message that describes the button. */
    function Line(): string {
      match this
      case Skip => "- Skip: do not want to flash any thing.\n"
      case Only(Image) => "- Image: flash images into device.\n"
      case Only(Gaia) => "- Gaia: only shallow flash Gaia.\n"
      case Only(Gecko) => "- Gecko: only shallow flash Gecko.\n"
      case Both => "- Gaia_Gecko: shallow flash both Gaia and Gecko.\n"
    }
  }

  /** Whether the image can be offered: flashing an image needs a POSIX shell. */
  function ImageOffered(found: Found, win32: bool): bool {
    !win32 && found.image.Some?
  }

  /** `[c]` when `on`, nothing otherwise. */
  function Opt(on: bool, c: Choice): (r: seq<Choice>)
    ensures forall d | d in r :: d == c
    ensures c in r <==> on
  {
    if on then [c] else []
  }

  /** `generate_flash_choices`. */
  function FlashChoices(found: Found, win32: bool): (r: seq<Choice>)
    ensures |r| > 0 && r[0] == Skip
    ensures Only(Image) in r <==> ImageOffered(found, win32)
    ensures Only(Gaia) in r <==> found.gaia.Some?
    ensures Only(Gecko) in r <==> found.gecko.Some?
    ensures Both in r <==> found.gaia.Some? && found.gecko.Some?
  {
    var opt := OptionalChoices(found, win32);
    var r := [Skip] + opt;
    assert forall d :: d in r <==> d == Skip || d in opt;
    r
  }

  /** The buttons after `Skip`, one per condition that holds. */
  function OptionalChoices(found: Found, win32: bool): (r: seq<Choice>)
    ensures Skip !in r
    ensures Only(Image) in r <==> ImageOffered(found, win32)
    ensures Only(Gaia) in r <==> found.gaia.Some?
    ensures Only(Gecko) in r <==> found.gecko.Some?
    ensures Both in r <==> found.gaia.Some? && found.gecko.Some?
  {
    var i := Opt(ImageOffered(found, win32), Only(Image));
    var g := Opt(found.gaia.Some?, Only(Gaia));
    var k := Opt(found.gecko.Some?, Only(Gecko));
    var b := Opt(found.gaia.Some? && found.gecko.Some?, Both);
    var r := i + g + k + b;
    assert forall d :: d in r <==> d in i || d in g || d in k || d in b;
    r
  }

  /** The buttons come in the fixed order Skip, Image, Gaia, Gecko,
      Gaia_Gecko, each at most once. */
  lemma ChoicesOrdered(found: Found, win32: bool)
    ensures var r := FlashChoices(found, win32);
            forall i, j | 0 <= i < j < |r| :: r[i].Rank() < r[j].Rank()
  {
    var a, g, k := ImageOffered(found, win32), found.gaia.Some?, found.gecko.Some?;
    var opts := [Skip] + Opt(a, Only(Image)) + Opt(g, Only(Gaia)) + Opt(k, Only(Gecko)) + Opt(g && k, Both);
    assert FlashChoices(found, win32) == opts;
    OptsOrdered(a, g, k, g && k);
  }

  lemma OptsOrdered(a: bool, b: bool, c: bool, d: bool)
    ensures RankedUpTo([Skip] + Opt(a, Only(Image)) + Opt(b, Only(Gaia)) + Opt(c, Only(Gecko)) + Opt(d, Both), 4)
  {
    var i := Opt(a, Only(Image));
    var g := Opt(b, Only(Gaia));
    var k := Opt(c, Only(Gecko));
    var x := Opt(d, Both);
    RankedAppend([Skip], i, 0);
    RankedAppend([Skip] + i, g, 1);
    RankedAppend([Skip] + i + g, k, 2);
    RankedAppend([Skip] + i + g + k, x, 3);
  }

  /** Every rank in `cs` is at most `n`. */
  predicate RankedUpTo(cs: seq<Choice>, n: nat) {
    (forall i, j | 0 <= i < j < |cs| :: cs[i].Rank() < cs[j].Rank()) && forall c | c in cs :: c.Rank() <= n
  }

  lemma RankedAppend(a: seq<Choice>, b: seq<Choice>, n: nat)
    requires RankedUpTo(a, n) && |b| <= 1 && forall c | c in b :: c.Rank() == n + 1
    ensures RankedUpTo(a + b, n + 1)
  {
    if |b| == 1 {
      assert forall i | 0 <= i < |a| :: (a + b)[i] == a[i];
      assert (a + b)[|a|] == b[0];
    } else {
      assert a + b == a;
    }
  }

  function ChoiceLines(cs: seq<Choice>): string
    decreases |cs|
  {
    if |cs| == 0 then "" else cs[0].Line() + ChoiceLines(cs[1..])
  }

  const MessageHead: string := "What do you want to flash?\n\n"
  const MessageTail: string := "\nMake sure there is only ONE device connected to the computer!"

  /** The footer: one `[Kind] path` line per package offered. */
  function Footer(found: Found, win32: bool): string {
    (if ImageOffered(found, win32) then "[Image] " + found.image.value + "\n" else "")
    + (if found.gaia.Some? then "[Gaia] " + found.gaia.value + "\n" else "")
    + (if found.gecko.Some? then "[Gecko] " + found.gecko.value + "\n" else "")
  }

  /** The line of `c` when `on`, nothing otherwise. */
  function Piece(on: bool, c: Choice): string {
    if on then c.Line() else ""
  }

  /** The lines the flags add after the `Skip` line, flag by flag. */
  function FlagLines(found: Found, win32: bool): string {
    Piece(ImageOffered(found, win32), Only(Image))
    + Piece(found.gaia.Some?, Only(Gaia))
    + Piece(found.gecko.Some?, Only(Gecko))
    + Piece(found.gaia.Some? && found.gecko.Some?, Both)
  }

  /** `generate_flash_message`, built as the source builds it: flag by flag. */
  function FlashMessage(found: Found, win32: bool): (msg: string)
    ensures StartsWith(msg, MessageHead + Skip.Line())
    ensures EndsWith(msg, MessageTail)
  {
    var f := FlagLines(found, win32);
    var foot := Footer(found, win32);
    ConcatEnds(MessageHead, Skip.Line(), f, "\n", foot, MessageTail);
    MessageHead + Skip.Line() + f + "\n" + foot + MessageTail
  }

  lemma ConcatEnds(a: string, b: string, c: string, d: string, e: string, f: string)
    ensures StartsWith(a + b + c + d + e + f, a + b) && EndsWith(a + b + c + d + e + f, f)
  {
    var s := a + b + c + d + e + f;
    assert s == (a + b) + (c + d + e + f);
    assert s[..|a + b|] == a + b;
    assert s[|s| - |f|..] == f;
  }

  /** The message describes exactly the choices offered, in the same order. */
  lemma MessageListsChoices(found: Found, win32: bool)
    ensures FlashMessage(found, win32) ==
              MessageHead + ChoiceLines(FlashChoices(found, win32)) + "\n" + Footer(found, win32) + MessageTail
  {
    var opt := OptionalChoices(found, win32);
    OptLines(ImageOffered(found, win32), found.gaia.Some?, found.gecko.Some?, found.gaia.Some? && found.gecko.Some?);
    assert ChoiceLines(opt) == FlagLines(found, win32);
    ChoiceLinesCons(Skip, opt);
    MessageAssoc(MessageHead, Skip.Line(), FlagLines(found, win32), "\n", Footer(found, win32), MessageTail);
  }

  lemma MessageAssoc(a: string, b: string, c: string, d: string, e: string, f: string)
    ensures a + b + c + d + e + f == a + (b + c) + d + e + f
  {
  }

  lemma ChoiceLinesCons(c: Choice, cs: seq<Choice>)
    ensures ChoiceLines([c] + cs) == c.Line() + ChoiceLines(cs)
  {
    assert ([c] + cs)[1..] == cs;
  }

  lemma OptLines(a: bool, b: bool, c: bool, d: bool)
    ensures ChoiceLines(Opt(a, Only(Image)) + Opt(b, Only(Gaia)) + Opt(c, Only(Gecko)) + Opt(d, Both)) ==
              Piece(a, Only(Image)) + Piece(b, Only(Gaia)) + Piece(c, Only(Gecko)) + Piece(d, Both)
  {
    var i := Opt(a, Only(Image));
    var g := Opt(b, Only(Gaia));
    var k := Opt(c, Only(Gecko));
    var x := Opt(d, Both);
    ChoiceLinesAppend(i + g + k, x);
    ChoiceLinesAppend(i + g, k);
    ChoiceLinesAppend(i, g);
    ChoiceLinesOpt(a, Only(Image));
    ChoiceLinesOpt(b, Only(Gaia));
    ChoiceLinesOpt(c, Only(Gecko));
    ChoiceLinesOpt(d, Both);
  }

  lemma ChoiceLinesOpt(on: bool, c: Choice)
    ensures ChoiceLines(Opt(on, c)) == Piece(on, c)
  {
    if on {
      assert Opt(on, c)[1..] == [];
    }
  }

  lemma {:induction false} ChoiceLinesAppend(a: seq<Choice>, b: seq<Choice>)
    ensures ChoiceLines(a + b) == ChoiceLines(a) + ChoiceLines(b)
    decreases |a|
  {
    if |a| == 0 {
      assert a + b == b;
    } else {
      assert (a + b)[1..] == a[1..] + b;
      ChoiceLinesAppend(a[1..], b);
    }
  }

  /** After `_reset_arguments` only `Skip` is offered. */
  lemma ResetOffersSkipOnly(win32: bool)
    ensures FlashChoices(NothingFound, win32) == [Skip]
    ensures FlashMessage(NothingFound, win32) == MessageHead + Skip.Line() + "\n" + MessageTail
  {
  }

  // ---------------------------------------------------------------------------
  // do_after_download

  /** What the `flash_<reply>` method goes on to do. */
  datatype Action =
    | NoFlash
    | FlashImage(image: string)
    | ShallowFlash(gaia: Option<string>, gecko: Option<string>)

  /** A path is set and, as a Python value, true (not empty). */
  predicate Truthy(p: Option<string>) {
    p.Some? && |p.value| > 0
  }

  /** The button a reply names, if any. */
  function Named(reply: string): (r: Option<Choice>)
    ensures r.Some? ==> r.value.Name() == reply
    ensures r.None? ==> forall c: Choice :: c.Name() != reply
  {
    if reply == "Skip" then Some(Skip)
    else if reply == "Image" then Some(Only(Image))
    else if reply == "Gaia" then Some(Only(Gaia))
    else if reply == "Gecko" then Some(Only(Gecko))
    else if reply == "Gaia_Gecko" then Some(Both)
    else None
  }

  /** `flash_<choice>`: each does nothing unless the paths it needs are set. */
  function Act(found: Found, c: Choice): (a: Action)
    ensures a.ShallowFlash? ==> (a.gaia.Some? || a.gecko.Some?)
    ensures a.ShallowFlash? && a.gaia.Some? ==> a.gaia == found.gaia
    ensures a.ShallowFlash? && a.gecko.Some? ==> a.gecko == found.gecko
    ensures a.FlashImage? ==> found.image == Some(a.image)
  {
    match c
    case Skip => NoFlash
    case Only(Image) => if Truthy(found.image) then FlashImage(found.image.value) else NoFlash
    case Only(Gaia) => if Truthy(found.gaia) then ShallowFlash(found.gaia, None) else NoFlash
    case Only(Gecko) => if Truthy(found.gecko) then ShallowFlash(None, found.gecko) else NoFlash
    case Both => if Truthy(found.gaia) && Truthy(found.gecko) then ShallowFlash(found.gaia, found.gecko) else NoFlash
  }

  /** `getattr(self, 'flash_' + reply)()`: a reply naming no method raises
      `AttributeError`. */
  function Dispatch(found: Found, reply: string): (r: Result<Action, Error>)
    ensures r.Err? <==> forall c: Choice :: c.Name() != reply
    ensures r.Err? ==> r.error == NoSuchMethod("flash_" + reply)
    ensures r.Ok? ==> exists c: Choice :: c.Name() == reply && r.value == Act(found, c)
  {
    match Named(reply)
    case None => Err(NoSuchMethod("flash_" + reply))
    case Some(c) => Ok(Act(found, c))
  }

  /** Each button's label names it alone. */
  lemma NamedName(c: Choice)
    ensures Named(c.Name()) == Some(c)
  {
  }

  /** A reply among the choices offered never fails, and it flashes the
      packages the choice names. */
  lemma OfferedChoiceDispatches(found: Found, win32: bool, c: Choice)
    requires c in FlashChoices(found, win32)
    requires forall p: Package | found.Has(p) :: |found.PathOf(p).value| > 0
    ensures Dispatch(found, c.Name()) == Ok(Act(found, c))
    ensures c == Both ==> Act(found, c) == ShallowFlash(found.gaia, found.gecko)
    ensures c == Only(Gaia) ==> Act(found, c) == ShallowFlash(found.gaia, None)
    ensures c == Only(Gecko) ==> Act(found, c) == ShallowFlash(None, found.gecko)
    ensures c == Only(Image) ==> !win32 && Act(found, c) == FlashImage(found.image.value)
  {
    NamedName(c);
    assert found.Has(Image) ==> |found.PathOf(Image).value| > 0;
    assert found.Has(Gaia) ==> |found.PathOf(Gaia).value| > 0;
    assert found.Has(Gecko) ==> |found.PathOf(Gecko).value| > 0;
  }

  /** `do_after_download`: classify the downloaded files, then, when some
      package was found, act on the reply to the choice box (`None` when
      the box was closed). */
  function DoAfterDownload(ctx: Ctx, h: seq<Event>, found: Found, files: seq<string>, reply: Option<string>)
    : (r: Run<(Found, Option<Action>)>)
    ensures var c := ClassifyAll(ctx, h, files);
            && r.trace == c.trace
            && (r.result.Ok? ==> r.result.value.0 == Collect(found, files, c.result.value))
    ensures var c := ClassifyAll(ctx, h, files);
            var f := Collect(found, files, c.result.value);
            !f.Has(Image) && !f.Has(Gaia) && !f.Has(Gecko) ==> r.result == Ok((f, None))
    ensures r.result.Err? ==> reply.Some? && forall c: Choice :: c.Name() != reply.value
  {
    var c := ClassifyAll(ctx, h, files);
    var f := Collect(found, files, c.result.value);
    if !f.Has(Image) && !f.Has(Gaia) && !f.Has(Gecko) then Run(c.trace, Ok((f, None)))
    else if reply.None? || reply.value == "" then Run(c.trace, Ok((f, None)))
    else
      match Dispatch(f, reply.value)
      case Err(e) => Run(c.trace, Err(e))
      case Ok(a) => Run(c.trace, Ok((f, Some(a))))
  }
}

=== FILE: ordering.dfy ===
/** Python 2 ordering of byte strings and `sorted(set(xs))`. */
module Ordering {

  /** `a < b` on strings: lexicographic by character code, a proper prefix first. */
  predicate Less(a: string, b: string)
    decreases |a|
  {
    if |a| == 0 then |b| > 0
    else if |b| == 0 then false
    else if a[0] == b[0] then Less(a[1..], b[1..])
    else a[0] < b[0]
  }

  lemma {:induction false} LessIrreflexive(a: string)
    ensures !Less(a, a)
    decreases |a|
  {
    if |a| > 0 {
      LessIrreflexive(a[1..]);
    }
  }

  lemma {:induction false} LessTransitive(a: string, b: string, c: string)
    requires Less(a, b) && Less(b, c)
    ensures Less(a, c)
    decreases |a|
  {
    if |a| > 0 && a[0] == b[0] && b[0] == c[0] {
      LessTransitive(a[1..], b[1..], c[1..]);
    }
  }

  lemma {:induction false} LessTotal(a: string, b: string)
    ensures a == b || Less(a, b) || Less(b, a)
    decreases |a|
  {
    if |a| > 0 && |b| > 0 && a[0] == b[0] {
      LessTotal(a[1..], b[1..]);
      if a[1..] == b[1..] {
        assert a == [a[0]] + a[1..] && b == [b[0]] + b[1..];
      }
    }
  }

  lemma {:induction false} LessAsymmetric(a: string, b: string)
    requires Less(a, b)
    ensures !Less(b, a)
    decreases |a|
  {
    if |a| > 0 && a[0] == b[0] {
      LessAsymmetric(a[1..], b[1..]);
    }
  }

  predicate StrictlySorted(s: seq<string>) {
    forall i, j | 0 <= i < j < |s| :: Less(s[i], s[j])
  }

  /** Inserts `x` into a strictly sorted list unless it is already there. */
  function Insert(x: string, s: seq<string>): (r: seq<string>)
    requires StrictlySorted(s)
    ensures StrictlySorted(r)
    ensures forall y :: y in r <==> y == x || y in s
    decreases |s|
  {
    if |s| == 0 then [x]
    else if x == s[0] then s
    else if Less(x, s[0]) then
      assert forall j | 0 < j < |s| :: Less(x, s[j]) by {
        forall j | 0 < j < |s| ensures Less(x, s[j]) {
          LessTransitive(x, s[0], s[j]);
        }
      }
      [x] + s
    else
      LessTotal(x, s[0]);
      var rest := Insert(x, s[1..]);
      assert forall j | 0 <= j < |rest| :: Less(s[0], rest[j]) by {
        forall j | 0 <= j < |rest| ensures Less(s[0], rest[j]) {
          if rest[j] != x {
            assert rest[j] in s[1..];
          }
        }
      }
      [s[0]] + rest
  }

  /** `sorted(set(xs))`: the distinct elements of `xs` in ascending order. */
  function SortedSet(xs: seq<string>): (r: seq<string>)
    ensures StrictlySorted(r)
    ensures forall y :: y in r <==> y in xs
    decreases |xs|
  {
    if |xs| == 0 then []
    else
      var init := SortedSet(xs[..|xs| - 1]);
      assert forall y :: y in xs <==> y == xs[|xs| - 1] || y in xs[..|xs| - 1] by {
        assert xs == xs[..|xs| - 1] + [xs[|xs| - 1]];
      }
      Insert(xs[|xs| - 1], init)
  }

  /** A set has exactly one strictly ascending enumeration. */
  lemma {:induction false} SortedUnique(a: seq<string>, b: seq<string>)
    requires StrictlySorted(a) && StrictlySorted(b)
    requires forall y :: y in a <==> y in b
    ensures a == b
    decreases |a|
  {
    if |a| > 0 {
      assert a[0] in b;
    }
    if |b| > 0 {
      assert b[0] in a;
    }
    if |a| > 0 && |b| > 0 {
      assert a == [a[0]] + a[1..] && b == [b[0]] + b[1..];
      assert a[0] in a && b[0] in b;
      var i :| 0 <= i < |a| && a[i] == b[0];
      var j :| 0 <= j < |b| && b[j] == a[0];
      assert i == 0 || Less(a[0], b[0]);
      assert j == 0 || Less(b[0], a[0]);
      if i != 0 && j != 0 {
        LessAsymmetric(a[0], b[0]);
      }
      assert a[0] == b[0];
      forall y ensures y in a[1..] <==> y in b[1..] {
        if y in a[1..] {
          var i :| 0 <= i < |a[1..]| && a[1..][i] == y;
          assert Less(a[0], a[i + 1]);
          LessIrreflexive(a[0]);
          assert y in b;
        }
        if y in b[1..] {
          var i :| 0 <= i < |b[1..]| && b[1..][i] == y;
          assert Less(b[0], b[i + 1]);
          LessIrreflexive(b[0]);
          assert y in a;
        }
      }
      SortedUnique(a[1..], b[1..]);
    }
  }
}

=== FILE: quick_flash.dfy ===
/** `QuickFlashHelper` (b2g_util/quick_flash.py): finds the one attached
    device, asks for a branch and a build type, downloads the matching
    image from Taskcluster and flashes it, as many times as asked. */
module QuickFlash {
  import opened Wrappers
  import opened Text
  import opened Trace
  import opened Adb
  import FlashTaskcluster
  import CheckVersions

  datatype DeviceInfo = DeviceInfo(name: string, image: string)

  /** `SUPPORT_DEVICES`: the product name `getprop` reports, to the build
      name and image of the device. */
  const SupportDevices: map<string, DeviceInfo> :=
    map["flame" := DeviceInfo("flame-kk", "flame-kk.zip"),
        "aries" := DeviceInfo("aries", "aries.zip"),
        "D5833" := DeviceInfo("aries", "aries.zip")]

  const SupportBranches: seq<string> := ["mozilla-central", "mozilla-b2g44_v2_5"]

  const BuildPath: string := "private/build/"
  const NamespaceHead: string := "gecko.v2."
  const NamespaceMiddle: string := ".latest.b2g."
  const DeviceQuery: string := "getprop ro.product.device"
  const WaitTimeout: nat := 120

  /** `NAMESPACE_FORMAT`. */
  function Namespace(branch: string, device: string, postfix: string): (r: string)
    ensures StartsWith(r, NamespaceHead)
    ensures |r| == |NamespaceHead| + |branch| + |NamespaceMiddle| + |device| + |postfix|
    ensures r[|NamespaceHead|..|NamespaceHead| + |branch|] == branch
    ensures r[|NamespaceHead| + |branch|..][..|NamespaceMiddle|] == NamespaceMiddle
    ensures r[|r| - |device| - |postfix|..] == device + postfix
  {
    var r := NamespaceHead + branch + NamespaceMiddle + device + postfix;
    assert r == NamespaceHead + branch + NamespaceMiddle + (device + postfix);
    r
  }

  /** For a given device and build type, the namespace names the branch. */
  lemma NamespaceBranch(b1: string, b2: string, device: string, postfix: string)
    requires Namespace(b1, device, postfix) == Namespace(b2, device, postfix)
    ensures b1 == b2
  {
    var n := Namespace(b1, device, postfix);
    assert |b1| == |b2|;
    assert b1 == n[|NamespaceHead|..|NamespaceHead| + |b1|];
  }

  /** For a given branch and build type, the namespace names the device and
      build type together. */
  lemma NamespaceDevice(branch: string, d1: string, p1: string, d2: string, p2: string)
    requires Namespace(branch, d1, p1) == Namespace(branch, d2, p2)
    ensures d1 + p1 == d2 + p2
  {
    var n := Namespace(branch, d1, p1);
    assert |d1 + p1| == |d2 + p2|;
  }

  /** `ARTIFACT_FORMAT`. */
  function Artifact(image: string): (r: string)
    ensures StartsWith(r, BuildPath) && r[|BuildPath|..] == image
  {
    BuildPath + image
  }

  /** The artifact is downloaded under the image's own file name. */
  lemma ArtifactBasename(image: string)
    requires '/' !in image
    ensures Basename(Artifact(image)) == image
  {
    BasenameOf(BuildPath, image);
  }

  /** The two names of the Sony Z3 Compact get the same build. */
  lemma AliasesShareBuild(branch: string, postfix: string)
    ensures Namespace(branch, SupportDevices["aries"].name, postfix) ==
            Namespace(branch, SupportDevices["D5833"].name, postfix)
    ensures Artifact(SupportDevices["aries"].image) == Artifact(SupportDevices["D5833"].image)
  {
  }

  // ---------------------------------------------------------------------------
  // Answers

  /** What a menu answer means: leave, or the item at an index. */
  datatype Pick = Quit | Picked(index: nat)

  /** An answer whose first character `select_branch` acts on: `q`, or a
      digit naming one of `n` items. */
  predicate Decisive(n: nat, answer: string) {
    |answer| > 0 && (answer[0] == 'q' || (IsDigit(answer[0]) && DigitValue(answer[0]) < n))
  }

  function Meaning(n: nat, answer: string): (p: Pick)
    requires Decisive(n, answer)
    ensures p.Picked? ==> p.index < n
  {
    if answer[0] == 'q' then Quit else Picked(DigitValue(answer[0]))
  }

  /** The `while True` loop of `select_branch` and `select_build` over the
      lines typed in: an empty line (`IndexError`), a character that is not
      a digit (`ValueError`) or a digit past the list is asked again. */
  function SelectFrom(n: nat, inputs: seq<string>): (r: Result<Pick, Error>)
    ensures r.Ok? <==> exists k | 0 <= k < |inputs| :: Decisive(n, inputs[k])
    ensures r.Err? ==> r.error == InputExhausted
    ensures r.Ok? && r.value.Picked? ==> r.value.index < n
    decreases |inputs|
  {
    if |inputs| == 0 then Err(InputExhausted)
    else if Decisive(n, inputs[0]) then Ok(Meaning(n, inputs[0]))
    else
      var r := SelectFrom(n, inputs[1..]);
      assert forall k | 1 <= k < |inputs| :: inputs[k] == inputs[1..][k - 1];
      r
  }

  /** The first answer that decides is the one that counts. */
  lemma {:induction false} SelectFromFirst(n: nat, inputs: seq<string>, k: nat)
    requires k < |inputs| && Decisive(n, inputs[k])
    requires forall i | 0 <= i < k :: !Decisive(n, inputs[i])
    ensures SelectFrom(n, inputs) == Ok(Meaning(n, inputs[k]))
    decreases k
  {
    if k > 0 {
      assert !Decisive(n, inputs[0]);
      SelectFromFirst(n, inputs[1..], k - 1);
    }
  }

  /** `select_branch`: the branch picked, or `None` when the user quits. */
  function SelectBranch(inputs: seq<string>): (r: Result<Option<string>, Error>)
    ensures r.Ok? && r.value.Some? ==> r.value.value in SupportBranches
  {
    match SelectFrom(|SupportBranches|, inputs)
    case Err(e) => Err(e)
    case Ok(Quit) => Ok(None)
    case Ok(Picked(i)) => Ok(Some(SupportBranches[i]))
  }

  /** `select_build` over the build postfixes in the order the dictionary
      `SUPPORT_BUILDS` lists them. */
  function SelectBuild(postfixes: seq<string>, inputs: seq<string>): (r: Result<Option<string>, Error>)
    ensures r.Ok? && r.value.Some? ==> r.value.value in postfixes
  {
    match SelectFrom(|postfixes|, inputs)
    case Err(e) => Err(e)
    case Ok(Quit) => Ok(None)
    case Ok(Picked(i)) => Ok(Some(postfixes[i]))
  }

  /** `_flash_again`: the answer starts with `y` or `Y`. */
  function FlashAgain(answer: string): (r: bool)
    ensures r <==> |answer| > 0 && (answer[0] == 'y' || answer[0] == 'Y')
  {
    |answer| > 0 && Lower(answer)[0] == 'y'
  }

  /** The download confirmation in `run`: the run stops on an answer that
      starts with `n` or `N`. */
  function Declines(answer: string): (r: bool)
    ensures r <==> |answer| > 0 && (answer[0] == 'n' || answer[0] == 'N')
  {
    |answer| > 0 && Lower(answer)[0] == 'n'
  }

  /** `download`: an existing image is used unless the answer starts with
      `n` or `N`; an empty answer keeps it. */
  function KeepsExisting(answer: string): (r: bool)
    ensures r <==> |answer| == 0 || (answer[0] != 'n' && answer[0] != 'N')
  {
    |answer| <= 0 || Lower(answer)[0] != 'n'
  }

  /** The two `[Y/n]` questions read an answer the same way: the existing
      image is kept exactly when the same answer would not stop the run. */
  lemma KeepUnlessDeclined(answer: string)
    ensures KeepsExisting(answer) <==> !Declines(answer)
  {
  }

  // ---------------------------------------------------------------------------
  // The run

  /** The events of `run` before the image is checked: the device
      listing, the product query, and the download. */
  predicate PrepareEvent(e: Event) {
    e.Devices? || e.Shell? || e.IsFile? || e.Download?
  }

  /** The checks of `run` before any question: exactly one device attached,
      and it is one of the supported ones. The product name is asked of
      `adb` with no serial. */
  method Target(ctx: Ctx, h: seq<Event>) returns (r: Run<DeviceInfo>)
    ensures |r.trace| >= 1 && r.trace[0] == Devices
    ensures var a := Ask(ctx, h, Devices);
            a.code == 0 && ParseListing(a.text).Ok? && |DeviceMap(ParseListing(a.text).value)| != 1 ==>
              r == Run([Devices], Err(DeviceCount(|DeviceMap(ParseListing(a.text).value)|)))
    ensures r.trace == [Devices] || r.trace == [Devices, Shell(None, DeviceQuery)]
    ensures forall e | e in r.trace :: PrepareEvent(e)
    ensures r.result.Ok? ==>
              var name := SplitShellOutput(Ask(ctx, h + [Devices], Shell(None, DeviceQuery)).text).output;
              |r.trace| == 2 && name in SupportDevices && r.result.value == SupportDevices[name]
    ensures |r.trace| == 2 && r.result.Err? && Ask(ctx, h + [Devices], Shell(None, DeviceQuery)).code == 0 ==>
              r.result.error == UnsupportedDevice(SplitShellOutput(Ask(ctx, h + [Devices], Shell(None, DeviceQuery)).text).output)
  {
    var d := AdbDevices(ctx, h);
    if d.result.Err? {
      return Fail(d);
    }
    if |d.result.value| != 1 {
      return Run(d.trace, Err(DeviceCount(|d.result.value|)));
    }
    var q := Identify(ctx, h + d.trace);
    r := After(d.trace, q);
  }

  /** The product name asked of `adb` with no serial, looked up among the
      supported devices. */
  method Identify(ctx: Ctx, h: seq<Event>) returns (r: Run<DeviceInfo>)
    ensures r.trace == [Shell(None, DeviceQuery)]
    ensures r.result.Ok? ==>
              var name := SplitShellOutput(Ask(ctx, h, Shell(None, DeviceQuery)).text).output;
              name in SupportDevices && r.result.value == SupportDevices[name]
    ensures r.result.Err? && Ask(ctx, h, Shell(None, DeviceQuery)).code == 0 ==>
              r.result.error == UnsupportedDevice(SplitShellOutput(Ask(ctx, h, Shell(None, DeviceQuery)).text).output)
  {
    var sh := AdbShell(ctx, h, None, DeviceQuery);
    if sh.result.Err? {
      return Run(sh.trace, Err(sh.result.error));
    }
    var name := sh.result.value.output;
    if name !in SupportDevices {
      return Run(sh.trace, Err(UnsupportedDevice(name)));
    }
    r := Run(sh.trace, Ok(SupportDevices[name]));
  }

  /** The lines typed at each prompt of `run`, in the order they are asked;
      `None` where the input ends before the question. */
  datatype Answers = Answers(
    branch: seq<string>,
    build: seq<string>,
    confirm: Option<string>,
    keep: Option<string>,
    again: seq<string>)

  /** What the user chose: to leave, or the namespace and artifact to
      download. */
  datatype Choice = Leave | Fetch(namespace: string, artifact: string)

  /** The questions of `run` after the device check: branch, build type,
      then confirmation of the download. */
  function Choose(info: DeviceInfo, postfixes: seq<string>, answers: Answers): (r: Result<Choice, Error>)
    ensures r.Ok? && r.value.Fetch? ==>
              r.value.artifact == Artifact(info.image) &&
              exists b, p | b in SupportBranches && p in postfixes :: r.value.namespace == Namespace(b, info.name, p)
    ensures r.Ok? && r.value.Fetch? ==> answers.confirm.Some? && !Declines(answers.confirm.value)
    // the branch and build type are the ones the two menus return
    ensures r.Ok? && r.value.Fetch? ==>
              && SelectBranch(answers.branch).Ok? && SelectBranch(answers.branch).value.Some?
              && SelectBuild(postfixes, answers.build).Ok? && SelectBuild(postfixes, answers.build).value.Some?
              && r.value.namespace == Namespace(SelectBranch(answers.branch).value.value, info.name,
                                                SelectBuild(postfixes, answers.build).value.value)
    // leaving or failing at the branch menu ends the questions there
    ensures SelectBranch(answers.branch).Err? ==> r == Err(SelectBranch(answers.branch).error)
    ensures SelectBranch(answers.branch) == Ok(None) ==> r == Ok(Leave)
    ensures SelectBranch(answers.branch).Ok? && SelectBranch(answers.branch).value.Some? ==>
              && (SelectBuild(postfixes, answers.build).Err? ==> r == Err(SelectBuild(postfixes, answers.build).error))
              && (SelectBuild(postfixes, answers.build) == Ok(None) ==> r == Ok(Leave))
    // with both chosen, the download goes ahead iff the confirmation does not decline
    ensures SelectBranch(answers.branch).Ok? && SelectBranch(answers.branch).value.Some? &&
            SelectBuild(postfixes, answers.build).Ok? && SelectBuild(postfixes, answers.build).value.Some? ==>
              && (answers.confirm.None? <==> r == Err(InputExhausted))
              && (r.Ok? && r.value.Fetch? <==> answers.confirm.Some? && !Declines(answers.confirm.value))
  {
    match SelectBranch(answers.branch)
    case Err(e) => Err(e)
    case Ok(None) => Ok(Leave)
    case Ok(Some(branch)) =>
      match SelectBuild(postfixes, answers.build)
      case Err(e) => Err(e)
      case Ok(None) => Ok(Leave)
      case Ok(Some(postfix)) =>
        if answers.confirm.None? then Err(InputExhausted)
        else if Declines(answers.confirm.value) then Ok(Leave)
        else Ok(Fetch(Namespace(branch, info.name, postfix), Artifact(info.image)))
  }

  /** Where `download` puts the artifact: the folder named after the date,
      under the working directory. */
  function DownloadFile(date: string, artifact: string): string {
    PathJoin(PathJoin(".", date), Basename(artifact))
  }

  /** `download` of the artifact into `dir`, where it is the file `file`:
      an image of that name already there is used unless the answer says
      no; otherwise the artifact is downloaded and must be there
      afterwards. */
  method FetchImage(ctx: Ctx, h: seq<Event>, dir: string, file: string, namespace: string, artifact: string, keep: Option<string>)
    returns (r: Run<string>)
    ensures |r.trace| >= 1 && r.trace[0] == IsFile(file) && (r.result.Ok? ==> r.result.value == file)
    ensures Ask(ctx, h, IsFile(file)).code == 0 && keep.Some? && KeepsExisting(keep.value) ==> r == Run([IsFile(file)], Ok(file))
    ensures Ask(ctx, h, IsFile(file)).code == 0 && keep.None? ==> r == Run([IsFile(file)], Err(InputExhausted))
    ensures var dl := Download(namespace, artifact, dir);
            dl in r.trace ==> r.trace == [IsFile(file), dl, IsFile(file)] &&
                              (r.result.Ok? <==> Ask(ctx, h + [IsFile(file), dl], IsFile(file)).code == 0)
    ensures |r.trace| == 1 ==> Ask(ctx, h, IsFile(file)).code == 0
    ensures r.result.Err? && r.result.error.DownloadFailed? ==> |r.trace| == 3
    ensures forall e | e in r.trace :: PrepareEvent(e)
  {
    if Ask(ctx, h, IsFile(file)).code == 0 {
      if keep.None? {
        return Run([IsFile(file)], Err(InputExhausted));
      }
      if KeepsExisting(keep.value) {
        return Run([IsFile(file)], Ok(file));
      }
    }
    var dl := Download(namespace, artifact, dir);
    var t := [IsFile(file), dl, IsFile(file)];
    if Ask(ctx, h + [IsFile(file), dl], IsFile(file)).code == 0 {
      return Run(t, Ok(file));
    }
    r := Run(t, Err(DownloadFailed(file)));
  }

  /** The command `flash_image` runs in the unpacked image. */
  function FlashCommand(tmp: string): string {
    "cd " + tmp + "/b2g-distro; ./flash.sh -f"
  }

  function Flash(tmp: string): Event {
    RunProcess(FlashCommand(tmp))
  }

  /** One pass of the flashing loop: `flash.sh`, whose exit status is
      ignored, the wait for the device, and a version check of the device,
      which lists the devices first. A wait that fails raises before the
      check. */
  method Pass(ctx: Ctx, h: seq<Event>, tmp: string) returns (r: Run<()>)
    ensures |r.trace| >= 2 && r.trace[0] == Flash(tmp) && r.trace[1] == WaitForDevice(WaitTimeout)
    ensures forall i | 2 <= i < |r.trace| :: CheckVersions.Inspects(r.trace[i])
    ensures Ask(ctx, h + [Flash(tmp)], WaitForDevice(WaitTimeout)).code != 0 ==>
              r == Run([Flash(tmp), WaitForDevice(WaitTimeout)], Err(Timeout))
    ensures Ask(ctx, h + [Flash(tmp)], WaitForDevice(WaitTimeout)).code == 0 ==> |r.trace| > 2 && r.trace[2] == Devices
  {
    var pre := [Flash(tmp)];
    var w := AdbWaitForDevice(ctx, h + pre, WaitTimeout);
    if w.result.Err? {
      return Run(pre + w.trace, Err(Timeout));
    }
    var v := CheckVersions.RunVersions(ctx, h + pre + w.trace, None, None, None);
    r := Run(pre + w.trace + v.trace, if v.result.Err? then Err(v.result.error) else Ok(()));
    forall i | 2 <= i < |r.trace| ensures CheckVersions.Inspects(r.trace[i]) {
      assert r.trace[i] == v.trace[i - 2];
      assert r.trace[i] in v.trace;
    }
  }

  /** The passes `t` of the flashing loop in the unpacked image `tmp`: it
      starts with `flash.sh`; every event is `flash.sh`, the wait, or an
      event of a version check; every wait comes right after `flash.sh`,
      and a wait that is not the last event is followed by the listing of
      the devices that starts the version check. */
  predicate Passes(tmp: string, t: seq<Event>) {
    && (|t| > 0 ==> t[0] == Flash(tmp))
    && (forall i | 0 <= i < |t| ::
          t[i] == Flash(tmp) || t[i] == WaitForDevice(WaitTimeout) || CheckVersions.Inspects(t[i]))
    && (forall i | 0 <= i < |t| && t[i].WaitForDevice? :: 0 < i && t[i - 1] == Flash(tmp))
    && (forall i | 0 <= i < |t| - 1 && t[i].WaitForDevice? :: t[i + 1] == Devices)
  }

  /** The number of waits in `t`: one per pass. */
  function Waits(t: seq<Event>): (n: nat)
    ensures n <= |t|
  {
    if |t| == 0 then 0 else (if t[0].WaitForDevice? then 1 else 0) + Waits(t[1..])
  }

  lemma {:induction false} WaitsAppend(a: seq<Event>, b: seq<Event>)
    ensures Waits(a + b) == Waits(a) + Waits(b)
    decreases |a|
  {
    if |a| == 0 {
      assert a + b == b;
    } else {
      assert (a + b)[0] == a[0] && (a + b)[1..] == a[1..] + b;
      WaitsAppend(a[1..], b);
    }
  }

  /** Events that are not waits add no pass. */
  lemma {:induction false} WaitsNone(t: seq<Event>, k: nat)
    requires k <= |t|
    requires forall i | k <= i < |t| :: !t[i].WaitForDevice?
    ensures Waits(t[k..]) == 0
    decreases |t| - k
  {
    if k < |t| {
      assert t[k..][1..] == t[k + 1..];
      WaitsNone(t, k + 1);
    }
  }

  /** One pass has one wait. */
  lemma PassWaits(tmp: string, p: seq<Event>)
    requires |p| >= 2 && p[0] == Flash(tmp) && p[1] == WaitForDevice(WaitTimeout)
    requires Waits(p[2..]) == 0
    ensures Waits(p) == 1
  {
    var q := p[1..];
    assert q[0] == WaitForDevice(WaitTimeout) && q[1..] == p[2..];
  }

  /** One pass is in the shape of the loop exactly when its version check,
      if it is reached, starts with the listing of the devices. */
  lemma PassShape(tmp: string, p: seq<Event>)
    requires |p| >= 2 && p[0] == Flash(tmp) && p[1] == WaitForDevice(WaitTimeout)
    requires forall i | 2 <= i < |p| :: CheckVersions.Inspects(p[i])
    ensures Passes(tmp, p) <==> (|p| > 2 ==> p[2] == Devices)
  {
    forall i | 2 <= i < |p| ensures !p[i].WaitForDevice? {
      assert CheckVersions.Inspects(p[i]);
    }
  }

  /** A completed pass followed by another pass. */
  lemma PassesAppend(tmp: string, a: seq<Event>, b: seq<Event>)
    requires Passes(tmp, a) && Passes(tmp, b)
    requires |b| > 0 && (|a| > 0 ==> !a[|a| - 1].WaitForDevice?)
    ensures Passes(tmp, a + b)
  {
    var t := a + b;
    forall i | 0 <= i < |t|
      ensures t[i] == Flash(tmp) || t[i] == WaitForDevice(WaitTimeout) || CheckVersions.Inspects(t[i])
      ensures t[i].WaitForDevice? ==> 0 < i && t[i - 1] == Flash(tmp)
      ensures i < |t| - 1 && t[i].WaitForDevice? ==> t[i + 1] == Devices
    {
      if i < |a| {
        assert t[i] == a[i];
        if i < |a| - 1 {
          assert t[i + 1] == a[i + 1];
        }
        if 0 < i {
          assert t[i - 1] == a[i - 1];
        }
      } else {
        assert t[i] == b[i - |a|];
        if i < |t| - 1 {
          assert t[i + 1] == b[i + 1 - |a|];
        }
        if i > |a| {
          assert t[i - 1] == b[i - 1 - |a|];
        }
      }
    }
  }

  /** How many of the answers, from the first, ask to flash again. */
  function LeadingYes(answers: seq<string>): (k: nat)
    ensures k <= |answers|
    ensures forall i | 0 <= i < k :: FlashAgain(answers[i])
    ensures k < |answers| ==> !FlashAgain(answers[k])
    decreases |answers|
  {
    if |answers| == 0 || !FlashAgain(answers[0]) then 0 else 1 + LeadingYes(answers[1..])
  }

  /** Within the leading run of yeses, an answer is yes exactly when the
      run goes on past it. */
  lemma LeadingYesAt(answers: seq<string>, j: nat)
    requires j <= LeadingYes(answers) && j < |answers|
    ensures FlashAgain(answers[j]) <==> j < LeadingYes(answers)
  {
  }

  /** The `while True` loop of `flash_image`, in the unpacked image `tmp`:
      a pass, then the question; the loop ends on a failed wait or version
      check, on an answer that is not yes, or when the input ends. Returns
      the number of passes. */
  method FlashLoop(ctx: Ctx, h: seq<Event>, tmp: string, again: seq<string>) returns (r: Run<nat>)
    ensures Passes(tmp, r.trace) && |r.trace| >= 2
    ensures r.result.Ok? ==> LeadingYes(again) < |again| && r.result.value == LeadingYes(again) + 1
    ensures r.result.Ok? ==> Waits(r.trace) == r.result.value
    ensures Waits(r.trace) <= LeadingYes(again) + 1
  {
    var t: seq<Event> := [];
    var n: nat := 0;
    while true
      invariant n <= LeadingYes(again)
      invariant Completed(tmp, t, n)
      decreases |again| - n
    {
      var p := ShapedPass(ctx, h + t, tmp);
      LoopStep(tmp, t, n, p.trace);
      if p.result.Err? {
        return Run(t + p.trace, Err(p.result.error));
      }
      t := t + p.trace;
      n := n + 1;
      if n - 1 >= |again| {
        return Run(t, Err(InputExhausted));
      }
      LeadingYesAt(again, n - 1);
      if !FlashAgain(again[n - 1]) {
        return Run(t, Ok(n));
      }
    }
  }

  /** A pass, seen only through the shape of its events. */
  method ShapedPass(ctx: Ctx, h: seq<Event>, tmp: string) returns (r: Run<()>)
    ensures |r.trace| >= 2 && r.trace[0] == Flash(tmp) && r.trace[1] == WaitForDevice(WaitTimeout)
    ensures forall i | 2 <= i < |r.trace| :: CheckVersions.Inspects(r.trace[i])
    ensures |r.trace| > 2 ==> r.trace[2] == Devices
    ensures r.result.Ok? ==> |r.trace| > 2
  {
    r := Pass(ctx, h, tmp);
  }

  /** `t` is `n` passes, each of which got through its version check. */
  predicate Completed(tmp: string, t: seq<Event>, n: nat) {
    && Passes(tmp, t) && Waits(t) == n
    && (|t| > 0 ==> |t| > 2 && !t[|t| - 1].WaitForDevice?)
  }

  /** The passes so far, then one more pass. */
  lemma LoopStep(tmp: string, t: seq<Event>, n: nat, p: seq<Event>)
    requires Completed(tmp, t, n)
    requires |p| >= 2 && p[0] == Flash(tmp) && p[1] == WaitForDevice(WaitTimeout)
    requires forall i | 2 <= i < |p| :: CheckVersions.Inspects(p[i])
    requires |p| > 2 ==> p[2] == Devices
    ensures Passes(tmp, t + p) && Waits(t + p) == n + 1 && |t + p| >= 2
    ensures |p| > 2 ==> Completed(tmp, t + p, n + 1)
  {
    forall i | 2 <= i < |p| ensures !p[i].WaitForDevice? {
      assert CheckVersions.Inspects(p[i]);
    }
    WaitsNone(p, 2);
    PassWaits(tmp, p);
    PassShape(tmp, p);
    PassesAppend(tmp, t, p);
    WaitsAppend(t, p);
    if |p| > 2 {
      assert (t + p)[|t + p| - 1] == p[|p| - 1];
      assert CheckVersions.Inspects(p[|p| - 1]);
    }
  }

  /** `rwxrwxr-x`, the mode `flash_image` gives the two flashing scripts. */
  const ScriptMode: nat := 509

  /** The two scripts of the unpacked image made executable. */
  function MakeExecutable(tmp: string): seq<Event> {
    [ChangeMode(tmp + "/b2g-distro/flash.sh", ScriptMode), ChangeMode(tmp + "/b2g-distro/load-config.sh", ScriptMode)]
  }

  /** `flash_image`: the image is unpacked in a fresh temporary folder, its
      scripts are made executable, and it is flashed until the user stops;
      the folder is removed in every case. */
  method FlashImage(ctx: Ctx, h: seq<Event>, image: string, again: seq<string>) returns (r: Run<nat>)
    ensures |r.trace| >= 7 && r.trace[0] == MakeTemp("tmp")
    ensures var tmp := Ask(ctx, h, MakeTemp("tmp")).text;
            && r.trace[1] == Unzip(image, tmp) && r.trace[2..4] == MakeExecutable(tmp)
            && LastIs(r.trace, RemoveTree(tmp))
            && Passes(tmp, r.trace[4..|r.trace| - 1])
    ensures forall e | e in r.trace && e.Unzip? :: e.archive == image
    ensures r.result.Ok? ==> r.result.value == LeadingYes(again) + 1 && Waits(r.trace) == r.result.value
  {
    var x := MakeTemp("tmp");
    var tmp := Ask(ctx, h, x).text;
    var pre := [x, Unzip(image, tmp)] + MakeExecutable(tmp);
    var loop := FlashLoop(ctx, h + pre, tmp, again);
    r := Run(pre + loop.trace + [RemoveTree(tmp)], loop.result);
    assert r.trace[4..|r.trace| - 1] == loop.trace;
    PassesUnzipNothing(tmp, loop.trace);
    assert r.trace == pre + (loop.trace + [RemoveTree(tmp)]);
    UnzipsOnly(pre, loop.trace + [RemoveTree(tmp)], image);
    if loop.result.Ok? {
      WaitsAppend(pre, loop.trace);
      WaitsAppend(pre + loop.trace, [RemoveTree(tmp)]);
      WaitsNone(pre, 0);
      WaitsNone([RemoveTree(tmp)], 0);
      assert pre[0..] == pre && [RemoveTree(tmp)][0..] == [RemoveTree(tmp)];
    }
  }

  /** Flashing and checking versions unpack nothing. */
  lemma PassesUnzipNothing(tmp: string, t: seq<Event>)
    requires Passes(tmp, t)
    ensures forall e | e in t :: !e.Unzip?
  {
    forall e | e in t ensures !e.Unzip? {
      var i :| 0 <= i < |t| && t[i] == e;
      assert t[i] == Flash(tmp) || t[i] == WaitForDevice(WaitTimeout) || CheckVersions.Inspects(t[i]);
    }
  }

  /** The preparation unpacks only `image`, and what follows unpacks nothing. */
  lemma UnzipsOnly(pre: seq<Event>, rest: seq<Event>, image: string)
    requires |pre| == 4 && !pre[0].Unzip? && pre[1].Unzip? && pre[1].archive == image
    requires !pre[2].Unzip? && !pre[3].Unzip?
    requires forall e | e in rest :: !e.Unzip?
    ensures forall e | e in pre + rest && e.Unzip? :: e.archive == image
  {
  }

  /** What `run` ends with. */
  datatype Outcome = Exited | Flashed(image: string, passes: nat)

  /** `run` up to the downloaded image: the device checks, the questions,
      and the download. `None` when the user leaves. */
  method Prepare(ctx: Ctx, h: seq<Event>, postfixes: seq<string>, date: string, answers: Answers)
    returns (r: Run<Option<string>>)
    ensures |r.trace| >= 1 && r.trace[0] == Devices
    ensures var a := Ask(ctx, h, Devices);
            a.code == 0 && ParseListing(a.text).Ok? && |DeviceMap(ParseListing(a.text).value)| != 1 ==>
              r == Run([Devices], Err(DeviceCount(|DeviceMap(ParseListing(a.text).value)|)))
    ensures r.result.Ok? && r.result.value.Some? ==> IsFile(r.result.value.value) in r.trace
    ensures forall e | e in r.trace :: PrepareEvent(e)
  {
    var target := Target(ctx, h);
    if target.result.Err? {
      return Fail(target);
    }
    var choice := Choose(target.result.value, postfixes, answers);
    if choice.Err? {
      return Run(target.trace, Err(choice.error));
    }
    if choice.value.Leave? {
      return Run(target.trace, Ok(None));
    }
    var dir := PathJoin(".", date);
    var file := DownloadFile(date, choice.value.artifact);
    var f := FetchImage(ctx, h + target.trace, dir, file, choice.value.namespace, choice.value.artifact, answers.keep);
    if f.result.Err? {
      return Run(target.trace + f.trace, Err(f.result.error));
    }
    r := Run(target.trace + f.trace, Ok(Some(f.result.value)));
    assert f.trace[0] in r.trace;
  }

  /** The image check `run` calls, as written: `B2GHelper` has no
      `check_b2g_image`, so the call raises `AttributeError`. */
  function CheckImageAsWritten(path: string): (r: Result<bool, Error>)
    ensures r.Err?
  {
    Err(NoSuchMethod("check_b2g_image"))
  }

  /** `run` as written: whatever the environment and the answers, no image
      is ever unpacked or flashed. */
  method RunAsWritten(ctx: Ctx, h: seq<Event>, postfixes: seq<string>, date: string, answers: Answers)
    returns (r: Run<Outcome>)
    ensures forall e | e in r.trace :: !e.Unzip? && !e.RunProcess?
    ensures r.result.Ok? ==> r.result.value == Exited
  {
    var p := Prepare(ctx, h, postfixes, date, answers);
    if p.result.Err? {
      r := Fail(p);
    } else if p.result.value.None? {
      r := Run(p.trace, Ok(Exited));
    } else {
      var c := CheckImageAsWritten(p.result.value.value);
      r := Run(p.trace, Err(c.error));
    }
  }

  /** `run` with the image check of `flash_taskcluster`, the one evidently
      meant: the downloaded file is flashed only when it is a zip holding
      `b2g-distro/`. */
  method RunQuickFlash(ctx: Ctx, h: seq<Event>, postfixes: seq<string>, date: string, answers: Answers)
    returns (r: Run<Outcome>)
    ensures |r.trace| >= 1 && r.trace[0] == Devices
    ensures var a := Ask(ctx, h, Devices);
            a.code == 0 && ParseListing(a.text).Ok? && |DeviceMap(ParseListing(a.text).value)| != 1 ==>
              r == Run([Devices], Err(DeviceCount(|DeviceMap(ParseListing(a.text).value)|)))
    ensures r.result.Ok? && r.result.value.Flashed? ==>
              var img := r.result.value.image;
              && IsFile(img) in r.trace && ListArchive(img) in r.trace
              && r.result.value.passes == LeadingYes(answers.again) + 1
    ensures UnzipsChecked(r.trace)
  {
    var p := Prepare(ctx, h, postfixes, date, answers);
    assert forall e | e in p.trace :: !e.Unzip?;
    NoUnzipChecked(p.trace);
    if p.result.Err? {
      return Fail(p);
    }
    if p.result.value.None? {
      return Run(p.trace, Ok(Exited));
    }
    var img := p.result.value.value;
    var c := CheckThenFlash(ctx, h + p.trace, img, answers.again);
    r := Run(p.trace + c.trace, if c.result.Err? then Err(c.result.error) else Ok(Flashed(img, c.result.value)));
    UnzipsCheckedAfter(p.trace, c.trace);
  }

  /** The image check, then the flash of a downloaded image that passed it. */
  method CheckThenFlash(ctx: Ctx, h: seq<Event>, img: string, again: seq<string>) returns (r: Run<nat>)
    ensures r.result.Ok? ==>
              && IsFile(img) in r.trace && ListArchive(img) in r.trace
              && r.result.value == LeadingYes(again) + 1
    ensures UnzipsChecked(r.trace)
  {
    var c := FlashTaskcluster.Check(ctx, h, FlashTaskcluster.Image, img);
    assert forall e | e in c.trace :: !e.Unzip?;
    if !c.result.value {
      NoUnzipChecked(c.trace);
      return Run(c.trace, Err(NotPackage(img)));
    }
    assert ListArchive(img) in c.trace;
    var f := FlashImage(ctx, h + c.trace, img, again);
    r := Run(c.trace + f.trace, f.result);
    UnzipAfterCheck(c.trace, f.trace, img);
  }

  /** Events that unpack nothing keep every later unpacking checked. */
  lemma UnzipsCheckedAfter(t: seq<Event>, f: seq<Event>)
    requires forall e | e in t :: !e.Unzip?
    requires UnzipsChecked(f)
    ensures UnzipsChecked(t + f)
  {
    forall i | 0 <= i < |t + f| && (t + f)[i].Unzip?
      ensures ListArchive((t + f)[i].archive) in (t + f)[..i]
    {
      assert (t + f)[i] !in t;
      assert (t + f)[i] == f[i - |t|];
      assert (t + f)[..i] == t + f[..i - |t|];
    }
  }

  /** Every archive unpacked in `t` was listed earlier in `t`. */
  predicate UnzipsChecked(t: seq<Event>) {
    forall i | 0 <= i < |t| && t[i].Unzip? :: ListArchive(t[i].archive) in t[..i]
  }

  lemma NoUnzipChecked(t: seq<Event>)
    requires forall e | e in t :: !e.Unzip?
    ensures UnzipsChecked(t)
  {
    forall i | 0 <= i < |t|
      ensures !t[i].Unzip?
    {
      assert t[i] in t;
    }
  }

  /** Once `img` was listed, unpacking only `img` afterwards unpacks
      nothing that was not listed before. */
  lemma UnzipAfterCheck(t: seq<Event>, f: seq<Event>, img: string)
    requires forall e | e in t :: !e.Unzip?
    requires ListArchive(img) in t
    requires forall e | e in f && e.Unzip? :: e.archive == img
    ensures UnzipsChecked(t + f)
  {
    forall i | 0 <= i < |t + f| && (t + f)[i].Unzip?
      ensures ListArchive((t + f)[i].archive) in (t + f)[..i]
    {
      if i < |t| {
        assert false;
      } else {
        assert (t + f)[i] in f;
        assert (t + f)[..i] == t + f[..i - |t|];
      }
    }
  }
}

=== FILE: reset_phone.dfy ===
/** `PhoneReseter` (b2g_util/reset_phone.py): a factory reset through the
    recovery partition. */
module ResetPhone {
  import opened Wrappers
  import opened Text
  import opened Trace
  import opened Adb
  import opened ShellSeq

  /** What the reset asks of the device, in order: clear the cache, leave a
      `--wipe_data` command for recovery, and reboot into it. */
  const ResetCommands: seq<string> := [
    "rm -r /cache/*",
    "mkdir /cache/recovery",
    "echo \"--wipe_data\" > /cache/recovery/command",
    "reboot recovery"
  ]

  /** `reset_phone`: nothing but `adb root` is issued unless root is
      granted; then the reset commands go out in order and only a failure
      of `adb` itself stops them. */
  function Reset(ctx: Ctx, h: seq<Event>, serial: Option<string>): (r: Run<()>)
    ensures 0 < |r.trace| <= 1 + |ResetCommands| && r.trace[0] == Root(serial)
    ensures !AdbRoot(ctx, h, serial).result.value <==> r == Run([Root(serial)], Err(NoRoot))
    ensures r.trace[1..] == ShellEvents(serial, ResetCommands)[..|r.trace| - 1]
    ensures r.result.Ok? <==>
              AdbRoot(ctx, h, serial).result.value && Delivered(ctx, h + [Root(serial)], serial, ResetCommands)
    ensures r.result.Ok? ==> r.trace == [Root(serial)] + ShellEvents(serial, ResetCommands)
  {
    var root := AdbRoot(ctx, h, serial);
    if !root.result.value then Run(root.trace, Err(NoRoot))
    else
      var s := ShellAll(ctx, h + root.trace, serial, ResetCommands);
      assert |s.trace| > 0 by {
        assert s.result.Ok? ==> |s.trace| == 4;
      }
      assert ([Root(serial)] + s.trace)[1..] == s.trace;
      if s.result.Ok? then
        ShellAllDelivered(ctx, h + root.trace, serial, ResetCommands);
        After(root.trace, s)
      else
        After(root.trace, s)
  }

  /** The device's replies to the reset commands, and their exit codes, do
      not matter: only whether root was granted and whether `adb` ran. */
  lemma ResetIgnoresReplies(c1: Ctx, c2: Ctx, h: seq<Event>, serial: Option<string>)
    requires Ask(c1, h, Root(serial)) == Ask(c2, h, Root(serial))
    requires forall t, c :: Ask(c1, t, Shell(serial, c)).code == Ask(c2, t, Shell(serial, c)).code
    ensures Reset(c1, h, serial) == Reset(c2, h, serial)
  {
    ShellAllCodesOnly(c1, c2, h + [Root(serial)], serial, ResetCommands);
  }

  /** `run`: the device is chosen as every tool does, then reset. */
  method RunReset(ctx: Ctx, h: seq<Event>, arg: Option<string>) returns (r: Run<()>)
    ensures var sel := SelectTarget(ctx, h, arg, true);
            sel.result.Err? ==> r.trace == sel.trace && r.result == Err(sel.result.error)
    ensures var a := Ask(ctx, h, Devices);
            a.code == 0 && ParseListing(a.text).Ok? && |DeviceMap(ParseListing(a.text).value)| == 0 ==>
              r == Run([Devices], Err(NoDevice))
    ensures r.result.Ok? ==> ShellCommands(r.trace) == ResetCommands
    ensures r.result.Ok? ==> Root(RequestedSerial(ctx, arg)) in r.trace
    ensures forall e | e in r.trace && (e.Shell? || e.Root?) :: e.serial == RequestedSerial(ctx, arg)
  {
    var sel := SelectTarget(ctx, h, arg, true);
    if sel.result.Err? {
      return Fail(sel);
    }
    r := ResetAfter(ctx, h, sel.trace, sel.result.value);
  }

  /** The reset of `serial` once the listings `sel` chose it. */
  method ResetAfter(ctx: Ctx, h: seq<Event>, sel: seq<Event>, serial: Option<string>) returns (r: Run<()>)
    requires forall e | e in sel :: e == Devices
    ensures |r.trace| > |sel| && r.trace[..|sel|] == sel
    ensures r.result.Ok? ==> ShellCommands(r.trace) == ResetCommands
    ensures r.result.Ok? ==> Root(serial) in r.trace
    ensures forall e | e in r.trace && (e.Shell? || e.Root?) :: e.serial == serial
  {
    var reset := ResetSteps(ctx, h + sel, serial);
    ShellCommandsAppend(sel, reset.trace);
    NoShellCommands(sel);
    TargetedEvents(sel, reset.trace, serial);
    if reset.result.Ok? {
      ShellEventsCommands(serial, ResetCommands);
      ShellCommandsAppend([Root(serial)], ShellEvents(serial, ResetCommands));
      assert reset.trace[0] in reset.trace;
    }
    r := After(sel, reset);
  }

  /** `Reset`, seen only through the events it issues. */
  method ResetSteps(ctx: Ctx, h: seq<Event>, serial: Option<string>) returns (r: Run<()>)
    ensures 0 < |r.trace| <= 1 + |ResetCommands| && r.trace[0] == Root(serial)
    ensures r.trace[1..] == ShellEvents(serial, ResetCommands)[..|r.trace| - 1]
    ensures r.result.Ok? ==> r.trace == [Root(serial)] + ShellEvents(serial, ResetCommands)
  {
    r := Reset(ctx, h, serial);
  }

  /** After the listings, every shell and root event goes to `serial`. */
  lemma TargetedEvents(sel: seq<Event>, t: seq<Event>, serial: Option<string>)
    requires forall e | e in sel :: e == Devices
    requires 0 < |t| <= 1 + |ResetCommands| && t[0] == Root(serial)
    requires t[1..] == ShellEvents(serial, ResetCommands)[..|t| - 1]
    ensures forall e | e in sel + t && (e.Shell? || e.Root?) :: e.serial == serial
  {
    var all := ShellEvents(serial, ResetCommands);
    forall e | e in sel + t && (e.Shell? || e.Root?)
      ensures e.serial == serial
    {
      if e !in sel && e != t[0] {
        assert t == [t[0]] + t[1..];
        assert e in t[1..];
        assert e in all;
      }
    }
  }
}

=== FILE: shallow_flash.dfy ===
/** `ShallowFlashHelper` (b2g_util/shallow_flash.py): replaces the Gaia
    profile or the Gecko binaries on the device's system partition from a
    local package, then reboots or resets the device and reads its
    versions back. */
module ShallowFlash {
  import opened Wrappers
  import opened Text
  import opened Trace
  import opened Adb
  import opened ShellSeq
  import opened Ordering
  import BackupRestore
  import ResetPhone
  import CheckVersions

  const TempPrefix: string := "shallowflash_"
  const ProfilePrefix: string := "b2gprofile_"
  const GaiaSuffix: string := ".zip"
  const GeckoSuffix: string := ".tar.gz"
  const WaitTimeout: nat := 120

  /** What `_clean_gaia` removes from the device, in order. */
  const GaiaCleanCommands: seq<string> := [
    "rm -r /cache/*",
    "rm -r /data/b2g/*",
    "rm -r /data/local/storage/persistent/*",
    "rm -r /data/local/svoperapps",
    "rm -r /data/local/webapps",
    "rm -r /data/local/user.js",
    "rm -r /data/local/permissions.sqlite*",
    "rm -r /data/local/OfflineCache",
    "rm -r /data/local/indexedDB",
    "rm -r /data/local/debug_info_trigger",
    "rm -r /system/b2g/webapps"
  ]

  const MediaClean: string := "rm -r /system/media"
  const GeckoListing: string := "ls /system/b2g/"
  const GeckoTarget: string := "/system/b2g/"
  const GeckoRemovePrefix: string := "rm -r /system/b2g/"
  const ChmodPrefix: string := "chmod 777 "
  const UserPrefTarget: string := "/system/b2g/defaults/pref/"
  const WebappsTarget: string := "/system/b2g/webapps"
  const SettingsTarget: string := "/system/b2g/defaults/"
  const UserPref: string := "user_pref"
  const Pref: string := "pref"

  /** The helper's settings after `cli`. */
  datatype Settings = Settings(serial: Option<string>, gaia: Option<string>, gecko: Option<string>, keepProfile: bool)

  /** Python's truth value of an optional string. */
  predicate Truthy(s: Option<string>) {
    s.Some? && s.value != ""
  }

  // ---------------------------------------------------------------------------
  // Packages

  /** `_is_gaia_package` / `_is_gecko_package`: an existing file whose name
      ends with the package's suffix. */
  function IsPackage(ctx: Ctx, h: seq<Event>, path: string, suffix: string): (r: Run<bool>)
    ensures r.trace == [IsFile(path)] && r.result.Ok?
    ensures r.result.value <==> Ask(ctx, h, IsFile(path)).code == 0 && EndsWith(path, suffix)
  {
    Run([IsFile(path)], Ok(Ask(ctx, h, IsFile(path)).code == 0 && EndsWith(path, suffix)))
  }

  /** No file name is both a Gaia and a Gecko package. */
  lemma PackageKindsDisjoint(path: string)
    ensures !(EndsWith(path, GaiaSuffix) && EndsWith(path, GeckoSuffix))
  {
    if EndsWith(path, GaiaSuffix) {
      assert path[|path| - 1] == GaiaSuffix[3] == 'p';
    }
    if EndsWith(path, GeckoSuffix) {
      assert path[|path| - 1] == GeckoSuffix[6] == 'z';
    }
  }

  /** One package argument of `cli`: probed only when given, kept only when
      it passes the check. */
  function ChoosePackage(ctx: Ctx, h: seq<Event>, arg: Option<string>, suffix: string): (r: (seq<Event>, Option<string>))
    ensures !Truthy(arg) ==> r == ([], None)
    ensures Truthy(arg) ==> r.0 == [IsFile(arg.value)]
    ensures r.1.Some? <==> Truthy(arg) && Ask(ctx, h, IsFile(arg.value)).code == 0 && EndsWith(arg.value, suffix)
    ensures r.1.Some? ==> r.1 == arg
  {
    if !Truthy(arg) then ([], None)
    else
      var p := IsPackage(ctx, h, arg.value, suffix);
      (p.trace, if p.result.value then arg else None)
  }

  /** `cli` once the arguments are parsed: the serial and the profile flag
      are taken as given; a package is set only when it passes its check. */
  function Configure(ctx: Ctx, h: seq<Event>, serial: Option<string>, gaia: Option<string>, gecko: Option<string>, keep: bool)
    : (r: (seq<Event>, Settings))
    ensures r.1.serial == serial && r.1.keepProfile == keep
    ensures r.1.gaia.Some? <==> Truthy(gaia) && Ask(ctx, h, IsFile(gaia.value)).code == 0 && EndsWith(gaia.value, GaiaSuffix)
    ensures r.1.gaia.Some? ==> r.1.gaia == gaia
    ensures r.1.gecko.Some? ==> r.1.gecko == gecko && EndsWith(gecko.value, GeckoSuffix)
    ensures forall e | e in r.0 :: e.IsFile?
    ensures |r.0| == (if Truthy(gaia) then 1 else 0) + (if Truthy(gecko) then 1 else 0)
  {
    var (t1, g1) := ChoosePackage(ctx, h, gaia, GaiaSuffix);
    var (t2, g2) := ChoosePackage(ctx, h + t1, gecko, GeckoSuffix);
    (t1 + t2, Settings(serial, g1, g2, keep))
  }

  /** A package `cli` keeps is never empty, so `run` sees it as set. */
  lemma ConfiguredTruthy(ctx: Ctx, h: seq<Event>, serial: Option<string>, gaia: Option<string>, gecko: Option<string>, keep: bool)
    ensures var s := Configure(ctx, h, serial, gaia, gecko, keep).1;
            (s.gaia.Some? ==> Truthy(s.gaia)) && (s.gecko.Some? ==> Truthy(s.gecko))
  {
  }

  // ---------------------------------------------------------------------------
  // `user.js`

  /** What `_push_gaia` writes: every line of `user.js` with `user_pref`
      replaced by `pref`. */
  function UserPrefs(text: string): (r: string)
  {
    Concat(RewriteLines(Lines(text)))
  }

  function RewriteLines(ls: seq<string>): (r: seq<string>)
    ensures |r| == |ls|
    ensures forall i | 0 <= i < |ls| :: r[i] == Replace(ls[i], UserPref, Pref)
  {
    seq(|ls|, i requires 0 <= i < |ls| => Replace(ls[i], UserPref, Pref))
  }

  /** Rewriting line by line is rewriting the whole file at once: no
      occurrence of `user_pref` spans a line break. */
  lemma UserPrefsWhole(text: string)
    ensures UserPrefs(text) == Replace(text, UserPref, Pref)
  {
    LinesWellFormed(text);
    LinesConcat(text);
    RewriteConcat(Lines(text));
  }

  lemma {:induction false} RewriteConcat(ls: seq<string>)
    requires WellFormedLines(ls)
    ensures Concat(RewriteLines(ls)) == Replace(Concat(ls), UserPref, Pref)
    decreases |ls|
  {
    if |ls| > 0 {
      WellFormedTail(ls);
      RewriteConcat(ls[1..]);
      assert RewriteLines(ls)[1..] == RewriteLines(ls[1..]);
      var rest := Concat(ls[1..]);
      if |ls| > 1 {
        assert ls[0][|ls[0]| - 1] == '\n';
        ReplaceAppend(ls[0], rest, UserPref, Pref);
      } else {
        assert ls[0] + rest == ls[0];
        assert Concat(RewriteLines(ls)) == RewriteLines(ls)[0] + "";
      }
    }
  }

  /** A file without `user_pref` is pushed as it is. */
  lemma UserPrefsUnchanged(text: string)
    requires !Contains(text, UserPref)
    ensures UserPrefs(text) == text
  {
    UserPrefsWhole(text);
    ReplaceAbsent(text, UserPref, Pref);
  }

  // ---------------------------------------------------------------------------
  // What `_clean_gecko` removes

  /** `list.remove`: drops the first occurrence, a `ValueError` without one. */
  function RemoveFirst(s: seq<string>, x: string): (r: Result<seq<string>, Error>)
    ensures r.Ok? <==> x in s
    ensures r.Err? ==> r.error == MissingItem(x)
    ensures r.Ok? ==> |r.value| == |s| - 1 && forall y | y in r.value :: y in s
    ensures r.Ok? ==> forall y | y in s && y != x :: y in r.value
    ensures r.Ok? && StrictlySorted(s) ==> StrictlySorted(r.value) && x !in r.value
    decreases |s|
  {
    if |s| == 0 then Err(MissingItem(x))
    else if s[0] == x then
      assert forall y | y in s && y != x :: y in s[1..] by {
        assert s == [s[0]] + s[1..];
      }
      assert StrictlySorted(s) ==> x !in s[1..] by {
        if StrictlySorted(s) && x in s[1..] {
          var i :| 0 <= i < |s[1..]| && s[1..][i] == x;
          assert Less(s[0], s[i + 1]);
          LessIrreflexive(x);
        }
      }
      Ok(s[1..])
    else
      match RemoveFirst(s[1..], x)
      case Err(e) => Err(e)
      case Ok(rest) =>
        assert StrictlySorted(s) ==> StrictlySorted([s[0]] + rest) by {
          if StrictlySorted(s) {
            forall j | 0 <= j < |rest| ensures Less(s[0], rest[j]) {
              assert rest[j] in s[1..];
            }
          }
        }
        Ok([s[0]] + rest)
  }

  /** The entries `_clean_gecko` removes: the sorted, de-duplicated union
      of the package's and the device's names, without `defaults` and
      `webapps`, both of which must be among them. */
  function RemovalList(source: seq<string>, device: seq<string>): (r: Result<seq<string>, Error>)
    ensures r.Ok? <==> "defaults" in source + device && "webapps" in source + device
    ensures r.Err? ==> r.error == MissingItem(if "defaults" in source + device then "webapps" else "defaults")
    ensures r.Ok? ==> StrictlySorted(r.value)
    ensures r.Ok? ==> forall y :: y in r.value <==> y in source + device && y != "defaults" && y != "webapps"
  {
    var all := SortedSet(source + device);
    match RemoveFirst(all, "defaults")
    case Err(e) => Err(e)
    case Ok(a) => RemoveFirst(a, "webapps")
  }

  /** The removal list depends only on the set of names: order and
      repetition in either listing do not matter. */
  lemma RemovalListOrderFree(s1: seq<string>, d1: seq<string>, s2: seq<string>, d2: seq<string>)
    requires forall y :: y in s1 + d1 <==> y in s2 + d2
    ensures RemovalList(s1, d1) == RemovalList(s2, d2)
  {
    var r1 := RemovalList(s1, d1);
    var r2 := RemovalList(s2, d2);
    if r1.Ok? {
      SortedUnique(r1.value, r2.value);
    }
  }

  function RemoveCommands(names: seq<string>): (r: seq<string>)
    ensures |r| == |names|
    ensures forall i | 0 <= i < |names| :: r[i] == GeckoRemovePrefix + names[i]
  {
    seq(|names|, i requires 0 <= i < |names| => GeckoRemovePrefix + names[i])
  }

  // ---------------------------------------------------------------------------
  // Pushing Gaia

  /** `adb push` of each `(source, target)` pair. */
  function PushEvents(serial: Option<string>, items: seq<(string, string)>): (t: seq<Event>)
    ensures |t| == |items|
    ensures forall i | 0 <= i < |items| :: t[i] == Push(serial, items[i].0, items[i].1)
  {
    seq(|items|, i requires 0 <= i < |items| => Push(serial, items[i].0, items[i].1))
  }

  /** `adb` accepted every event of `t`, each asked after the ones before it. */
  predicate AllAccepted(ctx: Ctx, h: seq<Event>, t: seq<Event>) {
    forall i | 0 <= i < |t| :: Ask(ctx, h + t[..i], t[i]).code == 0
  }

  lemma AllAcceptedSnoc(ctx: Ctx, h: seq<Event>, t: seq<Event>, e: Event)
    requires AllAccepted(ctx, h, t) && Ask(ctx, h + t, e).code == 0
    ensures AllAccepted(ctx, h, t + [e])
  {
    var u := t + [e];
    forall i | 0 <= i < |u| ensures Ask(ctx, h + u[..i], u[i]).code == 0 {
      if i < |t| {
        assert u[..i] == t[..i] && u[i] == t[i];
      } else {
        assert u[..i] == t;
      }
    }
  }

  /** The pushes in order, stopping at the first that `adb` fails. */
  method PushInOrder(ctx: Ctx, h: seq<Event>, serial: Option<string>, items: seq<(string, string)>) returns (r: Run<()>)
    ensures |r.trace| <= |items| && r.trace == PushEvents(serial, items)[..|r.trace|]
    ensures r.result.Ok? <==> |r.trace| == |items| && AllAccepted(ctx, h, r.trace)
    ensures r.result.Err? ==> |r.trace| > 0 && r.result.error == Transport(r.trace[|r.trace| - 1])
                              && AllAccepted(ctx, h, r.trace[..|r.trace| - 1])
                              && Ask(ctx, h + r.trace[..|r.trace| - 1], r.trace[|r.trace| - 1]).code != 0
  {
    var all := PushEvents(serial, items);
    var t: seq<Event> := [];
    for i := 0 to |items|
      invariant t == all[..i]
      invariant AllAccepted(ctx, h, t)
    {
      var p := AdbPush(ctx, h + t, serial, items[i].0, items[i].1);
      assert all[..i + 1] == t + p.trace;
      if p.result.Err? {
        r := Run(t + p.trace, Err(p.result.error));
        assert r.trace[..i] == t;
        return;
      }
      AllAcceptedSnoc(ctx, h, t, p.trace[0]);
      t := t + p.trace;
    }
    assert t == all;
    r := Run(t, Ok(()));
  }

  function GaiaProfile(src: string): string {
    PathJoin(PathJoin(src, "gaia"), "profile")
  }

  /** The `user.js` of the package and the rewritten copy beside it. */
  function UserJsSource(src: string): string {
    PathJoin(GaiaProfile(src), "user.js")
  }

  function UserJsCopy(src: string): string {
    PathJoin(src, "user.js")
  }

  /** What `_push_gaia` pushes, in order: the rewritten `user.js`, the
      `webapps` folder and `settings.json`. */
  function GaiaPushes(src: string): (r: seq<(string, string)>)
    ensures |r| == 3
  {
    [(UserJsCopy(src), UserPrefTarget),
     (PathJoin(GaiaProfile(src), "webapps"), WebappsTarget),
     (PathJoin(GaiaProfile(src), "settings.json"), SettingsTarget)]
  }

  /** `_push_gaia`: `user.js` is read and written back with every
      `user_pref` turned into `pref`, then the three pushes follow in order. */
  method PushGaia(ctx: Ctx, h: seq<Event>, serial: Option<string>, src: string) returns (r: Run<()>)
    ensures |r.trace| > 0 && r.trace[0] == ReadFile(UserJsSource(src))
    ensures Ask(ctx, h, ReadFile(UserJsSource(src))).code != 0 ==>
              r == Run([ReadFile(UserJsSource(src))], Err(IoError(UserJsSource(src))))
    ensures Ask(ctx, h, ReadFile(UserJsSource(src))).code == 0 ==>
              var text := Ask(ctx, h, ReadFile(UserJsSource(src))).text;
              && 2 <= |r.trace| <= 5
              && r.trace[1] == WriteFile(UserJsCopy(src), Replace(text, UserPref, Pref))
              && r.trace[2..] == PushEvents(serial, GaiaPushes(src))[..|r.trace| - 2]
    ensures r.result.Ok? ==> |r.trace| == 5 && r.trace[2..] == PushEvents(serial, GaiaPushes(src))
    ensures r.result.Err? ==> r.result.error == IoError(UserJsSource(src)) || r.result.error == Transport(r.trace[|r.trace| - 1])
  {
    var read := ReadFile(UserJsSource(src));
    var a := Ask(ctx, h, read);
    if a.code != 0 {
      return Run([read], Err(IoError(UserJsSource(src))));
    }
    UserPrefsWhole(a.text);
    var write := WriteFile(UserJsCopy(src), UserPrefs(a.text));
    var p := PushInOrder(ctx, h + [read, write], serial, GaiaPushes(src));
    r := After([read, write], p);
    assert r.trace[2..] == p.trace;
  }

  // ---------------------------------------------------------------------------
  // Gecko

  /** `os.access(path, os.X_OK)` for each listed entry, in order. */
  function Probes(dir: string, files: seq<string>): (t: seq<Event>)
    ensures |t| == |files|
    ensures forall i | 0 <= i < |files| :: t[i] == IsExecutable(PathJoin(dir, files[i]))
  {
    seq(|files|, i requires 0 <= i < |files| => IsExecutable(PathJoin(dir, files[i])))
  }

  /** The `i`-th entry is executable, asked after the probes before it. */
  predicate ExecutableAt(ctx: Ctx, h: seq<Event>, dir: string, files: seq<string>, i: nat)
    requires i < |files|
  {
    Ask(ctx, h + Probes(dir, files)[..i], IsExecutable(PathJoin(dir, files[i]))).code == 0
  }

  /** The executable entries among the first `k`, in listing order. */
  function ExecutableNames(ctx: Ctx, h: seq<Event>, dir: string, files: seq<string>, k: nat): seq<string>
    requires k <= |files|
  {
    if k == 0 then []
    else ExecutableNames(ctx, h, dir, files, k - 1) + (if ExecutableAt(ctx, h, dir, files, k - 1) then [files[k - 1]] else [])
  }

  /** The entries that answered executable, in listing order. */
  method Executables(ctx: Ctx, h: seq<Event>, dir: string, files: seq<string>) returns (names: seq<string>)
    ensures |names| <= |files|
    ensures forall x :: x in names <==> exists i | 0 <= i < |files| :: files[i] == x && ExecutableAt(ctx, h, dir, files, i)
    ensures names == ExecutableNames(ctx, h, dir, files, |files|)
  {
    names := [];
    for i := 0 to |files|
      invariant |names| <= i
      invariant forall x :: x in names <==> exists j | 0 <= j < i :: files[j] == x && ExecutableAt(ctx, h, dir, files, j)
      invariant names == ExecutableNames(ctx, h, dir, files, i)
    {
      if ExecutableAt(ctx, h, dir, files, i) {
        names := names + [files[i]];
      }
    }
  }

  function ChmodCommand(name: string): string {
    ChmodPrefix + PathJoin(GeckoTarget, name)
  }

  function ChmodCommands(names: seq<string>): (r: seq<string>)
    ensures |r| == |names|
    ensures forall i | 0 <= i < |names| :: r[i] == ChmodCommand(names[i])
  {
    seq(|names|, i requires 0 <= i < |names| => ChmodCommand(names[i]))
  }

  /** The commands are the `chmod 777` of exactly the executable entries,
      one each, in listing order. */
  ghost predicate ChmodsFor(ctx: Ctx, h: seq<Event>, dir: string, files: seq<string>, cmds: seq<string>) {
    && (forall c :: c in cmds <==> exists i | 0 <= i < |files| :: ExecutableAt(ctx, h, dir, files, i) && c == ChmodCommand(files[i]))
    && cmds == ChmodCommands(ExecutableNames(ctx, h, dir, files, |files|))
  }

  lemma {:induction false} NoShellNoCommands(t: seq<Event>)
    requires forall i | 0 <= i < |t| :: !t[i].Shell?
    ensures ShellCommands(t) == []
    decreases |t|
  {
    if |t| > 0 {
      NoShellNoCommands(t[1..]);
    }
  }

  /** The `chmod` commands of the entries `Executables` picks. */
  lemma ChmodsOfNames(ctx: Ctx, h: seq<Event>, dir: string, files: seq<string>, names: seq<string>)
    requires forall x :: x in names <==> exists i | 0 <= i < |files| :: files[i] == x && ExecutableAt(ctx, h, dir, files, i)
    requires names == ExecutableNames(ctx, h, dir, files, |files|)
    ensures ChmodsFor(ctx, h, dir, files, ChmodCommands(names))
  {
    var cmds := ChmodCommands(names);
    forall x ensures x in cmds <==> exists i | 0 <= i < |files| :: ExecutableAt(ctx, h, dir, files, i) && x == ChmodCommand(files[i]) {
      if x in cmds {
        var k :| 0 <= k < |names| && cmds[k] == x;
        assert names[k] in names;
      }
      if exists i | 0 <= i < |files| :: ExecutableAt(ctx, h, dir, files, i) && x == ChmodCommand(files[i]) {
        var i :| 0 <= i < |files| && ExecutableAt(ctx, h, dir, files, i) && x == ChmodCommand(files[i]);
        assert files[i] in names;
        var k :| 0 <= k < |names| && names[k] == files[i];
        assert cmds[k] == x;
      }
    }
  }

  /** Local events followed by shell calls carry exactly those calls' commands. */
  lemma CommandsAfterLocal(pre: seq<Event>, serial: Option<string>, cmds: seq<string>)
    requires forall i | 0 <= i < |pre| :: !pre[i].Shell?
    ensures ShellCommands(pre + ShellEvents(serial, cmds)) == cmds
  {
    NoShellNoCommands(pre);
    ShellCommandsAppend(pre, ShellEvents(serial, cmds));
    ShellEventsCommands(serial, cmds);
  }

  /** `_push_gecko`: one push of the `b2g` folder, then `chmod 777` on the
      device for exactly the entries that are executable locally. */
  method PushGecko(ctx: Ctx, h: seq<Event>, serial: Option<string>, src: string) returns (r: Run<()>)
    ensures |r.trace| > 0 && r.trace[0] == Push(serial, PathJoin(src, "b2g"), GeckoTarget)
    ensures Ask(ctx, h, r.trace[0]).code != 0 ==> r == Run([r.trace[0]], Err(Transport(r.trace[0])))
    ensures r.result.Ok? ==>
              && |r.trace| >= 2 && r.trace[1] == ListDir(PathJoin(src, "b2g"))
              && ChmodsFor(ctx, h + r.trace[..2], PathJoin(src, "b2g"),
                           Ask(ctx, h + r.trace[..1], r.trace[1]).entries, ShellCommands(r.trace))
    ensures NoneOf(r.trace, UnzipKind)
  {
    var dir := PathJoin(src, "b2g");
    var p := AdbPush(ctx, h, serial, dir, GeckoTarget);
    if p.result.Err? {
      return Run(p.trace, Err(p.result.error));
    }
    var l := ListDir(dir);
    var a := Ask(ctx, h + p.trace, l);
    if a.code != 0 {
      return Run(p.trace + [l], Err(IoError(dir)));
    }
    var files := a.entries;
    var pre := p.trace + [l];
    var names := Executables(ctx, h + pre, dir, files);
    var probes := Probes(dir, files);
    var c := IssueAll(ctx, h + pre + probes, serial, ChmodCommands(names));
    r := Run(pre + probes + c.trace, c.result);
    NoneOfAppend(pre, probes, UnzipKind);
    NoneOfAppend(pre + probes, c.trace, UnzipKind);
    assert r.trace[..2] == pre && r.trace[..1] == p.trace;
    if c.result.Ok? {
      ChmodTrace(ctx, h + pre, serial, dir, files, names, pre);
    }
  }

  /** After the push and the listing, the probes and the `chmod` calls of
      the executable entries carry exactly the commands `ChmodsFor` asks. */
  lemma ChmodTrace(ctx: Ctx, h: seq<Event>, serial: Option<string>, dir: string, files: seq<string>,
                   names: seq<string>, pre: seq<Event>)
    requires |pre| == 2 && !pre[0].Shell? && !pre[1].Shell?
    requires forall x :: x in names <==> exists i | 0 <= i < |files| :: files[i] == x && ExecutableAt(ctx, h, dir, files, i)
    requires names == ExecutableNames(ctx, h, dir, files, |files|)
    ensures ChmodsFor(ctx, h, dir, files, ShellCommands(pre + Probes(dir, files) + ShellEvents(serial, ChmodCommands(names))))
  {
    var local := pre + Probes(dir, files);
    assert forall i | 0 <= i < |local| :: !local[i].Shell?;
    CommandsAfterLocal(local, serial, ChmodCommands(names));
    ChmodsOfNames(ctx, h, dir, files, names);
  }

  /** The names the device lists under `/system/b2g/`. */
  function DeviceNames(reply: Answer): seq<string> {
    SplitWs(SplitShellOutput(reply.text).output)
  }

  /** The removal list computed from the answers to the package listing
      (`t[1]`) and the device listing (`t[2]`). */
  function GeckoNames(ctx: Ctx, h: seq<Event>, t: seq<Event>): Result<seq<string>, Error>
    requires |t| >= 3
  {
    RemovalList(Ask(ctx, h + t[..1], t[1]).entries, DeviceNames(Ask(ctx, h + t[..2], t[2])))
  }

  /** Events after the listing steps do not change the removal list. */
  lemma GeckoNamesExtend(ctx: Ctx, h: seq<Event>, t: seq<Event>, u: seq<Event>)
    requires |t| == 3
    ensures GeckoNames(ctx, h, t + u) == GeckoNames(ctx, h, t)
  {
    assert (t + u)[..1] == t[..1] && (t + u)[..2] == t[..2];
  }

  /** The listing half of `_clean_gecko`: `/system/media` is removed first,
      then the package's `b2g` folder is listed locally and `/system/b2g/`
      on the device, the latter through `adb` without a serial. */
  method ListForRemoval(ctx: Ctx, h: seq<Event>, serial: Option<string>, dir: string) returns (r: Run<seq<string>>)
    ensures 0 < |r.trace| <= 3 && r.trace[0] == Shell(serial, MediaClean)
    ensures |r.trace| >= 2 ==> r.trace[1] == ListDir(dir)
    ensures |r.trace| == 3 ==> r.trace[2] == Shell(None, GeckoListing)
    ensures r.result.Ok? ==> |r.trace| == 3 && GeckoNames(ctx, h, r.trace) == Ok(r.result.value)
    ensures NoneOf(r.trace, UnzipKind)
  {
    var e0 := Shell(serial, MediaClean);
    if Ask(ctx, h, e0).code != 0 {
      return Run([e0], Err(Transport(e0)));
    }
    var l := ListDir(dir);
    var a := Ask(ctx, h + [e0], l);
    if a.code != 0 {
      return Run([e0, l], Err(IoError(dir)));
    }
    var e2 := Shell(None, GeckoListing);
    var t := [e0, l, e2];
    assert NoneOf(t, UnzipKind) by {
      assert forall i | 0 <= i < 3 :: t[i] == e0 || t[i] == l || t[i] == e2;
    }
    if Ask(ctx, h + [e0, l], e2).code != 0 {
      return Run(t, Err(Transport(e2)));
    }
    var names := GeckoNames(ctx, h, t);
    if names.Err? {
      return Run(t, Err(names.error));
    }
    r := Run(t, Ok(names.value));
  }

  /** The removals that follow the three listing steps `t[..3]`: a prefix
      of one `rm -r` per name of the removal list, all of them on success. */
  ghost predicate RemovalsFollow(ctx: Ctx, h: seq<Event>, serial: Option<string>, t: seq<Event>)
    requires |t| >= 3
  {
    && GeckoNames(ctx, h, t).Ok?
    && var all := ShellEvents(serial, RemoveCommands(GeckoNames(ctx, h, t).value));
       |t| - 3 <= |all| && t[3..] == all[..|t| - 3]
  }

  /** `ShellAll`, seen only through the events it issues. */
  method IssueAll(ctx: Ctx, h: seq<Event>, serial: Option<string>, cmds: seq<string>) returns (r: Run<()>)
    ensures |r.trace| <= |cmds| && r.trace == ShellEvents(serial, cmds)[..|r.trace|]
    ensures r.result.Ok? ==> r.trace == ShellEvents(serial, cmds)
    ensures NoneOf(r.trace, UnzipKind)
  {
    r := ShellAll(ctx, h, serial, cmds);
    assert forall e | e in r.trace :: e in ShellEvents(serial, cmds);
    ShellsOnly(r.trace, UnzipKind);
  }

  /** `_clean_gecko`: `/system/media` goes first; then every entry of the
      package's `b2g` folder or of the device's `/system/b2g/`, sorted and
      without duplicates, is removed except `defaults` and `webapps`, which
      must both be among them. */
  method CleanGecko(ctx: Ctx, h: seq<Event>, serial: Option<string>, src: string) returns (r: Run<()>)
    ensures |r.trace| > 0 && r.trace[0] == Shell(serial, MediaClean)
    ensures |r.trace| >= 2 ==> r.trace[1] == ListDir(PathJoin(src, "b2g"))
    ensures |r.trace| >= 3 ==> r.trace[2] == Shell(None, GeckoListing)
    ensures r.result.Ok? ==> |r.trace| >= 3
    ensures |r.trace| > 3 ==> RemovalsFollow(ctx, h, serial, r.trace)
    ensures r.result.Ok? ==>
              && GeckoNames(ctx, h, r.trace).Ok?
              && r.trace[3..] == ShellEvents(serial, RemoveCommands(GeckoNames(ctx, h, r.trace).value))
    ensures NoneOf(r.trace, UnzipKind)
  {
    var s := ListForRemoval(ctx, h, serial, PathJoin(src, "b2g"));
    if s.result.Err? {
      return Run(s.trace, Err(s.result.error));
    }
    var c := IssueAll(ctx, h + s.trace, serial, RemoveCommands(s.result.value));
    r := Run(s.trace + c.trace, c.result);
    NoneOfAppend(s.trace, c.trace, UnzipKind);
    RemovalsJoin(ctx, h, serial, s.trace, c.trace, c.result.Ok?);
  }

  /** The listing events followed by (a prefix of) the removals they chose. */
  lemma RemovalsJoin(ctx: Ctx, h: seq<Event>, serial: Option<string>, s: seq<Event>, c: seq<Event>, ok: bool)
    requires |s| == 3 && GeckoNames(ctx, h, s).Ok?
    requires var all := ShellEvents(serial, RemoveCommands(GeckoNames(ctx, h, s).value));
             |c| <= |all| && c == all[..|c|] && (ok ==> c == all)
    ensures (s + c)[..3] == s
    ensures |s + c| > 3 ==> RemovalsFollow(ctx, h, serial, s + c)
    ensures ok ==>
              && GeckoNames(ctx, h, s + c).Ok?
              && (s + c)[3..] == ShellEvents(serial, RemoveCommands(GeckoNames(ctx, h, s + c).value))
  {
    assert (s + c)[3..] == c;
    GeckoNamesExtend(ctx, h, s, c);
  }

  /** `_clean_gecko` then `_push_gecko` on the unpacked package in `tmp`;
      nothing is pushed once the cleaning failed. */
  method CleanThenPush(ctx: Ctx, h: seq<Event>, serial: Option<string>, tmp: string) returns (r: Run<()>)
    ensures |r.trace| > 0 && r.trace[0] == Shell(serial, MediaClean)
    ensures r.result.Ok? ==> Push(serial, PathJoin(tmp, "b2g"), GeckoTarget) in r.trace
    ensures NoneOf(r.trace, UnzipKind)
  {
    var c := CleanGecko(ctx, h, serial, tmp);
    if c.result.Err? {
      return Run(c.trace, Err(c.result.error));
    }
    var q := PushGecko(ctx, h + c.trace, serial, tmp);
    r := Run(c.trace + q.trace, q.result);
    NoneOfAppend(c.trace, q.trace, UnzipKind);
    assert r.trace[|c.trace|] == q.trace[0];
  }

  /** The Gecko flash inside its temporary folder `tmp`: the package is
      checked before anything is unpacked or removed. */
  method GeckoInTemp(ctx: Ctx, h: seq<Event>, serial: Option<string>, gecko: string, tmp: string) returns (r: Run<()>)
    ensures |r.trace| > 0 && r.trace[0] == IsFile(gecko)
    ensures !IsPackage(ctx, h, gecko, GeckoSuffix).result.value ==> r == Run([IsFile(gecko)], Err(NotPackage(gecko)))
    ensures IsPackage(ctx, h, gecko, GeckoSuffix).result.value ==>
              |r.trace| > 2 && r.trace[1] == Untar(gecko, tmp) && r.trace[2] == Shell(serial, MediaClean)
    ensures r.result.Ok? ==> Push(serial, PathJoin(tmp, "b2g"), GeckoTarget) in r.trace
    ensures NoneOf(r.trace, UnzipKind)
  {
    var p := IsPackage(ctx, h, gecko, GeckoSuffix);
    if !p.result.value {
      return Run(p.trace, Err(NotPackage(gecko)));
    }
    var t := p.trace + [Untar(gecko, tmp)];
    var c := CleanThenPush(ctx, h + t, serial, tmp);
    r := Run(t + c.trace, c.result);
    NoneOfAppend(t, c.trace, UnzipKind);
    if c.result.Ok? {
      var k :| 0 <= k < |c.trace| && c.trace[k] == Push(serial, PathJoin(tmp, "b2g"), GeckoTarget);
      assert r.trace[k + 2] == c.trace[k];
    }
  }

  /** What `shallow_flash_gecko` does, with trace `t` and outcome `res`
      after history `h`: the temporary folder `tmp` is made first and, when
      it has a name, removed last whatever happened in between; the package
      is checked before it is unpacked, and no Gaia package is unpacked. */
  predicate GeckoFlashed(ctx: Ctx, h: seq<Event>, serial: Option<string>, gecko: string, tmp: string,
                         t: seq<Event>, res: Result<(), Error>)
  {
    && tmp == Ask(ctx, h, MakeTemp(TempPrefix)).text
    && |t| > 1 && t[0] == MakeTemp(TempPrefix) && t[1] == IsFile(gecko)
    && (tmp != "" ==> LastIs(t, RemoveTree(tmp)))
    && (!IsPackage(ctx, h + [MakeTemp(TempPrefix)], gecko, GeckoSuffix).result.value ==>
          t == [MakeTemp(TempPrefix), IsFile(gecko)] + Cleanup(tmp) && res == Err(NotPackage(gecko)))
    && (res.Ok? ==> |t| > 3 && t[2] == Untar(gecko, tmp) && t[3] == Shell(serial, MediaClean))
    && (res.Ok? ==> Push(serial, PathJoin(tmp, "b2g"), GeckoTarget) in t)
    && NoneOf(t, UnzipKind)
  }

  /** `shallow_flash_gecko`. */
  method FlashGecko(ctx: Ctx, h: seq<Event>, serial: Option<string>, gecko: string) returns (r: Run<()>, tmp: string)
    ensures GeckoFlashed(ctx, h, serial, gecko, tmp, r.trace, r.result)
  {
    var x := MakeTemp(TempPrefix);
    tmp := Ask(ctx, h, x).text;
    var b := GeckoInTemp(ctx, h + [x], serial, gecko, tmp);
    r := Run([x] + b.trace + Cleanup(tmp), b.result);
    BracketNone(x, b.trace, Cleanup(tmp), UnzipKind);
    assert r.trace[1..|b.trace| + 1] == b.trace;
    if b.result.Ok? {
      var e := Push(serial, PathJoin(tmp, "b2g"), GeckoTarget);
      var k :| 0 <= k < |b.trace| && b.trace[k] == e;
      assert r.trace[k + 1] == e;
    }
  }

  // ---------------------------------------------------------------------------
  // Gaia

  /** What `_backup_profile` asks of the backup helper: a backup into
      `dir`, without the reboot. */
  function BackupOptions(serial: Option<string>, dir: string): (o: BackupRestore.Options)
    ensures o.backup && !o.restore && o.noReboot
    ensures o.serial == serial && o.profileDir == dir
    ensures o.sdcard == BackupRestore.Defaults.sdcard && o.skipVersionCheck == BackupRestore.Defaults.skipVersionCheck
  {
    BackupRestore.SetBackup(BackupRestore.Defaults.(serial := serial), true).(noReboot := true, profileDir := dir)
  }

  /** What `_restore_profile` asks of the backup helper: a restore from
      `dir`, without the reboot and without comparing versions. */
  function RestoreOptions(serial: Option<string>, dir: string): (o: BackupRestore.Options)
    ensures o.restore && !o.backup && o.noReboot && o.skipVersionCheck
    ensures o.serial == serial && o.profileDir == dir
    ensures o.sdcard == BackupRestore.Defaults.sdcard
  {
    BackupRestore.SetRestore(BackupRestore.Defaults.(serial := serial), true)
      .(noReboot := true, skipVersionCheck := true, profileDir := dir)
  }

  /** `_backup_profile`: a fresh `b2gprofile_` folder receives the backup;
      its name is the result. The backup pushes nothing to the device. */
  method BackupToTemp(ctx: Ctx, h: seq<Event>, serial: Option<string>) returns (r: Run<string>)
    ensures |r.trace| > 0 && r.trace[0] == MakeTemp(ProfilePrefix)
    ensures NoneOf(r.trace, PushKind)
    ensures r.result.Ok? ==> r.result.value == Ask(ctx, h, MakeTemp(ProfilePrefix)).text
  {
    var x := MakeTemp(ProfilePrefix);
    var dir := Ask(ctx, h, x).text;
    var b := BackupRestore.RunHelper(ctx, h + [x], BackupOptions(serial, dir));
    r := Run([x] + b.trace, if b.result.Err? then Err(b.result.error) else Ok(dir));
    NoneOfAppend([x], b.trace, PushKind);
  }

  /** `_restore_profile`: nothing happens without a folder; otherwise the
      helper restores from it, copying nothing locally. */
  method RestoreFrom(ctx: Ctx, h: seq<Event>, serial: Option<string>, dir: string) returns (r: Run<()>)
    ensures dir == "" ==> r == Run([], Ok(()))
    ensures NoneOf(r.trace, CopyKind)
    ensures dir != "" ==>
              var sel := SelectTarget(ctx, h, serial, false);
              sel.result.Err? ==> r.result.Err? && r.trace == sel.trace
  {
    if dir == "" {
      return Run([], Ok(()));
    }
    r := BackupRestore.RunHelper(ctx, h, RestoreOptions(serial, dir));
  }

  /** The device clean `cmds`, then `_push_gaia` once every removal was
      delivered. */
  method CleanThenPushGaia(ctx: Ctx, h: seq<Event>, serial: Option<string>, cmds: seq<string>, tmp: string)
    returns (r: Run<()>)
    requires |cmds| > 0
    ensures |r.trace| > 0 && r.trace[0] == Shell(serial, cmds[0])
    ensures |r.trace| <= |cmds| ==> r.result.Err?
    ensures r.result.Ok? ==>
              && |r.trace| == |cmds| + 5
              && r.trace[..|cmds|] == ShellEvents(serial, cmds)
              && r.trace[|cmds|] == ReadFile(UserJsSource(tmp))
              && r.trace[|cmds| + 2..] == PushEvents(serial, GaiaPushes(tmp))
  {
    var c := ShellAll(ctx, h, serial, cmds);
    if c.result.Err? {
      return Run(c.trace, Err(c.result.error));
    }
    var p := PushGaia(ctx, h + c.trace, serial, tmp);
    r := Run(c.trace + p.trace, p.result);
    assert r.trace[..|cmds|] == c.trace && r.trace[|cmds|..] == p.trace;
  }

  /** `_clean_gaia` followed by `_push_gaia`. */
  method CleanGaia(ctx: Ctx, h: seq<Event>, serial: Option<string>, tmp: string) returns (r: Run<()>)
    ensures |r.trace| > 0 && r.trace[0] == Shell(serial, GaiaCleanCommands[0])
    ensures r.result.Ok? ==> |r.trace| == |GaiaCleanCommands| + 5
  {
    r := CleanThenPushGaia(ctx, h, serial, GaiaCleanCommands, tmp);
  }

  /** The Gaia flash inside its temporary folder `tmp`: the package is
      checked before anything is unpacked or removed, and the kept profile
      is restored last. */
  method GaiaInTemp(ctx: Ctx, h: seq<Event>, serial: Option<string>, gaia: string, tmp: string, keep: bool, profile: string)
    returns (r: Run<()>)
    ensures |r.trace| > 0 && r.trace[0] == IsFile(gaia)
    ensures !IsPackage(ctx, h, gaia, GaiaSuffix).result.value ==> r == Run([IsFile(gaia)], Err(NotPackage(gaia)))
    ensures IsPackage(ctx, h, gaia, GaiaSuffix).result.value ==>
              |r.trace| > 2 && r.trace[1] == Unzip(gaia, tmp) && r.trace[2] == Shell(serial, GaiaCleanCommands[0])
    ensures r.result.Ok? ==> |r.trace| >= 2 + |GaiaCleanCommands| + 5
    ensures r.result.Ok? && !keep ==> |r.trace| == 2 + |GaiaCleanCommands| + 5
  {
    var p := IsPackage(ctx, h, gaia, GaiaSuffix);
    if !p.result.value {
      return Run(p.trace, Err(NotPackage(gaia)));
    }
    var t := p.trace + [Unzip(gaia, tmp)];
    var c := CleanGaia(ctx, h + t, serial, tmp);
    if c.result.Err? || !keep {
      return Run(t + c.trace, c.result);
    }
    var q := RestoreFrom(ctx, h + t + c.trace, serial, profile);
    r := Run(t + c.trace + q.trace, q.result);
  }

  /** What the part of `shallow_flash_gaia` after the backup does, with
      trace `t` and outcome `res` after history `h`: the temporary folder
      `tmp` is made first and, when it has a name, removed last whatever
      happened in between; the package is checked before anything is
      unpacked or removed. */
  predicate GaiaFlashed(ctx: Ctx, h: seq<Event>, serial: Option<string>, gaia: string, tmp: string,
                        t: seq<Event>, res: Result<(), Error>)
  {
    && tmp == Ask(ctx, h, MakeTemp(TempPrefix)).text
    && |t| > 1 && t[0] == MakeTemp(TempPrefix) && t[1] == IsFile(gaia)
    && (tmp != "" ==> LastIs(t, RemoveTree(tmp)))
    && (!IsPackage(ctx, h + [MakeTemp(TempPrefix)], gaia, GaiaSuffix).result.value ==>
          t == [MakeTemp(TempPrefix), IsFile(gaia)] + Cleanup(tmp) && res == Err(NotPackage(gaia)))
    && (res.Ok? ==> |t| > 3 && t[2] == Unzip(gaia, tmp) && t[3] == Shell(serial, GaiaCleanCommands[0]))
  }

  /** The part of `shallow_flash_gaia` after the backup. */
  method GaiaWithTemp(ctx: Ctx, h: seq<Event>, serial: Option<string>, gaia: string, keep: bool, profile: string)
    returns (r: Run<()>, tmp: string)
    ensures GaiaFlashed(ctx, h, serial, gaia, tmp, r.trace, r.result)
  {
    var x := MakeTemp(TempPrefix);
    tmp := Ask(ctx, h, x).text;
    var g := GaiaInTemp(ctx, h + [x], serial, gaia, tmp, keep, profile);
    r := Run([x] + g.trace + Cleanup(tmp), g.result);
    assert r.trace[1..|g.trace| + 1] == g.trace;
  }

  /** `shallow_flash_gaia`: with the profile kept, it is backed up into a
      folder of its own first, and the rest happens from index `at` of the
      trace on. A failed backup leaves no temporary folder, and the backup
      pushes nothing. */
  method FlashGaia(ctx: Ctx, h: seq<Event>, serial: Option<string>, gaia: string, keep: bool)
    returns (r: Run<()>, tmp: string, at: nat)
    ensures keep ==> |r.trace| > 0 && r.trace[0] == MakeTemp(ProfilePrefix)
    ensures !keep ==> at == 0
    ensures at <= |r.trace| && NoneOf(r.trace[..at], PushKind)
    ensures at == |r.trace| ==> keep && r.result.Err? && tmp == ""
    ensures at < |r.trace| ==> GaiaFlashed(ctx, h + r.trace[..at], serial, gaia, tmp, r.trace[at..], r.result)
    ensures tmp != "" ==> LastIs(r.trace, RemoveTree(tmp))
  {
    var pre: seq<Event> := [];
    var profile := "";
    if keep {
      var b := BackupToTemp(ctx, h, serial);
      if b.result.Err? {
        return Run(b.trace, Err(b.result.error)), "", |b.trace|;
      }
      pre := b.trace;
      profile := b.result.value;
    }
    at := |pre|;
    var g;
    g, tmp := GaiaWithTemp(ctx, h + pre, serial, gaia, keep, profile);
    r := Run(pre + g.trace, g.result);
    assert r.trace[..at] == pre && r.trace[at..] == g.trace;
    LastIsAppend(pre, g.trace, RemoveTree(tmp));
  }

  // ---------------------------------------------------------------------------
  // The run

  const StopCommand: string := "stop b2g"
  const RebootCommands: seq<string> := ["sync", "reboot"]

  /** `prepare_step`: root, then remount, then stop B2G; each only after
      the previous one succeeded. */
  function PrepareStep(ctx: Ctx, h: seq<Event>, serial: Option<string>): (r: Run<()>)
    ensures !AdbRoot(ctx, h, serial).result.value ==> r == Run([Root(serial)], Err(NoRoot))
    ensures AdbRoot(ctx, h, serial).result.value && AdbRemount(ctx, h + [Root(serial)], serial).result.Err? ==>
              r == Run([Root(serial), Remount(serial)], Err(Transport(Remount(serial))))
    ensures AdbRoot(ctx, h, serial).result.value && AdbRemount(ctx, h + [Root(serial)], serial).result == Ok(false) ==>
              r == Run([Root(serial), Remount(serial)], Err(NoRemount))
    ensures r.result.Ok? <==>
              && AdbRoot(ctx, h, serial).result.value
              && AdbRemount(ctx, h + [Root(serial)], serial).result == Ok(true)
              && Ask(ctx, h + [Root(serial), Remount(serial)], Shell(serial, StopCommand)).code == 0
    ensures r.result.Ok? ==> r.trace == [Root(serial), Remount(serial), Shell(serial, StopCommand)]
    ensures 0 < |r.trace| <= 3 && r.trace == [Root(serial), Remount(serial), Shell(serial, StopCommand)][..|r.trace|]
  {
    if !AdbRoot(ctx, h, serial).result.value then Run([Root(serial)], Err(NoRoot))
    else
      var m := AdbRemount(ctx, h + [Root(serial)], serial);
      if m.result.Err? then Run([Root(serial), Remount(serial)], Err(m.result.error))
      else if !m.result.value then Run([Root(serial), Remount(serial)], Err(NoRemount))
      else After([Root(serial), Remount(serial)], StopB2g(ctx, h + [Root(serial), Remount(serial)], serial))
  }

  /** The events of the restart of `final_step`, in order: the factory
      reset of `reset_phone` when `reset`, otherwise `sync` and `reboot`. */
  function RestartEvents(serial: Option<string>, reset: bool): (t: seq<Event>)
    ensures |t| > 0 && t[0] == (if reset then Root(serial) else Shell(serial, RebootCommands[0]))
    ensures forall i | 0 <= i < |t| :: t[i].Root? || t[i].Shell?
  {
    if reset then [Root(serial)] + ShellEvents(serial, ResetPhone.ResetCommands)
    else ShellEvents(serial, RebootCommands)
  }

  /** A run of `reset_phone`, cut short or not, is a prefix of the reset's
      restart events. */
  lemma ResetIsRestart(serial: Option<string>, t: seq<Event>, whole: bool)
    requires 0 < |t| <= 1 + |ResetPhone.ResetCommands| && t[0] == Root(serial)
    requires t[1..] == ShellEvents(serial, ResetPhone.ResetCommands)[..|t| - 1]
    requires whole ==> t == [Root(serial)] + ShellEvents(serial, ResetPhone.ResetCommands)
    ensures |t| <= |RestartEvents(serial, true)| && t == RestartEvents(serial, true)[..|t|]
    ensures whole ==> t == RestartEvents(serial, true)
  {
    var c := ShellEvents(serial, ResetPhone.ResetCommands);
    assert RestartEvents(serial, true)[..|t|] == [Root(serial)] + c[..|t| - 1];
    assert t == [t[0]] + t[1..];
  }

  /** The restart of `final_step`: a reset when Gaia was flashed without
      keeping the profile, a `sync` and `reboot` otherwise; it stops early
      only on a failure. */
  method Restart(ctx: Ctx, h: seq<Event>, serial: Option<string>, gaia: bool, keep: bool) returns (r: Run<()>)
    ensures gaia && !keep ==> r == ResetPhone.Reset(ctx, h, serial)
    ensures !(gaia && !keep) ==>
              && 0 < |r.trace| <= |RebootCommands| && r.trace == ShellEvents(serial, RebootCommands)[..|r.trace|]
              && (r.result.Ok? ==> r.trace == ShellEvents(serial, RebootCommands))
    ensures 0 < |r.trace| <= |RestartEvents(serial, gaia && !keep)|
    ensures r.trace == RestartEvents(serial, gaia && !keep)[..|r.trace|]
    ensures r.result.Ok? ==> r.trace == RestartEvents(serial, gaia && !keep)
  {
    if gaia && !keep {
      r := ResetPhone.Reset(ctx, h, serial);
      ResetIsRestart(serial, r.trace, r.result.Ok?);
    } else {
      r := ShellAll(ctx, h, serial, RebootCommands);
    }
  }

  /** What the end of `final_step` does, with trace `t` and outcome `res`:
      the wait for the device comes first, and the version check after it
      only reads the device and, on success, writes no log. */
  predicate WaitedAndChecked(t: seq<Event>, res: Result<(), Error>) {
    && |t| > 0 && t[0] == WaitForDevice(WaitTimeout)
    && (forall i | 0 < i < |t| :: CheckVersions.ReadsDevice(t[i]))
    && (res.Ok? ==>
          && |t| > 1 && t[1] == Devices
          && forall i | 0 < i < |t| :: !t[i].WriteFile? && !t[i].WriteJson?)
  }

  /** The end of `final_step`: a device that does not come back is a
      timeout. */
  method WaitAndCheck(ctx: Ctx, h: seq<Event>, serial: Option<string>) returns (r: Run<()>)
    ensures WaitedAndChecked(r.trace, r.result)
    ensures Ask(ctx, h, WaitForDevice(WaitTimeout)).code != 0 ==> r == Run([WaitForDevice(WaitTimeout)], Err(Timeout))
  {
    var w := AdbWaitForDevice(ctx, h, WaitTimeout);
    if w.result.Err? {
      return Run(w.trace, Err(Timeout));
    }
    var v := CheckVersions.RunVersions(ctx, h + w.trace, serial, None, None);
    r := Run(w.trace + v.trace, if v.result.Err? then Err(v.result.error) else Ok(()));
    assert forall i | 0 < i < |r.trace| :: r.trace[i] == v.trace[i - 1];
  }

  /** From index `m` on, `t` is what `final_step` did: the restart events
      up to index `at`, cut short only by a failure, then the wait for the
      device and the version check. */
  predicate RestartedFrom(t: seq<Event>, m: nat, at: nat, serial: Option<string>, reset: bool,
                          res: Result<(), Error>)
  {
    && m < at <= |t| && at - m <= |RestartEvents(serial, reset)|
    && t[m..at] == RestartEvents(serial, reset)[..at - m]
    && (at == |t| ==> res.Err?)
    && (at < |t| ==> t[m..at] == RestartEvents(serial, reset) && WaitedAndChecked(t[at..], res))
  }

  /** `final_step`: the restart, then from index `at` on the wait for the
      device and the version check. */
  method FinalStep(ctx: Ctx, h: seq<Event>, serial: Option<string>, gaia: bool, keep: bool)
    returns (r: Run<()>, at: nat)
    ensures gaia && !keep ==> |r.trace| > 0 && r.trace[0] == Root(serial)
    ensures !(gaia && !keep) ==> |r.trace| > 0 && r.trace[0] == Shell(serial, RebootCommands[0])
    ensures at <= |r.trace|
    ensures at == |r.trace| ==> r.result.Err?
    ensures at < |r.trace| ==> WaitedAndChecked(r.trace[at..], r.result)
    ensures RestartedFrom(r.trace, 0, at, serial, gaia && !keep, r.result)
  {
    var first := Restart(ctx, h, serial, gaia, keep);
    at := |first.trace|;
    if first.result.Err? {
      assert first.trace[0..at] == first.trace;
      return Run(first.trace, Err(first.result.error)), at;
    }
    var w := WaitAndCheck(ctx, h + first.trace, serial);
    r := Run(first.trace + w.trace, w.result);
    assert r.trace[0..at] == first.trace && r.trace[at..] == w.trace;
  }

  /** `RestartedFrom` survives events `p` put in front of the trace. */
  lemma RestartedShift(p: seq<Event>, t: seq<Event>, m: nat, at: nat, u: seq<Event>, um: nat, uat: nat,
                       serial: Option<string>, reset: bool, res: Result<(), Error>)
    requires RestartedFrom(t, m, at, serial, reset, res)
    requires u == p + t && um == |p| + m && uat == |p| + at
    ensures RestartedFrom(u, um, uat, serial, reset, res)
  {
    assert u[um..uat] == t[m..at];
    assert u[uat..] == t[at..];
  }

  /** What `RestartedFrom` says event by event: the restart begins with
      `adb root` for a reset and with `sync` otherwise, nothing is unpacked
      from `m` on, and a success waited for the device at `at`. */
  lemma RestartedFacts(t: seq<Event>, m: nat, at: nat, serial: Option<string>, reset: bool, res: Result<(), Error>)
    requires RestartedFrom(t, m, at, serial, reset, res)
    ensures reset ==> t[m] == Root(serial)
    ensures !reset ==> t[m] == Shell(serial, "sync")
    ensures NoneOf(t[m..], UntarKind) && NoneOf(t[m..], UnzipKind)
    ensures res.Ok? ==> at < |t| && t[at] == WaitForDevice(WaitTimeout)
  {
    var e := RestartEvents(serial, reset);
    assert t[m] == t[m..at][0] == e[0];
    var v := t[m..];
    forall j | 0 <= j < |v|
      ensures !v[j].Untar? && !v[j].Unzip?
    {
      if m + j < at {
        assert v[j] == t[m..at][j] == e[j];
      } else {
        assert v[j] == t[at..][m + j - at];
      }
    }
    if res.Ok? {
      assert t[at] == t[at..][0];
    }
  }

  /** Some Gecko package is unpacked before some Gaia package. */
  predicate UntarBeforeUnzip(t: seq<Event>) {
    exists i, j | 0 <= i < j < |t| :: t[i].Untar? && t[j].Unzip?
  }

  lemma UntarBeforeUnzipAppend(a: seq<Event>, b: seq<Event>)
    ensures UntarBeforeUnzip(a) ==> UntarBeforeUnzip(a + b)
    ensures UntarBeforeUnzip(b) ==> UntarBeforeUnzip(a + b)
  {
    if UntarBeforeUnzip(a) {
      var i, j :| 0 <= i < j < |a| && a[i].Untar? && a[j].Unzip?;
      assert (a + b)[i] == a[i] && (a + b)[j] == a[j];
    }
    if UntarBeforeUnzip(b) {
      var i, j :| 0 <= i < j < |b| && b[i].Untar? && b[j].Unzip?;
      assert (a + b)[|a| + i] == b[i] && (a + b)[|a| + j] == b[j];
    }
  }

  /** Every package unpacked among the first `k` events of `t` is unpacked
      before every Gaia package of `t`. */
  predicate UntarsFirst(t: seq<Event>, k: nat)
    requires k <= |t|
  {
    forall i, j | 0 <= i < k && 0 <= j < |t| && t[i].Untar? && t[j].Unzip? :: i < j
  }

  lemma UntarsFirstSplit(t: seq<Event>, k: nat)
    requires k <= |t| && NoneOf(t[..k], UnzipKind)
    ensures UntarsFirst(t, k)
  {
    forall i, j | 0 <= i < k && 0 <= j < |t| && t[i].Untar? && t[j].Unzip?
      ensures i < j
    {
      assert j >= k;
    }
  }

  /** What `shallow_flash_gaia` does, with trace `t` and outcome `res`
      after history `h`: with the profile kept the backup folder is made
      first, otherwise the trace is the flash of `GaiaFlashed`; on success
      the package was unpacked. */
  predicate GaiaRun(ctx: Ctx, h: seq<Event>, serial: Option<string>, gaia: string, keep: bool,
                    t: seq<Event>, res: Result<(), Error>)
  {
    && |t| > 0
    && (keep ==> t[0] == MakeTemp(ProfilePrefix))
    && (!keep ==> GaiaFlashed(ctx, h, serial, gaia, Ask(ctx, h, MakeTemp(TempPrefix)).text, t, res))
    && (res.Ok? ==> exists j | 0 <= j < |t| :: t[j].Unzip? && t[j].archive == gaia)
  }

  /** `FlashGaia`, seen without its split. */
  method GaiaUnzips(ctx: Ctx, h: seq<Event>, serial: Option<string>, gaia: string, keep: bool) returns (r: Run<()>)
    ensures GaiaRun(ctx, h, serial, gaia, keep, r.trace, r.result)
  {
    var tmp, at;
    r, tmp, at := FlashGaia(ctx, h, serial, gaia, keep);
    if !keep {
      assert h + r.trace[..at] == h && r.trace[at..] == r.trace;
    }
    if r.result.Ok? {
      assert r.trace[at..][2] == r.trace[at + 2];
    }
  }

  /** Both packages: the Gecko flash is the first `k` events and the Gaia
      flash the rest, which happens only after the Gecko flash succeeded;
      no Gaia package is unpacked after a failed Gecko flash. */
  method GeckoThenGaia(ctx: Ctx, h: seq<Event>, serial: Option<string>, gecko: string, gaia: string, keep: bool)
    returns (r: Run<()>, k: nat)
    ensures k <= |r.trace|
    ensures GeckoFlashed(ctx, h, serial, gecko, Ask(ctx, h, MakeTemp(TempPrefix)).text, r.trace[..k],
                         if k < |r.trace| then Ok(()) else r.result)
    ensures k < |r.trace| ==> GaiaRun(ctx, h + r.trace[..k], serial, gaia, keep, r.trace[k..], r.result)
    ensures k == |r.trace| ==> r.result.Err? && NoneOf(r.trace, UnzipKind)
    ensures UntarsFirst(r.trace, k)
    ensures r.result.Ok? ==> UntarBeforeUnzip(r.trace)
    ensures r.result.Ok? ==> Unpacked(r.trace, Some(gaia), Some(gecko))
  {
    var g, tmp := FlashGecko(ctx, h, serial, gecko);
    k := |g.trace|;
    if g.result.Err? {
      r := g;
      assert r.trace[..k] == g.trace;
      UntarsFirstSplit(r.trace, k);
      return;
    }
    var f := GaiaUnzips(ctx, h + g.trace, serial, gaia, keep);
    r := Run(g.trace + f.trace, f.result);
    assert r.trace[..k] == g.trace && r.trace[k..] == f.trace;
    UntarsFirstSplit(r.trace, k);
    if r.result.Ok? {
      UntarThenUnzip(g.trace, f.trace, gaia);
      BothUnpacked(g.trace, f.trace, gaia, gecko);
    }
  }

  /** A trace that unpacks a Gecko package third, followed by one that
      unpacks `gaia`. */
  lemma UntarThenUnzip(g: seq<Event>, f: seq<Event>, gaia: string)
    requires |g| > 2 && g[2].Untar?
    requires exists j | 0 <= j < |f| :: f[j].Unzip? && f[j].archive == gaia
    ensures UntarBeforeUnzip(g + f)
  {
    var j :| 0 <= j < |f| && f[j].Unzip? && f[j].archive == gaia;
    assert (g + f)[|g| + j] == f[j] && (g + f)[2] == g[2];
  }

  /** Each package given was unpacked somewhere in `t`: the Gecko package
      with `tar`, the Gaia package with `unzip`. */
  predicate Unpacked(t: seq<Event>, gaia: Option<string>, gecko: Option<string>) {
    && (Truthy(gecko) ==> exists i | 0 <= i < |t| :: t[i].Untar? && t[i].archive == gecko.value)
    && (Truthy(gaia) ==> exists j | 0 <= j < |t| :: t[j].Unzip? && t[j].archive == gaia.value)
  }

  lemma UnpackedAppend(a: seq<Event>, b: seq<Event>, gaia: Option<string>, gecko: Option<string>)
    requires Unpacked(b, gaia, gecko)
    ensures Unpacked(a + b, gaia, gecko)
  {
    if Truthy(gecko) {
      var i :| 0 <= i < |b| && b[i].Untar? && b[i].archive == gecko.value;
      assert (a + b)[|a| + i] == b[i];
    }
    if Truthy(gaia) {
      var j :| 0 <= j < |b| && b[j].Unzip? && b[j].archive == gaia.value;
      assert (a + b)[|a| + j] == b[j];
    }
  }

  /** A Gecko flash that unpacked `gecko` third, then a Gaia flash that
      unpacked `gaia`, unpacked both. */
  lemma BothUnpacked(g: seq<Event>, f: seq<Event>, gaia: string, gecko: string)
    requires |g| > 2 && g[2].Untar? && g[2].archive == gecko
    requires exists j | 0 <= j < |f| :: f[j].Unzip? && f[j].archive == gaia
    ensures Unpacked(g + f, Some(gaia), Some(gecko))
  {
    var j :| 0 <= j < |f| && f[j].Unzip? && f[j].archive == gaia;
    assert (g + f)[|g| + j] == f[j] && (g + f)[2] == g[2];
  }

  /** The flashing part of `run`: Gecko first when given, as the first `k`
      events, then Gaia when given; a failed Gecko flash stops everything. */
  method FlashPackages(ctx: Ctx, h: seq<Event>, serial: Option<string>, gaia: Option<string>, gecko: Option<string>,
                       keep: bool)
    returns (r: Run<()>, k: nat)
    ensures !Truthy(gecko) && !Truthy(gaia) ==> r == Run([], Ok(()))
    ensures k <= |r.trace| && (!Truthy(gecko) ==> k == 0)
    ensures Truthy(gecko) ==>
              GeckoFlashed(ctx, h, serial, gecko.value, Ask(ctx, h, MakeTemp(TempPrefix)).text, r.trace[..k],
                           if k < |r.trace| then Ok(()) else r.result)
    ensures Truthy(gecko) && Truthy(gaia) && k == |r.trace| ==> r.result.Err?
    ensures Truthy(gaia) && k < |r.trace| ==> GaiaRun(ctx, h + r.trace[..k], serial, gaia.value, keep, r.trace[k..], r.result)
    ensures Truthy(gecko) && k == |r.trace| ==> NoneOf(r.trace, UnzipKind)
    ensures UntarsFirst(r.trace, k)
    ensures r.result.Ok? && Truthy(gecko) && !Truthy(gaia) ==> exists i | 0 <= i < |r.trace| :: r.trace[i].Untar?
    ensures r.result.Ok? && Truthy(gecko) && Truthy(gaia) ==> UntarBeforeUnzip(r.trace)
    ensures r.result.Ok? ==> Unpacked(r.trace, gaia, gecko)
  {
    if Truthy(gecko) && Truthy(gaia) {
      r, k := GeckoThenGaia(ctx, h, serial, gecko.value, gaia.value, keep);
    } else if Truthy(gecko) {
      var tmp;
      r, tmp := FlashGecko(ctx, h, serial, gecko.value);
      k := |r.trace|;
      assert r.trace[..k] == r.trace;
      UntarsFirstSplit(r.trace, k);
      if r.result.Ok? {
        assert r.trace[2].Untar? && r.trace[2].archive == gecko.value;
      }
    } else if Truthy(gaia) {
      r := GaiaUnzips(ctx, h, serial, gaia.value, keep);
      k := 0;
      assert h + r.trace[..0] == h && r.trace[0..] == r.trace;
    } else {
      r := Run([], Ok(()));
      k := 0;
    }
  }

  /** `FlashPackages` for the packages of `s`, seen only through what a
      success unpacked. */
  method FlashUnpacks(ctx: Ctx, h: seq<Event>, serial: Option<string>, s: Settings) returns (r: Run<()>)
    ensures r.result.Ok? ==> Unpacked(r.trace, s.gaia, s.gecko)
    ensures r.result.Ok? && Truthy(s.gaia) && Truthy(s.gecko) ==> UntarBeforeUnzip(r.trace)
  {
    var k;
    r, k := FlashPackages(ctx, h, serial, s.gaia, s.gecko, s.keepProfile);
  }

  /** `t` is a flash of the packages of `s` in its first `m` events,
      then from index `m` on the `final_step` of `RestartedFrom`, which
      follows only a successful flash: a run that stops at `m` failed.
      The restart begins with `adb root` for the factory reset when Gaia
      was flashed without keeping the profile and with `sync` otherwise,
      nothing is unpacked from `m` on, and a success waited for the device
      at `at`. */
  predicate FlashedThenRestarted(t: seq<Event>, m: nat, at: nat, serial: Option<string>, s: Settings,
                                 res: Result<(), Error>)
  {
    && m <= |t|
    && (m == |t| ==> res.Err?)
    && NoneOf(t[m..], UntarKind) && NoneOf(t[m..], UnzipKind)
    && (m < |t| ==>
          && Unpacked(t[..m], s.gaia, s.gecko)
          && RestartedFrom(t, m, at, serial, Resets(s), res)
          && (Resets(s) ==> t[m] == Root(serial))
          && (!Resets(s) ==> t[m] == Shell(serial, "sync")))
    && (res.Ok? ==> m < at < |t| && t[at] == WaitForDevice(WaitTimeout))
  }

  /** `final_step` resets the phone when Gaia was flashed without keeping
      the profile, and reboots it otherwise. */
  predicate Resets(s: Settings) {
    Truthy(s.gaia) && !s.keepProfile
  }

  /** A flash that unpacked every package, followed by `final_step`. */
  lemma FinalAfterFlash(f: seq<Event>, fin: seq<Event>, a: nat, u: seq<Event>, m: nat, at: nat,
                        serial: Option<string>, s: Settings, res: Result<(), Error>)
    requires Unpacked(f, s.gaia, s.gecko)
    requires RestartedFrom(fin, 0, a, serial, Truthy(s.gaia) && !s.keepProfile, res)
    requires u == f + fin && m == |f| && at == |f| + a
    ensures FlashedThenRestarted(u, m, at, serial, s, res)
  {
    assert u[..m] == f;
    RestartedShift(f, fin, 0, a, u, m, at, serial, Truthy(s.gaia) && !s.keepProfile, res);
    RestartedFacts(u, m, at, serial, Truthy(s.gaia) && !s.keepProfile, res);
  }

  /** A failed flash, with no `final_step` after it. */
  lemma FlashFailed(f: seq<Event>, serial: Option<string>, s: Settings, e: Error)
    ensures FlashedThenRestarted(f, |f|, |f|, serial, s, Err(e))
  {
  }

  /** `FlashedThenRestarted` survives events `p` put in front of the
      trace. */
  lemma FlashedThenRestartedShift(p: seq<Event>, t: seq<Event>, m: nat, at: nat, u: seq<Event>, um: nat, uat: nat,
                                  serial: Option<string>, s: Settings, res: Result<(), Error>)
    requires FlashedThenRestarted(t, m, at, serial, s, res)
    requires u == p + t && um == |p| + m && uat == |p| + at
    ensures FlashedThenRestarted(u, um, uat, serial, s, res)
  {
    if m < |t| {
      assert u[..um] == p + t[..m];
      UnpackedAppend(p, t[..m], s.gaia, s.gecko);
      RestartedShift(p, t, m, at, u, um, uat, serial, Resets(s), res);
      RestartedFacts(u, um, uat, serial, Resets(s), res);
    } else {
      assert u[um..] == [];
    }
  }


  /** The flash and `final_step`: the flash is the first `m` events, and
      only once it succeeded does `final_step` begin at index `m`, as
      `FlashedThenRestarted` says. */
  method FlashThenFinal(ctx: Ctx, h: seq<Event>, serial: Option<string>, s: Settings)
    returns (r: Run<()>, m: nat, at: nat)
    ensures FlashedThenRestarted(r.trace, m, at, serial, s, r.result)
    ensures r.result.Ok? && Truthy(s.gaia) && Truthy(s.gecko) ==> UntarBeforeUnzip(r.trace)
  {
    var f := FlashUnpacks(ctx, h, serial, s);
    m := |f.trace|;
    if f.result.Err? {
      FlashFailed(f.trace, serial, s, f.result.error);
      return Run(f.trace, Err(f.result.error)), m, m;
    }
    var fin, a := FinalStep(ctx, h + f.trace, serial, Truthy(s.gaia), s.keepProfile);
    r := Run(f.trace + fin.trace, fin.result);
    at := m + a;
    FinalAfterFlash(f.trace, fin.trace, a, r.trace, m, at, serial, s, r.result);
    if r.result.Ok? && Truthy(s.gaia) && Truthy(s.gecko) {
      UntarBeforeUnzipAppend(f.trace, fin.trace);
    }
  }

  /** The device work of `run` once a package was given: prepare, flash,
      then restart and check; each step only after the previous one
      succeeded. The flash ends at index `m`, after the three events of
      `prepare_step`, and `final_step` follows it as in
      `FlashedThenRestarted`. */
  method PrepareFlashFinal(ctx: Ctx, h: seq<Event>, serial: Option<string>, s: Settings)
    returns (r: Run<()>, m: nat, at: nat)
    ensures |r.trace| > 0 && r.trace[0] == Root(serial)
    ensures !AdbRoot(ctx, h, serial).result.value ==> r == Run([Root(serial)], Err(NoRoot))
    ensures r.result.Ok? && Truthy(s.gaia) && Truthy(s.gecko) ==>
              UntarBeforeUnzip(r.trace)
    ensures |r.trace| > 3 ==> r.trace[..3] == [Root(serial), Remount(serial), Shell(serial, StopCommand)]
    ensures AllAfter(r.trace, UntarKind, Shell(serial, StopCommand))
    ensures AllAfter(r.trace, UnzipKind, Shell(serial, StopCommand))
    ensures FlashedThenRestarted(r.trace, m, at, serial, s, r.result)
    ensures m < |r.trace| ==> 3 <= m
  {
    var p := PrepareStep(ctx, h, serial);
    if p.result.Err? {
      NoneOfAllAfter(p.trace, UntarKind, Shell(serial, StopCommand));
      NoneOfAllAfter(p.trace, UnzipKind, Shell(serial, StopCommand));
      FlashFailed(p.trace, serial, s, p.result.error);
      return Run(p.trace, Err(p.result.error)), |p.trace|, |p.trace|;
    }
    var d, dm, dat := FlashThenFinal(ctx, h + p.trace, serial, s);
    r := Run(p.trace + d.trace, d.result);
    m, at := |p.trace| + dm, |p.trace| + dat;
    PreparedJoin(p.trace, d.trace, serial, s, d.result);
    FlashedThenRestartedShift(p.trace, d.trace, dm, dat, r.trace, m, at, serial, s, r.result);
  }

  /** Every fact about `prepare_step`'s three events followed by the flash
      and `final_step`; `FlashedThenRestartedShift` carries the rest. */
  lemma PreparedJoin(p: seq<Event>, d: seq<Event>, serial: Option<string>, s: Settings, res: Result<(), Error>)
    requires p == [Root(serial), Remount(serial), Shell(serial, StopCommand)]
    requires res.Ok? && Truthy(s.gaia) && Truthy(s.gecko) ==> UntarBeforeUnzip(d)
    ensures var t := p + d;
            && (res.Ok? && Truthy(s.gaia) && Truthy(s.gecko) ==> UntarBeforeUnzip(t))
            && t[..3] == p
            && AllAfter(t, UntarKind, Shell(serial, StopCommand))
            && AllAfter(t, UnzipKind, Shell(serial, StopCommand))
  {
    var stop := Shell(serial, StopCommand);
    NoneOfAllAfter(p, UntarKind, stop);
    NoneOfAllAfter(p, UnzipKind, stop);
    UntarBeforeUnzipAppend(p, d);
    assert stop == p[2];
    AllAfterAppend(p, d, UntarKind, stop);
    AllAfterAppend(p, d, UnzipKind, stop);
    assert (p + d)[..3] == p;
  }

  /** `run`: the target is chosen first; nothing else happens unless a
      package was given. Then the flash ends at index `m`, after the
      device listings and `prepare_step`, and `final_step` follows it as
      in `FlashedThenRestarted`. */
  method RunShallowFlash(ctx: Ctx, h: seq<Event>, s: Settings) returns (r: Run<()>, m: nat, at: nat)
    ensures var sel := SelectTarget(ctx, h, s.serial, false);
            sel.result.Err? ==> r == Run(sel.trace, Err(sel.result.error))
    ensures var sel := SelectTarget(ctx, h, s.serial, false);
            sel.result.Ok? && !Truthy(s.gaia) && !Truthy(s.gecko) ==> r == Run(sel.trace, Ok(()))
    ensures var sel := SelectTarget(ctx, h, s.serial, false);
            sel.result.Ok? && (Truthy(s.gaia) || Truthy(s.gecko)) ==>
              |r.trace| > |sel.trace| && r.trace[|sel.trace|] == Root(sel.result.value)
    ensures var sel := SelectTarget(ctx, h, s.serial, false);
            sel.result.Ok? && !AdbRoot(ctx, h + sel.trace, sel.result.value).result.value &&
            (Truthy(s.gaia) || Truthy(s.gecko)) ==>
              r == Run(sel.trace + [Root(sel.result.value)], Err(NoRoot))
    ensures r.result.Ok? && Truthy(s.gaia) && Truthy(s.gecko) ==>
              UntarBeforeUnzip(r.trace)
    ensures var sel := SelectTarget(ctx, h, s.serial, false);
            sel.result.Ok? ==>
              && AllAfter(r.trace, UntarKind, Shell(sel.result.value, StopCommand))
              && AllAfter(r.trace, UnzipKind, Shell(sel.result.value, StopCommand))
    ensures var sel := SelectTarget(ctx, h, s.serial, false);
            sel.result.Ok? && (Truthy(s.gaia) || Truthy(s.gecko)) ==>
              && FlashedThenRestarted(r.trace, m, at, sel.result.value, s, r.result)
              && (m < |r.trace| ==> |sel.trace| + 3 <= m)
  {
    var sel := SelectTarget(ctx, h, s.serial, false);
    if sel.result.Err? {
      return Run(sel.trace, Err(sel.result.error)), |sel.trace|, |sel.trace|;
    }
    if !Truthy(s.gaia) && !Truthy(s.gecko) {
      DevicesOnly(sel.trace, UntarKind);
      DevicesOnly(sel.trace, UnzipKind);
      NoneOfAllAfter(sel.trace, UntarKind, Shell(sel.result.value, StopCommand));
      NoneOfAllAfter(sel.trace, UnzipKind, Shell(sel.result.value, StopCommand));
      return Run(sel.trace, Ok(())), |sel.trace|, |sel.trace|;
    }
    r, m, at := FlashOnTarget(ctx, h, sel.trace, sel.result.value, s);
  }

  /** The device work of `run` after the device listings `sel` that chose
      the target `serial`. */
  method FlashOnTarget(ctx: Ctx, h: seq<Event>, sel: seq<Event>, serial: Option<string>, s: Settings)
    returns (r: Run<()>, m: nat, at: nat)
    requires forall e | e in sel :: e == Devices
    ensures |r.trace| > |sel| && r.trace[..|sel|] == sel && r.trace[|sel|] == Root(serial)
    ensures !AdbRoot(ctx, h + sel, serial).result.value ==> r == Run(sel + [Root(serial)], Err(NoRoot))
    ensures r.result.Ok? && Truthy(s.gaia) && Truthy(s.gecko) ==> UntarBeforeUnzip(r.trace)
    ensures AllAfter(r.trace, UntarKind, Shell(serial, StopCommand))
    ensures AllAfter(r.trace, UnzipKind, Shell(serial, StopCommand))
    ensures FlashedThenRestarted(r.trace, m, at, serial, s, r.result)
    ensures m < |r.trace| ==> |sel| + 3 <= m
  {
    var d, dm, dat := PrepareFlashFinal(ctx, h + sel, serial, s);
    r := Run(sel + d.trace, d.result);
    m, at := |sel| + dm, |sel| + dat;
    SelectedJoin(sel, d.trace, r.trace, dm, dat, m, at, serial, s, r.result);
    FlashedThenRestartedShift(sel, d.trace, dm, dat, r.trace, m, at, serial, s, r.result);
  }


  /** Every fact about the device listings that chose the target followed
      by the device work of `run`. */
  lemma SelectedJoin(sel: seq<Event>, d: seq<Event>, t: seq<Event>, dm: nat, dat: nat, m: nat, at: nat,
                     serial: Option<string>, s: Settings, res: Result<(), Error>)
    requires t == sel + d && m == |sel| + dm && at == |sel| + dat
    requires forall e | e in sel :: e == Devices
    requires |d| > 0 && d[0] == Root(serial)
    requires res.Ok? && Truthy(s.gaia) && Truthy(s.gecko) ==> UntarBeforeUnzip(d)
    requires AllAfter(d, UntarKind, Shell(serial, StopCommand))
    requires AllAfter(d, UnzipKind, Shell(serial, StopCommand))
    requires dm < |d| ==> 3 <= dm
    ensures |t| > |sel| && t[..|sel|] == sel && t[|sel|] == Root(serial)
    ensures res.Ok? && Truthy(s.gaia) && Truthy(s.gecko) ==> UntarBeforeUnzip(t)
    ensures AllAfter(t, UntarKind, Shell(serial, StopCommand))
    ensures AllAfter(t, UnzipKind, Shell(serial, StopCommand))
    ensures m < |t| ==> |sel| + 3 <= m
  {
    var stop := Shell(serial, StopCommand);
    DevicesOnly(sel, UntarKind);
    DevicesOnly(sel, UnzipKind);
    NoneOfAllAfter(sel, UntarKind, stop);
    NoneOfAllAfter(sel, UnzipKind, stop);
    AllAfterAppend(sel, d, UntarKind, stop);
    AllAfterAppend(sel, d, UnzipKind, stop);
    UntarBeforeUnzipAppend(sel, d);
    assert t[..|sel|] == sel;
  }
}

=== FILE: shell_seq.dfy ===
/** A fixed list of `adb shell` commands issued one after the other, as the
    reset and the shallow flash do: the device's exit codes are ignored, and
    only a failure of `adb` itself stops the list. */
module ShellSeq {
  import opened Wrappers
  import opened Trace
  import opened Adb

  /** The events of issuing `cmds` in order. */
  function ShellEvents(serial: Option<string>, cmds: seq<string>): (t: seq<Event>)
    ensures |t| == |cmds|
    ensures forall e | e in t :: e.Shell? && e.serial == serial
    decreases |cmds|
  {
    if |cmds| == 0 then [] else [Shell(serial, cmds[0])] + ShellEvents(serial, cmds[1..])
  }

  /** `adb` accepts every command of `cmds`, each asked after the ones before it. */
  predicate Delivered(ctx: Ctx, h: seq<Event>, serial: Option<string>, cmds: seq<string>) {
    forall i | 0 <= i < |cmds| :: AcceptedAt(ctx, h, serial, cmds, i)
  }

  /** `adb` accepts the `i`-th command of `cmds`, asked after the ones before it. */
  predicate AcceptedAt(ctx: Ctx, h: seq<Event>, serial: Option<string>, cmds: seq<string>, i: nat)
    requires i < |cmds|
  {
    Ask(ctx, h + ShellEvents(serial, cmds[..i]), Shell(serial, cmds[i])).code == 0
  }

  /** Issues `cmds` in order and stops at the first one `adb` itself fails
      on: each step is `AdbShell` with the device's reply discarded. */
  function ShellAll(ctx: Ctx, h: seq<Event>, serial: Option<string>, cmds: seq<string>): (r: Run<()>)
    ensures |r.trace| <= |cmds| && r.trace == ShellEvents(serial, cmds)[..|r.trace|]
    ensures r.result.Ok? <==> Delivered(ctx, h, serial, cmds)
    ensures r.result.Ok? ==> |r.trace| == |cmds|
    ensures r.result.Err? ==>
              var n := |r.trace|;
              && n > 0
              && Delivered(ctx, h, serial, cmds[..n - 1])
              && Ask(ctx, h + r.trace[..n - 1], r.trace[n - 1]).code != 0
              && r.result.error == Transport(r.trace[n - 1])
    decreases |cmds|
  {
    if |cmds| == 0 then
      Run([], Ok(()))
    else
      var x := Shell(serial, cmds[0]);
      if Ask(ctx, h, x).code != 0 then
        ShellAllRefused(ctx, h, serial, cmds);
        Run([x], Err(Transport(x)))
      else
        var rest := ShellAll(ctx, h + [x], serial, cmds[1..]);
        ShellAllCons(ctx, h, serial, cmds, rest);
        Run([x] + rest.trace, rest.result)
  }

  /** The contract of `ShellAll`, gathered for the two steps below. */
  ghost predicate ShellAllSpec(ctx: Ctx, h: seq<Event>, serial: Option<string>, cmds: seq<string>, r: Run<()>)
  {
    && |r.trace| <= |cmds| && r.trace == ShellEvents(serial, cmds)[..|r.trace|]
    && (r.result.Ok? <==> Delivered(ctx, h, serial, cmds))
    && (r.result.Ok? ==> |r.trace| == |cmds|)
    && (r.result.Err? ==>
          var n := |r.trace|;
          && n > 0
          && Delivered(ctx, h, serial, cmds[..n - 1])
          && Ask(ctx, h + r.trace[..n - 1], r.trace[n - 1]).code != 0
          && r.result.error == Transport(r.trace[n - 1]))
  }

  /** `adb` refusing the first command stops the sequence there. */
  lemma ShellAllRefused(ctx: Ctx, h: seq<Event>, serial: Option<string>, cmds: seq<string>)
    requires |cmds| > 0 && Ask(ctx, h, Shell(serial, cmds[0])).code != 0
    ensures ShellAllSpec(ctx, h, serial, cmds, Run([Shell(serial, cmds[0])], Err(Transport(Shell(serial, cmds[0])))))
  {
    var x := Shell(serial, cmds[0]);
    DeliveredCons(ctx, h, serial, cmds);
    assert ShellEvents(serial, cmds) == [x] + ShellEvents(serial, cmds[1..]);
    assert cmds[..0] == [] && h + [x][..0] == h;
  }

  /** Issuing the first command and then the rest keeps the contract. */
  lemma ShellAllCons(ctx: Ctx, h: seq<Event>, serial: Option<string>, cmds: seq<string>, rest: Run<()>)
    requires |cmds| > 0 && Ask(ctx, h, Shell(serial, cmds[0])).code == 0
    requires ShellAllSpec(ctx, h + [Shell(serial, cmds[0])], serial, cmds[1..], rest)
    ensures ShellAllSpec(ctx, h, serial, cmds, Run([Shell(serial, cmds[0])] + rest.trace, rest.result))
  {
    var x := Shell(serial, cmds[0]);
    DeliveredCons(ctx, h, serial, cmds);
    assert ShellEvents(serial, cmds) == [x] + ShellEvents(serial, cmds[1..]);
    var n := |rest.trace|;
    assert ([x] + ShellEvents(serial, cmds[1..]))[..n + 1] == [x] + ShellEvents(serial, cmds[1..])[..n];
    if rest.result.Err? {
      ShellAllErrJoin(ctx, h, serial, cmds, rest.trace);
    }
  }

  /** A failure after the first command was delivered is still a failure
      on the first command `adb` refused. */
  lemma ShellAllErrJoin(ctx: Ctx, h: seq<Event>, serial: Option<string>, cmds: seq<string>, rest: seq<Event>)
    requires 0 < |cmds| && 0 < |rest| < |cmds|
    requires Ask(ctx, h, Shell(serial, cmds[0])).code == 0
    requires Delivered(ctx, h + [Shell(serial, cmds[0])], serial, cmds[1..][..|rest| - 1])
    requires Ask(ctx, h + [Shell(serial, cmds[0])] + rest[..|rest| - 1], rest[|rest| - 1]).code != 0
    ensures var t := [Shell(serial, cmds[0])] + rest;
            && Delivered(ctx, h, serial, cmds[..|t| - 1])
            && Ask(ctx, h + t[..|t| - 1], t[|t| - 1]).code != 0
  {
    var x, n := Shell(serial, cmds[0]), |rest|;
    ShellAllErrStep(ctx, h, serial, cmds, n);
    assert ([x] + rest)[..n] == [x] + rest[..n - 1];
    EventsAssoc(h, [x], rest[..n - 1]);
  }

  /** The commands before the one `ShellAll` fails on were all delivered. */
  lemma ShellAllErrStep(ctx: Ctx, h: seq<Event>, serial: Option<string>, cmds: seq<string>, n: nat)
    requires 0 < n < |cmds|
    requires Ask(ctx, h, Shell(serial, cmds[0])).code == 0
    requires Delivered(ctx, h + [Shell(serial, cmds[0])], serial, cmds[1..][..n - 1])
    ensures Delivered(ctx, h, serial, cmds[..n])
  {
    assert cmds[..n][0] == cmds[0];
    assert cmds[..n][1..] == cmds[1..][..n - 1];
    DeliveredCons(ctx, h, serial, cmds[..n]);
  }

  lemma ShellEventsCons(serial: Option<string>, c: string, cs: seq<string>)
    ensures ShellEvents(serial, [c] + cs) == [Shell(serial, c)] + ShellEvents(serial, cs)
  {
    assert ([c] + cs)[1..] == cs;
  }

  /** `Delivered` of a non-empty list: its first command, then the rest
      after it. */
  lemma DeliveredCons(ctx: Ctx, h: seq<Event>, serial: Option<string>, cmds: seq<string>)
    requires |cmds| > 0
    ensures Delivered(ctx, h, serial, cmds) <==>
              Ask(ctx, h, Shell(serial, cmds[0])).code == 0 &&
              Delivered(ctx, h + [Shell(serial, cmds[0])], serial, cmds[1..])
  {
    var h' := h + [Shell(serial, cmds[0])];
    assert cmds[..0] == [];
    assert AcceptedAt(ctx, h, serial, cmds, 0) <==> Ask(ctx, h, Shell(serial, cmds[0])).code == 0 by {
      assert h + ShellEvents(serial, cmds[..0]) == h;
    }
    forall i | 0 <= i < |cmds| - 1
      ensures AcceptedAt(ctx, h, serial, cmds, i + 1) == AcceptedAt(ctx, h', serial, cmds[1..], i)
    {
      AcceptedShift(ctx, h, serial, cmds, i);
    }
    if Delivered(ctx, h, serial, cmds) {
      forall i | 0 <= i < |cmds| - 1
        ensures AcceptedAt(ctx, h', serial, cmds[1..], i)
      {
        assert AcceptedAt(ctx, h, serial, cmds, i + 1);
      }
    }
    if AcceptedAt(ctx, h, serial, cmds, 0) && Delivered(ctx, h', serial, cmds[1..]) {
      forall i | 0 <= i < |cmds|
        ensures AcceptedAt(ctx, h, serial, cmds, i)
      {
        if i > 0 {
          assert AcceptedAt(ctx, h', serial, cmds[1..], i - 1);
        }
      }
    }
  }

  /** The `i + 1`-th command of a list is asked after what the `i`-th
      command of its tail is asked after, once the first command is issued. */
  lemma AcceptedShift(ctx: Ctx, h: seq<Event>, serial: Option<string>, cmds: seq<string>, i: nat)
    requires i + 1 < |cmds|
    ensures AcceptedAt(ctx, h, serial, cmds, i + 1) ==
            AcceptedAt(ctx, h + [Shell(serial, cmds[0])], serial, cmds[1..], i)
  {
    var x := Shell(serial, cmds[0]);
    assert cmds[..i + 1] == [cmds[0]] + cmds[1..][..i];
    ShellEventsCons(serial, cmds[0], cmds[1..][..i]);
    EventsAssoc(h, [x], ShellEvents(serial, cmds[1..][..i]));
    assert cmds[i + 1] == cmds[1..][i];
  }

  /** When `adb` accepts every command, all of them are issued, in order,
      whatever the device answers. */
  lemma ShellAllDelivered(ctx: Ctx, h: seq<Event>, serial: Option<string>, cmds: seq<string>)
    requires Delivered(ctx, h, serial, cmds)
    ensures var r := ShellAll(ctx, h, serial, cmds);
            r.result.Ok? && r.trace == ShellEvents(serial, cmds)
  {
    var r := ShellAll(ctx, h, serial, cmds);
    var t := ShellEvents(serial, cmds);
    assert r.result.Ok?;
    assert t[..|t|] == t;
  }

  /** The commands of the events of issuing `cmds` are `cmds`. */
  lemma {:induction false} ShellEventsCommands(serial: Option<string>, cmds: seq<string>)
    ensures ShellCommands(ShellEvents(serial, cmds)) == cmds
    decreases |cmds|
  {
    if |cmds| > 0 {
      ShellEventsCommands(serial, cmds[1..]);
      ShellCommandsAppend([Shell(serial, cmds[0])], ShellEvents(serial, cmds[1..]));
      assert [cmds[0]] + cmds[1..] == cmds;
    }
  }

  /** `ShellAll` looks only at whether `adb` itself succeeded: two
      environments that agree on the return codes of the shell calls give
      the same run, whatever the devices print or exit with. */
  lemma {:induction false} ShellAllCodesOnly(c1: Ctx, c2: Ctx, h: seq<Event>, serial: Option<string>, cmds: seq<string>)
    requires forall t, c :: Ask(c1, t, Shell(serial, c)).code == Ask(c2, t, Shell(serial, c)).code
    ensures ShellAll(c1, h, serial, cmds) == ShellAll(c2, h, serial, cmds)
    decreases |cmds|
  {
    if |cmds| > 0 {
      ShellAllCodesOnly(c1, c2, h + [Shell(serial, cmds[0])], serial, cmds[1..]);
    }
  }

  /** Device listings carry no shell command. */
  lemma {:induction false} NoShellCommands(t: seq<Event>)
    requires forall e | e in t :: e == Devices
    ensures ShellCommands(t) == []
    decreases |t|
  {
    if |t| > 0 {
      assert t[0] in t;
      assert forall e | e in t[1..] :: e in t;
      NoShellCommands(t[1..]);
    }
  }
}

=== FILE: text.dfy ===
/** String operations with the meaning Python 2 gives them on byte strings:
    character classes of the `re` module, `int()`, `str()`, `split`, `join`,
    `replace`, `lower`, line iteration over a file, and `os.path.join`. */
module Text {
  import opened Wrappers

  /** `\s` of Python 2's `re` on byte strings. */
  predicate IsSpace(c: char) {
    c == ' ' || c == '\t' || c == '\n' || c == '\r' || c == '\U{000B}' || c == '\U{000C}'
  }

  /** `\d` of Python 2's `re` on byte strings. */
  predicate IsDigit(c: char) {
    '0' <= c <= '9'
  }

  predicate AllDigits(s: string) {
    forall i | 0 <= i < |s| :: IsDigit(s[i])
  }

  predicate AllSpace(s: string) {
    forall i | 0 <= i < |s| :: IsSpace(s[i])
  }

  predicate NoSpace(s: string) {
    forall i | 0 <= i < |s| :: !IsSpace(s[i])
  }

  predicate StartsWith(s: string, prefix: string) {
    |prefix| <= |s| && s[..|prefix|] == prefix
  }

  predicate EndsWith(s: string, suffix: string) {
    |suffix| <= |s| && s[|s| - |suffix|..] == suffix
  }

  /** Python's `sub in s`. */
  predicate Contains(s: string, sub: string)
    decreases |s|
  {
    StartsWith(s, sub) || (|s| > 0 && Contains(s[1..], sub))
  }

  lemma {:induction false} ContainsMiddle(pre: string, sub: string, post: string)
    ensures Contains(pre + sub + post, sub)
    decreases |pre|
  {
    var s := pre + sub + post;
    if |pre| == 0 {
      assert s == sub + post;
      assert s[..|sub|] == sub;
    } else {
      assert s[1..] == pre[1..] + sub + post;
      ContainsMiddle(pre[1..], sub, post);
    }
  }

  // ---------------------------------------------------------------------------
  // Numbers

  function DigitValue(c: char): (d: nat)
    requires IsDigit(c)
    ensures d < 10
  {
    c as int - '0' as int
  }

  function DigitChar(d: nat): (c: char)
    requires d < 10
    ensures IsDigit(c) && DigitValue(c) == d
  {
    ('0' as int + d) as char
  }

  /** `int(s)` for a non-empty run of decimal digits (leading zeros allowed). */
  function ParseNat(s: string): nat
    requires AllDigits(s)
    decreases |s|
  {
    if |s| == 0 then 0 else ParseNat(s[..|s| - 1]) * 10 + DigitValue(s[|s| - 1])
  }

  /** `str(n)` for a natural number: decimal, without leading zeros. */
  function NatToString(n: nat): (r: string)
    ensures |r| > 0 && AllDigits(r)
    ensures r[0] == '0' ==> n == 0
    decreases n
  {
    if n < 10 then [DigitChar(n)] else NatToString(n / 10) + [DigitChar(n % 10)]
  }

  /** `int(str(n)) == n`. */
  lemma {:induction false} ParseNatToString(n: nat)
    ensures ParseNat(NatToString(n)) == n
    decreases n
  {
    if n >= 10 {
      var s := NatToString(n);
      assert s[..|s| - 1] == NatToString(n / 10);
      ParseNatToString(n / 10);
    }
  }

  lemma NatToStringInjective(m: nat, n: nat)
    requires NatToString(m) == NatToString(n)
    ensures m == n
  {
    ParseNatToString(m);
    ParseNatToString(n);
  }

  /** Python 2 `int(s)`: optional surrounding whitespace, an optional sign, then
      one or more decimal digits; `None` where Python raises `ValueError`.
      Python 2 also accepts blanks between the sign and the digits (`"- 5"`);
      this model reads that form as a failure, which no caller here can meet,
      since the exit code it parses is a run of digits or stripped text. */
  function PyInt(s: string): Option<int> {
    var t := StripTrailingSpace(DropLeadingSpace(s));
    if |t| > 1 && (t[0] == '-' || t[0] == '+') && AllDigits(t[1..]) then
      var v: int := ParseNat(t[1..]);
      Some(if t[0] == '-' then -v else v)
    else if |t| > 0 && AllDigits(t) then
      Some(ParseNat(t))
    else
      None
  }

  /** A plain run of digits reads as its decimal value. */
  lemma PyIntDigits(s: string)
    requires |s| > 0 && AllDigits(s)
    ensures PyInt(s) == Some(ParseNat(s))
  {
    assert !IsSpace(s[0]) && !IsSpace(s[|s| - 1]);
    assert DropLeadingSpace(s) == s;
    assert StripTrailingSpace(s) == s;
    assert s[0] != '-' && s[0] != '+';
  }

  // ---------------------------------------------------------------------------
  // Trimming

  function DropLeadingSpace(s: string): (r: string)
    ensures |r| <= |s| && r == s[|s| - |r|..]
    ensures AllSpace(s[..|s| - |r|])
    ensures |r| == 0 || !IsSpace(r[0])
    decreases |s|
  {
    if |s| > 0 && IsSpace(s[0]) then
      var r := DropLeadingSpace(s[1..]);
      var n := |s| - |r|;
      assert s[1..][n - 1..] == s[n..];
      assert forall i | 1 <= i < n :: s[..n][i] == s[1..][..n - 1][i - 1];
      r
    else s
  }

  /** `re.sub(r'\s+$', '', s)`. */
  function StripTrailingSpace(s: string): (r: string)
    ensures |r| <= |s| && r == s[..|r|]
    ensures AllSpace(s[|r|..])
    ensures |r| == 0 || !IsSpace(r[|r| - 1])
    decreases |s|
  {
    if |s| > 0 && IsSpace(s[|s| - 1]) then
      var r := StripTrailingSpace(s[..|s| - 1]);
      assert s[|r|..] == s[..|s| - 1][|r|..] + [s[|s| - 1]];
      r
    else s
  }

  /** Removing a whitespace-only tail does not change the stripped text. */
  lemma {:induction false} StripTrailingSpaceAppend(s: string, w: string)
    requires AllSpace(w)
    ensures StripTrailingSpace(s + w) == StripTrailingSpace(s)
    decreases |w|
  {
    if |w| > 0 {
      assert (s + w)[..|s + w| - 1] == s + w[..|w| - 1];
      StripTrailingSpaceAppend(s, w[..|w| - 1]);
    } else {
      assert s + w == s;
    }
  }

  /** `re.sub(c + '+', '', s)` for a single character `c`: every `c` removed. */
  function RemoveChar(s: string, c: char): (r: string)
    ensures c !in r
    ensures |r| <= |s|
  {
    if |s| == 0 then "" else (if s[0] == c then "" else [s[0]]) + RemoveChar(s[1..], c)
  }

  /** Removing a character from text that ends with it drops that end. */
  lemma {:induction false} RemoveCharSnoc(s: string, c: char)
    ensures RemoveChar(s + [c], c) == RemoveChar(s, c)
    decreases |s|
  {
    if |s| == 0 {
      assert RemoveChar([c], c) == "" + RemoveChar([c][1..], c);
    } else {
      assert (s + [c])[1..] == s[1..] + [c];
      RemoveCharSnoc(s[1..], c);
    }
  }

  // ---------------------------------------------------------------------------
  // Splitting and joining

  function FirstIndex(s: string, c: char): (k: nat)
    ensures k <= |s|
    ensures forall i | 0 <= i < k :: s[i] != c
    ensures k < |s| ==> s[k] == c
    decreases |s|
  {
    if |s| == 0 then 0 else if s[0] == c then 0 else 1 + FirstIndex(s[1..], c)
  }

  /** Python's `s.split(sep)` for a one-character separator. */
  function Split(s: string, sep: char): (r: seq<string>)
    ensures |r| > 0
    ensures forall i | 0 <= i < |r| :: sep !in r[i]
    decreases |s|
  {
    if |s| == 0 then [""]
    else
      var rest := Split(s[1..], sep);
      if s[0] == sep then [""] + rest else [[s[0]] + rest[0]] + rest[1..]
  }

  /** Python's `sep.join(parts)` for a one-character separator. */
  function Join(parts: seq<string>, sep: char): string
    decreases |parts|
  {
    if |parts| == 0 then ""
    else if |parts| == 1 then parts[0]
    else parts[0] + [sep] + Join(parts[1..], sep)
  }

  lemma {:induction false} JoinSplit(s: string, sep: char)
    ensures Join(Split(s, sep), sep) == s
    decreases |s|
  {
    if |s| > 0 {
      var rest := Split(s[1..], sep);
      JoinSplit(s[1..], sep);
      if s[0] == sep {
        assert Split(s, sep) == [""] + rest;
      } else {
        var r := Split(s, sep);
        assert r == [[s[0]] + rest[0]] + rest[1..];
        if |rest| == 1 {
          assert Join(r, sep) == [s[0]] + rest[0];
        } else {
          assert r[1..] == rest[1..];
          assert Join(r, sep) == [s[0]] + (rest[0] + [sep] + Join(rest[1..], sep));
        }
      }
    }
  }

  lemma {:induction false} SplitPrefix(w: string, t: string, sep: char)
    requires sep !in w
    ensures Split(w + t, sep) == [w + Split(t, sep)[0]] + Split(t, sep)[1..]
    decreases |w|
  {
    if |w| > 0 {
      assert (w + t)[1..] == w[1..] + t;
      SplitPrefix(w[1..], t, sep);
      assert [w[0]] + (w[1..] + Split(t, sep)[0]) == w + Split(t, sep)[0];
    } else {
      var r := Split(t, sep);
      assert w + t == t;
      assert w + r[0] == r[0];
      assert [r[0]] + r[1..] == r;
    }
  }

  /** Splitting undoes joining when no part contains the separator. */
  lemma {:induction false} SplitJoin(parts: seq<string>, sep: char)
    requires |parts| > 0
    requires forall i | 0 <= i < |parts| :: sep !in parts[i]
    ensures Split(Join(parts, sep), sep) == parts
    decreases |parts|
  {
    if |parts| == 1 {
      SplitPrefix(parts[0], "", sep);
      assert parts[0] + "" == parts[0];
    } else {
      var j := Join(parts[1..], sep);
      SplitJoin(parts[1..], sep);
      assert parts[0] + [sep] + j == parts[0] + ([sep] + j);
      SplitPrefix(parts[0], [sep] + j, sep);
      assert ([sep] + j)[1..] == j;
      assert Split([sep] + j, sep) == [""] + parts[1..];
      assert parts[0] + "" == parts[0];
    }
  }

  /** Python's `s.split()` with no argument: the maximal runs of non-whitespace. */
  function SplitWs(s: string): (r: seq<string>)
    ensures forall i | 0 <= i < |r| :: |r[i]| > 0 && NoSpace(r[i])
    ensures |s| > 0 && !IsSpace(s[0]) ==> |r| > 0 && r[0][0] == s[0]
    decreases |s|
  {
    if |s| == 0 then []
    else if IsSpace(s[0]) then SplitWs(s[1..])
    else
      var rest := SplitWs(s[1..]);
      if |s| > 1 && !IsSpace(s[1]) then [[s[0]] + rest[0]] + rest[1..] else [[s[0]]] + rest
  }

  lemma {:induction false} SplitWsToken(w: string, t: string)
    requires |w| > 0 && NoSpace(w)
    requires |t| == 0 || IsSpace(t[0])
    ensures SplitWs(w + t) == [w] + SplitWs(t)
    decreases |w|
  {
    if |w| == 1 {
      var s := w + t;
      assert s[0] == w[0] && s[1..] == t;
      assert |s| > 1 ==> s[1] == t[0];
      assert w == [w[0]];
    } else {
      assert (w + t)[1..] == w[1..] + t;
      SplitWsToken(w[1..], t);
      assert [w[0]] + w[1..] == w;
    }
  }

  /** `s.split()` recovers the names of a newline-separated listing. */
  lemma {:induction false} SplitWsJoin(names: seq<string>)
    requires forall i | 0 <= i < |names| :: |names[i]| > 0 && NoSpace(names[i])
    ensures SplitWs(Join(names, '\n')) == names
    decreases |names|
  {
    if |names| == 1 {
      SplitWsToken(names[0], "");
      assert names[0] + "" == names[0];
    } else if |names| > 1 {
      var j := Join(names[1..], '\n');
      SplitWsJoin(names[1..]);
      assert names[0] + ['\n'] + j == names[0] + (['\n'] + j);
      SplitWsToken(names[0], ['\n'] + j);
      assert (['\n'] + j)[1..] == j;
    }
  }

  /** Concatenation of a list of strings (`''.join(parts)`). */
  function Concat(parts: seq<string>): string
    decreases |parts|
  {
    if |parts| == 0 then "" else parts[0] + Concat(parts[1..])
  }

  lemma {:induction false} ConcatAppend(a: seq<string>, b: seq<string>)
    ensures Concat(a + b) == Concat(a) + Concat(b)
    decreases |a|
  {
    if |a| == 0 {
      assert a + b == b;
    } else {
      assert (a + b)[1..] == a[1..] + b;
      ConcatAppend(a[1..], b);
    }
  }

  /** The lines Python yields when iterating over a file with contents `s`:
      every line keeps its `\n`, only the last may lack one. */
  function Lines(s: string): (r: seq<string>)
    decreases |s|
  {
    if |s| == 0 then []
    else
      var k := FirstIndex(s, '\n');
      if k == |s| then [s] else [s[..k + 1]] + Lines(s[k + 1..])
  }

  /** One line as Python's file iteration yields it. */
  predicate IsLine(l: string) {
    |l| > 0 && '\n' !in l[..|l| - 1]
  }

  predicate WellFormedLines(ls: seq<string>) {
    && (forall i | 0 <= i < |ls| :: IsLine(ls[i]))
    && (forall i | 0 <= i < |ls| - 1 :: ls[i][|ls[i]| - 1] == '\n')
  }

  /** Every line but the last ends with its `\n`, and none has another. */
  lemma {:induction false} LinesWellFormed(s: string)
    ensures WellFormedLines(Lines(s))
    decreases |s|
  {
    if |s| > 0 {
      var k := FirstIndex(s, '\n');
      if k < |s| {
        LinesWellFormed(s[k + 1..]);
        var head := s[..k + 1];
        assert head[..k] == s[..k];
        assert IsLine(head) && head[|head| - 1] == '\n';
        WellFormedCons(head, Lines(s[k + 1..]));
      } else {
        assert s[..|s| - 1] == s[..k - 1];
      }
    }
  }

  lemma WellFormedCons(l: string, ls: seq<string>)
    requires IsLine(l) && l[|l| - 1] == '\n' && WellFormedLines(ls)
    ensures WellFormedLines([l] + ls)
  {
    assert forall i | 1 <= i < |[l] + ls| :: ([l] + ls)[i] == ls[i - 1];
  }

  /** Joining the lines gives back the text. */
  lemma {:induction false} LinesConcat(s: string)
    ensures Concat(Lines(s)) == s
    decreases |s|
  {
    if |s| > 0 {
      var k := FirstIndex(s, '\n');
      if k < |s| {
        LinesConcat(s[k + 1..]);
        var rest := Lines(s[k + 1..]);
        assert Lines(s) == [s[..k + 1]] + rest;
        assert s == s[..k + 1] + s[k + 1..];
      }
    }
  }

  lemma LinesHead(l: string, c: string)
    requires IsLine(l) && l[|l| - 1] == '\n'
    ensures Lines(l + c) == [l] + Lines(c)
  {
    var s := l + c;
    var k := FirstIndex(s, '\n');
    assert s[|l| - 1] == '\n';
    assert k == |l| - 1;
    assert s[..|l|] == l;
    assert s[|l|..] == c;
  }

  lemma LinesSingle(l: string)
    requires IsLine(l)
    ensures Lines(l) == [l]
  {
    var k := FirstIndex(l, '\n');
    if k == |l| - 1 {
      assert l[..k + 1] == l;
      assert l[k + 1..] == "";
    }
  }

  lemma WellFormedTail(ls: seq<string>)
    requires |ls| > 0 && WellFormedLines(ls)
    ensures WellFormedLines(ls[1..])
  {
    forall i | 0 <= i < |ls[1..]| - 1
      ensures ls[1..][i][|ls[1..][i]| - 1] == '\n'
    {
      assert ls[1..][i] == ls[i + 1];
    }
  }

  /** Splitting a well-formed list of lines back out of its concatenation
      gives the same list. */
  lemma {:induction false} ConcatLines(ls: seq<string>)
    requires WellFormedLines(ls)
    ensures Lines(Concat(ls)) == ls
    decreases |ls|
  {
    if |ls| > 0 {
      WellFormedTail(ls);
      ConcatLines(ls[1..]);
      if ls[0][|ls[0]| - 1] == '\n' {
        LinesHead(ls[0], Concat(ls[1..]));
      } else {
        assert |ls| == 1;
        assert Concat(ls) == ls[0] + "" == ls[0];
        LinesSingle(ls[0]);
      }
    }
  }

  /** Python's `s.replace(pat, repl)` for a non-empty pattern: scans left to right
      and replaces each non-overlapping occurrence. */
  function Replace(s: string, pat: string, repl: string): string
    requires |pat| > 0
    decreases |s|
  {
    if |s| == 0 then ""
    else if StartsWith(s, pat) then repl + Replace(s[|pat|..], pat, repl)
    else [s[0]] + Replace(s[1..], pat, repl)
  }

  /** Text that does not contain the pattern is left as it is. */
  lemma {:induction false} ReplaceAbsent(s: string, pat: string, repl: string)
    requires |pat| > 0 && !Contains(s, pat)
    ensures Replace(s, pat, repl) == s
    decreases |s|
  {
    if |s| > 0 {
      ReplaceAbsent(s[1..], pat, repl);
    }
  }

  lemma StartsWithAcrossLine(a: string, b: string, pat: string)
    requires |pat| > 0 && '\n' !in pat
    requires |a| > 0 && a[|a| - 1] == '\n'
    ensures StartsWith(a + b, pat) == StartsWith(a, pat)
  {
    var s := a + b;
    if |pat| <= |a| {
      assert s[..|pat|] == a[..|pat|];
    } else {
      assert pat[|a| - 1] != '\n';
      assert |pat| > |s| || s[..|pat|][|a| - 1] == '\n';
    }
  }

  /** When the first part ends a line and the pattern has no newline, no
      occurrence straddles the boundary, so `replace` works part by part. */
  lemma {:induction false} ReplaceAppend(a: string, b: string, pat: string, repl: string)
    requires |pat| > 0 && '\n' !in pat
    requires |a| == 0 || a[|a| - 1] == '\n'
    ensures Replace(a + b, pat, repl) == Replace(a, pat, repl) + Replace(b, pat, repl)
    decreases |a|
  {
    if |a| == 0 {
      assert a + b == b;
    } else {
      var n := if StartsWith(a, pat) then |pat| else 1;
      var a' := a[n..];
      assert |a'| == 0 || a'[|a'| - 1] == a[|a| - 1];
      ReplaceAppend(a', b, pat, repl);
      ReplaceAppendStep(a, b, pat, repl, n);
    }
  }

  /** The inductive step of `ReplaceAppend`, given the claim for what
      follows the first step. */
  lemma ReplaceAppendStep(a: string, b: string, pat: string, repl: string, n: nat)
    requires |pat| > 0 && '\n' !in pat
    requires |a| > 0 && a[|a| - 1] == '\n'
    requires n == if StartsWith(a, pat) then |pat| else 1
    requires Replace(a[n..] + b, pat, repl) == Replace(a[n..], pat, repl) + Replace(b, pat, repl)
    ensures Replace(a + b, pat, repl) == Replace(a, pat, repl) + Replace(b, pat, repl)
  {
    StartsWithAcrossLine(a, b, pat);
    assert (a + b)[n..] == a[n..] + b;
    if StartsWith(a, pat) {
      ReplaceFront(a + b, a[n..] + b, pat, repl, repl);
      ReplaceFront(a, a[n..], pat, repl, repl);
    } else {
      assert (a + b)[0] == a[0];
      ReplaceFront(a + b, a[n..] + b, pat, repl, [a[0]]);
      ReplaceFront(a, a[n..], pat, repl, [a[0]]);
    }
    Assoc(if StartsWith(a, pat) then repl else [a[0]], Replace(a[n..], pat, repl), Replace(b, pat, repl));
  }

  /** `replace` emits `front` for the first step and continues with `rest`. */
  lemma ReplaceFront(s: string, rest: string, pat: string, repl: string, front: string)
    requires |pat| > 0 && |s| > 0
    requires StartsWith(s, pat) ==> rest == s[|pat|..] && front == repl
    requires !StartsWith(s, pat) ==> rest == s[1..] && front == [s[0]]
    ensures Replace(s, pat, repl) == front + Replace(rest, pat, repl)
  {
  }

  lemma Assoc(x: string, y: string, z: string)
    ensures x + (y + z) == (x + y) + z
  {
  }

  // ---------------------------------------------------------------------------
  // Case and paths

  function LowerChar(c: char): char {
    if 'A' <= c <= 'Z' then (c as int + 32) as char else c
  }

  /** Python 2 `s.lower()` on a byte string: only ASCII letters change. */
  function Lower(s: string): (r: string)
    ensures |r| == |s|
    ensures forall i | 0 <= i < |s| :: r[i] == LowerChar(s[i])
  {
    seq(|s|, i requires 0 <= i < |s| => LowerChar(s[i]))
  }

  /** `os.path.join(a, b)` on POSIX: an absolute `b` discards `a`. */
  function PathJoin(a: string, b: string): string {
    if StartsWith(b, "/") then b
    else if |a| == 0 || EndsWith(a, "/") then a + b
    else a + "/" + b
  }

  /** `os.path.basename` on POSIX: what follows the last `/`. */
  function Basename(path: string): (r: string)
    ensures '/' !in r && EndsWith(path, r)
    ensures |r| < |path| ==> path[|path| - |r| - 1] == '/'
    decreases |path|
  {
    if |path| == 0 || path[|path| - 1] == '/' then ""
    else
      var r := Basename(path[..|path| - 1]) + [path[|path| - 1]];
      assert path[|path| - |r|..] == path[..|path| - 1][|path| - |r|..] + [path[|path| - 1]];
      r
  }

  /** The base name of a path made of folders and a file name is that name. */
  lemma {:induction false} BasenameOf(dir: string, name: string)
    requires '/' !in name
    requires |dir| == 0 || dir[|dir| - 1] == '/'
    ensures Basename(dir + name) == name
    decreases |name|
  {
    if |name| == 0 {
      assert dir + name == dir;
    } else {
      var init, c := name[..|name| - 1], name[|name| - 1];
      assert name == init + [c] && c in name;
      assert forall x | x in init :: x in name;
      BasenameOf(dir, init);
      assert dir + name == (dir + init) + [c];
      BasenameSnoc(dir + init, c);
    }
  }

  lemma BasenameSnoc(s: string, c: char)
    requires c != '/'
    ensures Basename(s + [c]) == Basename(s) + [c]
  {
    assert (s + [c])[..|s|] == s;
  }
}

=== FILE: trace.dfy ===
/** The environment of the tools: every call into `adb`, the local file
    system, a temporary directory or a prompt is an `Event`, answered by an
    oracle that may depend on everything issued before it. Workflows are
    functions that return the events they issued, in order, together with a
    value or the exception they raised. */
module Trace {
  import opened Wrappers

  datatype Event =
    // calls into the `adb` executable
    | Devices
    | Shell(serial: Option<string>, command: string)
    | Pull(serial: Option<string>, source: string, dest: string)
    | Push(serial: Option<string>, source: string, dest: string)
    | Root(serial: Option<string>)
    | Remount(serial: Option<string>)
    | WaitForDevice(timeout: nat)
    // queries of the local machine
    | MakeTemp(prefix: string)
    | IsDir(path: string)
    | IsFile(path: string)
    | IsExecutable(path: string)
    | ListDir(path: string)
    | ReadFile(path: string)
    | ListArchive(path: string)
    | ExtractMember(archive: string, member: string, dest: string)
    // changes to the local machine
    | MakeDirs(path: string)
    | RemoveTree(path: string)
    | CopyTree(source: string, dest: string)
    | CopyFile(source: string, dest: string)
    | ChangeMode(path: string, mode: nat)
    | WriteFile(path: string, content: string)
    | WriteJson(path: string)
    | Unzip(archive: string, dest: string)
    | Untar(archive: string, dest: string)
    | RunProcess(command: string)
    // the Taskcluster download of an artifact into a folder
    | Download(namespace: string, artifact: string, dest: string)

  /** What the environment answered: a local return code (0 is success,
      and for yes/no queries 0 is "yes"), the captured text, and the
      entries of a directory or archive listing. */
  datatype Answer = Answer(code: int, text: string, entries: seq<string>)

  /** The environment, as a function of the history and the next event. */
  type Oracle = (seq<Event>, Event) -> Answer

  /** A parsed ini file: section -> option (lower-cased) -> value. */
  type Ini = map<string, map<string, string>>

  datatype Ctx = Ctx(
    ask: Oracle,
    /** `ConfigParser.read` of a file's text; `None` when it rejects it. */
    parseIni: string -> Option<Ini>,
    /** `datetime.utcfromtimestamp(int(s)).strftime(...)`; `None` when `int` fails. */
    formatDate: string -> Option<string>,
    /** The `ANDROID_SERIAL` environment variable. */
    androidSerial: Option<string>,
    /** `sys.platform == "win32"`. */
    win32: bool)

  /** The exceptions the tools raise. */
  datatype Error =
    | Transport(event: Event)
    | MalformedListing(line: string)
    | NoDevice
    | AmbiguousDevice
    | SerialNotListed(serial: string)
    | MissingKey(key: string)
    | NoRoot
    | NoRemount
    | Timeout
    | MalformedVersion(version: string)
    | BackupNewer(backupMajor: nat, deviceMajor: nat)
    | IniLookup(path: string)
    | IoError(path: string)
    | ProfileDirExists(path: string)
    | NoLocalProfile(path: string)
    | NotPackage(path: string)
    | IndexOutOfRange
    | PullFailed(path: string)
    | PushFailed(path: string)
    | ExtractFailed(archive: string)
    | BadDate(text: string)
    | NotAString(key: string)
    | MissingItem(item: string)
    | InputExhausted
    | DeviceCount(count: nat)
    | UnsupportedDevice(name: string)
    | NoSuchMethod(name: string)
    | DownloadFailed(path: string)
    | CopyFailed(source: string, dest: string)

  /** A workflow's outcome: the events it issued and its value or error. */
  datatype Run<T> = Run(trace: seq<Event>, result: Result<T, Error>)

  /** Asks the oracle about one event issued after history `h`. */
  function Ask(ctx: Ctx, h: seq<Event>, e: Event): Answer {
    ctx.ask(h, e)
  }

  /** `if tmp_dir: shutil.rmtree(tmp_dir)` in the `finally` clauses: an
      empty name (Python's false) removes nothing. */
  function Cleanup(tmp: string): seq<Event> {
    if tmp != "" then [RemoveTree(tmp)] else []
  }

  /** `r` preceded by the events `t` issued before it. */
  function After<T>(t: seq<Event>, r: Run<T>): (r': Run<T>)
    ensures r'.result == r.result && r'.trace == t + r.trace
  {
    Run(t + r.trace, r.result)
  }

  /** The same failure, re-typed for the caller. */
  function Fail<T, U>(r: Run<T>): (r': Run<U>)
    requires r.result.Err?
    ensures r'.trace == r.trace && r'.result == Err(r.result.error)
  {
    Run(r.trace, Err(r.result.error))
  }

  predicate IsDeviceEvent(e: Event) {
    e.Devices? || e.Shell? || e.Pull? || e.Push? || e.Root? || e.Remount? || e.WaitForDevice?
  }

  /** The calls into `adb` among `t`, in order. */
  function DeviceEvents(t: seq<Event>): (r: seq<Event>)
    ensures |r| <= |t|
    ensures forall e :: e in r <==> e in t && IsDeviceEvent(e)
  {
    if |t| == 0 then []
    else (if IsDeviceEvent(t[0]) then [t[0]] else []) + DeviceEvents(t[1..])
  }

  lemma {:induction false} DeviceEventsAppend(a: seq<Event>, b: seq<Event>)
    ensures DeviceEvents(a + b) == DeviceEvents(a) + DeviceEvents(b)
    decreases |a|
  {
    if |a| == 0 {
      assert a + b == b;
    } else {
      var head := if IsDeviceEvent(a[0]) then [a[0]] else [];
      assert (a + b)[0] == a[0] && (a + b)[1..] == a[1..] + b;
      assert DeviceEvents(a + b) == head + DeviceEvents(a[1..] + b);
      DeviceEventsAppend(a[1..], b);
      assert DeviceEvents(a) == head + DeviceEvents(a[1..]);
      EventsAssoc(head, DeviceEvents(a[1..]), DeviceEvents(b));
    }
  }

  lemma EventsAssoc(x: seq<Event>, y: seq<Event>, z: seq<Event>)
    ensures x + (y + z) == (x + y) + z
  {}

  /** The remote commands of the `adb shell` calls among `t`, in order. */
  function ShellCommands(t: seq<Event>): (r: seq<string>)
    ensures |r| <= |t|
    ensures forall c :: c in r <==> exists s :: Shell(s, c) in t
  {
    if |t| == 0 then []
    else
      var rest := ShellCommands(t[1..]);
      assert forall e :: e in t <==> e == t[0] || e in t[1..] by {
        assert t == [t[0]] + t[1..];
      }
      (if t[0].Shell? then [t[0].command] else []) + rest
  }

  lemma {:induction false} ShellCommandsAppend(a: seq<Event>, b: seq<Event>)
    ensures ShellCommands(a + b) == ShellCommands(a) + ShellCommands(b)
    decreases |a|
  {
    if |a| == 0 {
      assert a + b == b;
    } else {
      assert (a + b)[0] == a[0] && (a + b)[1..] == a[1..] + b;
      ShellCommandsAppend(a[1..], b);
    }
  }

  /** Some occurrence of `x` comes before some occurrence of `y` in `t`. */
  predicate Precedes(t: seq<Event>, x: Event, y: Event) {
    exists i, j | 0 <= i < j < |t| :: t[i] == x && t[j] == y
  }

  // ---------------------------------------------------------------------------
  // Ordering of kinds of events

  datatype Kind = PullKind | PushKind | CopyKind | ShellKind | UnzipKind | UntarKind

  predicate IsKind(e: Event, k: Kind) {
    match k
    case PullKind => e.Pull?
    case PushKind => e.Push?
    case CopyKind => e.CopyTree?
    case ShellKind => e.Shell?
    case UnzipKind => e.Unzip?
    case UntarKind => e.Untar?
  }

  /** `t` has no event of kind `k`. */
  predicate NoneOf(t: seq<Event>, k: Kind) {
    forall i | 0 <= i < |t| :: !IsKind(t[i], k)
  }

  /** Every event of kind `k` in `t` comes after some occurrence of `x`. */
  predicate AllAfter(t: seq<Event>, k: Kind, x: Event) {
    forall i | 0 <= i < |t| && IsKind(t[i], k) :: x in t[..i]
  }

  /** Every event of kind `k` in `t` comes before every occurrence of `x`. */
  predicate AllBefore(t: seq<Event>, k: Kind, x: Event) {
    forall i | 0 <= i < |t| && IsKind(t[i], k) :: x !in t[..i]
  }

  lemma NoneOfAppend(a: seq<Event>, b: seq<Event>, k: Kind)
    requires NoneOf(a, k) && NoneOf(b, k)
    ensures NoneOf(a + b, k)
  {
    assert forall i | |a| <= i < |a + b| :: (a + b)[i] == b[i - |a|];
  }

  /** Once `x` has happened, everything of kind `k` that follows is after it. */
  lemma AllAfterAppend(a: seq<Event>, b: seq<Event>, k: Kind, x: Event)
    requires AllAfter(a, k, x)
    requires x in a || AllAfter(b, k, x)
    ensures AllAfter(a + b, k, x)
  {
    var t := a + b;
    forall i | 0 <= i < |t| && IsKind(t[i], k)
      ensures x in t[..i]
    {
      if i < |a| {
        assert t[..i] == a[..i];
      } else {
        assert t[..i] == a + b[..i - |a|];
        assert t[i] == b[i - |a|];
      }
    }
  }

  /** Before `x` has happened, everything of kind `k` so far is before it. */
  lemma AllBeforeAppend(a: seq<Event>, b: seq<Event>, k: Kind, x: Event)
    requires AllBefore(a, k, x) && AllBefore(b, k, x)
    requires x !in a || NoneOf(b, k)
    ensures AllBefore(a + b, k, x)
  {
    var t := a + b;
    forall i | 0 <= i < |t| && IsKind(t[i], k)
      ensures x !in t[..i]
    {
      if i < |a| {
        assert t[..i] == a[..i];
      } else {
        assert t[..i] == a + b[..i - |a|];
        assert t[i] == b[i - |a|];
      }
    }
  }

  lemma NoneOfAllAfter(t: seq<Event>, k: Kind, x: Event)
    requires NoneOf(t, k)
    ensures AllAfter(t, k, x) && AllBefore(t, k, x)
  {
  }

  /** A trace of device listings only has no event of any of the kinds. */
  lemma DevicesOnly(t: seq<Event>, k: Kind)
    requires forall e | e in t :: e == Devices
    ensures NoneOf(t, k)
  {
    forall i | 0 <= i < |t|
      ensures !IsKind(t[i], k)
    {
      assert t[i] in t;
    }
  }

  /** Shell calls only have no event of any other kind. */
  lemma ShellsOnly(t: seq<Event>, k: Kind)
    requires forall e | e in t :: e.Shell?
    requires k != ShellKind
    ensures NoneOf(t, k)
  {
    forall i | 0 <= i < |t|
      ensures !IsKind(t[i], k)
    {
      assert t[i] in t;
    }
  }

  /** `t` ends with `x`. */
  predicate LastIs(t: seq<Event>, x: Event) {
    |t| > 0 && t[|t| - 1] == x
  }

  lemma LastIsAppend(a: seq<Event>, b: seq<Event>, x: Event)
    ensures |b| > 0 ==> (LastIs(a + b, x) <==> LastIs(b, x))
    ensures |b| == 0 ==> (LastIs(a + b, x) <==> LastIs(a, x))
  {
    if |b| == 0 {
      assert a + b == a;
    } else {
      assert (a + b)[|a + b| - 1] == b[|b| - 1];
    }
  }

  // A run bracketed by a first event `x` and a clean-up `post`, such as the
  // temporary folder made before a step and removed after it.

  lemma BracketEnds(x: Event, mid: seq<Event>, post: seq<Event>)
    ensures ([x] + mid + post)[0] == x
    ensures |post| > 0 ==> LastIs([x] + mid + post, post[|post| - 1])
  {
    if |post| > 0 {
      LastIsAppend([x] + mid, post, post[|post| - 1]);
    }
  }

  lemma BracketNone(x: Event, mid: seq<Event>, post: seq<Event>, k: Kind)
    requires !IsKind(x, k) && NoneOf(mid, k) && NoneOf(post, k)
    ensures NoneOf([x] + mid + post, k)
  {
    NoneOfAppend([x], mid, k);
    NoneOfAppend([x] + mid, post, k);
  }

  lemma BracketAfter(x: Event, mid: seq<Event>, post: seq<Event>, k: Kind, y: Event)
    requires !IsKind(x, k) && NoneOf(post, k)
    requires y == x || AllAfter(mid, k, y)
    ensures AllAfter([x] + mid + post, k, y)
  {
    NoneOfAllAfter([x], k, y);
    NoneOfAllAfter(post, k, y);
    AllAfterAppend([x], mid, k, y);
    AllAfterAppend([x] + mid, post, k, y);
  }

  lemma NoneOfAbsent(t: seq<Event>, k: Kind, x: Event)
    requires NoneOf(t, k) && IsKind(x, k)
    ensures x !in t
  {
  }

  lemma AbsentAllBefore(t: seq<Event>, k: Kind, x: Event)
    requires x !in t
    ensures AllBefore(t, k, x)
  {
    forall i | 0 <= i < |t| && IsKind(t[i], k)
      ensures x !in t[..i]
    {
      assert forall j | 0 <= j < i :: t[..i][j] == t[j];
    }
  }
}

=== FILE: version_log.dfy ===
/** The report of `VersionChecker` (b2g_util/check_versions.py): the
    information dictionary of one device, the dictionary of every device
    keyed by its serial, and the text log written from it. */
module VersionLog {
  import opened Wrappers
  import opened Text
  import opened Trace

  /** A value of the information dictionary: a string, the integer `0` that
      `Build ID` and `Gecko Version` keep when `application.ini` names
      neither, or `None`. */
  datatype Value = Str(s: string) | Int(n: int) | Null

  /** The dictionary `get_device_info` returns. */
  datatype DeviceInfo = DeviceInfo(
    serial: Option<string>,
    buildId: Value,
    gaiaRevision: string,
    gaiaDate: string,
    geckoRevision: string,
    geckoVersion: Value,
    deviceName: string,
    release: string,
    incremental: string,
    firmwareDate: string,
    bootloader: string)

  /** One element of `device_info_list`: the information of a device, or
      `{'Serial': serial, 'Skip': True}` for a device that was skipped. */
  datatype Entry = Queried(info: DeviceInfo) | Skipped(serial: string)

  function EntrySerial(e: Entry): Option<string> {
    match e
    case Queried(info) => info.serial
    case Skipped(s) => Some(s)
  }

  function SerialValue(s: Option<string>): Value {
    match s
    case Some(v) => Str(v)
    case None => Null
  }

  /** The items of the information dictionary, in the order its literal
      lists them. */
  function Items(info: DeviceInfo): (r: seq<(string, Value)>)
    ensures |r| == 11
  {
    [("Serial", SerialValue(info.serial)),
     ("Build ID", info.buildId),
     ("Gaia Revision", Str(info.gaiaRevision)),
     ("Gaia Date", Str(info.gaiaDate)),
     ("Gecko Revision", Str(info.geckoRevision)),
     ("Gecko Version", info.geckoVersion),
     ("Device Name", Str(info.deviceName)),
     ("Firmware(Release)", Str(info.release)),
     ("Firmware(Incremental)", Str(info.incremental)),
     ("Firmware Date", Str(info.firmwareDate)),
     ("Bootloader", Str(info.bootloader))]
  }

  // ---------------------------------------------------------------------------
  // `get_output_dict`

  const UnknownPrefix: string := "unknown_serial_"

  /** How many of the first `i` entries have no serial. */
  function UnknownBefore(list: seq<Entry>, i: nat): (n: nat)
    requires i <= |list|
    ensures n <= i
  {
    if i == 0 then 0
    else UnknownBefore(list, i - 1) + (if EntrySerial(list[i - 1]).None? then 1 else 0)
  }

  /** The key of the `i`-th entry: its serial, or `unknown_serial_<k>` for the
      `k`-th entry (counting from 1) without one. */
  function OutputKey(list: seq<Entry>, i: nat): string
    requires i < |list|
  {
    match EntrySerial(list[i])
    case Some(s) => s
    case None => UnknownPrefix + NatToString(UnknownBefore(list, i) + 1)
  }

  /** The dictionary after the first `n` entries were stored, each under its
      key, a later entry replacing an earlier one with the same key. */
  function OutputDictUpTo(list: seq<Entry>, n: nat): map<string, Entry>
    requires n <= |list|
  {
    if n == 0 then map[] else OutputDictUpTo(list, n - 1)[OutputKey(list, n - 1) := list[n - 1]]
  }

  function OutputDict(list: seq<Entry>): map<string, Entry> {
    OutputDictUpTo(list, |list|)
  }

  /** `get_output_dict`: one pass over the list with a counter for the
      entries that have no serial. */
  method GetOutputDict(list: seq<Entry>) returns (r: map<string, Entry>)
    ensures r == OutputDict(list)
  {
    r := map[];
    var unknown := 1;
    for i := 0 to |list|
      invariant unknown == UnknownBefore(list, i) + 1
      invariant r == OutputDictUpTo(list, i)
    {
      var key;
      match EntrySerial(list[i]) {
        case None =>
          key := UnknownPrefix + NatToString(unknown);
          unknown := unknown + 1;
        case Some(s) =>
          key := s;
      }
      r := r[key := list[i]];
    }
  }

  /** The keys of the dictionary are exactly the keys of the entries. */
  lemma {:induction false} OutputDictKeys(list: seq<Entry>, n: nat, k: string)
    requires n <= |list|
    ensures k in OutputDictUpTo(list, n) <==> exists i | 0 <= i < n :: OutputKey(list, i) == k
  {
    if n > 0 {
      OutputDictKeys(list, n - 1, k);
      if OutputKey(list, n - 1) == k {
        assert OutputKey(list, n - 1) == k;
      }
    }
  }

  /** Every value of the dictionary is one of the entries. */
  lemma {:induction false} OutputDictFrom(list: seq<Entry>, n: nat, k: string)
    requires n <= |list| && k in OutputDictUpTo(list, n)
    ensures exists i | 0 <= i < n :: OutputDictUpTo(list, n)[k] == list[i]
  {
    if OutputKey(list, n - 1) != k {
      OutputDictFrom(list, n - 1, k);
    }
  }

  /** Every entry is stored under its key unless a later entry has the same
      key: the last entry with a given key wins. */
  lemma {:induction false} OutputDictLastWins(list: seq<Entry>, n: nat, i: nat)
    requires i < n <= |list|
    requires forall j | i < j < n :: OutputKey(list, j) != OutputKey(list, i)
    ensures OutputKey(list, i) in OutputDictUpTo(list, n)
    ensures OutputDictUpTo(list, n)[OutputKey(list, i)] == list[i]
  {
    if i < n - 1 {
      OutputDictLastWins(list, n - 1, i);
    }
  }

  lemma {:induction false} UnknownBeforeMonotone(list: seq<Entry>, i: nat, j: nat)
    requires i < j <= |list|
    ensures EntrySerial(list[i]).None? ==> UnknownBefore(list, i) + 1 <= UnknownBefore(list, j)
    ensures UnknownBefore(list, i) <= UnknownBefore(list, j)
    decreases j - i
  {
    if i + 1 < j {
      UnknownBeforeMonotone(list, i, j - 1);
    }
  }

  /** Two entries without a serial never share a key, so neither replaces
      the other. */
  lemma UnknownKeysDistinct(list: seq<Entry>, i: nat, j: nat)
    requires i < j < |list|
    requires EntrySerial(list[i]).None? && EntrySerial(list[j]).None?
    ensures OutputKey(list, i) != OutputKey(list, j)
  {
    UnknownBeforeMonotone(list, i, j);
    var a := NatToString(UnknownBefore(list, i) + 1);
    var b := NatToString(UnknownBefore(list, j) + 1);
    if UnknownPrefix + a == UnknownPrefix + b {
      assert a == (UnknownPrefix + a)[|UnknownPrefix|..];
      assert b == (UnknownPrefix + b)[|UnknownPrefix|..];
      NatToStringInjective(UnknownBefore(list, i) + 1, UnknownBefore(list, j) + 1);
    }
  }

  // ---------------------------------------------------------------------------
  // The text log

  /** Characters `re.sub(r'\s+|\(|\)', '', key)` removes from a key. */
  predicate Dropped(c: char) {
    IsSpace(c) || c == '(' || c == ')'
  }

  predicate Clean(k: string) {
    forall i | 0 <= i < |k| :: !Dropped(k[i])
  }

  /** The key as it is written into the text log: whitespace and
      parentheses removed, every other character kept in order. */
  function LogKey(k: string): (r: string)
    ensures Clean(r)
    ensures |r| <= |k|
  {
    if |k| == 0 then "" else (if Dropped(k[0]) then "" else [k[0]]) + LogKey(k[1..])
  }

  lemma {:induction false} LogKeyAppend(a: string, b: string)
    ensures LogKey(a + b) == LogKey(a) + LogKey(b)
    decreases |a|
  {
    if |a| == 0 {
      assert a + b == b;
    } else {
      assert (a + b)[0] == a[0] && (a + b)[1..] == a[1..] + b;
      LogKeyAppend(a[1..], b);
    }
  }

  /** A key with nothing to remove is written as it is. */
  lemma {:induction false} LogKeyClean(k: string)
    requires Clean(k)
    ensures LogKey(k) == k
    decreases |k|
  {
    if |k| > 0 {
      LogKeyClean(k[1..]);
    }
  }

  /** Writing a written key again changes nothing. */
  lemma LogKeyIdempotent(k: string)
    ensures LogKey(LogKey(k)) == LogKey(k)
  {
    LogKeyClean(LogKey(k));
  }

  /** `re.sub(r'\s+', '_', value)`: every maximal run of whitespace becomes
      one `_`. */
  function SquashSpace(v: string): (r: string)
    ensures NoSpace(r)
    ensures |r| <= |v|
    decreases |v|
  {
    if |v| == 0 then ""
    else if IsSpace(v[0]) then "_" + SquashSpace(DropLeadingSpace(v))
    else [v[0]] + SquashSpace(v[1..])
  }

  /** A value without whitespace is written as it is. */
  lemma {:induction false} SquashSpaceClean(v: string)
    requires NoSpace(v)
    ensures SquashSpace(v) == v
    decreases |v|
  {
    if |v| > 0 {
      SquashSpaceClean(v[1..]);
    }
  }

  lemma {:induction false} SquashSpaceCleanPrefix(a: string, b: string)
    requires NoSpace(a)
    ensures SquashSpace(a + b) == a + SquashSpace(b)
    decreases |a|
  {
    if |a| == 0 {
      assert a + b == b;
    } else {
      assert (a + b)[0] == a[0] && (a + b)[1..] == a[1..] + b;
      SquashSpaceCleanPrefix(a[1..], b);
    }
  }

  lemma {:induction false} DropLeadingSpaceRun(w: string, b: string)
    requires AllSpace(w)
    requires |b| == 0 || !IsSpace(b[0])
    ensures DropLeadingSpace(w + b) == b
    decreases |w|
  {
    if |w| == 0 {
      assert w + b == b;
    } else {
      assert (w + b)[1..] == w[1..] + b;
      DropLeadingSpaceRun(w[1..], b);
    }
  }

  /** A run of whitespace after a word is written as a single `_`. */
  lemma SquashSpaceRun(a: string, w: string, b: string)
    requires NoSpace(a) && |w| > 0 && AllSpace(w)
    requires |b| == 0 || !IsSpace(b[0])
    ensures SquashSpace(a + w + b) == a + "_" + SquashSpace(b)
  {
    assert a + w + b == a + (w + b);
    SquashSpaceCleanPrefix(a, w + b);
    SquashSpaceLeading(w, b);
  }

  lemma SquashSpaceLeading(w: string, b: string)
    requires |w| > 0 && AllSpace(w)
    requires |b| == 0 || !IsSpace(b[0])
    ensures SquashSpace(w + b) == "_" + SquashSpace(b)
  {
    assert (w + b)[0] == w[0];
    DropLeadingSpaceRun(w, b);
  }

  /** `str(n)`. */
  function IntString(n: int): (r: string)
    ensures NoSpace(r)
  {
    if n < 0 then "-" + NatToString(-n) else NatToString(n)
  }

  /** `re.sub(r'\s+', '_', str(value))`: a value as it is written into the
      text log. */
  function LogValue(v: Value): (r: string)
    ensures NoSpace(r)
    ensures v.Int? && v.n >= 0 ==> AllDigits(r) && ParseNat(r) == v.n
  {
    match v
    case Str(s) => SquashSpace(s)
    case Int(n) => ParseNatToString(if n >= 0 then n else 0); IntString(n)
    case Null => "None"
  }

  /** `'%s=%s\n' % (key, value)` after both were rewritten. */
  function ItemLine(k: string, v: Value): (l: string)
    ensures IsLine(l) && l[|l| - 1] == '\n'
  {
    var l := LogKey(k) + "=" + LogValue(v) + "\n";
    assert l[..|l| - 1] == LogKey(k) + "=" + LogValue(v);
    assert forall i | 0 <= i < |l| - 1 :: l[i] != '\n';
    l
  }

  /** A line of the text log splits at its first `=` into the written key
      and the written value: the key and value can be read back. */
  lemma ItemLineRead(k: string, v: Value)
    requires '=' !in k
    ensures var l := ItemLine(k, v);
            var eq := FirstIndex(l, '=');
            && eq == |LogKey(k)|
            && l[..eq] == LogKey(k)
            && l[eq + 1..|l| - 1] == LogValue(v)
  {
    LogKeyNoEquals(k);
    assert ItemLine(k, v) == LogKey(k) + "=" + LogValue(v) + "\n";
    SplitAtEquals(LogKey(k), LogValue(v));
  }

  /** A line `key=val\n` whose key holds no `=` splits back into both. */
  lemma SplitAtEquals(key: string, val: string)
    requires '=' !in key
    ensures var l := key + "=" + val + "\n";
            && FirstIndex(l, '=') == |key|
            && l[..|key|] == key
            && l[|key| + 1..|l| - 1] == val
  {
    var l := key + "=" + val + "\n";
    forall i | 0 <= i < |key| ensures l[i] != '=' {
      assert l[i] == key[i] && key[i] in key;
    }
    FirstIndexAt(l, '=', |key|);
    assert l[..|key|] == key;
    assert l[|key| + 1..|l| - 1] == val;
  }

  /** The first index of `c` is the one position holding `c` with none before. */
  lemma FirstIndexAt(s: string, c: char, k: nat)
    requires k < |s| && s[k] == c
    requires forall i | 0 <= i < k :: s[i] != c
    ensures FirstIndex(s, c) == k
  {
  }

  lemma {:induction false} LogKeyNoEquals(k: string)
    requires '=' !in k
    ensures '=' !in LogKey(k)
    decreases |k|
  {
    if |k| > 0 {
      assert k[1..] == k[1..] && '=' !in k[1..] by {
        forall c | c in k[1..] ensures c in k {}
      }
      LogKeyNoEquals(k[1..]);
    }
  }

  function ItemLines(items: seq<(string, Value)>): (r: seq<string>)
    ensures |r| == |items|
    ensures WellFormedLines(r)
  {
    seq(|items|, i requires 0 <= i < |items| => ItemLine(items[i].0, items[i].1))
  }

  /** The header of an entry, `# <key>`. */
  function HeaderLine(key: string): string {
    "# " + key + "\n"
  }

  const SkipLine: string := "Skip=True\n"

  /** The lines written for one entry of the output dictionary. */
  function EntryLines(key: string, e: Entry): (r: seq<string>)
    ensures |r| > 0 && r[0] == HeaderLine(key)
  {
    match e
    case Skipped(_) => [HeaderLine(key), SkipLine]
    case Queried(info) => [HeaderLine(key)] + ItemLines(Items(info)) + ["\n"]
  }

  function EntryText(key: string, e: Entry): string {
    Concat(EntryLines(key, e))
  }

  /** Read back line by line, an entry's text gives its header, then either
      `Skip=True` alone or one `key=value` line per item followed by an
      empty line. */
  lemma EntryTextLines(key: string, e: Entry)
    requires '\n' !in key
    ensures Lines(EntryText(key, e)) == EntryLines(key, e)
    ensures e.Skipped? ==> Lines(EntryText(key, e)) == [HeaderLine(key), SkipLine]
    ensures e.Queried? ==> |Lines(EntryText(key, e))| == 13
  {
    HeaderIsLine(key);
    var hd := HeaderLine(key);
    match e {
      case Skipped(_) =>
        assert IsLine(SkipLine);
      case Queried(info) =>
        ItemBlockWellFormed(ItemLines(Items(info)));
        WellFormedCons(hd, ItemLines(Items(info)) + ["\n"]);
        assert EntryLines(key, e) == [hd] + (ItemLines(Items(info)) + ["\n"]);
    }
    ConcatLines(EntryLines(key, e));
  }

  lemma HeaderIsLine(key: string)
    requires '\n' !in key
    ensures var hd := HeaderLine(key); IsLine(hd) && hd[|hd| - 1] == '\n'
  {
    var hd := HeaderLine(key);
    assert hd[..|hd| - 1] == "# " + key;
  }

  lemma ItemBlockWellFormed(items: seq<string>)
    requires WellFormedLines(items)
    requires forall i | 0 <= i < |items| :: items[i][|items[i]| - 1] == '\n'
    ensures WellFormedLines(items + ["\n"])
  {
    forall i | 0 <= i < |items + ["\n"]|
      ensures IsLine((items + ["\n"])[i])
    {
      if i < |items| {
        assert (items + ["\n"])[i] == items[i];
      }
    }
  }

  /** The text log, as intended: every entry of the dictionary in its
      iteration order `order`. */
  function TextLog(result: map<string, Entry>, order: seq<string>): string
    requires forall i | 0 <= i < |order| :: order[i] in result
  {
    if |order| == 0 then ""
    else EntryText(order[0], result[order[0]]) + TextLog(result, order[1..])
  }

  // The log as written: `re.sub` raises `TypeError` on a value that is not a
  // string. The file was already opened for writing, so it keeps the lines
  // written before the raise, and nothing after it is written.

  /** What a writer that may raise leaves behind: the text written before it
      stopped, and the exception it stopped with, if any. */
  datatype Written = Written(text: string, error: Option<Error>)

  function ItemsTextAsWritten(items: seq<(string, Value)>): (w: Written)
    ensures w.error.Some? ==> w.error.value.NotAString?
  {
    if |items| == 0 then Written("", None)
    else if !items[0].1.Str? then Written("", Some(NotAString(items[0].0)))
    else
      var rest := ItemsTextAsWritten(items[1..]);
      Written(ItemLine(items[0].0, items[0].1) + rest.text, rest.error)
  }

  function EntryTextAsWritten(key: string, e: Entry): (w: Written)
    ensures w.error.Some? ==> w.error.value.NotAString?
  {
    match e
    case Skipped(_) => Written(HeaderLine(key) + SkipLine, None)
    case Queried(info) =>
      var w := ItemsTextAsWritten(Items(info));
      if w.error.None? then Written(HeaderLine(key) + w.text + "\n", None)
      else Written(HeaderLine(key) + w.text, w.error)
  }

  /** The text log as written: the entries in order `order`, up to the first
      item that raises. */
  function TextLogAsWritten(result: map<string, Entry>, order: seq<string>): (w: Written)
    requires forall i | 0 <= i < |order| :: order[i] in result
    ensures w.error.Some? ==> w.error.value.NotAString?
  {
    if |order| == 0 then Written("", None)
    else
      var w := EntryTextAsWritten(order[0], result[order[0]]);
      if w.error.Some? then w
      else
        var rest := TextLogAsWritten(result, order[1..]);
        Written(w.text + rest.text, rest.error)
  }

  predicate AllStrings(items: seq<(string, Value)>) {
    forall i | 0 <= i < |items| :: items[i].1.Str?
  }

  /** An entry the log writes without raising: a skipped device, or one whose
      every value is a string. */
  predicate Writable(e: Entry) {
    e.Queried? ==> AllStrings(Items(e.info))
  }

  /** Written as the source does, the items raise exactly when some value is
      not a string; what was written by then is the start of the intended
      text, and all of it when nothing raised. */
  lemma {:induction false} ItemsAsWritten(items: seq<(string, Value)>)
    ensures ItemsTextAsWritten(items).error.None? <==> AllStrings(items)
    ensures ItemsTextAsWritten(items).error.None? ==> ItemsTextAsWritten(items).text == Concat(ItemLines(items))
    ensures ItemsTextAsWritten(items).text <= Concat(ItemLines(items))
    decreases |items|
  {
    if |items| > 0 {
      var tl := items[1..];
      ItemsAsWritten(tl);
      AllStringsCons(items);
      var line, rest := ItemLine(items[0].0, items[0].1), ItemsTextAsWritten(tl);
      if items[0].1.Str? {
        assert ItemsTextAsWritten(items) == Written(line + rest.text, rest.error);
        ItemLinesCons(items);
        PrefixAppend(line, rest.text, Concat(ItemLines(tl)));
      } else {
        assert ItemsTextAsWritten(items).text == "";
      }
    }
  }

  lemma AllStringsCons(items: seq<(string, Value)>)
    requires |items| > 0
    ensures AllStrings(items) <==> items[0].1.Str? && AllStrings(items[1..])
  {
    assert forall i | 1 <= i < |items| :: items[i] == items[1..][i - 1];
  }

  lemma ItemLinesCons(items: seq<(string, Value)>)
    requires |items| > 0
    ensures Concat(ItemLines(items)) == ItemLine(items[0].0, items[0].1) + Concat(ItemLines(items[1..]))
  {
    ItemLinesTail(items);
    var lines := ItemLines(items);
    assert lines == [lines[0]] + lines[1..];
    ConcatAppend([lines[0]], lines[1..]);
    ConcatSingle(lines[0]);
  }

  lemma PrefixAppend(x: string, a: string, b: string)
    requires a <= b
    ensures x + a <= x + b
  {
    assert forall i | 0 <= i < |x + a| :: (x + a)[i] == (x + b)[i];
  }

  lemma ItemLinesTail(items: seq<(string, Value)>)
    requires |items| > 0
    ensures ItemLines(items)[0] == ItemLine(items[0].0, items[0].1)
    ensures ItemLines(items)[1..] == ItemLines(items[1..])
  {
    var lines, tl := ItemLines(items), ItemLines(items[1..]);
    assert |lines[1..]| == |tl|;
    forall i | 0 <= i < |tl| ensures lines[1..][i] == tl[i] {
      assert lines[1..][i] == lines[i + 1];
    }
  }

  /** An entry raises exactly when it is not writable; the text written for
      it is the start of its intended text, and all of it when it does not
      raise. */
  lemma EntryAsWritten(key: string, e: Entry)
    ensures EntryTextAsWritten(key, e).error.None? <==> Writable(e)
    ensures EntryTextAsWritten(key, e).error.None? ==> EntryTextAsWritten(key, e).text == EntryText(key, e)
    ensures EntryTextAsWritten(key, e).text <= EntryText(key, e)
  {
    var hd := HeaderLine(key);
    match e {
      case Skipped(_) =>
        ConcatSingle(hd);
        ConcatSingle(SkipLine);
        ConcatAppend([hd], [SkipLine]);
      case Queried(info) =>
        QueriedText(key, info);
        BlockAsWritten(hd, Items(info));
    }
  }

  /** The item block of an entry after its header `hd`, as written. */
  lemma BlockAsWritten(hd: string, items: seq<(string, Value)>)
    ensures ItemsTextAsWritten(items).error.None? <==> AllStrings(items)
    ensures ItemsTextAsWritten(items).error.None? ==>
              hd + ItemsTextAsWritten(items).text + "\n" == hd + Concat(ItemLines(items)) + "\n"
    ensures hd + ItemsTextAsWritten(items).text <= hd + Concat(ItemLines(items)) + "\n"
  {
    var w := ItemsTextAsWritten(items);
    var body := Concat(ItemLines(items));
    ItemsAsWritten(items);
    PrefixTrans(w.text, body, "\n");
    PrefixAppend(hd, w.text, body + "\n");
    assert hd + (body + "\n") == hd + body + "\n";
  }

  lemma QueriedText(key: string, info: DeviceInfo)
    ensures EntryText(key, Queried(info)) == HeaderLine(key) + Concat(ItemLines(Items(info))) + "\n"
  {
    var hd := HeaderLine(key);
    var items := ItemLines(Items(info));
    ConcatSingle(hd);
    ConcatSingle("\n");
    ConcatAppend([hd], items);
    ConcatAppend([hd] + items, ["\n"]);
  }

  lemma ConcatSingle(x: string)
    ensures Concat([x]) == x
  {
    assert [x][1..] == [];
  }

  /** The whole log as written raises exactly when some entry it lists is
      not writable; what it wrote by then is the start of the intended log,
      and all of it when nothing raised. */
  lemma {:induction false} TextLogAsWrittenPrefix(result: map<string, Entry>, order: seq<string>)
    requires forall i | 0 <= i < |order| :: order[i] in result
    ensures TextLogAsWritten(result, order).error.None? <==>
              forall i | 0 <= i < |order| :: Writable(result[order[i]])
    ensures TextLogAsWritten(result, order).error.None? ==>
              TextLogAsWritten(result, order).text == TextLog(result, order)
    ensures TextLogAsWritten(result, order).text <= TextLog(result, order)
    decreases |order|
  {
    if |order| > 0 {
      var tl := order[1..];
      var e := result[order[0]];
      var w := EntryTextAsWritten(order[0], e);
      EntryAsWritten(order[0], e);
      TextLogAsWrittenPrefix(result, tl);
      WritableCons(result, order);
      if w.error.Some? {
        PrefixTrans(w.text, EntryText(order[0], e), TextLog(result, tl));
      } else {
        PrefixAppend(w.text, TextLogAsWritten(result, tl).text, TextLog(result, tl));
      }
    }
  }

  lemma WritableCons(result: map<string, Entry>, order: seq<string>)
    requires |order| > 0 && forall i | 0 <= i < |order| :: order[i] in result
    ensures (forall i | 0 <= i < |order| :: Writable(result[order[i]])) <==>
              Writable(result[order[0]]) && forall i | 0 <= i < |order| - 1 :: Writable(result[order[1..][i]])
  {
    assert forall i | 1 <= i < |order| :: order[i] == order[1..][i - 1];
  }

  lemma PrefixTrans(a: string, b: string, d: string)
    requires a <= b
    ensures a <= b + d
  {
    var c := b + d;
    assert forall i | 0 <= i < |a| :: c[i] == b[i];
  }

  /** A device whose `application.ini` has no `BuildID` line keeps the
      integer `0` as its build id. Writing its entry then raises at
      `Build ID`, after the header and the `Serial` line, where the intended
      log writes `BuildID=0`. */
  lemma DefaultBuildIdAborts(key: string, info: DeviceInfo)
    requires info.serial.Some? && info.buildId == Int(0)
    ensures EntryTextAsWritten(key, Queried(info)) ==
              Written(HeaderLine(key) + ItemLine("Serial", Str(info.serial.value)), Some(NotAString("Build ID")))
    ensures ItemLine("Build ID", info.buildId) == "BuildID=0\n"
  {
    var items := Items(info);
    assert items[0] == ("Serial", Str(info.serial.value));
    assert items[1..][0] == ("Build ID", Int(0));
    assert ItemsTextAsWritten(items[1..]) == Written("", Some(NotAString("Build ID")));
    assert ItemLine("Serial", Str(info.serial.value)) + "" == ItemLine("Serial", Str(info.serial.value));
    DefaultBuildIdLine();
  }

  lemma DefaultBuildIdLine()
    ensures ItemLine("Build ID", Int(0)) == "BuildID=0\n"
  {
    BuildIdKey();
    assert LogValue(Int(0)) == "0" by {
      assert DigitChar(0) == '0';
      assert NatToString(0) == "0";
      assert IntString(0) == "0";
    }
    assert ItemLine("Build ID", Int(0)) == "BuildID" + "=" + "0" + "\n";
    LiteralJoin();
  }

  lemma LiteralJoin()
    ensures "BuildID" + "=" + "0" + "\n" == "BuildID=0\n"
  {
    var x := "BuildID" + "=" + "0" + "\n";
    assert |x| == 10;
    assert x[0] == 'B' && x[1] == 'u' && x[2] == 'i' && x[3] == 'l' && x[4] == 'd';
    assert x[5] == 'I' && x[6] == 'D' && x[7] == '=' && x[8] == '0' && x[9] == '\n';
  }

  lemma BuildIdKey()
    ensures LogKey("Build ID") == "BuildID"
  {
    LogKeyJoin("Build", ' ', "ID");
    assert "Build" + [' '] + "ID" == "Build ID";
  }

  /** `word + sep + rest` is written `word + rest` when `sep` is one
      dropped character. */
  lemma LogKeyJoin(a: string, sep: char, b: string)
    requires Clean(a) && Clean(b) && Dropped(sep)
    ensures LogKey(a + [sep] + b) == a + b
  {
    LogKeyAppend(a + [sep], b);
    LogKeyAppend(a, [sep]);
    LogKeyClean(a);
    LogKeyClean(b);
    LogKeyDropped(sep);
    assert a + "" == a;
  }

  lemma LogKeyDropped(c: char)
    requires Dropped(c)
    ensures LogKey([c]) == ""
  {
    assert [c][1..] == "";
  }

  /** `Firmware(Release)` is written `FirmwareRelease`. */
  lemma LogKeyParens(a: string, b: string)
    requires Clean(a) && Clean(b)
    ensures LogKey(a + "(" + b + ")") == a + b
  {
    assert a + "(" + b == a + ['('] + b;
    LogKeyJoin(a, '(', b);
    LogKeyAppend(a + "(" + b, ")");
    LogKeyDropped(')');
    assert a + b + "" == a + b;
  }

  // ---------------------------------------------------------------------------
  // `_output_log`

  /** `s` without repeats, each element kept where it first occurs. */
  function Distinct(s: seq<string>): (r: seq<string>)
    ensures forall x :: x in r <==> x in s
    ensures forall i, j | 0 <= i < j < |r| :: r[i] != r[j]
  {
    if |s| == 0 then []
    else
      var init := s[..|s| - 1];
      var r := Distinct(init);
      assert s == init + [s[|s| - 1]];
      if s[|s| - 1] in r then r else r + [s[|s| - 1]]
  }

  function OutputKeys(list: seq<Entry>): (r: seq<string>)
    ensures |r| == |list|
    ensures forall i | 0 <= i < |list| :: r[i] == OutputKey(list, i)
  {
    seq(|list|, i requires 0 <= i < |list| => OutputKey(list, i))
  }

  /** The order in which the dictionary yields its keys: the order in which
      they were first stored. */
  function LogOrder(list: seq<Entry>): seq<string> {
    Distinct(OutputKeys(list))
  }

  /** The log lists every key of the dictionary once and nothing else. */
  lemma LogOrderKeys(list: seq<Entry>)
    ensures forall k :: k in LogOrder(list) <==> k in OutputDict(list)
    ensures forall i, j | 0 <= i < j < |LogOrder(list)| :: LogOrder(list)[i] != LogOrder(list)[j]
  {
    forall k
      ensures k in LogOrder(list) <==> k in OutputDict(list)
    {
      OutputDictKeys(list, |list|, k);
      if k in OutputKeys(list) {
        var i :| 0 <= i < |list| && OutputKeys(list)[i] == k;
        assert OutputKey(list, i) == k;
      }
    }
  }

  /** `_output_log` as written: nothing when neither log was asked for;
      otherwise the text log and then the JSON log, each only when its path
      was given. A text log that raises keeps what was written before the
      raise, and the JSON log is then not written. */
  method OutputLog(logText: Option<string>, logJson: Option<string>, list: seq<Entry>) returns (r: Run<()>)
    ensures logText.None? && logJson.None? ==> r == Run([], Ok(()))
    ensures r.result.Err? <==> logText.Some? && LogTextAsWritten(list).error.Some?
    ensures r.result.Err? ==>
              && logText.Some? && LogTextAsWritten(list).error == Some(r.result.error)
              && r.trace == [WriteFile(logText.value, LogTextAsWritten(list).text)]
    ensures r.result.Ok? ==>
              && |r.trace| == (if logText.Some? then 1 else 0) + (if logJson.Some? then 1 else 0)
              && (logText.Some? ==> r.trace[0] == WriteFile(logText.value, LogText(list)))
              && (logJson.Some? ==> r.trace[|r.trace| - 1] == WriteJson(logJson.value))
    ensures forall i | 0 <= i < |r.trace| :: r.trace[i].WriteFile? || r.trace[i].WriteJson?
  {
    if logText.None? && logJson.None? {
      return Run([], Ok(()));
    }
    var t := [];
    if logText.Some? {
      var w := WriteTextLog(logText.value, list);
      t := [w.0];
      if w.1.Some? {
        return Run(t, Err(w.1.value));
      }
    }
    if logJson.Some? {
      t := t + [WriteJson(logJson.value)];
    }
    r := Run(t, Ok(()));
  }

  /** The text log's write as written: the text up to the first value
      `str.join` refuses, and that refusal. */
  method WriteTextLog(path: string, list: seq<Entry>) returns (w: (Event, Option<Error>))
    ensures w.0 == WriteFile(path, LogTextAsWritten(list).text)
    ensures w.1 == LogTextAsWritten(list).error
    ensures w.1.None? ==> w.0 == WriteFile(path, LogText(list))
  {
    var result := GetOutputDict(list);
    LogOrderKeys(list);
    var tw := TextLogAsWritten(result, LogOrder(list));
    TextLogAsWrittenPrefix(result, LogOrder(list));
    w := (WriteFile(path, tw.text), tw.error);
  }

  /** `_output_log` as intended: every value written with `str`, so the text
      log never raises. */
  method OutputLogIntended(logText: Option<string>, logJson: Option<string>, list: seq<Entry>) returns (t: seq<Event>)
    ensures logText.None? && logJson.None? ==> t == []
    ensures |t| == (if logText.Some? then 1 else 0) + (if logJson.Some? then 1 else 0)
    ensures logText.Some? ==> t[0] == WriteFile(logText.value, LogText(list))
    ensures logJson.Some? ==> t[|t| - 1] == WriteJson(logJson.value)
    ensures forall i | 0 <= i < |t| :: t[i].WriteFile? || t[i].WriteJson?
  {
    if logText.None? && logJson.None? {
      return [];
    }
    var result := GetOutputDict(list);
    t := [];
    if logText.Some? {
      LogOrderKeys(list);
      t := t + [WriteFile(logText.value, TextLog(result, LogOrder(list)))];
    }
    if logJson.Some? {
      t := t + [WriteJson(logJson.value)];
    }
  }

  /** The text log of a list of entries. */
  function LogText(list: seq<Entry>): string {
    LogOrderKeys(list);
    TextLog(OutputDict(list), LogOrder(list))
  }

  /** The text log of a list of entries, as written. */
  function LogTextAsWritten(list: seq<Entry>): (w: Written)
    ensures w.error.Some? ==> w.error.value.NotAString?
  {
    LogOrderKeys(list);
    TextLogAsWritten(OutputDict(list), LogOrder(list))
  }

  /** The two logs agree on every list whose entries are all writable; on
      any other list the written log is cut short of the intended one. */
  lemma LogTextAgrees(list: seq<Entry>)
    ensures (forall i | 0 <= i < |list| :: Writable(list[i])) ==> LogTextAsWritten(list) == Written(LogText(list), None)
    ensures LogTextAsWritten(list).text <= LogText(list)
  {
    LogOrderKeys(list);
    var result, order := OutputDict(list), LogOrder(list);
    TextLogAsWrittenPrefix(result, order);
    if forall i | 0 <= i < |list| :: Writable(list[i]) {
      forall i | 0 <= i < |order| ensures Writable(result[order[i]]) {
        OutputDictFrom(list, |list|, order[i]);
      }
    }
  }
}

=== FILE: wrappers.dfy ===
/** Option and Result values used throughout the model in place of Python's
    `None` and raised exceptions. */
module Wrappers {

  datatype Option<+T> = None | Some(value: T) {

    /** The value, or `default` when there is none. */
    function GetOr(default: T): T {
      match this
      case Some(v) => v
      case None => default
    }
  }

  /** `Ok` is a normal return, `Err` a raised exception. */
  datatype Result<+T, +E> = Ok(value: T) | Err(error: E)
}
